=== FILE: README.md ===
# ShardLauncher core, modelled in Dafny

ShardLauncher is an Android launcher for Minecraft: Java Edition. It picks a
Java runtime, assembles the JVM and game command lines, sets the environment
the chosen renderer needs, and hands the game's GLFW calls to a native bridge
that drives GL4ES, Zink on Vulkan, VirGL or plain Vulkan. This project models
the logic of that core as pure functions over immutable data and proves what
the code promises about it.

The repository carries two parallel source trees, `ShardLauncher/` and the
older `app/`, with diverging copies of the same classes. Each copy is its own
module here (`SLLauncher` and `AppLauncher`, `SLGameLauncher` and
`AppGameLauncher`, `SLRuntimes` and `AppRuntimes`, `AccountUtils` and
`AccountExtensions`), and a few lemmas compare the copies.

The modules, by area:

- Native renderer bridge: `EglBridge` (`egl_bridge.c`: renderer selection,
  environment directives, the dispatch of swap, make-current, swap-interval,
  context creation and termination, the bridge window, the Vulkan pointer
  memo), `FrameCounter` (`calculateFPS`) and `Numerals` (decimal and
  hexadecimal numerals, including the pointer round trip through `%x` and
  `strtoul`).
- JVM and game arguments: `SLLauncher`, `SLGameLauncher`, `AppLauncher`,
  `AppGameLauncher`, `LaunchArgs` and `MinecraftLauncher`, with `StringUtils`
  for placeholder substitution and version comparison.
- Runtimes and options: `SLRuntimes`, `AppRuntimes`, `MathUtils`
  (`findNearestPositive`) and `MCOptions` (`options.txt`).
- Input: `Keycodes` (the Android to GLFW key table), `SenderStrategy`,
  `LwjglCharSender`, `ZLBridge` and `CursorRegistry`.
- Registries and helpers: `VersionTypes`, `AccountUtils`, `AccountExtensions`,
  `Renderers`, `DriverPlugins`, `SettingUnit`, `SystemProperties`,
  `ResourceManager`, `Architecture` and `NetworkUtils`.
- Screens, non-visual logic only: `VersionDetail` (the install name and
  loader choice), `VersionDialogs` (rename, copy and delete), `HomePolling`
  (the version-polling backoff) and `FileSelector`.
- Shared helpers: `Wrappers` (`Option` for a nullable reference, `Result`
  for a value or the exception that replaces it) and `Text` (the Kotlin string
  operations the code uses).

The file system, settings, clocks, HTTP, the package manager and every native
call are parameters. An operation that reads one of them takes its answer as
an argument. Native calls are recorded as a call trace, and their outcomes are
inputs.

## Model

| member | source | states |
|---|---|---|
| `EglBridge.Initial` | SL-GameCore/src/main/jni/egl_bridge.c:52-73 | The process starts with no backend configured, no bridge table and every EGL handle null, and that state satisfies the table invariant. |
| `EglBridge.LoadVulkan` | SL-GameCore/src/main/jni/egl_bridge.c:105-130 | `load_vulkan` sets only `VULKAN_PTR`, to the hex text of the handle it loads; Turnip is tried exactly when the build has Adreno support (`ADRENO_POSSIBLE`), the system driver is not preferred and the API level is at least 28, and `libvulkan.so` is opened exactly when Turnip was not tried or returned null. |
| `EglBridge.ReadMemo` | SL-GameCore/src/main/jni/egl_bridge.c:105-109 | Reading the memo back with `strtoul(…, 16)` gives the handle that was formatted into it. |
| `EglBridge.MaybeLoadVulkan` | SL-GameCore/src/main/jni/egl_bridge.c:364-370 | `maybe_load_vulkan` calls `load_vulkan` only when `VULKAN_PTR` is absent, keeps the backend and table, and returns the memo read as base 16. |
| `EglBridge.MaybeLoadVulkanIsMemoised` | SL-GameCore/src/main/jni/egl_bridge.c:364-370 | A second request makes no call, changes nothing and returns the same handle as the first. |
| `EglBridge.TokenOf` | SL-GameCore/src/main/jni/egl_bridge.c:142-250 | The renderer string is classified as the `strcmp` tests classify it: a named token only for exactly its text, and a gles token exactly when the string starts with "opengles". |
| `EglBridge.SelectShape` | SL-GameCore/src/main/jni/egl_bridge.c:142-250 | Selection sets the backend each token names (any "opengles" prefix gives GL4ES; custom_gallium, vulkan_zink, freedreno and panfrost give Zink; gallium_virgl gives VirGL; an unrecognised token keeps the old one), and loads Vulkan only for custom_gallium and vulkan_zink. |
| `EglBridge.SelectEnv` | SL-GameCore/src/main/jni/egl_bridge.c:142-250 | After selection every environment variable has exactly the value the token table prescribes and every other variable is unchanged. |
| `EglBridge.SelectEnvAt` | SL-GameCore/src/main/jni/egl_bridge.c:142-250 | The environment prescribed by the token table, variable by variable. |
| `EglBridge.SelectEnvAtCustomGallium` | SL-GameCore/src/main/jni/egl_bridge.c:153-158 | custom_gallium only reloads Vulkan and overwrites `VULKAN_PTR`. |
| `EglBridge.SelectEnvAtVulkanZink` | SL-GameCore/src/main/jni/egl_bridge.c:160-166 | vulkan_zink reloads Vulkan and sets `GALLIUM_DRIVER=zink`. |
| `EglBridge.SelectVulkanZinkEnv` | SL-GameCore/src/main/jni/egl_bridge.c:160-166 | The vulkan_zink environment is the reloaded one with `GALLIUM_DRIVER` set to zink. |
| `EglBridge.VulkanZinkValue` | SL-GameCore/src/main/jni/egl_bridge.c:160-166 | The vulkan_zink environment read variable by variable. |
| `EglBridge.LoadVulkanMemo` | SL-GameCore/src/main/jni/egl_bridge.c:105-130 | Loading Vulkan changes the environment only at `VULKAN_PTR`. |
| `EglBridge.SelectEnvAtGalliumFreedreno` | SL-GameCore/src/main/jni/egl_bridge.c:168-174 | gallium_freedreno sets `MESA_LOADER_DRIVER_OVERRIDE=kgsl` and `GALLIUM_DRIVER=freedreno` and nothing else. |
| `EglBridge.SelectEnvAtGalliumPanfrost` | SL-GameCore/src/main/jni/egl_bridge.c:176-182 | gallium_panfrost sets `GALLIUM_DRIVER=panfrost` and `MESA_DISK_CACHE_SINGLE_FILE=1` and nothing else. |
| `EglBridge.SelectEnvAtGalliumVirgl` | SL-GameCore/src/main/jni/egl_bridge.c:184-196 | gallium_virgl sets the VirGL variables and `OSMESA_NO_FLUSH_FRONTBUFFER` only when it is absent. |
| `EglBridge.SelectEnvAtGles3Gl4es` | SL-GameCore/src/main/jni/egl_bridge.c:198-210 | opengles3_ng_gl4es sets the six base `LIBGL_*` keys plus `LIBGL_ALWAYS_16_BITS` and `LIBGL_ALLOW_UNOFFICIAL_ES3`. |
| `EglBridge.SelectEnvAtGles2Gl4es` | SL-GameCore/src/main/jni/egl_bridge.c:212-222 | opengles2_ng_gl4es sets the six base `LIBGL_*` keys with ES 2. |
| `EglBridge.SelectEnvAtGles1Gl4es` | SL-GameCore/src/main/jni/egl_bridge.c:224-234 | opengles1_ng_gl4es sets the six base `LIBGL_*` keys with ES 1. |
| `EglBridge.SelectEnvAtOsmesaGl4es` | SL-GameCore/src/main/jni/egl_bridge.c:236-250 | osmesa_ng_gl4es sets the base keys, the two ES3 extras and the Mesa 3.2/150 overrides. |
| `EglBridge.SelectEnvAtOtherGles` | SL-GameCore/src/main/jni/egl_bridge.c:142-151 | Any other "opengles" token changes no environment variable. |
| `EglBridge.SelectEnvAtUnrecognised` | SL-GameCore/src/main/jni/egl_bridge.c:142-250 | An unrecognised token changes no environment variable. |
| `EglBridge.InitOpenGL` | SL-GameCore/src/main/jni/egl_bridge.c:132-259 | `pojavInitOpenGL` returns -1 and changes nothing when `POJAV_RENDERER` is unset; VirGL returns 0 before the bridge init; GL4ES and Zink run `br_init`, and `br_setup_window` only if it succeeds; the table invariant is kept. |
| `EglBridge.SetWindowHint` | SL-GameCore/src/main/jni/egl_bridge.c:261-277 | Only `GLFW_CLIENT_API` matters: `GLFW_NO_API` switches the bridge to the Vulkan configuration, `GLFW_OPENGL_API` and every other hint leave the bridge as it was, and any other client-API value aborts. |
| `EglBridge.SwapBuffers` | SL-GameCore/src/main/jni/egl_bridge.c:279-293 | The frame counter runs first; `br_swap_buffers` is called exactly for GL4ES and Zink, the VirGL swap exactly for VirGL, and nothing else changes. |
| `EglBridge.MakeCurrent` | SL-GameCore/src/main/jni/egl_bridge.c:295-307 | At most one adapter call: `br_make_current` exactly for GL4ES and Zink, the VirGL one exactly for VirGL; the state is unchanged. |
| `EglBridge.SwapInterval` | SL-GameCore/src/main/jni/egl_bridge.c:392-404 | At most one adapter call: `br_swap_interval` exactly for GL4ES and Zink, the VirGL one exactly for VirGL; the state is unchanged. |
| `EglBridge.CreateContext` | SL-GameCore/src/main/jni/egl_bridge.c:309-333 | Returns 1 exactly when the active adapter reports success (`br_init` for GL4ES and Zink, a non-null VirGL context for VirGL) and 0 otherwise, including for no backend and Vulkan. |
| `EglBridge.GetCurrentContext` | SL-GameCore/src/main/jni/egl_bridge.c:98-103 | VirGL asks VirGL; every other backend asks `br_get_current`, which faults while no table is installed. |
| `EglBridge.Terminate` | SL-GameCore/src/main/jni/egl_bridge.c:52-73 | For GL4ES: unbind, destroy surface, destroy context, terminate display, release thread, in that order, then all three handles become null; any other backend changes nothing. |
| `EglBridge.SetupBridgeWindow` | SL-GameCore/src/main/jni/egl_bridge.c:75-91 | Stores the surface's window, and calls `br_setup_window` exactly when a table is installed. |
| `EglBridge.ReleaseBridgeWindow` | SL-GameCore/src/main/jni/egl_bridge.c:94-96 | Releases the window but keeps the pointer. |
| `EglBridge.ReleaseTwiceReleasesSameWindow` | SL-GameCore/src/main/jni/egl_bridge.c:94-96 | Because the pointer is kept, a second release releases the same window again. |
| `EglBridge.Init` | SL-GameCore/src/main/jni/egl_bridge.c:378-385 | `pojavInit` acquires and sizes the window first, runs `pojavInitOpenGL`, and returns 1 whatever that returned. |
| `EglBridge.RefreshBridgeWindow` | SL-GameCore/src/main/jni/egl_bridge.c:408-437 | With a table present it calls `br_setup_window` and re-runs `br_init` for GL4ES and Zink; with none it first runs `pojavInitOpenGL`; the invariant is kept. |
| `EglBridge.NoApiSilencesDispatch` | SL-GameCore/src/main/jni/egl_bridge.c:261-333 | After the `GLFW_NO_API` hint no per-frame call reaches an adapter and context creation returns 0. |
| `EglBridge.TerminateInvalidatesHandles` | SL-GameCore/src/main/jni/egl_bridge.c:52-73 | After a GL4ES terminate every handle is null, and a second terminate passes only null handles to EGL. |
| `FrameCounter.Tick` | SL-GameCore/src/main/jni/egl_bridge.c:335-361 | The first call seeds the time; each call counts a frame; a report fires exactly when the unsigned elapsed time reaches 1000 ms, carrying the raw frame count, and then the counter restarts at the current time. |
| `FrameCounter.FramesConserved` | SL-GameCore/src/main/jni/egl_bridge.c:335-361 | Over any run, the frames reported plus the frames still pending equal the frames pending at the start plus one per call. |
| `FrameCounter.ReportsArePositive` | SL-GameCore/src/main/jni/egl_bridge.c:335-361 | Every report carries at least one frame. |
| `Numerals.ToHex` | SL-GameCore/src/main/jni/egl_bridge.c:105-109 | `%x` writes lower-case hex digits with no leading zeros. |
| `Numerals.HexOfNat` | SL-GameCore/src/main/jni/egl_bridge.c:105-109 | The hex digits written for a number read back as that number. |
| `Numerals.StrToULong16` | SL-GameCore/src/main/jni/egl_bridge.c:364-370 | `strtoul(…, 16)` never exceeds `ULONG_MAX`. |
| `Numerals.ReadFormattedPointer` | SL-GameCore/src/main/jni/egl_bridge.c:105-109 | `strtoul(…, 16)` reads back any pointer-sized value that `%x` wrote. |
| `SLLauncher.NearestSeparator` | ShardLauncher/src/main/java/com/lanrhyme/shardlauncher/game/launch/Launcher.kt:516-521 | The fragment's end is the nearest occurrence of any separator at or after the search start, or the end of the text: no separator occurs before it, and one occurs at it unless it is the end. |
| `SLLauncher.AddFragment` | ShardLauncher/src/main/java/com/lanrhyme/shardlauncher/game/launch/Launcher.kt:526-535 | A fragment with two or more '=' is discarded; one that holds ',' or follows an argument ending in ',' is appended to that argument; any other becomes a new argument. |
| `SLLauncher.AddFragmentWellFormed` | ShardLauncher/src/main/java/com/lanrhyme/shardlauncher/game/launch/Launcher.kt:526-535 | Gluing or appending a space-free fragment that starts with a separator keeps every argument space-free and starting with a separator. |
| `SLLauncher.Cut` | ShardLauncher/src/main/java/com/lanrhyme/shardlauncher/game/launch/Launcher.kt:513-524 | The cut fragment is a well-formed argument, and deleting every copy of it leaves a space-free text strictly shorter than before, which is why the inner loop ends. |
| `SLLauncher.Drain` | ShardLauncher/src/main/java/com/lanrhyme/shardlauncher/game/launch/Launcher.kt:512-536 | The inner loop for one separator ends with the separator absent from the text and every collected argument well formed. |
| `SLLauncher.DrainAll` | ShardLauncher/src/main/java/com/lanrhyme/shardlauncher/game/launch/Launcher.kt:511-537 | The loop over the separators yields only well-formed arguments. |
| `SLLauncher.ParseJavaArguments` | ShardLauncher/src/main/java/com/lanrhyme/shardlauncher/game/launch/Launcher.kt:506-540 | Every produced argument is free of spaces (they are all deleted first) and starts with one of the separators. |
| `SLLauncher.NothingToDrain` | ShardLauncher/src/main/java/com/lanrhyme/shardlauncher/game/launch/Launcher.kt:511-537 | A text holding no separator adds no argument. |
| `SLLauncher.BlankGivesNothing` | ShardLauncher/src/main/java/com/lanrhyme/shardlauncher/game/launch/Launcher.kt:506-540 | A blank argument string gives no arguments. |
| `SLLauncher.KeepDefaults` | ShardLauncher/src/main/java/com/lanrhyme/shardlauncher/game/launch/Launcher.kt:425-432 | The surviving defaults are exactly the defaults that no user argument overrides. |
| `SLLauncher.OverrideByKey` | ShardLauncher/src/main/java/com/lanrhyme/shardlauncher/game/launch/Launcher.kt:425-432 | A default "-Dkey=value" is dropped exactly when some user argument starts with "-Dkey". |
| `SLLauncher.Put` | ShardLauncher/src/main/java/com/lanrhyme/shardlauncher/game/launch/Launcher.kt:381-423 | The insertion-ordered map's `put`: a known key keeps its place and takes the new value, a new key goes last, and every other entry stays. |
| `SLLauncher.BaseProperties` | ShardLauncher/src/main/java/com/lanrhyme/shardlauncher/game/launch/Launcher.kt:381-421 | The launcher's 27 default properties, in insertion order. |
| `SLLauncher.GetJavaArgs` | ShardLauncher/src/main/java/com/lanrhyme/shardlauncher/game/launch/Launcher.kt:374-436 | The user's parsed arguments come first and unchanged; after them come exactly the default "-Dkey=value" arguments that no user argument overrides. |
| `SLLauncher.DefaultReachesJvm` | ShardLauncher/src/main/java/com/lanrhyme/shardlauncher/game/launch/Launcher.kt:381-435 | Every default property, including the launcher's own additions, that the user did not override reaches the JVM arguments. |
| `SLLauncher.Purge` | ShardLauncher/src/main/java/com/lanrhyme/shardlauncher/game/launch/Launcher.kt:499-501 | `purgeArg` keeps exactly the arguments without the prefix. |
| `SLLauncher.PurgeAll` | ShardLauncher/src/main/java/com/lanrhyme/shardlauncher/game/launch/Launcher.kt:472-482 | After the purges exactly the arguments with none of the prefixes remain. |
| `SLLauncher.AdditionsShape` | ShardLauncher/src/main/java/com/lanrhyme/shardlauncher/game/launch/Launcher.kt:484-496 | Of the five appended arguments only the second is -Xms and only the third is -Xmx, both with the configured amount. |
| `SLLauncher.ProgressFinalUserArgs` | ShardLauncher/src/main/java/com/lanrhyme/shardlauncher/game/launch/Launcher.kt:468-497 | The result is the arguments with every purged prefix removed, then the final additions; it holds exactly one -Xms and one -Xmx argument, fourth and third from the end, both with the same RAM value. |
| `SLLauncher.ProgressDropsPurged` | ShardLauncher/src/main/java/com/lanrhyme/shardlauncher/game/launch/Launcher.kt:468-497 | Every argument before the five final additions is one of the caller's arguments that starts with none of the purged prefixes. |
| `SLLauncher.ProgressKeepsSurvivors` | ShardLauncher/src/main/java/com/lanrhyme/shardlauncher/game/launch/Launcher.kt:468-497 | Every argument with none of the purged prefixes is kept. |
| `SLLauncher.PurgeThenAdd` | ShardLauncher/src/main/java/com/lanrhyme/shardlauncher/game/launch/Launcher.kt:472-490 | Purging the memory prefixes and then appending one memory pair leaves that pair as the only memory arguments. |
| `SLLauncher.MemoryArgsAtEnd` | ShardLauncher/src/main/java/com/lanrhyme/shardlauncher/game/launch/Launcher.kt:484-496 | Appending five arguments, of which only the second is -Xms and only the third -Xmx, to arguments with no memory argument puts the only memory pair fourth and third from the end. |
| `SLLauncher.LaunchCommand` | ShardLauncher/src/main/java/com/lanrhyme/shardlauncher/game/launch/Launcher.kt:180-184 | The java binary is inserted at index 0, followed by the final Java arguments and then the game's JVM arguments. |
| `SLLauncher.LogArgs` | ShardLauncher/src/main/java/com/lanrhyme/shardlauncher/game/launch/Launcher.kt:186-198 | The iterator loop logs one line per argument, agreeing line by line with the reference definition: an argument right after a shown "--accessToken" argument is logged as the mask, every other one as "ARG: " plus its text. |
| `SLLauncher.TokenValueMasked` | ShardLauncher/src/main/java/com/lanrhyme/shardlauncher/game/launch/Launcher.kt:186-198 | The argument after a shown "--accessToken" argument is masked and never logged verbatim, and the argument after that is shown again. |
| `SLLauncher.GetJavaLibDir` | ShardLauncher/src/main/java/com/lanrhyme/shardlauncher/game/launch/Launcher.kt:234-248 | A runtime without an arch fails; otherwise the result is "/lib/<d>" for the last candidate directory that exists, or "/lib" exactly when none exists. |
| `SLLauncher.X86Candidates` | ShardLauncher/src/main/java/com/lanrhyme/shardlauncher/game/launch/Launcher.kt:235-237 | An x86 arch tries i386, i486 and i586, in that order. |
| `SLLauncher.GetJvmLibDir` | ShardLauncher/src/main/java/com/lanrhyme/shardlauncher/game/launch/Launcher.kt:253-259 | "/server" exactly when the server VM library exists, "/client" otherwise. |
| `SLLauncher.GetLibraryPath` | ShardLauncher/src/main/java/com/lanrhyme/shardlauncher/game/launch/Launcher.kt:292-303 | Splitting the library path on ':' gives back its non-null entries in their fixed order: the system directory first, the native directory last. |
| `SLLauncher.RuntimeLibraryPathEntries` | ShardLauncher/src/main/java/com/lanrhyme/shardlauncher/game/launch/Launcher.kt:264-287 | The runtime library path has the plugin directories, then the runtime's lib, jli and VM directories (two for a JDK 8 layout), the system and vendor directories, JNA, the mod directory, and the native directory last. |
| `SLLauncher.FindInLdLibPath` | ShardLauncher/src/main/java/com/lanrhyme/shardlauncher/game/launch/Launcher.kt:308-316 | The library in the first directory of the path that holds it as a file, or the bare name when none does; never null. |
| `SLLauncher.FirstDirHolding` | ShardLauncher/src/main/java/com/lanrhyme/shardlauncher/game/launch/Launcher.kt:310-312 | The search finds the first directory holding the library as a file, and only such a directory. |
| `SLGameLauncher.LaunchAccount` | ShardLauncher/src/main/java/com/lanrhyme/shardlauncher/game/launch/GameLauncher.kt:65-73 | Launching without a current account fails; otherwise the account keeps its name and server, and with offline login its type becomes the local type on the copy, else stays. |
| `SLGameLauncher.InitializeRenderer` | ShardLauncher/src/main/java/com/lanrhyme/shardlauncher/game/launch/GameLauncher.kt:99-115 | A valid renderer stays; else the version's renderer id if non-empty; else the first compatible renderer; it fails exactly when none is valid, the version names none and none is compatible. |
| `SLGameLauncher.EnvAgreesWithLaunch` | ShardLauncher/src/main/java/com/lanrhyme/shardlauncher/game/launch/GameLauncher.kt:239-259 | The environment step picks the renderer the launch picks, and where the launch would fail it leaves the renderer unset instead of throwing. |
| `SLGameLauncher.FirstJna` | ShardLauncher/src/main/java/com/lanrhyme/shardlauncher/game/launch/GameLauncher.kt:211-213 | The first library whose name starts with "net.java.dev.jna:jna:", and only such a library. |
| `SLGameLauncher.JnaVersionOfCoordinate` | ShardLauncher/src/main/java/com/lanrhyme/shardlauncher/game/launch/GameLauncher.kt:211-216 | For a first JNA library "net.java.dev.jna:jna:<v>" the version is its third ':' component, <v>. |
| `SLGameLauncher.JavaArgExtras` | ShardLauncher/src/main/java/com/lanrhyme/shardlauncher/game/launch/GameLauncher.kt:200-225 | sort.patch=true is added exactly for Forge on Minecraft "1.7.2"; the JNA boot path is added exactly when a JNA version exists and its directory exists, with java.library.path set to that directory and the native directory. |
| `SLGameLauncher.JnaPathReachesJvm` | ShardLauncher/src/main/java/com/lanrhyme/shardlauncher/game/launch/GameLauncher.kt:200-225 | When the JNA directory exists and the user does not set the property, the JVM is started with that directory as JNA's boot library path: the launcher's put replaces the default. |
| `SLGameLauncher.JnaKeyHasNoEquals` | ShardLauncher/src/main/java/com/lanrhyme/shardlauncher/game/launch/GameLauncher.kt:221 | The JNA property key holds no '=' so a user override is recognised by its "-Dkey" prefix. |
| `SLGameLauncher.PutAllKeepsLast` | ShardLauncher/src/main/java/com/lanrhyme/shardlauncher/game/launch/GameLauncher.kt:200-225 | The last entry put is in the resulting property list. |
| `SLGameLauncher.SettingKeys` | ShardLauncher/src/main/java/com/lanrhyme/shardlauncher/game/launch/GameLauncher.kt:481-500 | A setting's variable is named exactly when that setting is switched on, and only setting variables are named. |
| `SLGameLauncher.NotSettingVars` | ShardLauncher/src/main/java/com/lanrhyme/shardlauncher/game/launch/GameLauncher.kt:430-500 | The renderer, EGL, GLES and Mesa variables are none of the settings' variables, so the settings never overwrite them. |
| `SLGameLauncher.SettingsEnv` | ShardLauncher/src/main/java/com/lanrhyme/shardlauncher/game/launch/GameLauncher.kt:481-500 | One "1" entry per switched-on setting and nothing else. |
| `SLGameLauncher.LoadGraphicsLibrary` | ShardLauncher/src/main/java/com/lanrhyme/shardlauncher/game/launch/GameLauncher.kt:527-534 | With a plugin, "<plugin path>/<glName>"; otherwise the renderer's own library. |
| `SLGameLauncher.CommonRendererEnv` | ShardLauncher/src/main/java/com/lanrhyme/shardlauncher/game/launch/GameLauncher.kt:434-452 | POJAV_RENDERER is the id; the EGL name is set when the renderer has one; the renderer's own map overrides the fixed GL4ES set given to "opengles2" ids; nothing else is added. |
| `SLGameLauncher.ZinkKeys` | ShardLauncher/src/main/java/com/lanrhyme/shardlauncher/game/launch/GameLauncher.kt:458-465 | The Zink entries touch none of the renderer, EGL or GLES variables. |
| `SLGameLauncher.WithZink` | ShardLauncher/src/main/java/com/lanrhyme/shardlauncher/game/launch/GameLauncher.kt:457-465 | "opengles" ids get nothing more; any other id gets the Zink override, the shader cache directory, the three GLSL switches and the Mesa library name. |
| `SLGameLauncher.WithGles` | ShardLauncher/src/main/java/com/lanrhyme/shardlauncher/game/launch/GameLauncher.kt:467-479 | LIBGL_ES is always present afterwards, is left alone when already set, and otherwise gets the detected version. |
| `SLGameLauncher.SetRendererEnv` | ShardLauncher/src/main/java/com/lanrhyme/shardlauncher/game/launch/GameLauncher.kt:430-501 | A selected plugin stops after the common entries; otherwise Zink entries for non-"opengles" ids, LIBGL_ES filled in when missing, and the switched-on settings last. |
| `SLGameLauncher.ZinkForOtherRenderers` | ShardLauncher/src/main/java/com/lanrhyme/shardlauncher/game/launch/GameLauncher.kt:457-465 | Without a plugin, a non-"opengles" renderer runs on Zink with the renderer's library as Mesa's name, "null" when it has none. |
| `SLGameLauncher.LibglEsPrecedence` | ShardLauncher/src/main/java/com/lanrhyme/shardlauncher/game/launch/GameLauncher.kt:434-479 | Without a plugin, LIBGL_ES is the renderer's own value; else "2" for "opengles2" ids; else what the environment already held; else the detected version. |
| `SLGameLauncher.LibglEsFromCommon` | ShardLauncher/src/main/java/com/lanrhyme/shardlauncher/game/launch/GameLauncher.kt:467-479 | Without a plugin, LIBGL_ES is the common entries' value, or the detected version when they have none. |
| `SLGameLauncher.GlesVersionOfIds` | ShardLauncher/src/main/java/com/lanrhyme/shardlauncher/game/launch/GameLauncher.kt:472-478 | On a GLES 3 device "opengles3", "opengles3_5" and a Zink id all give "3"; on a device without GLES 3 the value is "2". |
| `SLGameLauncher.CacioJavaArgs` | ShardLauncher/src/main/java/com/lanrhyme/shardlauncher/game/launch/GameLauncher.kt:355-384 | The six head properties with the window size; the four exports only when the runtime is not Java 8; the agent only when additionally Java 17 or newer; the boot class path from cacio-17 exactly when Java 17 or newer, else cacio-8. |
| `SLGameLauncher.CacioPresence` | ShardLauncher/src/main/java/com/lanrhyme/shardlauncher/game/launch/GameLauncher.kt:365-374 | Every Cacio argument is a head property, an export, the agent or the boot class path; the exports are absent for Java 8 and the agent is absent below Java 17. |
| `SLGameLauncher.NoAgentBefore17` | ShardLauncher/src/main/java/com/lanrhyme/shardlauncher/game/launch/GameLauncher.kt:371-373 | Below Java 17 no argument is the agent. |
| `SLGameLauncher.NoExportsOnJava8` | ShardLauncher/src/main/java/com/lanrhyme/shardlauncher/game/launch/GameLauncher.kt:365-370 | On Java 8 no argument is an export. |
| `SLGameLauncher.HeadNotAgentOrExport` | ShardLauncher/src/main/java/com/lanrhyme/shardlauncher/game/launch/GameLauncher.kt:358-363 | Every head property is a "-D" system property, so it is never one of the "--" export flags. |
| `SLGameLauncher.ExportIsDashDash` | ShardLauncher/src/main/java/com/lanrhyme/shardlauncher/game/launch/GameLauncher.kt:366-369 | Every export flag starts with "--", so it is never a "-D" head property. |
| `SLGameLauncher.GetRuntimeName` | ShardLauncher/src/main/java/com/lanrhyme/shardlauncher/game/launch/GameLauncher.kt:389-403 | The version's runtime when non-empty; else, with automatic choice on, the first of the runtimes whose version is the least one at or above the manifest's major (8 by default) when one exists (the intended nearest search); else the global default. |
| `SLGameLauncher.DisableSplash` | ShardLauncher/src/main/java/com/lanrhyme/shardlauncher/game/launch/GameLauncher.kt:408-425 | Nothing is written when the config directory cannot be made or an existing file lacks "enabled=true"; an absent file gets "enabled=false"; otherwise the file is written with every "enabled=true" replaced, left to right, by "enabled=false". |
| `SLGameLauncher.FirstSplashLineSwitchedOff` | ShardLauncher/src/main/java/com/lanrhyme/shardlauncher/game/launch/GameLauncher.kt:408-425 | When the first "enabled=true" starts a line, that line is written as "enabled=false" and the text before it is unchanged. |
| `SLGameLauncher.SplashRewriteCanLeaveSwitchOn` | ShardLauncher/src/main/java/com/lanrhyme/shardlauncher/game/launch/GameLauncher.kt:408-425 | The left-to-right rewrite can leave the splash switched on: "enabled=truenabled=true" is written as "enabled=falsenabled=true", which still holds "enabled=true". |
| `SLGameLauncher.SplashFileSwitchedOff` | ShardLauncher/src/main/java/com/lanrhyme/shardlauncher/game/launch/GameLauncher.kt:413-417 | A file holding just "enabled=true" is rewritten to "enabled=false". |
| `SLGameLauncher.InitEnv` | ShardLauncher/src/main/java/com/lanrhyme/shardlauncher/game/launch/GameLauncher.kt:227-264 | SHARD_VERSION_CODE holds the version code and DRIVER_PATH is set; POJAV_RENDERER is the renderer's id when one is valid after selection; with none, only the base variables, the driver path, the mod loader's variable ("1") and the version code are present. |
| `SLGameLauncher.RendererEnvKeepsKeys` | ShardLauncher/src/main/java/com/lanrhyme/shardlauncher/game/launch/GameLauncher.kt:430-501 | The renderer entries only add and overwrite; no variable is removed. |
| `SLGameLauncher.DlopenEngine` | ShardLauncher/src/main/java/com/lanrhyme/shardlauncher/game/launch/GameLauncher.kt:266-318 | The plugin's libraries are opened first, in order, inside its directory; then the graphics library when there is one; libopenal.so from the native directory is always last. |
| `SLGameLauncher.PluginLibraries` | ShardLauncher/src/main/java/com/lanrhyme/shardlauncher/game/launch/GameLauncher.kt:275-281 | One path per plugin library, inside the plugin's directory, in order. |
| `SLGameLauncher.GraphicsAttempts` | ShardLauncher/src/main/java/com/lanrhyme/shardlauncher/game/launch/GameLauncher.kt:283-303 | The name itself first; the native directory next for a relative name that failed; the library path's file last when that names another file; every attempt before the last failed. |
| `AppLauncher.RuntimeLibraryDirs` | app/src/main/java/com/lanrhyme/shardlauncher/game/launch/Launcher.kt:108-114 | Three directories, all under the runtime's library root, the first being the root itself: "/jre/lib" for the JDK 8 layout, "/lib" otherwise. |
| `AppLauncher.GetRuntimeLibraryPath` | app/src/main/java/com/lanrhyme/shardlauncher/game/launch/Launcher.kt:108-114 | For a runtime home without ':', splitting the library path on ':' gives back exactly the three directories, starting with the library root. |
| `AppLauncher.FindInLdLibPath` | app/src/main/java/com/lanrhyme/shardlauncher/game/launch/Launcher.kt:116-118 | The library name is returned unchanged; the library path is never searched. |
| `AppLauncher.CacioJavaArgs` | app/src/main/java/com/lanrhyme/shardlauncher/game/launch/Launcher.kt:120-130 | Seven properties, the second carrying the managed screen size; the Java 8 flag changes nothing. |
| `AppLauncher.ScreenSizeReadsBack` | app/src/main/java/com/lanrhyme/shardlauncher/game/launch/Launcher.kt:123 | For 32-bit width and height the screen size splits on 'x' into two numerals that parse back to the width and the height. |
| `AppLauncher.NonBlankTrimmed` | app/src/main/java/com/lanrhyme/shardlauncher/game/launch/Launcher.kt:164 | The kept pieces are no more than the input pieces, none is blank, and none holds a space when no input piece does. |
| `AppLauncher.ParseJavaArguments` | app/src/main/java/com/lanrhyme/shardlauncher/game/launch/Launcher.kt:161-165 | A blank text gives no arguments; no argument is blank or holds a space. |
| `AppLauncher.ParseJoinedWords` | app/src/main/java/com/lanrhyme/shardlauncher/game/launch/Launcher.kt:161-165 | Words written out with single spaces parse back to the same words. |
| `AppLauncher.GetJavaArgs` | app/src/main/java/com/lanrhyme/shardlauncher/game/launch/Launcher.kt:143-159 | "-Duser.home=<home>" first when a home is given, then the seven Cacio arguments, then exactly the parsed user arguments. |
| `AppLauncher.BaseAdditions` | app/src/main/java/com/lanrhyme/shardlauncher/game/launch/Launcher.kt:132-141 | Eight arguments: the requested maximum heap, a 256 MB initial heap, then the G1 flags. |
| `AppLauncher.ProgressFinalUserArgs` | app/src/main/java/com/lanrhyme/shardlauncher/game/launch/Launcher.kt:132-141 | The arguments are kept as they are and the eight base additions are appended. |
| `AppLauncher.FinalArgsKeepEverything` | app/src/main/java/com/lanrhyme/shardlauncher/game/launch/Launcher.kt:132-141 | No argument is removed, the list grows, and the maximum heap requested is present. |
| `AppLauncher.LaunchCommand` | app/src/main/java/com/lanrhyme/shardlauncher/game/launch/Launcher.kt:56-69 | The java binary of the runtime first, then the Java arguments, the final user additions and the launch's JVM arguments, each block in order. |
| `AppLauncher.LogLinesAsWritten` | app/src/main/java/com/lanrhyme/shardlauncher/game/launch/Launcher.kt:70-78 | Every argument gets its log line, including the token after "--accessToken"; every line is the mask or some argument's line; the first line is the first argument's, followed by the mask when that argument starts with "--accessToken". |
| `AppLauncher.LogLinesAsWrittenAppend` | app/src/main/java/com/lanrhyme/shardlauncher/game/launch/Launcher.kt:70-78 | The log of two argument lists one after the other is the log of the first followed by the log of the second. |
| `AppLauncher.LogLinesAsWrittenInOrder` | app/src/main/java/com/lanrhyme/shardlauncher/game/launch/Launcher.kt:70-78 | The lines come in argument order: each argument's line follows the lines of the arguments before it, the mask comes right after it exactly when it starts with "--accessToken", and the lines of the arguments after it follow. |
| `AppLauncher.AsWrittenAgreesWithoutToken` | app/src/main/java/com/lanrhyme/shardlauncher/game/launch/Launcher.kt:70-78 | Without any "--accessToken" argument, the log as written is exactly the masked log. |
| `AppLauncher.AsWrittenAgreesFrom` | app/src/main/java/com/lanrhyme/shardlauncher/game/launch/Launcher.kt:70-78 | From any position on, with no "--accessToken" argument, the log as written of the remaining arguments is the masked log from that position. |
| `AppLauncher.AsWrittenLogsToken` | app/src/main/java/com/lanrhyme/shardlauncher/game/launch/Launcher.kt:70-78 | For the arguments "--accessToken" and a token, the token's own log line is written. |
| `AppLauncher.LogLinesFrom` | app/src/main/java/com/lanrhyme/shardlauncher/game/launch/Launcher.kt:70-78 | Corrected log: every line is the mask or a visible argument's line, and every visible argument is logged. |
| `AppLauncher.LogLines` | app/src/main/java/com/lanrhyme/shardlauncher/game/launch/Launcher.kt:70-78 | The log of a whole command line: every line is the mask or some visible argument's line, and every visible argument is logged. |
| `AppLauncher.TokenNeverLogged` | app/src/main/java/com/lanrhyme/shardlauncher/game/launch/Launcher.kt:70-78 | A token following "--accessToken" that is neither the mask nor a visible argument never reaches the log, while the flag itself is logged unless it is itself hidden. |
| `AppGameLauncher.LaunchRegistry` | app/src/main/java/com/lanrhyme/shardlauncher/game/launch/GameLauncher.kt:53-56 | The renderer registry a launch runs with is the one it started with: the built-in registry always reports its current renderer valid. |
| `AppGameLauncher.LaunchAccount` | app/src/main/java/com/lanrhyme/shardlauncher/game/launch/GameLauncher.kt:61-70 | Without a current account the launch fails; otherwise name and server are kept, the account is local under offline login, and unchanged otherwise. |
| `AppGameLauncher.CustomArgs` | app/src/main/java/com/lanrhyme/shardlauncher/game/launch/GameLauncher.kt:72 | The version's JVM arguments unless blank, else the global setting. |
| `AppGameLauncher.PutJavaArgs` | app/src/main/java/com/lanrhyme/shardlauncher/game/launch/GameLauncher.kt:88-104 | Nothing changes unless the first JNA library names a version whose directory exists; then exactly the library path (that directory, ':', the native directory) and JNA's boot path (that directory) are set, and every other property keeps its value. |
| `AppGameLauncher.JnaBootPathOfCoordinate` | app/src/main/java/com/lanrhyme/shardlauncher/game/launch/GameLauncher.kt:88-104 | A plain "net.java.dev.jna:jna:<v>" coordinate, first of its kind, with an existing directory sets JNA's boot path to that version's directory. |
| `AppGameLauncher.InfoOf` | app/src/main/java/com/lanrhyme/shardlauncher/game/launch/GameLauncher.kt:261-290 | The environment step sees a built-in renderer's id, map, EGL library and GL library as the registry defines them. |
| `AppGameLauncher.WithDefaultGles` | app/src/main/java/com/lanrhyme/shardlauncher/game/launch/GameLauncher.kt:292-294 | LIBGL_ES is always present afterwards: left alone when set, "3" otherwise, and no other variable changes. |
| `AppGameLauncher.SetRendererEnv` | app/src/main/java/com/lanrhyme/shardlauncher/game/launch/GameLauncher.kt:261-295 | POJAV_RENDERER is the renderer's id; every renderer but Vulkan names Mesa's EGL; a selected plugin stops after the common entries; otherwise LIBGL_ES is present. |
| `AppGameLauncher.OpenGLES2Env` | app/src/main/java/com/lanrhyme/shardlauncher/game/launch/GameLauncher.kt:263-290 | The GL4ES renderer without a plugin gets LIBGL_ES "2", the mipmap setting, Mesa's EGL and its id, and no Mesa name that the environment did not already hold. |
| `AppGameLauncher.OpenGLES3Env` | app/src/main/java/com/lanrhyme/shardlauncher/game/launch/GameLauncher.kt:261-295 | The GLES 3 renderer without a plugin gets LIBGL_ES "3", Mesa's EGL and its id, and no Zink loader override that the environment did not already hold. |
| `AppGameLauncher.VulkanRunsOnZink` | app/src/main/java/com/lanrhyme/shardlauncher/game/launch/GameLauncher.kt:278-289 | The Vulkan renderer without a plugin gets the Zink override, "libvulkan.so" as Mesa's name and the shader cache in the cache directory. |
| `AppGameLauncher.ZinkEntries` | app/src/main/java/com/lanrhyme/shardlauncher/game/launch/GameLauncher.kt:278-294 | For any renderer outside the "opengles" family the Zink override, Mesa's name (the renderer's library or "null") and the shader cache survive the LIBGL_ES default. |
| `AppGameLauncher.VulkanGlesAndEgl` | app/src/main/java/com/lanrhyme/shardlauncher/game/launch/GameLauncher.kt:261-295 | For Vulkan, LIBGL_ES is the environment's value or "3", and an EGL entry is only ever the environment's own. |
| `AppGameLauncher.AgreesWithShardTree` | app/src/main/java/com/lanrhyme/shardlauncher/game/launch/GameLauncher.kt:261-295 | On a GLES 3 device with every setting off, the app's Vulkan environment equals the ShardLauncher tree's. |
| `AppGameLauncher.LoadGraphicsLibrary` | app/src/main/java/com/lanrhyme/shardlauncher/game/launch/GameLauncher.kt:297-306 | Nothing while the renderer is invalid; the plugin's GL library inside its directory; else the renderer's own library, which every built-in renderer has. |
| `AppGameLauncher.InitEnv` | app/src/main/java/com/lanrhyme/shardlauncher/game/launch/GameLauncher.kt:112-131 | The step fails exactly when no driver is registered; otherwise it is the launch environment with the chosen driver's path. |
| `AppGameLauncher.LaunchEnv` | app/src/main/java/com/lanrhyme/shardlauncher/game/launch/GameLauncher.kt:112-131 | SHARD_VERSION_CODE holds the version code, DRIVER_PATH and POJAV_RENDERER (the current renderer's id) are set, and every base variable stays present. |
| `AppGameLauncher.DriverPath` | app/src/main/java/com/lanrhyme/shardlauncher/game/launch/GameLauncher.kt:117 | No path exactly when no driver is registered; a registered driver with the version's id gives that driver's path. |
| `AppGameLauncher.DriverPathInEnvMap` | app/src/main/java/com/lanrhyme/shardlauncher/game/launch/GameLauncher.kt:112-131 | With a driver registered and a loader variable other than DRIVER_PATH, the environment map `initEnv` builds holds the chosen driver's path under DRIVER_PATH. |
| `AppGameLauncher.RendererEnvKeepsDriverPath` | app/src/main/java/com/lanrhyme/shardlauncher/game/launch/GameLauncher.kt:261-295 | The renderer step leaves DRIVER_PATH as it was. |
| `AppGameLauncher.Templated` | app/src/main/java/com/lanrhyme/shardlauncher/game/launch/GameLauncher.kt:154 | A missing string is written as "null" in the template, a present one as itself, so the text is empty only for a present empty string. |
| `AppGameLauncher.FinalAdditions` | app/src/main/java/com/lanrhyme/shardlauncher/game/launch/GameLauncher.kt:151-156 | The arguments are kept, the base additions follow with the version's memory, and while the renderer is valid the LWJGL library-name property comes last. |
| `AppGameLauncher.LibnameMatchesRenderer` | app/src/main/java/com/lanrhyme/shardlauncher/game/launch/GameLauncher.kt:151-156 | The library-name property handed to LWJGL names the library the game loads (the plugin's or the renderer's), and the requested maximum heap is present. |
| `AppGameLauncher.GetRuntimeName` | app/src/main/java/com/lanrhyme/shardlauncher/game/launch/GameLauncher.kt:221-239 | The version's runtime when set; the global setting when automatic choice is off or the setting's runtime is known and new enough; otherwise the default runtime for the target version (8 by default) when there is one, else the global setting; any replacement is a listed runtime at or above the target. |
| `AppGameLauncher.UnsetRuntimeIsReplaced` | app/src/main/java/com/lanrhyme/shardlauncher/game/launch/GameLauncher.kt:221-239 | An unset global runtime loads as version 0, so automatic choice replaces it whenever a listed runtime reaches the target. |
| `AppGameLauncher.DisableSplash` | app/src/main/java/com/lanrhyme/shardlauncher/game/launch/GameLauncher.kt:241-259 | An absent file reads as "enabled=true"; nothing is written exactly when the config directory cannot be made or the content does not switch the splash on; what is written is the content with every "enabled=true" replaced, left to right, by "enabled=false". |
| `AppGameLauncher.SplashAgreesWithShardTree` | app/src/main/java/com/lanrhyme/shardlauncher/game/launch/GameLauncher.kt:241-259 | The app's splash switch writes exactly what the ShardLauncher tree's writes, for every file state. |
| `LaunchArgs.MainClassPackage` | app/src/main/java/com/lanrhyme/shardlauncher/game/launch/LaunchArgs.kt:45 | Taking the package fails exactly when the main class has no '.'. |
| `LaunchArgs.PackageOfQualifiedName` | app/src/main/java/com/lanrhyme/shardlauncher/game/launch/LaunchArgs.kt:45 | A main class "pkg.Cls" with no '.' in "Cls" yields "pkg". |
| `LaunchArgs.ServerArgs` | app/src/main/java/com/lanrhyme/shardlauncher/game/launch/LaunchArgs.kt:53-61 | Always "--server", the host before the first ':', "--port" and a port; a bare host gets 25565. |
| `LaunchArgs.ServerAddressReadsBack` | app/src/main/java/com/lanrhyme/shardlauncher/game/launch/LaunchArgs.kt:53-61 | "host:port" gives the host and the port back; a bare host and an unreadable port both get 25565. |
| `LaunchArgs.Exports` | app/src/main/java/com/lanrhyme/shardlauncher/game/launch/LaunchArgs.kt:43-47 | On Java 9 and later "--add-exports" and "pkg/pkg=ALL-UNNAMED" for the main class's package, failing when it has no package; nothing before Java 9. |
| `LaunchArgs.GetAllArgs` | app/src/main/java/com/lanrhyme/shardlauncher/game/launch/LaunchArgs.kt:37-64 | Fails on Java 9 and later for a main class without a package; otherwise the Java and JVM arguments, the export on Java 9 and later, the main class, the game arguments and the server, in that order. |
| `LaunchArgs.AuthArgs` | app/src/main/java/com/lanrhyme/shardlauncher/game/launch/LaunchArgs.kt:76-87 | At most two arguments, present exactly for an auth-server account with a base URL; two exactly for a mc-user.com server, the Nide8 agent with the server prefix removed and the client flag. |
| `LaunchArgs.AuthAgentOption` | app/src/main/java/com/lanrhyme/shardlauncher/game/launch/LaunchArgs.kt:76-87 | For an auth-server account a Nide8 URL gives the agent the bare server id, any other URL reaches authlib-injector untouched, and no URL gives no agent. |
| `LaunchArgs.JavaArgs` | app/src/main/java/com/lanrhyme/shardlauncher/game/launch/LaunchArgs.kt:72-120 | The authentication agent, the seven Cacio arguments, the Log4j configuration inside the version's folder and the client jar, in that order. |
| `LaunchArgs.CheckLibraryRules` | app/src/main/java/com/lanrhyme/shardlauncher/game/launch/LaunchArgs.kt:197-209 | No rules or an empty list allow; otherwise the rules are folded from "not allowed". |
| `LaunchArgs.LastDeciding` | app/src/main/java/com/lanrhyme/shardlauncher/game/launch/LaunchArgs.kt:197-209 | The index of a deciding rule with no deciding rule after it, or none when no rule decides. |
| `LaunchArgs.LastDecidingUnique` | app/src/main/java/com/lanrhyme/shardlauncher/game/launch/LaunchArgs.kt:197-209 | A deciding rule with no deciding rule after it is the last deciding rule. |
| `LaunchArgs.VerdictIsLastDeciding` | app/src/main/java/com/lanrhyme/shardlauncher/game/launch/LaunchArgs.kt:197-209 | The rule loop's verdict is the last deciding rule's action, or the starting value when no rule decides. |
| `LaunchArgs.RulesAllowIff` | app/src/main/java/com/lanrhyme/shardlauncher/game/launch/LaunchArgs.kt:197-209 | A non-empty rule list allows exactly when some deciding "allow" rule has no deciding rule after it. |
| `LaunchArgs.LibClasspath` | app/src/main/java/com/lanrhyme/shardlauncher/game/launch/LaunchArgs.kt:187-195 | A jar is listed exactly when some library is allowed and has a path, and it is that library's jar under the libraries folder. |
| `LaunchArgs.Existing` | app/src/main/java/com/lanrhyme/shardlauncher/game/launch/LaunchArgs.kt:170-177 | An entry is kept exactly when it is in the list and exists. |
| `LaunchArgs.LaunchClassPathEntries` | app/src/main/java/com/lanrhyme/shardlauncher/game/launch/LaunchArgs.kt:166-185 | An entry is present exactly when it is an existing library jar or the existing client jar. |
| `LaunchArgs.LaunchClassPathReadsBack` | app/src/main/java/com/lanrhyme/shardlauncher/game/launch/LaunchArgs.kt:166-185 | When no path holds ':', splitting the classpath lists exactly the existing library jars and the existing client jar. |
| `LaunchArgs.GenerateLaunchClassPath` | app/src/main/java/com/lanrhyme/shardlauncher/game/launch/LaunchArgs.kt:166-185 | When no path holds ':', splitting the classpath gives back the existing library jars and then the existing client jar, in order; one empty entry when none exists. |
| `LaunchArgs.Lwjgl3ClassPath` | app/src/main/java/com/lanrhyme/shardlauncher/game/launch/LaunchArgs.kt:66-70 | An unlistable LWJGL folder gives ""; otherwise, when no file name holds ':', splitting gives back exactly the folder's ".jar" files in listing order. |
| `LaunchArgs.LaunchClassPath` | app/src/main/java/com/lanrhyme/shardlauncher/game/launch/LaunchArgs.kt:126 | When no path holds ':', the launch classpath splits into the LWJGL jars first and then the game's existing library jars and client jar, in order, an empty half leaving one empty entry. |
| `LaunchArgs.Jars` | app/src/main/java/com/lanrhyme/shardlauncher/game/launch/LaunchArgs.kt:66-69 | A file is on the LWJGL classpath exactly when it is in the folder and ends in ".jar". |
| `LaunchArgs.ProcessJvmArg` | app/src/main/java/com/lanrhyme/shardlauncher/game/launch/LaunchArgs.kt:135-151 | Non-strings are dropped; an ignore list gets the version's jar appended; an argument naming one of the three native-extraction properties has every natives-directory placeholder replaced by the cache directory; the classpath placeholder becomes the classpath; any other argument passes unchanged. |
| `LaunchArgs.ClasspathPlaceholderIsPlain` | app/src/main/java/com/lanrhyme/shardlauncher/game/launch/LaunchArgs.kt:137-146 | The classpath placeholder is neither an ignore list nor a natives extraction path, so its own branch is reached. |
| `LaunchArgs.ProcessJvmArgs` | app/src/main/java/com/lanrhyme/shardlauncher/game/launch/LaunchArgs.kt:153-156 | A value is in the result exactly when some argument processes to it; no more arguments come out than went in. |
| `LaunchArgs.ProcessJvmArgsAppend` | app/src/main/java/com/lanrhyme/shardlauncher/game/launch/LaunchArgs.kt:153-156 | Processing two lists one after the other gives the two results one after the other. |
| `LaunchArgs.ProcessJvmArgsInOrder` | app/src/main/java/com/lanrhyme/shardlauncher/game/launch/LaunchArgs.kt:153-156 | When every argument is a string, nothing is dropped and the i-th result is the i-th argument processed. |
| `LaunchArgs.LauncherInfo` | app/src/main/java/com/lanrhyme/shardlauncher/game/launch/LaunchArgs.kt:246-252 | Launcher name "ShardLauncher", the launcher version, and the version type: the custom info unless blank, else the manifest's type, else "release". |
| `LaunchArgs.JvmVars` | app/src/main/java/com/lanrhyme/shardlauncher/game/launch/LaunchArgs.kt:129-133 | Four JVM variables, with the version name third and the natives directory fourth, followed by the launcher entries. |
| `LaunchArgs.MinecraftJvmArgs` | app/src/main/java/com/lanrhyme/shardlauncher/game/launch/LaunchArgs.kt:122-164 | The processed arguments with variables filled in; "-cp" and the launch classpath follow exactly when no argument was the classpath placeholder. |
| `LaunchArgs.ClasspathPlaceholderBecomesClasspath` | app/src/main/java/com/lanrhyme/shardlauncher/game/launch/LaunchArgs.kt:145-147 | A placeholder among the arguments puts the launch classpath among the processed arguments. |
| `LaunchArgs.ClasspathReachesJvm` | app/src/main/java/com/lanrhyme/shardlauncher/game/launch/LaunchArgs.kt:122-164 | When the classpath holds no variable placeholder, the launch classpath appears verbatim among the JVM arguments, either way. |
| `LaunchArgs.JvmClassPathListsLwjglFirst` | app/src/main/java/com/lanrhyme/shardlauncher/game/launch/LaunchArgs.kt:122-164 | Without the placeholder, the JVM arguments end in "-cp" and a classpath listing the LWJGL jars before the game's jars. |
| `LaunchArgs.AuthUuid` | app/src/main/java/com/lanrhyme/shardlauncher/game/launch/LaunchArgs.kt:221 | The uuid holds no '-' and is no longer than the profile id. |
| `LaunchArgs.ClientVars` | app/src/main/java/com/lanrhyme/shardlauncher/game/launch/LaunchArgs.kt:216-231 | Fails exactly without version info; otherwise twelve game variables in insertion order, the session and access token both the account's token, the uuid dash-free, then the launcher entries. |
| `LaunchArgs.StringArgs` | app/src/main/java/com/lanrhyme/shardlauncher/game/launch/LaunchArgs.kt:233-236 | A string is kept exactly when it is a string game argument. |
| `LaunchArgs.NonEmpty` | app/src/main/java/com/lanrhyme/shardlauncher/game/launch/LaunchArgs.kt:254-260 | A piece is kept exactly when it is non-empty. |
| `LaunchArgs.SplitAndFilterEmpty` | app/src/main/java/com/lanrhyme/shardlauncher/game/launch/LaunchArgs.kt:254-260 | Every piece is non-empty and holds no space. |
| `LaunchArgs.SplitJoinedWords` | app/src/main/java/com/lanrhyme/shardlauncher/game/launch/LaunchArgs.kt:254-260 | Non-empty words without spaces, joined by spaces, split back into the same words. |
| `LaunchArgs.ClientArgs` | app/src/main/java/com/lanrhyme/shardlauncher/game/launch/LaunchArgs.kt:216-244 | Fails exactly when the variables do; otherwise one argument per non-empty word of the legacy string (or of the joined string game arguments), each with its variables filled in. |
| `LaunchArgs.NewStyleArgsKeepWords` | app/src/main/java/com/lanrhyme/shardlauncher/game/launch/LaunchArgs.kt:216-244 | String game arguments that are single words keep their order and count; only their variables change. |
| `MinecraftLauncher.ProgressFinalUserArgs` | app/src/main/java/com/lanrhyme/shardlauncher/game/launch/MinecraftLauncher.kt:69-76 | The arguments are kept and eight additions follow, whose maximum heap is the version's allocation when positive, else the requested one. |
| `MinecraftLauncher.FirstOfKind` | app/src/main/java/com/lanrhyme/shardlauncher/game/launch/MinecraftLauncher.kt:94-120 | The index of the first runtime of the asked kind, with none of that kind before it, or none when the listing has none. |
| `MinecraftLauncher.DetectDefaultRuntime` | app/src/main/java/com/lanrhyme/shardlauncher/game/launch/MinecraftLauncher.kt:94-120 | With nothing listed, "jre8" before 1.13 and "jre17" otherwise; else always a listed runtime's name, of the preferred kind whenever one exists. |
| `MinecraftLauncher.DetectedRuntimeHasPreferredKind` | app/src/main/java/com/lanrhyme/shardlauncher/game/launch/MinecraftLauncher.kt:94-120 | The runtime found for an old version is a JDK 8 whenever the folder holds one, and for a new version a non-JDK 8 runtime whenever it holds one. |
| `MinecraftLauncher.ResolveRuntime` | app/src/main/java/com/lanrhyme/shardlauncher/game/launch/MinecraftLauncher.kt:78-92 | The version's runtime unless empty, else the detected one; Java 8 exactly when its home has the JDK 8 layout, else 17; the device's architecture and no version string. |
| `MinecraftLauncher.ResolvedAgreesWithManager` | app/src/main/java/com/lanrhyme/shardlauncher/game/launch/MinecraftLauncher.kt:78-92 | The resolved runtime equals what the runtime manager reads for the same folder entry. |
| `MinecraftLauncher.ShouldIncludeLibrary` | app/src/main/java/com/lanrhyme/shardlauncher/game/launch/MinecraftLauncher.kt:167-178 | No rules include the library; otherwise the early-return rule loop decides. |
| `MinecraftLauncher.FirstDeciding` | app/src/main/java/com/lanrhyme/shardlauncher/game/launch/MinecraftLauncher.kt:167-178 | The index of a deciding rule with no deciding rule before it, or none when no rule decides. |
| `MinecraftLauncher.FirstVerdictIsFirstDeciding` | app/src/main/java/com/lanrhyme/shardlauncher/game/launch/MinecraftLauncher.kt:167-178 | The early-return loop includes a library exactly when no rule decides or the first deciding rule allows. |
| `MinecraftLauncher.FiltersAgreeOnOneDecidingRule` | app/src/main/java/com/lanrhyme/shardlauncher/game/launch/MinecraftLauncher.kt:167-178 | Where exactly one rule decides, this filter and the argument builder's rule check agree, and both follow that rule. |
| `MinecraftLauncher.FiltersDiffer` | app/src/main/java/com/lanrhyme/shardlauncher/game/launch/MinecraftLauncher.kt:167-178 | For [allow, disallow] and for [allow on osx] this filter includes the library while the argument builder's rule check excludes it. |
| `MinecraftLauncher.LibraryJars` | app/src/main/java/com/lanrhyme/shardlauncher/game/launch/MinecraftLauncher.kt:144-165 | A jar is listed exactly when it belongs to an included library with an artifact and exists. |
| `MinecraftLauncher.ClassPathParts` | app/src/main/java/com/lanrhyme/shardlauncher/game/launch/MinecraftLauncher.kt:144-165 | An entry is present exactly when it is an existing included library jar or the existing version jar, and the version jar comes last when it exists. |
| `MinecraftLauncher.BuildClassPath` | app/src/main/java/com/lanrhyme/shardlauncher/game/launch/MinecraftLauncher.kt:144-165 | With ':'-free paths and an existing version jar, splitting the classpath on ':' gives back exactly the existing included library jars and then the version jar. |
| `MinecraftLauncher.GameVars` | app/src/main/java/com/lanrhyme/shardlauncher/game/launch/MinecraftLauncher.kt:202-214 | Ten replacements; auth_uuid is the profile id unless empty, else the unique uuid; assets_root is inside the game folder; user_type is "mojang" and version_type the manifest's type or "release". |
| `MinecraftLauncher.NotBlank` | app/src/main/java/com/lanrhyme/shardlauncher/game/launch/MinecraftLauncher.kt:186-188 | A piece is kept exactly when it is not blank, and no new pieces appear. |
| `MinecraftLauncher.BuildGameArgumentsAsWritten` | app/src/main/java/com/lanrhyme/shardlauncher/game/launch/MinecraftLauncher.kt:180-200 | As written: the legacy string is filled in and then split on spaces with blank pieces dropped; new-style arguments are the string game arguments filled in. |
| `MinecraftLauncher.AsWrittenSplitsValue` | app/src/main/java/com/lanrhyme/shardlauncher/game/launch/MinecraftLauncher.kt:180-214 | A legacy "${key}" whose value is "a b" comes out as the two arguments a and b. |
| `MinecraftLauncher.BuildGameArguments` | app/src/main/java/com/lanrhyme/shardlauncher/game/launch/MinecraftLauncher.kt:180-214 | Corrected: one argument per non-blank legacy word, each word filled in on its own; new-style arguments as written. |
| `MinecraftLauncher.ValueStaysOneArgument` | app/src/main/java/com/lanrhyme/shardlauncher/game/launch/MinecraftLauncher.kt:180-214 | In the corrected form a legacy "${key}" becomes exactly its value, whatever the value holds. |
| `MinecraftLauncher.GameArguments` | app/src/main/java/com/lanrhyme/shardlauncher/game/launch/MinecraftLauncher.kt:180-214 | The game arguments are the corrected build over the ten replacements, one per non-blank legacy word. |
| `MinecraftLauncher.BuildMinecraftArgs` | app/src/main/java/com/lanrhyme/shardlauncher/game/launch/MinecraftLauncher.kt:133-142 | "-cp", then the classpath built from the manifest's libraries under the game folder's libraries folder and that version's client jar, then the manifest's main class, then the game arguments as the source builds them, with the account, version, game folder, asset index and version type filled in. |
| `MinecraftLauncher.MinecraftArgsClassPathReadsBack` | app/src/main/java/com/lanrhyme/shardlauncher/game/launch/MinecraftLauncher.kt:133-165 | With ':'-free jar paths and an existing version jar, the argument after "-cp" splits on ':' into exactly the existing jars of the included libraries, in manifest order, then the version jar. |
| `MinecraftLauncher.ModernManifestArgsAreCorrected` | app/src/main/java/com/lanrhyme/shardlauncher/game/launch/MinecraftLauncher.kt:180-200 | For a manifest without a legacy argument string, the launch arguments after the main class are the corrected game arguments, so the split of substituted values only affects legacy manifests. |
| `StringUtils.Placeholder` | app/src/main/java/com/lanrhyme/shardlauncher/utils/string/StringUtils.kt:15 | The placeholder is the key with three more characters around it. |
| `StringUtils.InsertJSONValueList` | app/src/main/java/com/lanrhyme/shardlauncher/utils/string/StringUtils.kt:11-19 | As many arguments come out as went in, each one substituted on its own. |
| `StringUtils.SubstituteAbsent` | app/src/main/java/com/lanrhyme/shardlauncher/utils/string/StringUtils.kt:11-19 | An argument holding no placeholder of any key comes back unchanged. |
| `StringUtils.PlaceholderAlone` | app/src/main/java/com/lanrhyme/shardlauncher/utils/string/StringUtils.kt:13-17 | An argument that is exactly one placeholder becomes that entry's value. |
| `StringUtils.Components` | app/src/main/java/com/lanrhyme/shardlauncher/utils/string/StringUtils.kt:32-33 | One numeric component per dot-separated piece. |
| `StringUtils.IsVersionLowerThan` | app/src/main/java/com/lanrhyme/shardlauncher/utils/string/StringUtils.kt:31-48 | Lower exactly when, missing components counting as 0, some component is smaller and every earlier one is equal. |
| `StringUtils.LowerFromMeans` | app/src/main/java/com/lanrhyme/shardlauncher/utils/string/StringUtils.kt:35-47 | The comparison loop answers "lower" exactly when some position is smaller and every earlier position is equal, missing components counting as 0. |
| `StringUtils.VersionOrderStrict` | app/src/main/java/com/lanrhyme/shardlauncher/utils/string/StringUtils.kt:31-48 | No version is lower than itself, and of two versions at most one is lower than the other. |
| `StringUtils.TrailingZeroIsEqual` | app/src/main/java/com/lanrhyme/shardlauncher/utils/string/StringUtils.kt:31-48 | "1.0" and "1" are equal versions: neither is lower than the other. |
| `StringUtils.Hex4Value` | app/src/main/java/com/lanrhyme/shardlauncher/utils/string/StringUtils.kt:63 | The padded code is four hexadecimal digits whose value is the code unit. |
| `StringUtils.EscapeUnitShape` | app/src/main/java/com/lanrhyme/shardlauncher/utils/string/StringUtils.kt:62-63 | A unit above 127 becomes a backslash, 'u' and four hexadecimal digits whose value is the unit. |
| `StringUtils.EscapeUnitAscii` | app/src/main/java/com/lanrhyme/shardlauncher/utils/string/StringUtils.kt:61-66 | Every character written for one unit is ASCII. |
| `StringUtils.ToUnicodeEscaped` | app/src/main/java/com/lanrhyme/shardlauncher/utils/string/StringUtils.kt:60-68 | The escaped text is pure ASCII and at least as long as the input. |
| `StringUtils.Unescape` | app/src/main/java/com/lanrhyme/shardlauncher/utils/string/StringUtils.kt:60-68 | The reader for the escapes: never longer than its input, and character for character the same units on a text with no backslash. |
| `StringUtils.UnescapeUnit` | app/src/main/java/com/lanrhyme/shardlauncher/utils/string/StringUtils.kt:61-66 | One escaped unit other than a backslash reads back in front of any text. |
| `StringUtils.EscapeRoundTrip` | app/src/main/java/com/lanrhyme/shardlauncher/utils/string/StringUtils.kt:60-68 | Reading the escapes back gives the original text whenever it holds no backslash of its own. |
| `StringUtils.IsEmptyOrBlank` | app/src/main/java/com/lanrhyme/shardlauncher/utils/string/StringUtils.kt:73-75 | True exactly for null or text made only of whitespace. |
| `StringUtils.IsNotEmptyOrBlank` | app/src/main/java/com/lanrhyme/shardlauncher/utils/string/StringUtils.kt:24-26 | True exactly for text holding some non-whitespace character. |
| `StringUtils.GetStringNotNull` | app/src/main/java/com/lanrhyme/shardlauncher/utils/string/StringUtils.kt:87 | The text itself, or "" for null, so the result is empty exactly for null or empty text. |
| `StringUtils.BlankHelpersComplement` | app/src/main/java/com/lanrhyme/shardlauncher/utils/string/StringUtils.kt:24-26 | The two blank tests are complements, and replacing null by "" does not change blankness. |
| `MathUtils.Scan` | ShardLauncher/src/main/java/com/lanrhyme/shardlauncher/utils/math/MathUtils.kt:20-32 | The loop from any consistent state finds nothing exactly when no object reaches the target, and otherwise the earliest object of least value at or above the target. |
| `MathUtils.NearestSlot` | ShardLauncher/src/main/java/com/lanrhyme/shardlauncher/utils/math/MathUtils.kt:12-33 | The slot picked, if any, is inside the list. |
| `MathUtils.FindNearestPositive` | ShardLauncher/src/main/java/com/lanrhyme/shardlauncher/utils/math/MathUtils.kt:12-33 | Null exactly when no object reaches the target; otherwise an object at or above the target whose non-negative distance is least among all such objects, the earliest on a tie. |
| `MathUtils.ExactMatchIsFirst` | ShardLauncher/src/main/java/com/lanrhyme/shardlauncher/utils/math/MathUtils.kt:25 | An exact match with no exact match before it is what comes back. |
| `MathUtils.Sub32` | ShardLauncher/src/main/java/com/lanrhyme/shardlauncher/utils/math/MathUtils.kt:24 | The result is a 32-bit value and equals the difference whenever that fits. |
| `MathUtils.AsWrittenMissesMaxDelta` | ShardLauncher/src/main/java/com/lanrhyme/shardlauncher/utils/math/MathUtils.kt:17-32 | As written, target 0 and the single value Int.MAX_VALUE give null, while the intended search returns that value. |
| `MathUtils.AsWrittenWrapsDelta` | ShardLauncher/src/main/java/com/lanrhyme/shardlauncher/utils/math/MathUtils.kt:24-32 | As written, target -1 and the value Int.MAX_VALUE come back with the wrapped distance Int.MIN_VALUE; the intended distance is 2^31. |
| `MathUtils.TakeOverStep` | ShardLauncher/src/main/java/com/lanrhyme/shardlauncher/utils/math/MathUtils.kt:26-29 | A slot that takes over the selection does so in both loops alike. |
| `MathUtils.KeepStep` | ShardLauncher/src/main/java/com/lanrhyme/shardlauncher/utils/math/MathUtils.kt:22-29 | A slot that leaves the selection alone does so in both loops alike. |
| `MathUtils.AsWrittenAgreesInRange` | ShardLauncher/src/main/java/com/lanrhyme/shardlauncher/utils/math/MathUtils.kt:20-32 | From any consistent state, the loop as written and the intended scan agree while no distance reaches Int.MAX_VALUE. |
| `MathUtils.AsWrittenAgrees` | ShardLauncher/src/main/java/com/lanrhyme/shardlauncher/utils/math/MathUtils.kt:12-33 | On every list where no qualifying object lies Int.MAX_VALUE or more above the target, the code as written returns the intended result. |
| `SLRuntimes.MajorOfLegacy` | ShardLauncher/src/main/java/com/lanrhyme/shardlauncher/game/multirt/RuntimesManager.kt:80-82 | "1.N" and "1.N.x" have major version N. |
| `SLRuntimes.MajorOfModern` | ShardLauncher/src/main/java/com/lanrhyme/shardlauncher/game/multirt/RuntimesManager.kt:80-85 | "N" and "N.x" with N other than 1 have major version N. |
| `SLRuntimes.ReadRuntime` | ShardLauncher/src/main/java/com/lanrhyme/shardlauncher/game/multirt/RuntimesManager.kt:69-102 | The name is kept; a version string exists exactly when the release file gives both JAVA_VERSION and OS_ARCH, and then arch, major version, launcher-provided flag and JDK 8 layout follow from it; otherwise the bare runtime. |
| `SLRuntimes.LoadRuntime` | ShardLauncher/src/main/java/com/lanrhyme/shardlauncher/game/multirt/RuntimesManager.kt:67-104 | The cached runtime unless a reload is forced, else a fresh read; the result is what the cache holds afterwards. |
| `SLRuntimes.ForceReloadReadsDisk` | ShardLauncher/src/main/java/com/lanrhyme/shardlauncher/game/multirt/RuntimesManager.kt:62-65 | Evicting and then loading is a forced load, and reads the runtime from disk whatever the cache held. |
| `SLRuntimes.CachedUntilForced` | ShardLauncher/src/main/java/com/lanrhyme/shardlauncher/game/multirt/RuntimesManager.kt:67-68 | A loaded runtime survives a later unforced load of the same name even if the directory changed. |
| `SLRuntimes.RemoveRuntime` | ShardLauncher/src/main/java/com/lanrhyme/shardlauncher/game/multirt/RuntimesManager.kt:207-211 | Nothing changes when the directory is missing; a failed delete fails; otherwise the entry is dropped and every other entry is kept. |
| `SLRuntimes.GetRuntimeHome` | ShardLauncher/src/main/java/com/lanrhyme/shardlauncher/game/multirt/RuntimesManager.kt:213-220 | A missing directory fails with the cache untouched; otherwise the forced reload is cached and the name comes back exactly when the reload finds a version string. |
| `SLRuntimes.FirstWithVersion` | ShardLauncher/src/main/java/com/lanrhyme/shardlauncher/game/multirt/RuntimesManager.kt:54-56 | The index of the first runtime with exactly the requested major version, or none when no runtime has it. |
| `SLRuntimes.GetExactJreName` | ShardLauncher/src/main/java/com/lanrhyme/shardlauncher/game/multirt/RuntimesManager.kt:54-56 | A name exactly when some runtime has the requested major version, and then the name of the first such runtime. |
| `SLRuntimes.GetNearestJreName` | ShardLauncher/src/main/java/com/lanrhyme/shardlauncher/game/multirt/RuntimesManager.kt:58-60 | None exactly when every runtime is below the request; otherwise the first of the runtimes whose version is the least one at or above it (the intended nearest search). |
| `SLRuntimes.NearestAsWrittenAgrees` | ShardLauncher/src/main/java/com/lanrhyme/shardlauncher/game/multirt/RuntimesManager.kt:58-60 | The search as written, with its 32-bit distance, names the same runtime whenever no qualifying runtime lies Int.MAX_VALUE or more above the request. |
| `SLRuntimes.ExactIsNearest` | ShardLauncher/src/main/java/com/lanrhyme/shardlauncher/game/multirt/RuntimesManager.kt:54-60 | When an exact runtime exists, the nearest is that same one. |
| `AppRuntimes.GetRuntime` | app/src/main/java/com/lanrhyme/shardlauncher/game/multirt/RuntimesManager.kt:39-50 | The name is kept with no version string and the JVM's arch; JDK 8 layout exactly when version 8, otherwise version 17. |
| `AppRuntimes.GetDefaultRuntime` | app/src/main/java/com/lanrhyme/shardlauncher/game/multirt/RuntimesManager.kt:55-74 | None when the folder cannot be listed or no entry reaches the request; otherwise the runtime of the first entry that reaches it. |
| `AppRuntimes.FirstReaching` | app/src/main/java/com/lanrhyme/shardlauncher/game/multirt/RuntimesManager.kt:58-71 | The runtime of the first entry whose guessed version reaches the request, or none when none does. |
| `AppRuntimes.NameLeTotal` | app/src/main/java/com/lanrhyme/shardlauncher/game/multirt/RuntimesManager.kt:98 | Any two names are ordered one way or the other. |
| `AppRuntimes.Insert` | app/src/main/java/com/lanrhyme/shardlauncher/game/multirt/RuntimesManager.kt:98 | Inserting into a name-sorted list keeps it sorted and adds exactly that runtime. |
| `AppRuntimes.SortByName` | app/src/main/java/com/lanrhyme/shardlauncher/game/multirt/RuntimesManager.kt:98 | The result is sorted by name and a permutation of the input. |
| `AppRuntimes.DirectoryRuntimes` | app/src/main/java/com/lanrhyme/shardlauncher/game/multirt/RuntimesManager.kt:87-97 | A runtime is listed exactly when it is read from a directory entry of the listing. |
| `AppRuntimes.GetRuntimes` | app/src/main/java/com/lanrhyme/shardlauncher/game/multirt/RuntimesManager.kt:79-99 | Empty for a missing or unlistable folder; always sorted by name; otherwise exactly the directory entries' runtimes. |
| `AppRuntimes.ListedVersions` | app/src/main/java/com/lanrhyme/shardlauncher/game/multirt/RuntimesManager.kt:89-95 | Every listed runtime is version 8 with the JDK 8 layout or version 17 without it. |
| `AppRuntimes.GetExactJreName` | app/src/main/java/com/lanrhyme/shardlauncher/game/multirt/RuntimesManager.kt:104-106 | A name exactly when some runtime has the requested version, and then the first such runtime's name. |
| `AppRuntimes.NearestFromBounded` | app/src/main/java/com/lanrhyme/shardlauncher/game/multirt/RuntimesManager.kt:111-116 | The scan's slot, if any, is inside the list. |
| `AppRuntimes.FilterThenMin` | app/src/main/java/com/lanrhyme/shardlauncher/game/multirt/RuntimesManager.kt:111-116 | Filtering to the runtimes at or above the request and then taking the minimum is the one-pass scan. |
| `AppRuntimes.NearestFromIsFirstLeast` | app/src/main/java/com/lanrhyme/shardlauncher/game/multirt/RuntimesManager.kt:111-116 | The scan finds none exactly when every runtime is below the request, and otherwise the first of the least versions at or above it. |
| `AppRuntimes.GetNearestJreName` | app/src/main/java/com/lanrhyme/shardlauncher/game/multirt/RuntimesManager.kt:111-116 | None exactly when every runtime is below the request; otherwise the name of the first of the least versions at or above it. |
| `AppRuntimes.NearestAgreesWithFindNearestPositive` | app/src/main/java/com/lanrhyme/shardlauncher/game/multirt/RuntimesManager.kt:111-116 | The app's filter-then-minimum picks the same runtime as the intended nearest-positive search. |
| `AppRuntimes.LoadRuntime` | app/src/main/java/com/lanrhyme/shardlauncher/game/multirt/RuntimesManager.kt:121-127 | The empty name gives a placeholder with version 0 and no arch; any other name is the guessed runtime, version 8 or 17. |
| `SLRuntimes.MajorVersion` | ShardLauncher/src/main/java/com/lanrhyme/shardlauncher/game/multirt/RuntimesManager.kt:80-85 | The major version is 0 or the number in the first component of the version, or in the second after a leading "1"; a version without dots other than "1" is its own number, 0 when it is not one. |
| `SLRuntimes.ForceReload` | ShardLauncher/src/main/java/com/lanrhyme/shardlauncher/game/multirt/RuntimesManager.kt:62-65 | The runtime is read from disk whatever the cache held, and the cache afterwards holds it under its name and every other entry unchanged. |
| `SLRuntimes.GetNearestJreNameAsWritten` | ShardLauncher/src/main/java/com/lanrhyme/shardlauncher/game/multirt/RuntimesManager.kt:58-60 | With the search as written: no name when every runtime is below the requested version, and any name given belongs to a runtime at or above it. |
| `MathUtils.ScanAsWritten` | ShardLauncher/src/main/java/com/lanrhyme/shardlauncher/utils/math/MathUtils.kt:20-32 | From any point of the loop as written: nothing selected and nothing left that reaches the target gives null; any result is the running selection or a later object that reaches the target. |
| `MathUtils.FindNearestPositiveAsWritten` | ShardLauncher/src/main/java/com/lanrhyme/shardlauncher/utils/math/MathUtils.kt:12-33 | As written: null when no object reaches the target, and any object returned reaches it. |
| `MCOptions.ParseLine` | ShardLauncher/src/main/java/com/lanrhyme/shardlauncher/game/launch/MCOptions.kt:53-60 | A line gives an entry exactly when its first ':' is past index 0; the key is the non-empty text before that ':' and the line is key, ':' and value. |
| `MCOptions.ReadLines` | ShardLauncher/src/main/java/com/lanrhyme/shardlauncher/game/launch/MCOptions.kt:51 | The file is cut into lines at "\n", "\r" or "\r\n", and no line holds a terminator. |
| `MCOptions.ReadLinesStep` | ShardLauncher/src/main/java/com/lanrhyme/shardlauncher/game/launch/MCOptions.kt:51 | A line followed by any of the three terminators reads as that line and then the rest. |
| `MCOptions.JoinedLinesReadBack` | ShardLauncher/src/main/java/com/lanrhyme/shardlauncher/game/launch/MCOptions.kt:51 | Terminator-free lines joined by "\n", the last one non-empty, read back as exactly those lines. |
| `MCOptions.TerminatedLinesReadBack` | ShardLauncher/src/main/java/com/lanrhyme/shardlauncher/game/launch/MCOptions.kt:51 | Terminator-free lines each ended by "\n", "\r" or "\r\n" read back as exactly those lines. |
| `MCOptions.Setup` | ShardLauncher/src/main/java/com/lanrhyme/shardlauncher/game/launch/MCOptions.kt:23-30 | A missing or unreadable options file leaves the map empty. |
| `MCOptions.EntryLines` | ShardLauncher/src/main/java/com/lanrhyme/shardlauncher/game/launch/MCOptions.kt:115 | One "key:value" line per entry, in order. |
| `MCOptions.ParseEntryLine` | ShardLauncher/src/main/java/com/lanrhyme/shardlauncher/game/launch/MCOptions.kt:53-60 | A saved line with a non-empty key free of ':' parses back to its entry. |
| `MCOptions.LoadEntryLines` | ShardLauncher/src/main/java/com/lanrhyme/shardlauncher/game/launch/MCOptions.kt:52-60 | Loading saved lines puts every entry on top of the map, a later entry for a key winning. |
| `MCOptions.LoadOneEntry` | ShardLauncher/src/main/java/com/lanrhyme/shardlauncher/game/launch/MCOptions.kt:53-59 | Loading one saved line sets exactly that key to that value. |
| `MCOptions.LoadSplit` | ShardLauncher/src/main/java/com/lanrhyme/shardlauncher/game/launch/MCOptions.kt:53-60 | Loading two blocks of lines is loading the first and then the second. |
| `MCOptions.SaveLoadRoundTrip` | ShardLauncher/src/main/java/com/lanrhyme/shardlauncher/game/launch/MCOptions.kt:111-120 | Saving entries whose keys are non-empty and free of ':', "\n" and "\r", and whose values are free of "\n" and "\r", and setting up from that text gives back the map of those entries. |
| `MCOptions.AnyLineEndingLoadsAlike` | ShardLauncher/src/main/java/com/lanrhyme/shardlauncher/game/launch/MCOptions.kt:45-60 | The same entries ended by "\r\n" or "\r", as another platform writes them, load the same map. |
| `MCOptions.Save` | ShardLauncher/src/main/java/com/lanrhyme/shardlauncher/game/launch/MCOptions.kt:111-120 | For storable entries the saved text reads back as exactly one "key:value" line per entry, in order. |
| `MCOptions.MapOfEnumeration` | ShardLauncher/src/main/java/com/lanrhyme/shardlauncher/game/launch/MCOptions.kt:115 | Entries naming every key of a map exactly once, each with its value, build exactly that map, so any saved map comes back whole. |
| `MCOptions.Set` | ShardLauncher/src/main/java/com/lanrhyme/shardlauncher/game/launch/MCOptions.kt:66-68 | The key holds the value afterwards and every other key is unchanged. |
| `MCOptions.Get` | ShardLauncher/src/main/java/com/lanrhyme/shardlauncher/game/launch/MCOptions.kt:70 | Null exactly for a key that was never set, otherwise its stored value. |
| `MCOptions.ContainsKey` | ShardLauncher/src/main/java/com/lanrhyme/shardlauncher/game/launch/MCOptions.kt:72 | True exactly for the keys `get` finds. |
| `MCOptions.SetThenGet` | ShardLauncher/src/main/java/com/lanrhyme/shardlauncher/game/launch/MCOptions.kt:66-72 | Get after set returns the set value, other keys read as before, and containsKey agrees with get being non-null. |
| `MCOptions.McLang` | ShardLauncher/src/main/java/com/lanrhyme/shardlauncher/game/launch/MCOptions.kt:84-102 | ja, ko, de, fr, es, it, pt and ru map to their fixed codes; zh maps to zh_cn exactly for CN and SG, to zh_tw exactly for TW, HK and MO, else en_us; any other language gives en_us. |
| `MCOptions.LoadLanguage` | ShardLauncher/src/main/java/com/lanrhyme/shardlauncher/game/launch/MCOptions.kt:77-109 | A present, non-blank "lang" is left alone; otherwise "lang" becomes the locale's game language; no other key changes. |
| `MCOptions.LoadLanguageIdempotent` | ShardLauncher/src/main/java/com/lanrhyme/shardlauncher/game/launch/MCOptions.kt:77-109 | A second language load, on any locale, changes nothing. |
| `VersionDetail.Open` | ShardLauncher/src/main/java/com/lanrhyme/shardlauncher/ui/downloads/VersionDetailViewModel.kt:36-45 | The screen opens with the version id as its name, not edited, no loader, Fabric API and OptiFine off. |
| `VersionDetail.AutoName` | ShardLauncher/src/main/java/com/lanrhyme/shardlauncher/ui/downloads/VersionDetailViewModel.kt:214-244 | The name starts with the version id, equals it exactly when no loader and no OptiFine are chosen, and has "-<Loader>" right after the id when a loader is chosen. |
| `VersionDetail.UpdateName` | ShardLauncher/src/main/java/com/lanrhyme/shardlauncher/ui/downloads/VersionDetailViewModel.kt:214-217 | A typed name is kept; otherwise the name is rebuilt from the choices. |
| `VersionDetail.SetVersionName` | ShardLauncher/src/main/java/com/lanrhyme/shardlauncher/ui/downloads/VersionDetailViewModel.kt:163-166 | The name is the typed one and marked edited; nothing else changes. |
| `VersionDetail.SelectModLoader` | ShardLauncher/src/main/java/com/lanrhyme/shardlauncher/ui/downloads/VersionDetailViewModel.kt:168-174 | Choosing the active loader clears it, any other becomes active; Fabric API is off unless the loader is Fabric, where it is kept; the name follows the choices unless typed. |
| `VersionDetail.SelectTwiceRestoresLoader` | ShardLauncher/src/main/java/com/lanrhyme/shardlauncher/ui/downloads/VersionDetailViewModel.kt:168-169 | Choosing the same loader twice restores the loader from before. |
| `VersionDetail.ToggleFabricApi` | ShardLauncher/src/main/java/com/lanrhyme/shardlauncher/ui/downloads/VersionDetailViewModel.kt:176-178 | Only the Fabric API flag changes; the name stays. |
| `VersionDetail.SelectFabricApiVersion` | ShardLauncher/src/main/java/com/lanrhyme/shardlauncher/ui/downloads/VersionDetailViewModel.kt:185-187 | Only the selected Fabric API version changes; the name stays. |
| `VersionDetail.SelectFabricVersion` | ShardLauncher/src/main/java/com/lanrhyme/shardlauncher/ui/downloads/VersionDetailViewModel.kt:180-183 | The Fabric selection becomes the given version and nothing else changes but the name, which stays if typed and otherwise is rebuilt from the new choices. |
| `VersionDetail.SelectForgeVersion` | ShardLauncher/src/main/java/com/lanrhyme/shardlauncher/ui/downloads/VersionDetailViewModel.kt:189-192 | The Forge selection becomes the given version and nothing else changes but the name, which stays if typed and otherwise is rebuilt from the new choices. |
| `VersionDetail.SelectNeoForgeVersion` | ShardLauncher/src/main/java/com/lanrhyme/shardlauncher/ui/downloads/VersionDetailViewModel.kt:194-197 | The NeoForge selection becomes the given version and nothing else changes but the name, which stays if typed and otherwise is rebuilt from the new choices. |
| `VersionDetail.SelectQuiltVersion` | ShardLauncher/src/main/java/com/lanrhyme/shardlauncher/ui/downloads/VersionDetailViewModel.kt:199-202 | The Quilt selection becomes the given version and nothing else changes but the name, which stays if typed and otherwise is rebuilt from the new choices. |
| `VersionDetail.SelectOptifineVersion` | ShardLauncher/src/main/java/com/lanrhyme/shardlauncher/ui/downloads/VersionDetailViewModel.kt:209-212 | The OptiFine selection becomes the given version and nothing else changes but the name, which stays if typed and otherwise is rebuilt from the new choices. |
| `VersionDetail.ToggleOptifine` | ShardLauncher/src/main/java/com/lanrhyme/shardlauncher/ui/downloads/VersionDetailViewModel.kt:204-207 | The OptiFine flag becomes the given one and nothing else changes but the name, which stays if typed and otherwise is rebuilt from the new choices. |
| `VersionDetail.AutoNameInputs` | ShardLauncher/src/main/java/com/lanrhyme/shardlauncher/ui/downloads/VersionDetailViewModel.kt:214-244 | The automatic name depends only on the version id, the loader, the OptiFine switch and the selected loader versions, never on the Fabric API choice. |
| `VersionDetail.UpdateNameFollows` | ShardLauncher/src/main/java/com/lanrhyme/shardlauncher/ui/downloads/VersionDetailViewModel.kt:214-244 | After a name update the name follows the choices unless typed. |
| `VersionDetail.StepIntended` | ShardLauncher/src/main/java/com/lanrhyme/shardlauncher/ui/downloads/VersionDetailViewModel.kt:86-244 | The corrected step: every user action is the step as written, and a list that arrives also brings the name up to date. |
| `VersionDetail.StepKeepsName` | ShardLauncher/src/main/java/com/lanrhyme/shardlauncher/ui/downloads/VersionDetailViewModel.kt:86-244 | Under the corrected step every action, a list arriving included, keeps the name following the choices unless typed. |
| `VersionDetail.NameAlwaysFollowsChoices` | ShardLauncher/src/main/java/com/lanrhyme/shardlauncher/ui/downloads/VersionDetailViewModel.kt:86-244 | Over any run of user actions and arriving lists, under the corrected step, the name keeps following the choices unless typed. |
| `VersionDetail.UserStepKeepsName` | ShardLauncher/src/main/java/com/lanrhyme/shardlauncher/ui/downloads/VersionDetailViewModel.kt:163-212 | As written, every user action keeps the name following the choices unless typed. |
| `VersionDetail.EarlyLoadKeepsName` | ShardLauncher/src/main/java/com/lanrhyme/shardlauncher/ui/downloads/VersionDetailViewModel.kt:86-160 | As written, a list arriving before any loader or OptiFine is chosen keeps the name in step. |
| `VersionDetail.AsWrittenLoadLeavesNameStale` | ShardLauncher/src/main/java/com/lanrhyme/shardlauncher/ui/downloads/VersionDetailViewModel.kt:100-107 | As written, choosing Fabric and then receiving a list with a stable loader leaves the name "<id>-Fabric" while the choices call for "<id>-Fabric-<version>". |
| `VersionDetail.OpenNameFollowsChoices` | ShardLauncher/src/main/java/com/lanrhyme/shardlauncher/ui/downloads/VersionDetailViewModel.kt:36-45 | The name of a freshly opened screen follows its choices. |
| `VersionDetail.TypedNameSticks` | ShardLauncher/src/main/java/com/lanrhyme/shardlauncher/ui/downloads/VersionDetailViewModel.kt:163-166 | After a typed name, no run of actions without another typed name changes it or the edited mark. |
| `VersionDetail.FirstIndexWhere` | ShardLauncher/src/main/java/com/lanrhyme/shardlauncher/ui/downloads/VersionDetailViewModel.kt:104-114 | The index of the first element meeting the test, or none when none does. |
| `VersionDetail.FirstWhere` | ShardLauncher/src/main/java/com/lanrhyme/shardlauncher/ui/downloads/VersionDetailViewModel.kt:104-114 | None exactly when no element meets the test; otherwise the first one that does. |
| `VersionDetail.First` | ShardLauncher/src/main/java/com/lanrhyme/shardlauncher/ui/downloads/VersionDetailViewModel.kt:94-151 | None exactly for an empty list, else its first element. |
| `VersionDetail.ForgeToLoaderVersion` | ShardLauncher/src/main/java/com/lanrhyme/shardlauncher/ui/downloads/VersionDetailViewModel.kt:247-259 | The version and time are kept; recommended exactly when the version ends with "-recommended", with status "Recommended", else no status. |
| `VersionDetail.OptiFineNameSplits` | ShardLauncher/src/main/java/com/lanrhyme/shardlauncher/ui/downloads/VersionDetailViewModel.kt:269-273 | An OptiFine version name splits on '_' into its type and patch when neither holds '_'. |
| `VersionDetail.OptiFineFor` | ShardLauncher/src/main/java/com/lanrhyme/shardlauncher/ui/downloads/VersionDetailViewModel.kt:146-149 | A version is listed exactly when some token for this game version maps to it. |
| `VersionDetail.MapSeq` | ShardLauncher/src/main/java/com/lanrhyme/shardlauncher/ui/downloads/VersionDetailViewModel.kt:102-149 | One mapped element per element, in order. |
| `VersionDetail.LoadFabricApi` | ShardLauncher/src/main/java/com/lanrhyme/shardlauncher/ui/downloads/VersionDetailViewModel.kt:91-97 | A failed fetch changes nothing; otherwise the list is the answer (empty for none) and the first is selected; nothing else changes. |
| `VersionDetail.LoadFabric` | ShardLauncher/src/main/java/com/lanrhyme/shardlauncher/ui/downloads/VersionDetailViewModel.kt:100-107 | A failed fetch changes nothing; otherwise the list is the answer and the first stable version is selected; nothing else changes. |
| `VersionDetail.LoadForge` | ShardLauncher/src/main/java/com/lanrhyme/shardlauncher/ui/downloads/VersionDetailViewModel.kt:110-117 | A failed fetch changes nothing; otherwise the tokens are mapped and the first recommended version is selected; nothing else changes. |
| `VersionDetail.LoadNeoForge` | ShardLauncher/src/main/java/com/lanrhyme/shardlauncher/ui/downloads/VersionDetailViewModel.kt:120-127 | A failed fetch changes nothing; otherwise the versions are listed and the first is selected; nothing else changes. |
| `VersionDetail.LoadQuilt` | ShardLauncher/src/main/java/com/lanrhyme/shardlauncher/ui/downloads/VersionDetailViewModel.kt:130-142 | A failed fetch changes nothing; otherwise the versions are listed as stable and the first is selected; nothing else changes. |
| `VersionDetail.LoadOptifine` | ShardLauncher/src/main/java/com/lanrhyme/shardlauncher/ui/downloads/VersionDetailViewModel.kt:145-154 | A failed fetch changes nothing; otherwise this game version's OptiFine builds are listed and the first is selected; nothing else changes. |
| `VersionDetail.LoadAll` | ShardLauncher/src/main/java/com/lanrhyme/shardlauncher/ui/downloads/VersionDetailViewModel.kt:86-160 | Loading the lists touches nothing but the lists and the selections, whatever each fetch does. |
| `VersionDetail.ApplyLoad` | ShardLauncher/src/main/java/com/lanrhyme/shardlauncher/ui/downloads/VersionDetailViewModel.kt:86-160 | A list arriving touches only the lists and the default selections, never the name. |
| `VersionDetail.Step` | ShardLauncher/src/main/java/com/lanrhyme/shardlauncher/ui/downloads/VersionDetailViewModel.kt:86-244 | A list arriving leaves the name, the edited mark, the loader and the OptiFine flag alone; typing sets the name and marks it edited; once edited, the mark stays and only typing changes the name. |
| `VersionDetail.DefaultForgeIsFirstRecommended` | ShardLauncher/src/main/java/com/lanrhyme/shardlauncher/ui/downloads/VersionDetailViewModel.kt:110-117 | No Forge default exactly when no token ends in "-recommended"; otherwise the first such token. |
| `VersionDetail.Download` | ShardLauncher/src/main/java/com/lanrhyme/shardlauncher/ui/downloads/VersionDetailViewModel.kt:275-326 | Only for a version in the manifest; the game version and typed name are passed, the Fabric API only when its flag is on, and each loader exactly when it has a selected version, carrying that version under the loader's own name. |
| `VersionDetail.DownloadIgnoresActiveLoader` | ShardLauncher/src/main/java/com/lanrhyme/shardlauncher/ui/downloads/VersionDetailViewModel.kt:286-326 | The download does not depend on which loader is active. |
| `VersionDetail.ForgeInstallCarriesFabric` | ShardLauncher/src/main/java/com/lanrhyme/shardlauncher/ui/downloads/VersionDetailViewModel.kt:168-172 | Switching to Forge still passes a selected Fabric loader along, while the Fabric API is dropped. |
| `VersionDetail.OnlyActive` | ShardLauncher/src/main/java/com/lanrhyme/shardlauncher/ui/downloads/VersionDetailViewModel.kt:286-326 | Only the selections change: those of loaders other than the active one are cleared, the Fabric API, OptiFine and the active loader's version are kept. |
| `VersionDetail.DownloadIntended` | ShardLauncher/src/main/java/com/lanrhyme/shardlauncher/ui/downloads/VersionDetailViewModel.kt:286-326 | The corrected request: as the download, but a loader is passed exactly when it is the active one and has a selected version, carrying that version under the loader's own name. |
| `VersionDetail.IntendedSendsActiveLoaderOnly` | ShardLauncher/src/main/java/com/lanrhyme/shardlauncher/ui/downloads/VersionDetailViewModel.kt:286-326 | With no loader chosen the corrected request carries none; with Forge or Fabric chosen it carries that loader's selected version. |
| `VersionDetail.DownloadsAgreeWithOneSelection` | ShardLauncher/src/main/java/com/lanrhyme/shardlauncher/ui/downloads/VersionDetailViewModel.kt:286-326 | When no other loader's version is selected, the request as written and the corrected one are the same. |
| `VersionDialogs.ValidateVersionName` | ShardLauncher/src/main/java/com/lanrhyme/shardlauncher/ui/version/dialog/VersionOperationDialogs.kt:265-273 | Passes exactly for a non-empty name without illegal characters that is not taken and differs from the original; otherwise the first failing check's message, in order empty, illegal, taken, same. |
| `VersionDialogs.ErrorIsValidationFailure` | ShardLauncher/src/main/java/com/lanrhyme/shardlauncher/ui/version/dialog/VersionOperationDialogs.kt:25-28 | The dialog is in error exactly when validation against the version's name fails. |
| `VersionDialogs.SupportingText` | ShardLauncher/src/main/java/com/lanrhyme/shardlauncher/ui/version/dialog/VersionOperationDialogs.kt:40-45 | A message is shown exactly when in error, and it is validation's message. |
| `VersionDialogs.OwnNameRejected` | ShardLauncher/src/main/java/com/lanrhyme/shardlauncher/ui/version/dialog/VersionOperationDialogs.kt:25-28 | The version's own name is an error in its rename dialog. |
| `VersionDialogs.CopyOpensInError` | ShardLauncher/src/main/java/com/lanrhyme/shardlauncher/ui/version/dialog/VersionOperationDialogs.kt:64-67 | The copy dialog opens with an empty name, in error, showing the empty-name message. |
| `VersionDialogs.Next` | ShardLauncher/src/main/java/com/lanrhyme/shardlauncher/ui/version/dialog/VersionOperationDialogs.kt:185-261 | Dismiss returns to no dialog; confirm starts the rename or copy task only when the name is valid, the delete task always; an invalid delete closes either way; a running task stays on confirm. |
| `VersionDialogs.TasksCarryValidNames` | ShardLauncher/src/main/java/com/lanrhyme/shardlauncher/ui/version/dialog/VersionOperationDialogs.kt:194-242 | A rename or copy task only starts from its own dialog, on that dialog's version, with a name that passes validation; a delete task only from the delete dialog on its version. |
| `VersionDialogs.TaskErrorText` | ShardLauncher/src/main/java/com/lanrhyme/shardlauncher/ui/version/dialog/VersionOperationDialogs.kt:258 | The exception's message, or "处理失败" when it has none, so the text shown is empty only for an empty message, and is the generic text exactly when there is no message or the message is that text. |
| `VersionDialogs.DeleteDialogText` | ShardLauncher/src/main/java/com/lanrhyme/shardlauncher/ui/version/dialog/VersionOperationDialogs.kt:150-172 | The given message when there is one; otherwise the warning naming the version, ending with the cannot-be-undone line. |
| `VersionDialogs.InvalidDeleteText` | ShardLauncher/src/main/java/com/lanrhyme/shardlauncher/ui/version/dialog/VersionOperationDialogs.kt:247 | The text names the version right after "版本 ". |
| `VersionTypes.FromString` | app/src/main/java/com/lanrhyme/shardlauncher/game/version/installed/VersionType.kt:19-27 | A known type exactly when the lower-cased text spells its name; unknown otherwise, also for null. |
| `VersionTypes.LowerIdempotent` | app/src/main/java/com/lanrhyme/shardlauncher/game/version/installed/VersionType.kt:20 | Lower-casing twice is lower-casing once. |
| `VersionTypes.FromStringOfName` | app/src/main/java/com/lanrhyme/shardlauncher/game/version/installed/VersionType.kt:19-27 | Any spelling whose lower case is a type's name gives that type. |
| `VersionTypes.FromStringIgnoresCase` | app/src/main/java/com/lanrhyme/shardlauncher/game/version/installed/VersionType.kt:20 | The answer does not depend on letter case. |
| `VersionTypes.GetVersionType` | app/src/main/java/com/lanrhyme/shardlauncher/game/version/installed/VersionType.kt:34-45 | Never alpha; unknown without a version; snapshot exactly with a 'w'; beta exactly with "pre" or "rc" and no 'w'; release exactly for a dotted number without those. |
| `VersionTypes.NumberedVersionIsRelease` | app/src/main/java/com/lanrhyme/shardlauncher/game/version/installed/VersionType.kt:34-45 | "major.minor" is a release. |
| `VersionTypes.SnapshotBeforeBeta` | app/src/main/java/com/lanrhyme/shardlauncher/game/version/installed/VersionType.kt:38-41 | A version holding both 'w' and "pre" is a snapshot. |
| `Keycodes.AndroidCodes` | ShardLauncher/src/main/java/com/lanrhyme/shardlauncher/game/input/EfficientAndroidLWJGLKeycode.java:11-12 | the Android column of the table, slot by slot |
| `Keycodes.AscendingIsSorted` | ShardLauncher/src/main/java/com/lanrhyme/shardlauncher/game/input/EfficientAndroidLWJGLKeycode.java:153-155 | a strictly ascending column is sorted in the sense binary search needs |
| `Keycodes.TableAscending` | ShardLauncher/src/main/java/com/lanrhyme/shardlauncher/game/input/EfficientAndroidLWJGLKeycode.java:10-121 | the static initializer fills exactly 106 slots, with the Android codes strictly ascending, as `Arrays.binarySearch` requires |
| `Keycodes.BinarySearch` | ShardLauncher/src/main/java/com/lanrhyme/shardlauncher/game/input/EfficientAndroidLWJGLKeycode.java:153-155 | a non-negative answer is a slot holding the key; a negative one encodes an insertion point inside the array |
| `Keycodes.IndexByKey` | ShardLauncher/src/main/java/com/lanrhyme/shardlauncher/game/input/EfficientAndroidLWJGLKeycode.java:153-155 | the index is non-negative exactly when some slot holds the Android code, and then that slot holds it |
| `Keycodes.ContainsIndexMeansPresent` | ShardLauncher/src/main/java/com/lanrhyme/shardlauncher/game/input/EfficientAndroidLWJGLKeycode.java:124-126 | `containsIndex(getIndexByKey(k))` holds exactly when the table has a slot for k |
| `Keycodes.ContainsIndex` | ShardLauncher/src/main/java/com/lanrhyme/shardlauncher/game/input/EfficientAndroidLWJGLKeycode.java:124-126 | Every slot of the table is accepted, and on the answer of a key lookup it holds exactly when the table has a slot for that key. |
| `Keycodes.ValueByIndex` | ShardLauncher/src/main/java/com/lanrhyme/shardlauncher/game/input/EfficientAndroidLWJGLKeycode.java:149-151 | the GLFW key of a slot; an index outside the array is an error |
| `Keycodes.IndexByValue` | ShardLauncher/src/main/java/com/lanrhyme/shardlauncher/game/input/EfficientAndroidLWJGLKeycode.java:157-162 | the first slot holding the GLFW key when there is one (no earlier slot holds it), 0 when none does |
| `Keycodes.FirstSlot` | ShardLauncher/src/main/java/com/lanrhyme/shardlauncher/game/input/EfficientAndroidLWJGLKeycode.java:157-162 | the linear scan from a start slot finds the first later slot with the key, or falls back to 0 |
| `Keycodes.BackAndEscapeShareKey` | ShardLauncher/src/main/java/com/lanrhyme/shardlauncher/game/input/EfficientAndroidLWJGLKeycode.java:18-83 | BACK and ESCAPE map to the same GLFW key, so looking ESCAPE's key back up returns BACK's slot |
| `Keycodes.HomeAndMoveHomeShareKey` | ShardLauncher/src/main/java/com/lanrhyme/shardlauncher/game/input/EfficientAndroidLWJGLKeycode.java:17-88 | HOME and MOVE_HOME share a GLFW key, and the reverse lookup returns HOME's slot |
| `Keycodes.PlusAndNumpadAddShareKey` | ShardLauncher/src/main/java/com/lanrhyme/shardlauncher/game/input/EfficientAndroidLWJGLKeycode.java:80-117 | PLUS and NUMPAD_ADD share a GLFW key, and the reverse lookup returns PLUS's slot |
| `Keycodes.IndexByValueOfSlot` | ShardLauncher/src/main/java/com/lanrhyme/shardlauncher/game/input/EfficientAndroidLWJGLKeycode.java:149-162 | looking a slot's key back up never lands after that slot and always lands on a slot with the same key |
| `Keycodes.ExecKey` | ShardLauncher/src/main/java/com/lanrhyme/shardlauncher/game/input/EfficientAndroidLWJGLKeycode.java:128-147 | the modifier flags are copied from the event; a slot inside the table sends its key with scancode 0, the current modifiers and "down" exactly for ACTION_DOWN; an index outside the table sends nothing |
| `LwjglCharSender.LwjglKeyOfTable` | ShardLauncher/src/main/java/com/lanrhyme/shardlauncher/game/input/LWJGLCharSender.kt:13-15 | the key sent for an Android code is the table's key when the table holds the code, and GLFW_KEY_UNKNOWN otherwise |
| `LwjglCharSender.SendCharEvents` | ShardLauncher/src/main/java/com/lanrhyme/shardlauncher/game/input/LWJGLCharSender.kt:8-10 | one CHAR event carrying the UTF-16 code unit's value and zeros |
| `LwjglCharSender.SendKeyPressEvents` | ShardLauncher/src/main/java/com/lanrhyme/shardlauncher/game/input/LWJGLCharSender.kt:12-18 | one KEY event with the mapped key, the UTF-16 code unit's value, state 1 exactly when pressed, and the modifiers passed through |
| `LwjglCharSender.SendOtherEvents` | ShardLauncher/src/main/java/com/lanrhyme/shardlauncher/game/input/LWJGLCharSender.kt:20-33 | at most one event, and one exactly when the key is in the table and the action is DOWN or UP; it is a KEY event with state 1 for DOWN, 0 for UP, no modifiers, and the low 16 bits of `unicodeChar` |
| `LwjglCharSender.SendOtherIsKeyPress` | ShardLauncher/src/main/java/com/lanrhyme/shardlauncher/game/input/LWJGLCharSender.kt:12-33 | for a key in the table and a DOWN or UP action, `sendOther` sends exactly what `sendKeyPress` would with the event's character narrowed to a 16-bit `Char` and no modifiers |
| `LwjglCharSender.Typing` | ShardLauncher/src/main/java/com/lanrhyme/shardlauncher/game/input/LWJGLCharSender.kt:8-10 | one `sendChar` call per UTF-16 code unit, in order |
| `LwjglCharSender.TypingRoundTrip` | ShardLauncher/src/main/java/com/lanrhyme/shardlauncher/game/input/LWJGLCharSender.kt:8-10 | typing a sequence of UTF-16 code units one `sendChar` at a time delivers exactly those code units, in order |
| `LwjglCharSender.AstralCharTypesSurrogatePair` | ShardLauncher/src/main/java/com/lanrhyme/shardlauncher/game/input/LWJGLCharSender.kt:8-10 | a character beyond the 16-bit range reaches the game as two CHAR events, a high and a low surrogate that decode back to the character |
| `Text.Utf16Units` | ShardLauncher/src/main/java/com/lanrhyme/shardlauncher/game/input/LWJGLCharSender.kt:8-10 | a character is one code unit below 0x10000 and otherwise a high surrogate then a low surrogate that decode back to it |
| `LwjglCharSender.RunAppend` | ShardLauncher/src/main/java/com/lanrhyme/shardlauncher/game/input/LWJGLCharSender.kt:8-18 | the events of two call runs back to back are the two event runs back to back |
| `LwjglCharSender.HeldKeysAppend` | ShardLauncher/src/main/java/com/lanrhyme/shardlauncher/game/input/LWJGLCharSender.kt:12-18 | the GLFW keys held after two event runs are those after the first run, updated by the second |
| `LwjglCharSender.PressReleaseGlfw` | ShardLauncher/src/main/java/com/lanrhyme/shardlauncher/game/input/LWJGLCharSender.kt:17 | a press of a GLFW key followed by its release leaves nothing held |
| `LwjglCharSender.TapReleasesGlfw` | ShardLauncher/src/main/java/com/lanrhyme/shardlauncher/game/input/LWJGLCharSender.kt:12-18 | a tap (press then release) of any Android key, with any 16-bit character leaves no GLFW key held |
| `LwjglCharSender.CompositeReleasesGlfw` | SL-GameCore/src/main/java/com/lanrhyme/shardlauncher/game/input/CharacterSenderStrategy.kt:11-17 | each default method, run through the LWJGL sender, leaves no GLFW key held |
| `LwjglCharSender.ScriptReleasesGlfw` | SL-GameCore/src/main/java/com/lanrhyme/shardlauncher/game/input/CharacterSenderStrategy.kt:11-17 | any sequence of default methods, run through the LWJGL sender, leaves every GLFW key released |
| `SenderStrategy.Calls` | SL-GameCore/src/main/java/com/lanrhyme/shardlauncher/game/input/CharacterSenderStrategy.kt:11-17 | Enter and Tab each type one control character; Backspace and the arrows press and then release the same key |
| `SenderStrategy.HeldAppend` | SL-GameCore/src/main/java/com/lanrhyme/shardlauncher/game/input/CharacterSenderStrategy.kt:9-10 | the keys held after two call runs are those after the first, updated by the second |
| `SenderStrategy.CompositeReleases` | SL-GameCore/src/main/java/com/lanrhyme/shardlauncher/game/input/CharacterSenderStrategy.kt:11-17 | a default method releases every key it presses and never leaves a key down that was up before |
| `SenderStrategy.ScriptLeavesNothingHeld` | SL-GameCore/src/main/java/com/lanrhyme/shardlauncher/game/input/CharacterSenderStrategy.kt:11-17 | any sequence of default methods, from nothing held, ends with nothing held |
| `SenderStrategy.KeyPressesAppend` | SL-GameCore/src/main/java/com/lanrhyme/shardlauncher/game/input/CharacterSenderStrategy.kt:10 | key calls of two runs add up |
| `SenderStrategy.ScriptCounts` | SL-GameCore/src/main/java/com/lanrhyme/shardlauncher/game/input/CharacterSenderStrategy.kt:11-17 | a run makes two key calls per key-tapping method and one character call per Enter or Tab, and nothing else |
| `ZLBridge.EncodeDecode` | app/src/main/java/com/lanrhyme/shardlauncher/bridge/ZLBridge.java:33-64 | every input, its characters being 16-bit Java `char`s, survives encoding as a `sendInputData` call, and every call that decodes is the encoding of what it decodes to |
| `ZLBridge.EncodeAll` | app/src/main/java/com/lanrhyme/shardlauncher/bridge/ZLBridge.java:115-117 | a run of inputs becomes one call per input, in order |
| `ZLBridge.SendKey` | app/src/main/java/com/lanrhyme/shardlauncher/bridge/ZLBridge.java:38-42 | a press then a release of the same key and 16-bit character |
| `ZLBridge.SendKeyState` | app/src/main/java/com/lanrhyme/shardlauncher/bridge/ZLBridge.java:44-47 | one KEY event with the given state |
| `ZLBridge.SendChar` | app/src/main/java/com/lanrhyme/shardlauncher/bridge/ZLBridge.java:49-51 | one CHAR event carrying the 16-bit character's code unit |
| `ZLBridge.SendMousePress` | app/src/main/java/com/lanrhyme/shardlauncher/bridge/ZLBridge.java:53-55 | one MOUSE_BUTTON event whose second field is 1 exactly when the button goes down |
| `ZLBridge.SendMouseClick` | app/src/main/java/com/lanrhyme/shardlauncher/bridge/ZLBridge.java:57-60 | a press then a release of the same buttons |
| `ZLBridge.SendMousePos` | app/src/main/java/com/lanrhyme/shardlauncher/bridge/ZLBridge.java:62-64 | one CURSOR_POS event carrying x and y |
| `ZLBridge.SendKeyLeavesKeyUp` | app/src/main/java/com/lanrhyme/shardlauncher/bridge/ZLBridge.java:38-42 | after `sendKey(c, k)` the key is up, whatever came before |
| `ZLBridge.Dlopen` | app/src/main/java/com/lanrhyme/shardlauncher/bridge/ZLBridge.java:85-89 | the stub reports success for any library path |
| `ZLBridge.Chdir` | app/src/main/java/com/lanrhyme/shardlauncher/bridge/ZLBridge.java:126-130 | the stub reports success (0) for any path |
| `CursorRegistry.Register` | LWJGL/src/main/java/com/movtery/zalithlauncher/CursorRegistry.java:21-30 | a known shape gets its id back with nothing changed; a new shape gets the counter's value, unused before, recorded in both maps, and the counter moves on; the maps stay inverse |
| `CursorRegistry.GetShape` | LWJGL/src/main/java/com/movtery/zalithlauncher/CursorRegistry.java:32-34 | A registered id gives the shape it was registered for; an unknown id gives the arrow shape. |
| `CursorRegistry.Initialized` | LWJGL/src/main/java/com/movtery/zalithlauncher/CursorRegistry.java:13-19 | The registry starts with only the arrow shape, under id 4, which is the default cursor, and the counter at 5. |
| `CursorRegistry.DefaultCursorIsArrow` | LWJGL/src/main/java/com/movtery/zalithlauncher/CursorRegistry.java:13-19 | the default cursor is id 4 and shows the arrow, and the next id is 5 |
| `CursorRegistry.RegisterThenGetShape` | LWJGL/src/main/java/com/movtery/zalithlauncher/CursorRegistry.java:21-34 | looking up the id a shape was registered under gives back that shape |
| `CursorRegistry.RegisterIdempotent` | LWJGL/src/main/java/com/movtery/zalithlauncher/CursorRegistry.java:22-24 | registering a shape a second time changes nothing and returns the same id |
| `CursorRegistry.RegisterAll` | LWJGL/src/main/java/com/movtery/zalithlauncher/CursorRegistry.java:21-30 | registering several shapes keeps every earlier id's shape, and every id handed out shows its shape |
| `CursorRegistry.FreshShapesGetConsecutiveIds` | LWJGL/src/main/java/com/movtery/zalithlauncher/CursorRegistry.java:26-29 | distinct new shapes get consecutive ids from the counter on |
| `CursorRegistry.IdsNeverReused` | LWJGL/src/main/java/com/movtery/zalithlauncher/CursorRegistry.java:21-30 | distinct shapes always get distinct ids |
| `AccountUtils.AccountTypePriority` | app/src/main/java/com/lanrhyme/shardlauncher/game/account/AccountUtils.kt:25-31 | priority 0 exactly for Microsoft accounts, `Int.MAX_VALUE` exactly for an account without a type, and never negative |
| `AccountUtils.PriorityOrder` | app/src/main/java/com/lanrhyme/shardlauncher/game/account/AccountUtils.kt:25-31 | sorting by priority puts Microsoft accounts before all others and untyped accounts after all typed ones, with every other type tied |
| `AccountUtils.GetDisplayName` | app/src/main/java/com/lanrhyme/shardlauncher/game/account/AccountUtils.kt:33-35 | fixed names for Microsoft and local accounts, the type itself for any other type, and "未知" when there is no type |
| `AccountUtils.ClassificationConsistent` | app/src/main/java/com/lanrhyme/shardlauncher/game/account/AccountUtils.kt:9-23 | a local account is never an auth-server account, Local and Microsoft exclude each other, and an account needs no login exactly when it is local |
| `AccountUtils.IsLocalAccount` | app/src/main/java/com/lanrhyme/shardlauncher/game/account/AccountUtils.kt:17-19 | Local exactly for the type "Local", compared case-sensitively, so an untyped account or the type "local" is not local, and no local account is a Microsoft one. |
| `AccountUtils.IsMicrosoftAccount` | app/src/main/java/com/lanrhyme/shardlauncher/game/account/AccountUtils.kt:13-15 | Microsoft exactly for the type "Microsoft"; an untyped account or the type "microsoft" is not. |
| `AccountUtils.IsAuthServerAccount` | app/src/main/java/com/lanrhyme/shardlauncher/game/account/AccountUtils.kt:9-11 | An auth-server account is never local; one is exactly when the account is not local and its other base URL is set and not "0", whatever its type otherwise. |
| `AccountUtils.IsNoLoginRequired` | app/src/main/java/com/lanrhyme/shardlauncher/game/account/AccountUtils.kt:21-23 | No account needs no login; an account needs none exactly when it is local, so never a Microsoft one. |
| `AccountExtensions.HasSkinFile` | app/src/main/java/com/lanrhyme/shardlauncher/game/account/AccountExtensions.kt:46-47 | no account has a skin file |
| `AccountExtensions.IsLocalAccount` | app/src/main/java/com/lanrhyme/shardlauncher/game/account/AccountExtensions.kt:25-27 | Local exactly for the type "local"; an untyped account or the type "Local" is not, and no local account is a Microsoft or auth-server one. |
| `AccountExtensions.IsMicrosoftAccount` | app/src/main/java/com/lanrhyme/shardlauncher/game/account/AccountExtensions.kt:32-34 | Microsoft exactly for the type "microsoft"; an untyped account or the type "Microsoft" is not, and no Microsoft account is an auth-server one. |
| `AccountExtensions.IsAuthServerAccount` | app/src/main/java/com/lanrhyme/shardlauncher/game/account/AccountExtensions.kt:39-41 | Auth-server exactly for the type "authserver", without looking at any base URL; an untyped account is not one. |
| `AccountExtensions.GetDisplayName` | app/src/main/java/com/lanrhyme/shardlauncher/game/account/AccountExtensions.kt:52-54 | the user name unless it is blank, then "Unknown User"; never blank |
| `AccountExtensions.AccountTypePriority` | app/src/main/java/com/lanrhyme/shardlauncher/game/account/AccountExtensions.kt:59-66 | a level from 0 to 3; levels 0, 1 and 2 are exactly the microsoft, authserver and local types, and 3 is every other type |
| `AccountExtensions.PriorityDistinguishesTypes` | app/src/main/java/com/lanrhyme/shardlauncher/game/account/AccountExtensions.kt:11-66 | two accounts of known types share a level exactly when they have the same type |
| `Renderers.RendererEGL` | app/src/main/java/com/lanrhyme/shardlauncher/game/renderer/Renderers.kt:73-101 | only the Vulkan renderer has no EGL library |
| `Renderers.RendererId` | app/src/main/java/com/lanrhyme/shardlauncher/game/renderer/Renderers.kt:65-101 | Each id is one that selecting a renderer recognises as that renderer, so no two renderers share an id. |
| `Renderers.RendererName` | app/src/main/java/com/lanrhyme/shardlauncher/game/renderer/Renderers.kt:65-101 | The GL renderers are named "OpenGL ES " and their version, 2.0 or 3.0; the Vulkan renderer alone is named "Vulkan". |
| `Renderers.RendererSummary` | app/src/main/java/com/lanrhyme/shardlauncher/game/renderer/Renderers.kt:65-101 | Every renderer has a summary: its name followed by " renderer". |
| `Renderers.RendererLibrary` | app/src/main/java/com/lanrhyme/shardlauncher/game/renderer/Renderers.kt:65-101 | Every renderer has a library; the two GL renderers share "libGL.so.1" and Vulkan loads "libvulkan.so". |
| `Renderers.UniqueIdentifier` | app/src/main/java/com/lanrhyme/shardlauncher/game/renderer/Renderers.kt:52 | the unique identifier defaults to the renderer id |
| `Renderers.IsCurrentRendererValid` | app/src/main/java/com/lanrhyme/shardlauncher/game/renderer/Renderers.kt:20-22 | the current renderer is always reported valid |
| `Renderers.SetCurrentRenderer` | app/src/main/java/com/lanrhyme/shardlauncher/game/renderer/Renderers.kt:27-34 | an id that names a renderer selects it; any other id selects OpenGL ES 2 |
| `Renderers.SelectByOwnId` | app/src/main/java/com/lanrhyme/shardlauncher/game/renderer/Renderers.kt:27-34 | selecting a renderer by its own id makes it current whatever was current, and no two renderers share an id |
| `Renderers.RendererEnv` | app/src/main/java/com/lanrhyme/shardlauncher/game/renderer/Renderers.kt:65-101 | Each environment is one variable: LIBGL_ES set to the GLES major version for the GL renderers, and only the zink loader override for Vulkan. |
| `DriverPlugins.Find` | app/src/main/java/com/lanrhyme/shardlauncher/game/plugin/driver/DriverPluginManager.kt:25 | the first driver with the id, or none when no driver has it |
| `DriverPlugins.SetDriverById` | app/src/main/java/com/lanrhyme/shardlauncher/game/plugin/driver/DriverPluginManager.kt:24-26 | fails exactly on an empty list; otherwise the list is unchanged and the current driver has the id when some listed driver does, and is the first driver when none does |
| `DriverPlugins.InitDriver` | app/src/main/java/com/lanrhyme/shardlauncher/game/plugin/driver/DriverPluginManager.kt:24-47 | the list is cleared only on reset and then gains Turnip at the end; a current driver from the list is always chosen: the saved one whenever that id is listed, and otherwise the first driver of the list |
| `DriverPlugins.PluginDriver` | app/src/main/java/com/lanrhyme/shardlauncher/game/plugin/driver/DriverPluginManager.kt:57-72 | an app contributes a driver exactly when it is not a system app, has metadata, says fclPlugin=true and names a driver; the driver's id is the package name and its name the named driver |
| `DriverPlugins.ParsePlugin` | app/src/main/java/com/lanrhyme/shardlauncher/game/plugin/driver/DriverPluginManager.kt:52-78 | the contributed driver, if any, is appended; nothing else changes |
| `DriverPlugins.PluginSelectable` | app/src/main/java/com/lanrhyme/shardlauncher/game/plugin/driver/DriverPluginManager.kt:24-78 | a plugin added after initialisation can be selected by its package name when no earlier driver has that id |
| `SettingUnit.NewUnit` | app/src/main/java/com/lanrhyme/shardlauncher/settings/unit/AbstractSettingUnit.kt:14-19 | a new unit keeps its key and default and has no repository |
| `SettingUnit.Init` | app/src/main/java/com/lanrhyme/shardlauncher/settings/unit/AbstractSettingUnit.kt:21-24 | the unit is initialised with the given repository, replacing any earlier one; key and default never change |
| `SettingUnit.GetValue` | app/src/main/java/com/lanrhyme/shardlauncher/settings/unit/AbstractSettingUnit.kt:26-29 | succeeds exactly when initialised, with the subclass's read of the repository; otherwise the IllegalStateException naming the key |
| `SettingUnit.SetValue` | app/src/main/java/com/lanrhyme/shardlauncher/settings/unit/AbstractSettingUnit.kt:31-34 | succeeds exactly when initialised, leaving the subclass's write in the repository; otherwise the same error |
| `SettingUnit.MessageNamesKey` | app/src/main/java/com/lanrhyme/shardlauncher/settings/unit/AbstractSettingUnit.kt:39-43 | the error message starts "Setting '" and names the key right after it |
| `SettingUnit.InitEnablesAccess` | app/src/main/java/com/lanrhyme/shardlauncher/settings/unit/AbstractSettingUnit.kt:21-43 | before init every access fails; after init every access succeeds, and a value set reads back when the repository returns the last write |
| `Architecture.ArchAsString` | app/src/main/java/com/lanrhyme/shardlauncher/utils/device/Architecture.kt:18-26 | the launcher's name for the first supported ABI; an empty ABI list is an error |
| `Architecture.Is64Bit` | app/src/main/java/com/lanrhyme/shardlauncher/utils/device/Architecture.kt:31-33 | 64-bit exactly when the 64-bit ABI list has an entry |
| `Architecture.ArchNameKnown` | app/src/main/java/com/lanrhyme/shardlauncher/utils/device/Architecture.kt:19-25 | arm64-v8a becomes aarch64 and armeabi-v7a becomes arm, and renaming a name a second time changes nothing |
| `Architecture.IsARM` | app/src/main/java/com/lanrhyme/shardlauncher/utils/device/Architecture.kt:38-41 | fails exactly for an empty ABI list; otherwise true exactly when the preferred ABI is arm64-v8a, armeabi-v7a, aarch64 or arm |
| `Architecture.IsX86` | app/src/main/java/com/lanrhyme/shardlauncher/utils/device/Architecture.kt:46-49 | fails exactly for an empty ABI list; otherwise true exactly when the preferred ABI is x86_64 or x86 |
| `Architecture.ArmAndX86Exclusive` | app/src/main/java/com/lanrhyme/shardlauncher/utils/device/Architecture.kt:38-49 | a device is never both ARM and x86; ARM holds exactly for the ARM ABIs and x86 exactly for the x86 ABIs |
| `SystemProperties.PlatformGet` | ShardLauncher/src/main/java/com/lanrhyme/shardlauncher/utils/SystemPropertiesHelper.kt:22 | the stored value when it is set and non-empty, else the default |
| `SystemProperties.ViaCommand` | ShardLauncher/src/main/java/com/lanrhyme/shardlauncher/utils/SystemPropertiesHelper.kt:33-44 | the first line `getprop` prints when it is non-empty; the default for a failed command, no line or an empty line |
| `SystemProperties.GetSystemProperty` | ShardLauncher/src/main/java/com/lanrhyme/shardlauncher/utils/SystemPropertiesHelper.kt:17-27 | the platform's answer when reflection works, and the command fallback when it throws |
| `SystemProperties.PropertyIsReadOrDefault` | ShardLauncher/src/main/java/com/lanrhyme/shardlauncher/utils/SystemPropertiesHelper.kt:17-44 | a property read is either the default or a non-empty value |
| `SystemProperties.ParseBoolean` | ShardLauncher/src/main/java/com/lanrhyme/shardlauncher/utils/SystemPropertiesHelper.kt:51-55 | "1", "true", "yes" and "on" give true, "0", "false", "no" and "off" give false, ignoring case; anything else gives the default |
| `SystemProperties.GetBooleanSystemProperty` | ShardLauncher/src/main/java/com/lanrhyme/shardlauncher/utils/SystemPropertiesHelper.kt:49-56 | the lower-cased property, read with the default passed down as "1" or "0", gives true for a true word, false for a false word and the default otherwise; a read that returns the default's own text gives the default |
| `SystemProperties.MissingBooleanIsDefault` | ShardLauncher/src/main/java/com/lanrhyme/shardlauncher/utils/SystemPropertiesHelper.kt:49-56 | a missing boolean property, passed down as "1" or "0", yields the default |
| `SystemProperties.BooleanIgnoresCase` | ShardLauncher/src/main/java/com/lanrhyme/shardlauncher/utils/SystemPropertiesHelper.kt:51 | lower-casing the value first changes nothing |
| `SystemProperties.GetIntSystemProperty` | ShardLauncher/src/main/java/com/lanrhyme/shardlauncher/utils/SystemPropertiesHelper.kt:61-68 | the property's integer value when it parses as a 32-bit integer, else the default |
| `SystemProperties.MissingIntIsDefault` | ShardLauncher/src/main/java/com/lanrhyme/shardlauncher/utils/SystemPropertiesHelper.kt:61-68 | a missing integer property yields the default |
| `SystemProperties.IsSpecificDeviceOrSystem` | ShardLauncher/src/main/java/com/lanrhyme/shardlauncher/utils/SystemPropertiesHelper.kt:73-75 | holds exactly when the lower-cased value occurs in the lower-cased property |
| `SystemProperties.UnsetMatchesOnlyEmpty` | ShardLauncher/src/main/java/com/lanrhyme/shardlauncher/utils/SystemPropertiesHelper.kt:73-75 | with the property unset, only the empty value matches |
| `ResourceManager.CheckResources` | ShardLauncher/src/main/java/com/lanrhyme/shardlauncher/game/resource/ResourceManager.kt:24-60 | Java and renderers are present exactly when their lists are non-empty and reported missing exactly otherwise; the advice is exactly the applicable ones of install-Java (no runtime), renderers-built-in (no renderer), Java 8 and Java 17 (runtimes exist but none has that version), each once and in that order. |
| `ResourceManager.NoRuntimeNoVersionAdvice` | ShardLauncher/src/main/java/com/lanrhyme/shardlauncher/game/resource/ResourceManager.kt:31-52 | with no runtimes the only advice is to install Java (and the renderer note when there are no renderers) |
| `ResourceManager.Java8And17SilenceAdvice` | ShardLauncher/src/main/java/com/lanrhyme/shardlauncher/game/resource/ResourceManager.kt:44-52 | a Java 8 runtime and a Java 17 runtime silence both pieces of version advice |
| `ResourceManager.InstallProgress` | ShardLauncher/src/main/java/com/lanrhyme/shardlauncher/game/resource/ResourceManager.kt:62-84 | reports progress 0 first; the result is success exactly when the runtime listing could be read, and a failed listing makes no further report; after a successful listing comes 50 with the missing-runtime advice exactly when there are no runtimes and 100 exactly when there are some |
| `ResourceManager.InstallAgreesWithCheck` | ShardLauncher/src/main/java/com/lanrhyme/shardlauncher/game/resource/ResourceManager.kt:24-84 | over the same runtimes, the install reports its 50% missing-runtime step exactly when the resource check advises installing Java and lists Java as missing, and reaches 100% exactly when the check finds a runtime |
| `NetworkUtils.FetchOne` | app/src/main/java/com/lanrhyme/shardlauncher/utils/network/NetworkUtils.kt:83-85 | the body when the GET answers, else an IOException naming the URL |
| `NetworkUtils.FirstAnswering` | app/src/main/java/com/lanrhyme/shardlauncher/utils/network/NetworkUtils.kt:91-99 | the first URL from a position on that answers, every URL before it failing |
| `NetworkUtils.FetchFrom` | app/src/main/java/com/lanrhyme/shardlauncher/utils/network/NetworkUtils.kt:91-100 | succeeds exactly when a later URL answers, with the first such body; otherwise the last URL's error, or "All URLs failed" past the end |
| `NetworkUtils.FetchStringFromUrls` | app/src/main/java/com/lanrhyme/shardlauncher/utils/network/NetworkUtils.kt:90-101 | succeeds exactly when some URL answers, with an answering URL's body; on failure the last URL's error, or "All URLs failed" for an empty list |
| `NetworkUtils.FetchFromAsWritten` | app/src/main/java/com/lanrhyme/shardlauncher/utils/network/NetworkUtils.kt:90-101 | the loop as written: a body it returns comes from some URL at or after the position; a failure is "All URLs failed" only past the end, and otherwise the IOException of the list's last URL |
| `NetworkUtils.AsWrittenAgrees` | app/src/main/java/com/lanrhyme/shardlauncher/utils/network/NetworkUtils.kt:90-101 | when the last URL appears only at the end, the code as written behaves exactly as intended |
| `NetworkUtils.FetchFromUrlsAsWrittenOutcome` | app/src/main/java/com/lanrhyme/shardlauncher/utils/network/NetworkUtils.kt:90-101 | As written: a body returned is the answer of some URL in the list, the first URL's answer is taken when it has one, and a failure is the last URL's error, or "All URLs failed" for an empty list. |
| `NetworkUtils.AsWrittenSkipsAfterDuplicateLast` | app/src/main/java/com/lanrhyme/shardlauncher/utils/network/NetworkUtils.kt:95-97 | with the last URL also first, its first failure ends the loop before a later URL that answers is tried |
| `NetworkUtils.RetrySchedule` | app/src/main/java/com/lanrhyme/shardlauncher/utils/network/NetworkUtils.kt:112-121 | at most maxRetries calls, alternating with pauses and ending on a call; the pause after call m lasts initialDelay·2^m wrapped to a signed 64-bit Long, exactly initialDelay·2^m whenever that fits |
| `NetworkUtils.DoubledTimes` | app/src/main/java/com/lanrhyme/shardlauncher/utils/network/NetworkUtils.kt:121 | a Long delay doubled m times with wrap-around is initialDelay·2^m wrapped to 64 bits |
| `NetworkUtils.RetryResult` | app/src/main/java/com/lanrhyme/shardlauncher/utils/network/NetworkUtils.kt:113-119 | the result is the first success among the allowed attempts; when all fail, the last attempt's exception is rethrown |
| `NetworkUtils.WithRetry` | app/src/main/java/com/lanrhyme/shardlauncher/utils/network/NetworkUtils.kt:106-125 | with maxRetries at most 0 the block never runs and "Should not reach here" is thrown; otherwise the first step is a call |
| `NetworkUtils.ProgressGrows` | app/src/main/java/com/lanrhyme/shardlauncher/utils/network/NetworkUtils.kt:152-156 | the byte counts reported while reading one mirror only grow and end at the mirror's total |
| `NetworkUtils.Download` | app/src/main/java/com/lanrhyme/shardlauncher/utils/network/NetworkUtils.kt:137-165 | true exactly when some mirror answers OK and is read to the end |
| `NetworkUtils.DownloadProgress` | app/src/main/java/com/lanrhyme/shardlauncher/utils/network/NetworkUtils.kt:137-165 | when the first complete mirror is the first to send data, the download succeeds and its counts only grow, ending at that mirror's size |
| `NetworkUtils.RestartAfterBrokenMirror` | app/src/main/java/com/lanrhyme/shardlauncher/utils/network/NetworkUtils.kt:146-155 | a mirror that breaks after sending data makes the count start again at the next mirror |
| `HomePolling.Round` | ShardLauncher/src/main/java/com/lanrhyme/shardlauncher/ui/home/HomeScreen.kt:124-154 | after a success the wait is an hour and the backoff resets to a minute with the error cleared; after a failure the wait is the current backoff, which then doubles up to an hour, and the error shows the message; the backoff stays within one minute and one hour |
| `HomePolling.Waits` | ShardLauncher/src/main/java/com/lanrhyme/shardlauncher/ui/home/HomeScreen.kt:117-124 | one wait per fetch while checking is enabled, and none when it is off |
| `HomePolling.WaitsBounded` | ShardLauncher/src/main/java/com/lanrhyme/shardlauncher/ui/home/HomeScreen.kt:120-154 | no wait is shorter than a minute or longer than an hour |
| `HomePolling.BackoffDoubles` | ShardLauncher/src/main/java/com/lanrhyme/shardlauncher/ui/home/HomeScreen.kt:144-147 | the k-th consecutive failure after a success waits min(60000·2^k, 3600000) ms |
| `FileSelector.UnitFor` | ShardLauncher/src/main/java/com/lanrhyme/shardlauncher/ui/components/filemanager/FileSelectorScreen.kt:538-543 | B exactly below 1024; any other unit fits at least once and, below GB, fewer than 1024 times |
| `FileSelector.FormatFileSize` | ShardLauncher/src/main/java/com/lanrhyme/shardlauncher/ui/components/filemanager/FileSelectorScreen.kt:537-544 | the label is a whole count of the chosen unit, the largest count whose bytes do not exceed the size, then a space and the unit's name |
| `FileSelector.FileSizeLabel` | ShardLauncher/src/main/java/com/lanrhyme/shardlauncher/ui/components/filemanager/FileSelectorScreen.kt:537-544 | the label is the truncated count of units and the unit name; the count reads back, lies below 1024 except in GB, and is at least 1 except in B |
| `FileSelector.NameInError` | ShardLauncher/src/main/java/com/lanrhyme/shardlauncher/ui/components/filemanager/FileSelectorScreen.kt:486 | in error exactly when the name is empty or contains one of / : * ? " < > \| |
| `FileSelector.Edit` | ShardLauncher/src/main/java/com/lanrhyme/shardlauncher/ui/components/filemanager/FileSelectorScreen.kt:484-487 | typing replaces the name and sets the error flag exactly as the name demands |
| `FileSelector.ClickCreate` | ShardLauncher/src/main/java/com/lanrhyme/shardlauncher/ui/components/filemanager/FileSelectorScreen.kt:520-524 | the name reaches `onConfirm` exactly when it is not blank |
| `FileSelector.CreatedNameIsValid` | ShardLauncher/src/main/java/com/lanrhyme/shardlauncher/ui/components/filemanager/FileSelectorScreen.kt:519-528 | through the enabled button only a non-blank name without forbidden characters reaches `onConfirm` |
| `FileSelector.EditKeepsFlag` | ShardLauncher/src/main/java/com/lanrhyme/shardlauncher/ui/components/filemanager/FileSelectorScreen.kt:484-487 | after any edit the error flag matches the name |
| `FileSelector.ConfirmSelection` | ShardLauncher/src/main/java/com/lanrhyme/shardlauncher/ui/components/filemanager/FileSelectorScreen.kt:204-214 | a result is emitted exactly when a path is selected, and it carries that path |
| `FileSelector.SubstringAfter` | ShardLauncher/src/main/java/com/lanrhyme/shardlauncher/ui/components/filemanager/FileSelectorScreen.kt:269 | the text after the first occurrence of the delimiter, or the whole text when it does not occur |
| `FileSelector.PathSegments` | ShardLauncher/src/main/java/com/lanrhyme/shardlauncher/ui/components/filemanager/FileSelectorScreen.kt:267-271 | every segment is non-empty and free of '/' |
| `FileSelector.SegmentsOfCleanPath` | ShardLauncher/src/main/java/com/lanrhyme/shardlauncher/ui/components/filemanager/FileSelectorScreen.kt:267-271 | a path made of the storage root and clean segments joined with '/' gives those segments back |

## Left out

- I/O: every file read and write, directory listing, process start and
  network connection is a parameter or a recorded call. The model does not
  cover what the operating system does with them. This includes the
  `options.txt` file, runtime `release` files, the splash properties file,
  Log4j configuration files and the HTTP bodies.
- Concurrency: coroutine dispatch, `LaunchedEffect`, the `ConcurrentHashMap`
  and `AtomicLong` of the cursor registry, and the pipe logger thread are not
  modelled. Each operation is modelled as one sequential step.
- The Compose UI: composables, layout, animation, dialogs and their chrome are
  left out. Only the non-visual logic of the home screen, the file selector,
  the version detail screen and the version dialogs is modelled.
- Floating point: the `BigDecimal` helpers of `MathUtils`, memory-size
  conversions, the scroll and FAB maths and `FileUtils.formatFileSize` use
  floating point and are left out.
- `stdio_is.c` (the stdout/stderr pipe and the exit trampoline) is process and
  thread plumbing, and is left out.
- Runtime installation (`installRuntime`, unpack200, tar.xz extraction,
  `postPrepare`) is archive I/O, and is left out. Only reading a runtime and
  the runtime cache are modelled.
- `dlopenJavaRuntime`, `ensureDNSConfig`, `printLauncherInfo` and the log file
  writer only load libraries or write logs, and are left out. The library
  loads of `dlopenEngine` in the ShardLauncher tree are modelled as the list of
  libraries tried (`SLGameLauncher.DlopenEngine`). The app tree's copy has its
  loads commented out.
- `initOpenGLBridge`, which `dlopenEngine` calls, is modelled by `EglBridge`.
- `filterLibrary`, `artifactToPath`, `VersionInfo.getMcVersionCode`,
  `getDetectedVersion`, `compareVersions` and the `VersionsManager` and
  `AccountsManager` objects are not part of this model. Their answers are
  parameters.
- `initializeMCOptions` and `startOfflineYggdrasil` only start other
  components, and are left out.
- `parseVersionJson` and the manifest download are I/O. A manifest enters as
  an already parsed value.
- The ShardLauncher tree's `getRuntimes` sorts with `compareVersions`, which
  is not part of this model. `SLRuntimes.GetExactJreName` and
  `SLRuntimes.GetNearestJreName` therefore take the runtime list as given.
- The app tree's `LIB_MESA_NAME` comes from `loadGraphicsLibrary`. With a
  valid renderer and no plugin this is the renderer's library, which is how
  `AppGameLauncher` models it.
- The numeric values of the `LwjglGlfwKeycode` constants and of
  `SLBridge.EVENT_TYPE_*` are not part of this model. GLFW keys and the bridge's
  event types are symbolic. Only the facts that follow from which slots share a
  key are stated.
- `DriverPlugins`: `getDriverList` returns a copy. An immutable sequence in
  the model already has that effect, so no separate member states it.
- `QuiltVersion.toLoaderVersion` (VersionDetailViewModel.kt:261-267) is never
  called: the Quilt list is built inline with every entry "Stable", which
  `VersionDetail.LoadQuilt` models.
- Kotlin `lowercase`, `isBlank` and `isWhitespace` are modelled on ASCII only.
  Unicode case mapping and Unicode whitespace are left out.
- Kotlin's `toInt` and `toIntOrNull` accept every Unicode decimal digit.
  `Numerals.ParseInt` accepts ASCII digits only, so a numeral written in other
  digits reads as "not a number" in the model. The members below inherit this.
- `SystemProperties.GetIntSystemProperty`: a property written in non-ASCII
  digits gives the default in the model, where Kotlin would parse it.
- `SLRuntimes.ReadRuntime`: a `JAVA_VERSION` in non-ASCII digits gives major
  version 0 in the model.
- `StringUtils.IsVersionLowerThan`: a version component in non-ASCII digits
  counts as 0 in the model.
- `LaunchArgs.ServerArgs`: a port in non-ASCII digits falls back to the
  default port in the model.
- `SLRuntimes.GetNearestJreName`: models the intended nearest search, with the
  distance as an exact integer. The code as written computes it as a 32-bit
  `Int` (see Findings). The two agree whenever no qualifying runtime lies
  `Int.MAX_VALUE` or more above the request (`SLRuntimes.NearestAsWrittenAgrees`).
- `SLGameLauncher.GetRuntimeName`: its automatic choice uses the intended
  nearest search above, with the same bound on the difference.
- `AppGameLauncher.DriverPathInEnvMap`: the app tree's `Launcher.setEnv`
  (app/src/main/java/com/lanrhyme/shardlauncher/game/launch/Launcher.kt:95-98) builds the environment map and then
  drops it without applying it to the process. This member and the other
  app-tree environment members state what that map holds, not what the game
  process sees.
- `FileSelector.ConfirmSelection`: the dismissal that follows every click is
  not part of the result, because it does not depend on the input.

## Findings

| source | as written | input that shows it | evidently intended | confidence | as-written member | corrected member |
|---|---|---|---|---|---|---|
| ShardLauncher/src/main/java/com/lanrhyme/shardlauncher/utils/math/MathUtils.kt:17-32 | the running minimum starts at `Int.MAX_VALUE` and is only replaced by a strictly smaller distance; the distance `value - targetValue` is computed in 32-bit `Int` | target 0 and one object of value `Int.MAX_VALUE` give null; target -1 and the same object give distance `Int.MIN_VALUE` | every qualifying object can be chosen, and the distance is the true difference | not executed | `MathUtils.FindNearestPositiveAsWritten`, `MathUtils.AsWrittenMissesMaxDelta`, `MathUtils.AsWrittenWrapsDelta` | `MathUtils.FindNearestPositive` |
| app/src/main/java/com/lanrhyme/shardlauncher/utils/network/NetworkUtils.kt:90-101 | a failure is rethrown as soon as the failing URL equals `urls.last()`, even when that URL occurs earlier in the list | URLs ["a", "b", "a"] where only "b" answers: the first "a" fails and its error is rethrown, and "b" is never tried | every URL is tried in order, and only the failure of the last position is rethrown | not executed | `NetworkUtils.FetchFromUrlsAsWritten`, `NetworkUtils.AsWrittenSkipsAfterDuplicateLast` | `NetworkUtils.FetchStringFromUrls` |
| app/src/main/java/com/lanrhyme/shardlauncher/game/launch/Launcher.kt:70-78 | after an argument starting with "--accessToken" a mask line is logged, but the next argument (the token) is still logged as well | arguments ["--accessToken", t] log t verbatim | the argument after "--accessToken" is replaced by the mask in the log | not executed | `AppLauncher.LogLinesAsWritten`, `AppLauncher.AsWrittenLogsToken` | `AppLauncher.LogLinesFrom`, `AppLauncher.TokenNeverLogged` |
| app/src/main/java/com/lanrhyme/shardlauncher/game/launch/MinecraftLauncher.kt:180-214 | the legacy `minecraftArguments` string has its variables filled in first and is split on spaces afterwards | a game directory "/sdcard/My Games" in "--gameDir ${game_directory}" becomes the two arguments "/sdcard/My" and "Games" | each placeholder's value stays one argument | not executed | `MinecraftLauncher.BuildGameArgumentsAsWritten`, `MinecraftLauncher.AsWrittenSplitsValue` | `MinecraftLauncher.BuildGameArguments`, `MinecraftLauncher.ValueStaysOneArgument` |
| ShardLauncher/src/main/java/com/lanrhyme/shardlauncher/ui/downloads/VersionDetailViewModel.kt:86-160 | a loader list that arrives sets that loader's default selection but does not call `updateVersionNameSuffix` | open "1.20", choose Fabric, then the Fabric list arrives with a stable loader "0.15": the name stays "1.20-Fabric" while the choices call for "1.20-Fabric-0.15" | the name follows every change of the selections, as it does for the user's own selections | not executed | `VersionDetail.Step`, `VersionDetail.AsWrittenLoadLeavesNameStale` | `VersionDetail.StepIntended`, `VersionDetail.StepKeepsName`, `VersionDetail.NameAlwaysFollowsChoices` |
| ShardLauncher/src/main/java/com/lanrhyme/shardlauncher/ui/downloads/VersionDetailViewModel.kt:286-326 | the request passes the selected version of every loader, whichever loader is active | with the lists loaded (each sets a default selection) and Fabric chosen, the request also carries the Forge, NeoForge and Quilt defaults; switching from Fabric to Forge still carries the Fabric selection | only the active loader's selected version is sent, as the comment above the block says | not executed | `VersionDetail.Download`, `VersionDetail.ForgeInstallCarriesFabric` | `VersionDetail.DownloadIntended`, `VersionDetail.IntendedSendsActiveLoaderOnly` |

=== FILE: accounts.dfy ===
/** The app tree's two account helper files. Both declare top-level helpers
    with the same names in one package, with different type constants
    ("Local"/"Microsoft" in one, "local"/"microsoft"/"authserver" in the
    other); each is modelled as its own module. */

/** What the helpers read of an account. */
module AccountData {
  import opened Wrappers

  datatype Account = Account(accountType: Option<string>, otherBaseUrl: Option<string>, username: string)
}

/** The older helpers: capitalised type names, an auth-server test on the
    base URL, and a three-level sort priority. */
module AccountUtils {
  import opened Wrappers
  import opened AccountData
  import Numerals

  const ACCOUNT_TYPE_MICROSOFT: string := "Microsoft"
  const ACCOUNT_TYPE_LOCAL: string := "Local"

  /** `isLocalAccount`: the type is exactly "Local"; the comparison is
      case-sensitive, so the newer helpers' "local" is not local here. */
  function IsLocalAccount(a: Account): (local: bool)
    ensures local <==> a.accountType.Some? && a.accountType.value == ACCOUNT_TYPE_LOCAL
    ensures a.accountType.None? || a.accountType == Some("local") ==> !local
    ensures local ==> a.accountType != Some(ACCOUNT_TYPE_MICROSOFT)
  {
    a.accountType == Some(ACCOUNT_TYPE_LOCAL)
  }

  /** `isMicrosoftAccount`: the type is exactly "Microsoft". */
  function IsMicrosoftAccount(a: Account): (microsoft: bool)
    ensures microsoft <==> a.accountType.Some? && a.accountType.value == ACCOUNT_TYPE_MICROSOFT
    ensures a.accountType.None? || a.accountType == Some("microsoft") ==> !microsoft
  {
    a.accountType == Some(ACCOUNT_TYPE_MICROSOFT)
  }

  /** `isAuthServerAccount`: a non-local account whose other base URL is
      set and is not "0"; the type is not consulted otherwise, so a
      Microsoft account with such a URL counts too. */
  function IsAuthServerAccount(a: Account): (auth: bool)
    ensures auth ==> !IsLocalAccount(a)
    ensures a.otherBaseUrl.None? || a.otherBaseUrl == Some("0") ==> !auth
    ensures !IsLocalAccount(a) && a.otherBaseUrl.Some? && a.otherBaseUrl.value != "0" ==> auth
  {
    !IsLocalAccount(a) && a.otherBaseUrl.Some? && a.otherBaseUrl.value != "0"
  }

  /** `isNoLoginRequired` on a nullable account: no account at all, or a
      local one. */
  function IsNoLoginRequired(a: Option<Account>): (free: bool)
    ensures a.None? ==> free
    ensures a.Some? ==> (free <==> IsLocalAccount(a.value))
    ensures free ==> a.None? || !IsMicrosoftAccount(a.value)
  {
    a.None? || IsLocalAccount(a.value)
  }

  /** `accountTypePriority`: Microsoft first, an account without a type
      last (`Int.MAX_VALUE`), every other type in between. */
  function AccountTypePriority(a: Account): (p: int)
    ensures p == 0 <==> IsMicrosoftAccount(a)
    ensures p == Numerals.INT_MAX <==> a.accountType.None?
    ensures 0 <= p <= Numerals.INT_MAX
  {
    match a.accountType
    case Some(t) => if t == ACCOUNT_TYPE_MICROSOFT then 0 else 1
    case None => Numerals.INT_MAX
  }

  /** Sorting by priority puts Microsoft accounts before all others and
      untyped accounts after all typed ones. */
  lemma PriorityOrder(a: Account, b: Account)
    ensures IsMicrosoftAccount(a) && !IsMicrosoftAccount(b) ==> AccountTypePriority(a) < AccountTypePriority(b)
    ensures a.accountType.Some? && b.accountType.None? ==> AccountTypePriority(a) < AccountTypePriority(b)
    ensures (a.accountType.Some? && b.accountType.Some? && !IsMicrosoftAccount(a) && !IsMicrosoftAccount(b))
      ==> AccountTypePriority(a) == AccountTypePriority(b)
  {
  }

  /** `getDisplayName`: fixed names for Microsoft and local accounts, the
      type itself otherwise, and "未知" when there is none. */
  function GetDisplayName(a: Account): (name: string)
    ensures IsMicrosoftAccount(a) ==> name == "微软账号"
    ensures IsLocalAccount(a) ==> name == "离线账号"
    ensures !IsMicrosoftAccount(a) && !IsLocalAccount(a) ==> name == a.accountType.GetOr("未知")
  {
    if IsMicrosoftAccount(a) then "微软账号"
    else if a.accountType == Some(ACCOUNT_TYPE_LOCAL) then "离线账号"
    else a.accountType.GetOr("未知")
  }

  /** A local account never counts as an auth-server account, and needs
      no login; the two fixed types exclude each other. */
  lemma ClassificationConsistent(a: Account)
    ensures IsLocalAccount(a) ==> !IsAuthServerAccount(a) && IsNoLoginRequired(Some(a))
    ensures !(IsLocalAccount(a) && IsMicrosoftAccount(a))
    ensures IsNoLoginRequired(Some(a)) <==> IsLocalAccount(a)
  {
  }
}

/** The newer helpers: lower-case type constants, plain equality tests and
    a four-level sort priority. */
module AccountExtensions {
  import opened Wrappers
  import opened AccountData
  import opened Text

  const LOCAL: string := "local"
  const MICROSOFT: string := "microsoft"
  const AUTHSERVER: string := "authserver"

  /** `isLocalAccount`: the type is exactly "local", so no Microsoft or
      auth-server account is local. */
  function IsLocalAccount(a: Account): (local: bool)
    ensures local <==> a.accountType.Some? && a.accountType.value == LOCAL
    ensures a.accountType.None? || a.accountType == Some("Local") ==> !local
    ensures local ==> a.accountType != Some(MICROSOFT) && a.accountType != Some(AUTHSERVER)
  {
    a.accountType == Some(LOCAL)
  }

  /** `isMicrosoftAccount`: the type is exactly "microsoft". */
  function IsMicrosoftAccount(a: Account): (microsoft: bool)
    ensures microsoft <==> a.accountType.Some? && a.accountType.value == MICROSOFT
    ensures a.accountType.None? || a.accountType == Some("Microsoft") ==> !microsoft
    ensures microsoft ==> a.accountType != Some(AUTHSERVER)
  {
    a.accountType == Some(MICROSOFT)
  }

  /** `isAuthServerAccount`: the type is exactly "authserver"; unlike the
      older helper, the base URL is not consulted. */
  function IsAuthServerAccount(a: Account): (auth: bool)
    ensures auth <==> a.accountType.Some? && a.accountType.value == AUTHSERVER
    ensures a.accountType.None? ==> !auth
  {
    a.accountType == Some(AUTHSERVER)
  }

  /** `hasSkinFile` is not implemented: never. */
  function HasSkinFile(a: Account): (has: bool)
    ensures !has
  {
    false
  }

  /** `getDisplayName`: the user name unless it is blank. */
  function GetDisplayName(a: Account): (name: string)
    ensures !IsBlank(a.username) ==> name == a.username
    ensures IsBlank(a.username) ==> name == "Unknown User"
    ensures !IsBlank(name)
  {
    if !IsBlank(a.username) then a.username
    else
      var u := "Unknown User";
      assert !IsWhitespace(u[0]);
      u
  }

  /** The account type each priority level stands for. */
  function TypeOfPriority(p: int): Option<string> {
    if p == 0 then Some(MICROSOFT)
    else if p == 1 then Some(AUTHSERVER)
    else if p == 2 then Some(LOCAL)
    else None
  }

  /** `accountTypePriority`: microsoft 0, authserver 1, local 2, other 3. */
  function AccountTypePriority(a: Account): (p: int)
    ensures 0 <= p <= 3
    ensures p < 3 ==> a.accountType == TypeOfPriority(p)
    ensures p == 3 <==> !IsMicrosoftAccount(a) && !IsAuthServerAccount(a) && !IsLocalAccount(a)
  {
    match a.accountType
    case Some(t) =>
      if t == MICROSOFT then 0 else if t == AUTHSERVER then 1 else if t == LOCAL then 2 else 3
    case None => 3
  }

  /** The priority tells the three known types apart: accounts of
      different known types never share a level. */
  lemma PriorityDistinguishesTypes(a: Account, b: Account)
    requires AccountTypePriority(a) < 3
    ensures AccountTypePriority(a) == AccountTypePriority(b) <==> a.accountType == b.accountType
  {
  }
}

=== FILE: app_game_launcher.dfy ===
/** The app tree's game launcher: the account and renderer a launch uses,
    the JNA properties, the launch environment, the renderer's variables,
    the runtime choice, the Forge splash switch and the final JVM
    arguments. The registries, settings, the file system and the version's
    files are parameters. */
module AppGameLauncher {
  import opened Wrappers
  import opened Text
  import opened AccountData
  import AccountExtensions
  import Renderers
  import DriverPlugins
  import AppRuntimes
  import AppLauncher
  import SLGameLauncher

  datatype LaunchError = NoAccountSelected

  // ---------------------------------------------------------------------------
  // launch
  // ---------------------------------------------------------------------------

  /** The registry a launch runs with: re-selected from the version's
      renderer only when the current one is invalid, which the registry
      never reports, so the registry is left as it is. */
  function LaunchRegistry(reg: Renderers.Registry, versionRenderer: string): (next: Renderers.Registry)
    ensures next == reg
  {
    if !Renderers.IsCurrentRendererValid(reg) then Renderers.SetCurrentRenderer(reg, versionRenderer) else reg
  }

  /** The account a launch uses: the current one, typed as a local account
      for a version set to offline login. Without a current account the
      non-null assertion throws. */
  function LaunchAccount(current: Option<Account>, offlineAccountLogin: bool): (r: Result<Account, LaunchError>)
    ensures r.Failure? <==> current.None?
    ensures r.Success? ==> r.value.username == current.value.username && r.value.otherBaseUrl == current.value.otherBaseUrl
    ensures r.Success? && offlineAccountLogin ==> AccountExtensions.IsLocalAccount(r.value)
    ensures r.Success? && !offlineAccountLogin ==> r.value == current.value
  {
    match current
    case None => Failure(NoAccountSelected)
    case Some(a) => if offlineAccountLogin then Success(a.(accountType := Some(AccountExtensions.LOCAL))) else Success(a)
  }

  /** The custom JVM arguments: the version's own unless blank, else the
      global setting. */
  function CustomArgs(versionJvmArgs: string, globalJvmArgs: string): (args: string)
    ensures !IsBlank(versionJvmArgs) ==> args == versionJvmArgs
    ensures IsBlank(versionJvmArgs) ==> args == globalJvmArgs
  {
    if !IsBlank(versionJvmArgs) then versionJvmArgs else globalJvmArgs
  }

  // ---------------------------------------------------------------------------
  // putJavaArgs
  // ---------------------------------------------------------------------------

  /** The JNA version's directory under the JNA root. */
  function JnaDir(jnaRoot: string, version: string): string {
    jnaRoot + "/" + version
  }

  /** `putJavaArgs`: when the first JNA library names a version whose
      directory exists, the library path becomes that directory followed by
      the native library directory and JNA's boot path becomes the
      directory; every other property is kept. */
  function PutJavaArgs(props: map<string, string>, libs: seq<string>, jnaRoot: string, nativeLibDir: string,
                       dirExists: string -> bool): (m: map<string, string>)
    ensures var v := SLGameLauncher.JnaVersion(Some(libs));
      v.None? || !dirExists(JnaDir(jnaRoot, v.value)) ==> m == props
    ensures var v := SLGameLauncher.JnaVersion(Some(libs));
      v.Some? && dirExists(JnaDir(jnaRoot, v.value)) ==>
        && m.Keys == props.Keys + {"java.library.path", SLGameLauncher.JNA_BOOT_KEY}
        && m["java.library.path"] == JnaDir(jnaRoot, v.value) + ":" + nativeLibDir
        && m[SLGameLauncher.JNA_BOOT_KEY] == JnaDir(jnaRoot, v.value)
    ensures forall k :: k in props && k != "java.library.path" && k != SLGameLauncher.JNA_BOOT_KEY ==>
      k in m && m[k] == props[k]
  {
    var v := SLGameLauncher.JnaVersion(Some(libs));
    if v.Some? && dirExists(JnaDir(jnaRoot, v.value)) then
      var dir := JnaDir(jnaRoot, v.value);
      props["java.library.path" := dir + ":" + nativeLibDir][SLGameLauncher.JNA_BOOT_KEY := dir]
    else props
  }

  /** A plain JNA coordinate with an existing directory sets JNA's boot
      path to that version's directory. */
  lemma JnaBootPathOfCoordinate(props: map<string, string>, before: seq<string>, v: string, after: seq<string>,
                                jnaRoot: string, nativeLibDir: string, dirExists: string -> bool)
    requires ':' !in v
    requires forall j :: 0 <= j < |before| ==> !StartsWith(before[j], SLGameLauncher.JNA_PREFIX)
    requires dirExists(JnaDir(jnaRoot, v))
    ensures var m := PutJavaArgs(props, before + [SLGameLauncher.JNA_PREFIX + v] + after, jnaRoot, nativeLibDir, dirExists);
      SLGameLauncher.JNA_BOOT_KEY in m && m[SLGameLauncher.JNA_BOOT_KEY] == JnaDir(jnaRoot, v)
  {
    SLGameLauncher.JnaVersionOfCoordinate(before, v, after);
  }

  // ---------------------------------------------------------------------------
  // Renderer environment
  // ---------------------------------------------------------------------------

  /** What the environment step reads of a built-in renderer. */
  function InfoOf(r: Renderers.Renderer): (info: SLGameLauncher.RendererInfo)
    ensures info.id == Renderers.RendererId(r) && info.env == Renderers.RendererEnv(r)
    ensures info.egl == Renderers.RendererEGL(r) && info.library == Renderers.RendererLibrary(r)
  {
    SLGameLauncher.RendererInfo(Renderers.RendererId(r), Renderers.RendererEnv(r), Renderers.RendererEGL(r),
                                Renderers.RendererLibrary(r))
  }

  /** LIBGL_ES set to "3" when nothing set it. */
  function WithDefaultGles(m0: map<string, string>): (m: map<string, string>)
    ensures "LIBGL_ES" in m
    ensures "LIBGL_ES" in m0 ==> m == m0
    ensures "LIBGL_ES" !in m0 ==> m == m0["LIBGL_ES" := "3"]
    ensures forall k :: k in m0 ==> k in m && m[k] == m0[k]
  {
    if "LIBGL_ES" in m0 then m0 else m0["LIBGL_ES" := "3"]
  }

  /** `setRendererEnv`: the GL4ES set for "opengles2" ids, the renderer's
      own map, its EGL library and its id; a selected renderer plugin stops
      there. Otherwise a non-"opengles" renderer gets the Zink entries, with
      the renderer's library as Mesa's name, and LIBGL_ES defaults to "3".
      The common and Zink steps are the same as in the ShardLauncher tree. */
  function SetRendererEnv(env: map<string, string>, r: Renderers.Renderer, pluginSelected: bool, cacheDir: string): (m: map<string, string>)
    ensures "POJAV_RENDERER" in m && m["POJAV_RENDERER"] == Renderers.RendererId(r)
    ensures r != Renderers.Vulkan ==> "POJAVEXEC_EGL" in m && m["POJAVEXEC_EGL"] == "libEGL_mesa.so"
    ensures pluginSelected ==> m == SLGameLauncher.CommonRendererEnv(env, InfoOf(r))
    ensures !pluginSelected ==> "LIBGL_ES" in m
    ensures forall k :: k in env ==> k in m
  {
    var common := SLGameLauncher.CommonRendererEnv(env, InfoOf(r));
    if pluginSelected then common
    else
      SLGameLauncher.ZinkKeys(cacheDir, InfoOf(r).library.GetOr("null"));
      WithDefaultGles(SLGameLauncher.WithZink(common, InfoOf(r), cacheDir))
  }

  /** The GL4ES renderer without a plugin: GLES 2 through GL4ES, Mesa's
      EGL, and no Zink entries beyond what the environment held. */
  lemma OpenGLES2Env(env: map<string, string>, cacheDir: string)
    ensures var m := SetRendererEnv(env, Renderers.OpenGLES2, false, cacheDir);
      && m["LIBGL_ES"] == "2" && "LIBGL_MIPMAP" in m && m["LIBGL_MIPMAP"] == "3"
      && m["POJAVEXEC_EGL"] == "libEGL_mesa.so" && m["POJAV_RENDERER"] == "opengles2"
      && ("LIB_MESA_NAME" in m ==> "LIB_MESA_NAME" in env && m["LIB_MESA_NAME"] == env["LIB_MESA_NAME"])
  {
    var info := InfoOf(Renderers.OpenGLES2);
    assert StartsWith(info.id, "opengles2") && StartsWith(info.id, "opengles");
    var common := SLGameLauncher.CommonRendererEnv(env, info);
    assert "LIBGL_ES" in common && common["LIBGL_ES"] == "2";
    assert "LIBGL_MIPMAP" !in info.env;
    assert "LIB_MESA_NAME" !in SLGameLauncher.GL4ES_ENV;
  }

  /** The GLES 3 renderer without a plugin: its own LIBGL_ES "3", Mesa's
      EGL and no Zink loader override beyond the environment's. */
  lemma OpenGLES3Env(env: map<string, string>, cacheDir: string)
    ensures var m := SetRendererEnv(env, Renderers.OpenGLES3, false, cacheDir);
      && m["LIBGL_ES"] == "3" && m["POJAVEXEC_EGL"] == "libEGL_mesa.so" && m["POJAV_RENDERER"] == "opengles3"
      && ("MESA_LOADER_DRIVER_OVERRIDE" in m ==>
            "MESA_LOADER_DRIVER_OVERRIDE" in env && m["MESA_LOADER_DRIVER_OVERRIDE"] == env["MESA_LOADER_DRIVER_OVERRIDE"])
  {
    var info := InfoOf(Renderers.OpenGLES3);
    assert !StartsWith(info.id, "opengles2") by { assert info.id[8] == '3'; }
    assert StartsWith(info.id, "opengles");
    var common := SLGameLauncher.CommonRendererEnv(env, info);
    assert "LIBGL_ES" in common && common["LIBGL_ES"] == "3";
  }

  /** The Vulkan renderer without a plugin runs on Zink: the loader
      override, Mesa named by the Vulkan library, and the shader cache in
      the cache directory. */
  lemma VulkanRunsOnZink(env: map<string, string>, cacheDir: string)
    ensures var m := SetRendererEnv(env, Renderers.Vulkan, false, cacheDir);
      && "MESA_LOADER_DRIVER_OVERRIDE" in m && m["MESA_LOADER_DRIVER_OVERRIDE"] == "zink"
      && "LIB_MESA_NAME" in m && m["LIB_MESA_NAME"] == "libvulkan.so"
      && "MESA_GLSL_CACHE_DIR" in m && m["MESA_GLSL_CACHE_DIR"] == cacheDir
  {
    var info := InfoOf(Renderers.Vulkan);
    assert !StartsWith(info.id, "opengles") by { assert info.id[0] == 'v'; }
    ZinkEntries(env, info, cacheDir);
  }

  /** The Zink entries of any renderer outside the "opengles" family
      survive the LIBGL_ES default. */
  lemma ZinkEntries(env: map<string, string>, info: SLGameLauncher.RendererInfo, cacheDir: string)
    requires !StartsWith(info.id, "opengles")
    ensures var m := WithDefaultGles(SLGameLauncher.WithZink(SLGameLauncher.CommonRendererEnv(env, info), info, cacheDir));
      && "MESA_LOADER_DRIVER_OVERRIDE" in m && m["MESA_LOADER_DRIVER_OVERRIDE"] == "zink"
      && "LIB_MESA_NAME" in m && m["LIB_MESA_NAME"] == info.library.GetOr("null")
      && "MESA_GLSL_CACHE_DIR" in m && m["MESA_GLSL_CACHE_DIR"] == cacheDir
  {
    var z := SLGameLauncher.WithZink(SLGameLauncher.CommonRendererEnv(env, info), info, cacheDir);
    assert "MESA_GLSL_CACHE_DIR" in z && "MESA_LOADER_DRIVER_OVERRIDE" in z && "LIB_MESA_NAME" in z;
  }

  /** For Vulkan, LIBGL_ES is the environment's or "3", and the EGL entry
      is whatever the environment held. */
  lemma VulkanGlesAndEgl(env: map<string, string>, cacheDir: string)
    ensures var m := SetRendererEnv(env, Renderers.Vulkan, false, cacheDir);
      && m["LIBGL_ES"] == (if "LIBGL_ES" in env then env["LIBGL_ES"] else "3")
      && ("POJAVEXEC_EGL" in m ==> "POJAVEXEC_EGL" in env && m["POJAVEXEC_EGL"] == env["POJAVEXEC_EGL"])
  {
    var info := InfoOf(Renderers.Vulkan);
    assert !StartsWith(info.id, "opengles") by { assert info.id[0] == 'v'; }
    SLGameLauncher.ZinkKeys(cacheDir, "libvulkan.so");
    var common := SLGameLauncher.CommonRendererEnv(env, info);
    assert "LIBGL_ES" !in info.env && "LIBGL_ES" != "POJAV_RENDERER";
    assert "LIBGL_ES" in common <==> "LIBGL_ES" in env;
    assert "POJAVEXEC_EGL" !in SLGameLauncher.ZinkEnv(cacheDir, "libvulkan.so");
  }

  /** The two trees' renderer environments agree for a renderer outside the
      "opengles" family on a GLES 3 device with every setting off: the
      ShardLauncher tree's detected version is then "3", the app's default. */
  lemma AgreesWithShardTree(env: map<string, string>, cacheDir: string, glesMajor: int)
    requires glesMajor >= 3
    ensures SetRendererEnv(env, Renderers.Vulkan, false, cacheDir)
      == SLGameLauncher.SetRendererEnv(env, InfoOf(Renderers.Vulkan), None, cacheDir, glesMajor,
                                       SLGameLauncher.GraphicsSettings(false, false, false, false, false))
  {
    var info := InfoOf(Renderers.Vulkan);
    assert !StartsWith(info.id, "opengles") by { assert info.id[0] == 'v'; }
    AgreesOutsideGles(env, info, cacheDir, glesMajor);
  }

  /** The same agreement for any renderer description outside the
      "opengles" family. */
  lemma AgreesOutsideGles(env: map<string, string>, info: SLGameLauncher.RendererInfo, cacheDir: string, glesMajor: int)
    requires glesMajor >= 3 && !StartsWith(info.id, "opengles")
    ensures WithDefaultGles(SLGameLauncher.WithZink(SLGameLauncher.CommonRendererEnv(env, info), info, cacheDir))
      == SLGameLauncher.SetRendererEnv(env, info, None, cacheDir, glesMajor,
                                       SLGameLauncher.GraphicsSettings(false, false, false, false, false))
  {
    var s := SLGameLauncher.GraphicsSettings(false, false, false, false, false);
    assert SLGameLauncher.SettingKeys(s) == {};
    assert SLGameLauncher.SettingsEnv(s) == map[];
    assert SLGameLauncher.GlesVersion(info.id, glesMajor) == "3";
  }

  /** `loadGraphicsLibrary`: none while the renderer is invalid; the
      plugin's GL library inside its directory; else the renderer's own. */
  function LoadGraphicsLibrary(valid: bool, plugin: Option<SLGameLauncher.RendererPlugin>, r: Renderers.Renderer): (lib: Option<string>)
    ensures !valid ==> lib.None?
    ensures valid && plugin.Some? ==> lib == Some(plugin.value.path + "/" + plugin.value.glName)
    ensures valid && plugin.None? ==> lib == Renderers.RendererLibrary(r) && lib.Some?
  {
    if !valid then None else SLGameLauncher.LoadGraphicsLibrary(plugin, Renderers.RendererLibrary(r))
  }

  // ---------------------------------------------------------------------------
  // initEnv
  // ---------------------------------------------------------------------------

  /** `initEnv` on top of the base launcher's map: the driver selected by
      the version's driver id gives DRIVER_PATH; the rest is `LaunchEnv`.
      With no driver registered the driver lookup throws. */
  function InitEnv(base: map<string, string>, drivers: DriverPlugins.Manager, driverId: string,
                   loaderKey: Option<string>, reg: Renderers.Registry, pluginSelected: bool,
                   cacheDir: string, versionCode: string): (r: Result<map<string, string>, DriverPlugins.DriverError>)
    ensures r.Failure? <==> |drivers.drivers| == 0
    ensures r.Success? ==>
      && DriverPath(drivers, driverId).Some?
      && r.value == LaunchEnv(base, DriverPath(drivers, driverId).value, loaderKey, reg, pluginSelected, cacheDir, versionCode)
  {
    match DriverPlugins.SetDriverById(drivers, driverId)
    case Failure(e) => Failure(e)
    case Success(selected) =>
      Success(LaunchEnv(base, selected.current.value.path, loaderKey, reg, pluginSelected, cacheDir, versionCode))
  }

  /** The environment once a driver is chosen: DRIVER_PATH, the mod
      loader's variable as "1", the current renderer's entries (the registry
      always reports it valid), and the launcher's version code last. */
  function LaunchEnv(base: map<string, string>, driverPath: string, loaderKey: Option<string>, reg: Renderers.Registry,
                     pluginSelected: bool, cacheDir: string, versionCode: string): (m: map<string, string>)
    ensures "SHARD_VERSION_CODE" in m && m["SHARD_VERSION_CODE"] == versionCode
    ensures "DRIVER_PATH" in m
    ensures "POJAV_RENDERER" in m && m["POJAV_RENDERER"] == Renderers.RendererId(reg.current)
    ensures forall k :: k in base ==> k in m
  {
    var withDriver := base["DRIVER_PATH" := driverPath];
    var withLoader := if loaderKey.Some? then withDriver[loaderKey.value := "1"] else withDriver;
    var withRenderer := if Renderers.IsCurrentRendererValid(reg)
                        then SetRendererEnv(withLoader, reg.current, pluginSelected, cacheDir) else withLoader;
    assert withRenderer == SetRendererEnv(withLoader, reg.current, pluginSelected, cacheDir);
    assert "DRIVER_PATH" in withLoader && forall k :: k in base ==> k in withLoader;
    withRenderer["SHARD_VERSION_CODE" := versionCode]
  }

  /** The driver chosen for the version: its path is what DRIVER_PATH
      held before the renderer entries were added. */
  function DriverPath(drivers: DriverPlugins.Manager, driverId: string): (path: Option<string>)
    ensures path.None? <==> |drivers.drivers| == 0
    ensures (exists k :: 0 <= k < |drivers.drivers| && drivers.drivers[k].id == driverId) ==>
      exists k :: 0 <= k < |drivers.drivers| && drivers.drivers[k].id == driverId && path == Some(drivers.drivers[k].path)
  {
    match DriverPlugins.SetDriverById(drivers, driverId)
    case Failure(_) => None
    case Success(selected) =>
      var d := selected.current.value;
      assert d in drivers.drivers;
      Some(d.path)
  }

  /** DRIVER_PATH is none of the renderer variables, so the environment map
      `initEnv` builds holds the selected driver's path. (This tree's
      `setEnv` builds the map and drops it, so the map is what is stated,
      not the game's process environment.) */
  lemma DriverPathInEnvMap(base: map<string, string>, drivers: DriverPlugins.Manager, driverId: string,
                              loaderKey: Option<string>, reg: Renderers.Registry, pluginSelected: bool,
                              cacheDir: string, versionCode: string)
    requires |drivers.drivers| > 0
    requires loaderKey != Some("DRIVER_PATH")
    ensures var r := InitEnv(base, drivers, driverId, loaderKey, reg, pluginSelected, cacheDir, versionCode);
      r.Success? && r.value["DRIVER_PATH"] == DriverPath(drivers, driverId).value
  {
    var path := DriverPath(drivers, driverId).value;
    var withDriver := base["DRIVER_PATH" := path];
    var withLoader := if loaderKey.Some? then withDriver[loaderKey.value := "1"] else withDriver;
    assert withLoader["DRIVER_PATH"] == path;
    RendererEnvKeepsDriverPath(withLoader, reg.current, pluginSelected, cacheDir);
  }

  /** The renderer step leaves DRIVER_PATH alone. */
  lemma RendererEnvKeepsDriverPath(env: map<string, string>, r: Renderers.Renderer, pluginSelected: bool, cacheDir: string)
    requires "DRIVER_PATH" in env
    ensures SetRendererEnv(env, r, pluginSelected, cacheDir)["DRIVER_PATH"] == env["DRIVER_PATH"]
  {
    var info := InfoOf(r);
    assert "DRIVER_PATH" !in info.env;
    assert "DRIVER_PATH" !in SLGameLauncher.GL4ES_ENV;
    assert "DRIVER_PATH" != "POJAV_RENDERER" && "DRIVER_PATH" != "POJAVEXEC_EGL" && "DRIVER_PATH" != "LIBGL_ES";
    var common := SLGameLauncher.CommonRendererEnv(env, info);
    assert common["DRIVER_PATH"] == env["DRIVER_PATH"];
    assert "DRIVER_PATH" !in SLGameLauncher.ZinkEnv(cacheDir, info.library.GetOr("null"));
  }

  // ---------------------------------------------------------------------------
  // progressFinalUserArgs
  // ---------------------------------------------------------------------------

  const LIBNAME_PROPERTY: string := "-Dorg.lwjgl.opengl.libname="

  /** A nullable string in a Kotlin template: "null" when absent. */
  function Templated(s: Option<string>): (t: string)
    ensures s.Some? ==> t == s.value
    ensures s.None? ==> t == "null"
    ensures |t| == 0 <==> s == Some("")
  {
    s.GetOr("null")
  }

  /** The launcher's `progressFinalUserArgs`: the base additions with the
      version's memory allocation, then, while the renderer is valid, the
      LWJGL OpenGL library name. */
  function FinalAdditions(args: seq<string>, versionRam: int, valid: bool,
                          plugin: Option<SLGameLauncher.RendererPlugin>, r: Renderers.Renderer): (res: seq<string>)
    ensures |res| == |args| + (if valid then 9 else 8)
    ensures res[..|args|] == args
    ensures res[|args|..|args| + 8] == AppLauncher.BaseAdditions(versionRam)
    ensures valid ==> res[|args| + 8] == LIBNAME_PROPERTY + Templated(LoadGraphicsLibrary(valid, plugin, r))
  {
    var base := AppLauncher.ProgressFinalUserArgs(args, versionRam);
    if valid then base + [LIBNAME_PROPERTY + Templated(LoadGraphicsLibrary(valid, plugin, r))] else base
  }

  /** The property handed to LWJGL names the library the game loads: the
      plugin's GL library, or the renderer's own. */
  lemma LibnameMatchesRenderer(args: seq<string>, versionRam: int, plugin: Option<SLGameLauncher.RendererPlugin>,
                               r: Renderers.Renderer)
    ensures var res := FinalAdditions(args, versionRam, true, plugin, r);
      && (plugin.None? ==> res[|res| - 1] == LIBNAME_PROPERTY + Renderers.RendererLibrary(r).value)
      && (plugin.Some? ==> res[|res| - 1] == LIBNAME_PROPERTY + plugin.value.path + "/" + plugin.value.glName)
      && AppLauncher.MaxHeapArg(versionRam) in res
  {
    var res := FinalAdditions(args, versionRam, true, plugin, r);
    assert res[|args|] == AppLauncher.BaseAdditions(versionRam)[0];
  }

  // ---------------------------------------------------------------------------
  // Runtime choice and the splash switch
  // ---------------------------------------------------------------------------

  /** `getRuntime`: the version's own runtime; else the global setting,
      replaced, when automatic choice is on and the setting's runtime (as
      the runtime manager loads it) is below the manifest's Java version (8
      when absent) or has no version, by the first listed runtime reaching
      that version, when there is one. */
  function GetRuntimeName(versionRuntime: string, settingRuntime: string, picked: AppRuntimes.Runtime,
                          autoPick: bool, manifestMajor: Option<int>, listing: Option<seq<AppRuntimes.Entry>>,
                          osArch: Option<string>): (name: string)
    ensures versionRuntime != "" ==> name == versionRuntime
    ensures versionRuntime == "" && (!autoPick || (picked.javaVersion != 0 && picked.javaVersion >= manifestMajor.GetOr(8)))
      ==> name == settingRuntime
    ensures versionRuntime == "" && name != settingRuntime ==>
      var d := AppRuntimes.GetDefaultRuntime(listing, manifestMajor.GetOr(8), osArch);
      d.Some? && name == d.value.name && d.value.javaVersion >= manifestMajor.GetOr(8)
    ensures versionRuntime == "" && autoPick && (picked.javaVersion == 0 || picked.javaVersion < manifestMajor.GetOr(8)) ==>
      var d := AppRuntimes.GetDefaultRuntime(listing, manifestMajor.GetOr(8), osArch);
      name == if d.Some? then d.value.name else settingRuntime
  {
    if versionRuntime != "" then versionRuntime
    else
      var target := manifestMajor.GetOr(8);
      if autoPick && (picked.javaVersion == 0 || picked.javaVersion < target) then
        match AppRuntimes.GetDefaultRuntime(listing, target, osArch)
        case Some(r) => r.name
        case None => settingRuntime
      else settingRuntime
  }

  /** An unset global runtime loads as version 0, so automatic choice
      replaces it whenever some listed runtime reaches the target. */
  lemma UnsetRuntimeIsReplaced(settingEntry: AppRuntimes.Entry, manifestMajor: Option<int>,
                               listing: seq<AppRuntimes.Entry>, osArch: Option<string>, j: nat)
    requires settingEntry.name == ""
    requires j < |listing| && AppRuntimes.GetRuntime(listing[j], osArch).javaVersion >= manifestMajor.GetOr(8)
    ensures var picked := AppRuntimes.LoadRuntime("", settingEntry, osArch);
      var d := AppRuntimes.GetDefaultRuntime(Some(listing), manifestMajor.GetOr(8), osArch);
      d.Some? && GetRuntimeName("", "", picked, true, manifestMajor, Some(listing), osArch) == d.value.name
  {
  }

  const SPLASH_ON: string := "enabled=true"
  const SPLASH_OFF: string := "enabled=false"

  /** `disableSplash`: the text written to config/splash.properties, if
      any. An absent file is read as "enabled=true"; nothing is written
      when the config directory cannot be made or the content does not
      switch the splash on. */
  function DisableSplash(configDirReady: bool, file: Option<string>): (written: Option<string>)
    ensures written.None? <==> !configDirReady || !Contains(file.GetOr(SPLASH_ON), SPLASH_ON)
    ensures written.Some? ==> written.value == ReplaceAll(file.GetOr(SPLASH_ON), SPLASH_ON, SPLASH_OFF)
    ensures written.Some? ==> |written.value| > |file.GetOr(SPLASH_ON)|
  {
    if !configDirReady then None
    else
      var content := file.GetOr(SPLASH_ON);
      if Contains(content, SPLASH_ON) then
        ReplaceGrows(content, SPLASH_ON, SPLASH_OFF);
        Some(ReplaceAll(content, SPLASH_ON, SPLASH_OFF))
      else None
  }

  /** The app's splash switch writes exactly what the ShardLauncher tree's
      does, though it reaches an absent file through the default content. */
  lemma SplashAgreesWithShardTree(configDirReady: bool, file: Option<string>)
    ensures DisableSplash(configDirReady, file) == SLGameLauncher.DisableSplash(configDirReady, file)
  {
    if configDirReady && file.None? {
      assert OccursAt(SPLASH_ON, SPLASH_ON, 0);
      ReplaceWhole(SPLASH_ON, SPLASH_OFF);
    }
  }
}

=== FILE: app_launcher.dfy ===
/** The app tree's base launcher: the runtime library path, the Cacio
    arguments, the JVM's own arguments, the memory and collector flags,
    the order of the final command line and its log. The runtime home, the
    window size and the settings are parameters. */
module AppLauncher {
  import opened Wrappers
  import opened Text
  import Numerals

  // ---------------------------------------------------------------------------
  // Library path
  // ---------------------------------------------------------------------------

  /** The library root inside a runtime: under `jre` for the JDK 8 layout. */
  function LibRoot(isJDK8: bool): string {
    if isJDK8 then "/jre/lib" else "/lib"
  }

  /** The three library directories of a runtime, in order. */
  function RuntimeLibraryDirs(runtimeHome: string, isJDK8: bool): (dirs: seq<string>)
    ensures |dirs| == 3
    ensures dirs[0] == runtimeHome + LibRoot(isJDK8)
    ensures forall k :: 0 <= k < 3 ==> StartsWith(dirs[k], runtimeHome + LibRoot(isJDK8))
  {
    var root := runtimeHome + LibRoot(isJDK8);
    [root, root + "/amd64", root + "/aarch64"]
  }

  /** `getRuntimeLibraryPath`: the three directories joined by ':'. For a
      runtime home without ':' the path reads back as the three directories:
      `jre/lib`, `jre/lib/amd64`, `jre/lib/aarch64` for JDK 8, and the same
      under `lib` otherwise. */
  function GetRuntimeLibraryPath(runtimeHome: string, isJDK8: bool): (path: string)
    ensures ':' !in runtimeHome ==> Split(path, ':') == RuntimeLibraryDirs(runtimeHome, isJDK8)
    ensures ':' !in runtimeHome ==> Split(path, ':')[0] == runtimeHome + (if isJDK8 then "/jre/lib" else "/lib")
  {
    var dirs := RuntimeLibraryDirs(runtimeHome, isJDK8);
    assert ':' !in runtimeHome ==> Split(Join(dirs, ':'), ':') == dirs by {
      if ':' !in runtimeHome {
        var root := runtimeHome + LibRoot(isJDK8);
        assert ':' !in LibRoot(isJDK8);
        assert ':' !in root;
        assert ':' !in root + "/amd64";
        assert ':' !in root + "/aarch64";
        assert dirs[1..][1..] == [dirs[2]];
        assert Join(dirs[1..], ':') == dirs[1] + [':'] + dirs[2];
        assert Join(dirs, ':') == root + [':'] + (root + "/amd64") + [':'] + (root + "/aarch64");
        SplitThree(root, root + "/amd64", root + "/aarch64", ':');
      }
    }
    Join(dirs, ':')
  }

  /** `findInLdLibPath` in this tree: the name itself, the library path is
      never searched. */
  function FindInLdLibPath(libName: string): (found: string)
    ensures found == libName
  {
    libName
  }

  // ---------------------------------------------------------------------------
  // Cacio arguments
  // ---------------------------------------------------------------------------

  /** The managed screen size, "<width>x<height>". */
  function ScreenSize(width: int, height: int): string {
    Numerals.IntToString(width) + "x" + Numerals.IntToString(height)
  }

  /** `getCacioJavaArgs`: seven fixed properties, the second carrying the
      screen size; the Java 8 flag is not consulted. */
  function CacioJavaArgs(width: int, height: int, isJava8: bool): (r: seq<string>)
    ensures |r| == 7
    ensures r[1] == "-Dcacio.managed.screensize=" + ScreenSize(width, height)
  {
    ["-Djava.awt.headless=false", "-Dcacio.managed.screensize=" + ScreenSize(width, height)] + CACIO_FIXED
  }

  /** The five Cacio properties after the screen size. */
  const CACIO_FIXED: seq<string> := [
    "-Dcacio.font.fontmanager=sun.awt.X11FontManager",
    "-Dcacio.font.fontscaler=sun.font.FreetypeFontScaler",
    "-Dswing.defaultlaf=javax.swing.plaf.metal.MetalLookAndFeel",
    "-Dawt.toolkit=net.java.openjdk.cacio.ctc.CTCToolkit",
    "-Djava.awt.graphicsenv=net.java.openjdk.cacio.ctc.CTCGraphicsEnvironment"]

  /** A decimal numeral has no 'x'. */
  lemma NoXInNumeral(i: int)
    ensures 'x' !in Numerals.IntToString(i)
  {
    var s := Numerals.IntToString(i);
    var digits := Numerals.NatToString(if i < 0 then -i else i);
    assert forall c :: c in digits ==> Numerals.IsDigit(c);
    assert s == digits || s == "-" + digits;
  }

  /** The screen size reads back: splitting on 'x' and parsing gives the
      width and the height. */
  lemma ScreenSizeReadsBack(width: int, height: int)
    requires Numerals.IsInt32(width) && Numerals.IsInt32(height)
    ensures var parts := Split(ScreenSize(width, height), 'x');
      && |parts| == 2
      && Numerals.ParseInt(parts[0]) == Some(width)
      && Numerals.ParseInt(parts[1]) == Some(height)
  {
    var w := Numerals.IntToString(width);
    var h := Numerals.IntToString(height);
    NoXInNumeral(width);
    NoXInNumeral(height);
    assert ScreenSize(width, height) == w + ['x'] + h;
    SplitCons(w, h, 'x');
    SplitNone(h, 'x');
    Numerals.ParseIntToString(width);
    Numerals.ParseIntToString(height);
  }

  // ---------------------------------------------------------------------------
  // parseJavaArguments and getJavaArgs
  // ---------------------------------------------------------------------------

  /** The non-blank pieces, trimmed, in order. */
  function NonBlankTrimmed(pieces: seq<string>): (r: seq<string>)
    ensures |r| <= |pieces|
    ensures forall k :: 0 <= k < |r| ==> !IsBlank(r[k])
    ensures (forall j :: 0 <= j < |pieces| ==> ' ' !in pieces[j]) ==> forall k :: 0 <= k < |r| ==> ' ' !in r[k]
    decreases |pieces|
  {
    if |pieces| == 0 then []
    else
      var rest := NonBlankTrimmed(pieces[1..]);
      assert (forall j :: 0 <= j < |pieces| ==> ' ' !in pieces[j]) ==> forall j :: 0 <= j < |pieces[1..]| ==> ' ' !in pieces[1..][j] by {
        assert forall j :: 0 <= j < |pieces[1..]| ==> pieces[1..][j] == pieces[j + 1];
      }
      if IsBlank(pieces[0]) then rest
      else
        var t := Trim(pieces[0]);
        assert !IsBlank(t) by { assert !IsWhitespace(t[0]); }
        [t] + rest
  }

  /** `parseJavaArguments`: nothing for a blank text; otherwise the pieces
      between single spaces, blank ones dropped, the rest trimmed. No
      argument is blank or holds a space. */
  function ParseJavaArguments(s: string): (r: seq<string>)
    ensures IsBlank(s) ==> r == []
    ensures forall k :: 0 <= k < |r| ==> !IsBlank(r[k]) && ' ' !in r[k]
  {
    if IsBlank(s) then [] else NonBlankTrimmed(Split(s, ' '))
  }

  /** A word: non-empty, without any whitespace. */
  predicate IsWord(w: string) {
    |w| > 0 && forall i :: 0 <= i < |w| ==> !IsWhitespace(w[i])
  }

  /** Words survive trimming unchanged. */
  lemma TrimWord(w: string)
    requires IsWord(w)
    ensures Trim(w) == w && !IsBlank(w)
  {
    assert !IsWhitespace(w[0]);
    assert DropLeadingSpace(w) == w;
    assert !IsWhitespace(w[|w| - 1]);
    assert DropTrailingSpace(w) == w;
  }

  lemma WordsTail(ws: seq<string>)
    requires |ws| > 0 && forall k :: 0 <= k < |ws| ==> IsWord(ws[k])
    ensures forall k :: 0 <= k < |ws[1..]| ==> IsWord(ws[1..][k])
  {
    assert forall k :: 0 <= k < |ws[1..]| ==> ws[1..][k] == ws[k + 1];
  }

  lemma ConsTail<T>(s: seq<T>)
    requires |s| > 0
    ensures [s[0]] + s[1..] == s
  {
  }

  /** A non-blank first piece is kept, trimmed. */
  lemma NonBlankTrimmedCons(ps: seq<string>)
    requires |ps| > 0 && !IsBlank(ps[0])
    ensures NonBlankTrimmed(ps) == [Trim(ps[0])] + NonBlankTrimmed(ps[1..])
  {
  }

  lemma {:induction false} NonBlankTrimmedWords(ws: seq<string>)
    requires forall k :: 0 <= k < |ws| ==> IsWord(ws[k])
    ensures NonBlankTrimmed(ws) == ws
    decreases |ws|
  {
    if |ws| > 0 {
      WordsTail(ws);
      NonBlankTrimmedWords(ws[1..]);
      TrimWord(ws[0]);
      NonBlankTrimmedCons(ws);
      ConsTail(ws);
    }
  }

  /** Words written out with single spaces parse back to the same words. */
  lemma ParseJoinedWords(ws: seq<string>)
    requires forall k :: 0 <= k < |ws| ==> IsWord(ws[k])
    ensures ParseJavaArguments(Join(ws, ' ')) == ws
  {
    if |ws| > 0 {
      JoinedWordsNotBlank(ws);
      WordsHaveNoSpace(ws);
      SplitJoin(ws, ' ');
      NonBlankTrimmedWords(ws);
    }
  }

  lemma JoinedWordsNotBlank(ws: seq<string>)
    requires |ws| > 0 && IsWord(ws[0])
    ensures !IsBlank(Join(ws, ' '))
  {
    var s := Join(ws, ' ');
    if |ws| > 1 {
      assert s == ws[0] + ([' '] + Join(ws[1..], ' '));
    }
    assert s[0] == ws[0][0];
  }

  lemma WordsHaveNoSpace(ws: seq<string>)
    requires forall k :: 0 <= k < |ws| ==> IsWord(ws[k])
    ensures forall k :: 0 <= k < |ws| ==> ' ' !in ws[k]
  {
    forall k | 0 <= k < |ws| ensures ' ' !in ws[k] {
      assert IsWhitespace(' ');
      assert forall i :: 0 <= i < |ws[k]| ==> ws[k][i] != ' ';
    }
  }

  /** `getJavaArgs`: `-Duser.home` when a home is given, the Cacio
      arguments, then the user's arguments. */
  function GetJavaArgs(userHome: Option<string>, userArgs: string, width: int, height: int, isJDK8: bool): (r: seq<string>)
    ensures var h := if userHome.Some? then 1 else 0; var user := ParseJavaArguments(userArgs);
      && |r| == h + 7 + |user|
      && (userHome.Some? ==> r[0] == "-Duser.home=" + userHome.value)
      && r[h..h + 7] == CacioJavaArgs(width, height, isJDK8)
      && r[h + 7..] == user
  {
    var home := if userHome.Some? then ["-Duser.home=" + userHome.value] else [];
    var r := home + CacioJavaArgs(width, height, isJDK8) + ParseJavaArguments(userArgs);
    assert r[|home|..|home| + 7] == CacioJavaArgs(width, height, isJDK8);
    assert r[|home| + 7..] == ParseJavaArguments(userArgs);
    r
  }

  // ---------------------------------------------------------------------------
  // progressFinalUserArgs and the command line
  // ---------------------------------------------------------------------------

  const DEFAULT_RAM: int := 2048

  /** The collector flags appended after the memory flags. */
  const G1_FLAGS: seq<string> := [
    "-XX:+UseG1GC", "-XX:+UnlockExperimentalVMOptions", "-XX:G1NewSizePercent=20",
    "-XX:G1ReservePercent=20", "-XX:MaxGCPauseMillis=50", "-XX:G1HeapRegionSize=32M"]

  /** `-Xmx<ram>M`. */
  function MaxHeapArg(ram: int): string {
    "-Xmx" + Numerals.IntToString(ram) + "M"
  }

  /** What the base `progressFinalUserArgs` appends: the maximum heap, a
      256 MB initial heap and the G1 flags. */
  function BaseAdditions(ram: int): (extra: seq<string>)
    ensures |extra| == 8 && extra[0] == MaxHeapArg(ram) && extra[1] == "-Xms256M" && extra[2..] == G1_FLAGS
  {
    [MaxHeapArg(ram), "-Xms256M"] + G1_FLAGS
  }

  /** The base `progressFinalUserArgs`: it only appends. */
  function ProgressFinalUserArgs(args: seq<string>, ram: int): (r: seq<string>)
    ensures |r| == |args| + 8
    ensures r[..|args|] == args && r[|args|..] == BaseAdditions(ram)
  {
    args + BaseAdditions(ram)
  }

  /** No argument is removed, and the maximum heap is the requested one. */
  lemma FinalArgsKeepEverything(args: seq<string>, ram: int)
    ensures forall a :: a in args ==> a in ProgressFinalUserArgs(args, ram)
    ensures MaxHeapArg(ram) in ProgressFinalUserArgs(args, ram)
    ensures |ProgressFinalUserArgs(args, ram)| > |args|
  {
    var r := ProgressFinalUserArgs(args, ram);
    assert forall i :: 0 <= i < |args| ==> r[i] == args[i];
    assert r[|args|] == MaxHeapArg(ram);
  }

  /** `launchJavaVM`'s command line: the runtime's java binary, the Java
      arguments, what the launcher's `progressFinalUserArgs` appends, then
      the launch's JVM arguments. */
  function LaunchCommand(runtimeHome: string, javaArgs: seq<string>, additions: seq<string>, jvmArgs: seq<string>): (cmd: seq<string>)
    ensures |cmd| == 1 + |javaArgs| + |additions| + |jvmArgs|
    ensures cmd[0] == runtimeHome + "/bin/java"
    ensures cmd[1..1 + |javaArgs|] == javaArgs
    ensures cmd[1 + |javaArgs|..1 + |javaArgs| + |additions|] == additions
    ensures cmd[1 + |javaArgs| + |additions|..] == jvmArgs
  {
    var cmd := [runtimeHome + "/bin/java"] + javaArgs + additions + jvmArgs;
    assert cmd[1..1 + |javaArgs|] == javaArgs;
    assert cmd[1 + |javaArgs|..1 + |javaArgs| + |additions|] == additions;
    assert cmd[1 + |javaArgs| + |additions|..] == jvmArgs;
    cmd
  }

  // ---------------------------------------------------------------------------
  // The argument log
  // ---------------------------------------------------------------------------

  const TOKEN_FLAG: string := "--accessToken"
  const MASK: string := "********************"

  function LogLine(arg: string): string {
    "JVMArgs: " + arg
  }

  /** The log as the loop writes it: every argument's line, and after an
      argument starting with "--accessToken" a mask line. The argument
      after it, the token itself, is logged too. */
  function LogLinesAsWritten(args: seq<string>): (lines: seq<string>)
    ensures |lines| >= |args|
    ensures forall i :: 0 <= i < |args| ==> LogLine(args[i]) in lines
    ensures forall l :: l in lines ==> l == LogLine(MASK) || exists i :: 0 <= i < |args| && l == LogLine(args[i])
    ensures |args| > 0 ==> lines[0] == LogLine(args[0])
    ensures |args| > 0 && StartsWith(args[0], TOKEN_FLAG) ==> |lines| >= 2 && lines[1] == LogLine(MASK)
    decreases |args|
  {
    if |args| == 0 then []
    else
      var rest := LogLinesAsWritten(args[1..]);
      assert forall i :: 1 <= i < |args| ==> args[i] == args[1..][i - 1];
      [LogLine(args[0])] + (if StartsWith(args[0], TOKEN_FLAG) then [LogLine(MASK)] else []) + rest
  }

  /** The log of a concatenation is the log of each part, one after the
      other. */
  lemma {:induction false} LogLinesAsWrittenAppend(a: seq<string>, b: seq<string>)
    ensures LogLinesAsWritten(a + b) == LogLinesAsWritten(a) + LogLinesAsWritten(b)
    decreases |a|
  {
    if |a| == 0 {
      assert a + b == b;
    } else {
      assert (a + b)[0] == a[0];
      assert (a + b)[1..] == a[1..] + b;
      LogLinesAsWrittenAppend(a[1..], b);
    }
  }

  /** The lines come in argument order: the line of argument `i` stands
      right after the lines of the arguments before it, followed by the
      mask when it starts with "--accessToken", and then by the lines of the
      arguments after it. */
  lemma LogLinesAsWrittenInOrder(args: seq<string>, i: nat)
    requires i < |args|
    ensures var lines := LogLinesAsWritten(args);
      var k := |LogLinesAsWritten(args[..i])|;
      && k < |lines| && lines[..k] == LogLinesAsWritten(args[..i]) && lines[k] == LogLine(args[i])
      && (StartsWith(args[i], TOKEN_FLAG) ==>
            k + 1 < |lines| && lines[k + 1] == LogLine(MASK) && lines[k + 2..] == LogLinesAsWritten(args[i + 1..]))
      && (!StartsWith(args[i], TOKEN_FLAG) ==> lines[k + 1..] == LogLinesAsWritten(args[i + 1..]))
  {
    var pre := LogLinesAsWritten(args[..i]);
    var after := LogLinesAsWritten(args[i + 1..]);
    var mask := if StartsWith(args[i], TOKEN_FLAG) then [LogLine(MASK)] else [];
    assert args == args[..i] + args[i..];
    LogLinesAsWrittenAppend(args[..i], args[i..]);
    assert args[i..][0] == args[i] && args[i..][1..] == args[i + 1..];
    assert LogLinesAsWritten(args[i..]) == [LogLine(args[i])] + mask + after;
    assert LogLinesAsWritten(args) == pre + ([LogLine(args[i])] + mask + after);
  }

  /** Without any "--accessToken" argument, the log as written and the
      masked log are the same. */
  lemma AsWrittenAgreesWithoutToken(args: seq<string>)
    requires forall j :: 0 <= j < |args| ==> !StartsWith(args[j], TOKEN_FLAG)
    ensures LogLinesAsWritten(args) == LogLines(args)
  {
    assert args[0..] == args;
    AsWrittenAgreesFrom(args, 0);
  }

  lemma {:induction false} AsWrittenAgreesFrom(args: seq<string>, i: nat)
    requires i <= |args|
    requires forall j :: 0 <= j < |args| ==> !StartsWith(args[j], TOKEN_FLAG)
    ensures LogLinesAsWritten(args[i..]) == LogLinesFrom(args, i)
    decreases |args| - i
  {
    if i < |args| {
      AsWrittenAgreesFrom(args, i + 1);
      assert args[i..][0] == args[i] && args[i..][1..] == args[i + 1..];
      assert !Hidden(args, i);
    }
  }

  /** The token following "--accessToken" reaches the log verbatim. */
  lemma AsWrittenLogsToken(token: string)
    ensures LogLine(token) in LogLinesAsWritten([TOKEN_FLAG, token])
  {
    assert [TOKEN_FLAG, token][1] == token;
  }

  /** Whether the argument at `i` follows an "--accessToken" argument. */
  predicate Hidden(args: seq<string>, i: nat)
    requires i < |args|
  {
    i > 0 && StartsWith(args[i - 1], TOKEN_FLAG)
  }

  /** The log with the mask standing in for the token: a hidden argument
      gets no line of its own. */
  function LogLinesFrom(args: seq<string>, i: nat): (lines: seq<string>)
    requires i <= |args|
    ensures forall l :: l in lines ==> l == LogLine(MASK) || exists j :: i <= j < |args| && !Hidden(args, j) && l == LogLine(args[j])
    ensures forall j :: i <= j < |args| && !Hidden(args, j) ==> LogLine(args[j]) in lines
    decreases |args| - i
  {
    if i == |args| then []
    else
      var own := if Hidden(args, i) then [] else [LogLine(args[i])] + (if StartsWith(args[i], TOKEN_FLAG) then [LogLine(MASK)] else []);
      own + LogLinesFrom(args, i + 1)
  }

  /** The log of a command line. */
  function LogLines(args: seq<string>): (lines: seq<string>)
    ensures forall l :: l in lines ==> l == LogLine(MASK) || exists j :: 0 <= j < |args| && !Hidden(args, j) && l == LogLine(args[j])
    ensures forall j :: 0 <= j < |args| && !Hidden(args, j) ==> LogLine(args[j]) in lines
  {
    LogLinesFrom(args, 0)
  }

  /** A token that does not also occur as a visible argument never reaches
      the log, and every visible argument does. */
  lemma TokenNeverLogged(args: seq<string>, i: nat)
    requires i + 1 < |args| && StartsWith(args[i], TOKEN_FLAG)
    requires forall j :: 0 <= j < |args| && !Hidden(args, j) ==> args[j] != args[i + 1]
    requires args[i + 1] != MASK
    ensures LogLine(args[i + 1]) !in LogLines(args)
    ensures LogLine(args[i]) in LogLines(args) || Hidden(args, i)
  {
    var lines := LogLines(args);
    var token := args[i + 1];
    LogLineSuffix(token);
    forall l | l in lines ensures l != LogLine(token) {
      if l == LogLine(MASK) {
        LogLineSuffix(MASK);
      } else {
        var j :| 0 <= j < |args| && !Hidden(args, j) && l == LogLine(args[j]);
        LogLineSuffix(args[j]);
      }
    }
  }

  lemma LogLineSuffix(arg: string)
    ensures |LogLine(arg)| == 9 + |arg| && LogLine(arg)[9..] == arg
  {
  }
}

=== FILE: architecture.dfy ===
/** The app tree's device architecture helpers. The device's ABI lists are
    parameters: the supported ABIs, most preferred first, and the 64-bit
    ones. */
module Architecture {
  import opened Wrappers

  /** The launcher's name for a known Android ABI, or the ABI itself. */
  function ArchName(abi: string): string {
    if abi == "arm64-v8a" then "aarch64"
    else if abi == "armeabi-v7a" then "arm"
    else if abi == "x86_64" then "x86_64"
    else if abi == "x86" then "x86"
    else abi
  }

  /** `archAsString`: the name of the preferred ABI; reading the first entry
      of an empty list fails. */
  function ArchAsString(supportedAbis: seq<string>): (r: Option<string>)
    ensures r.None? <==> |supportedAbis| == 0
    ensures r.Some? ==> r.value == ArchName(supportedAbis[0])
  {
    if |supportedAbis| == 0 then None else Some(ArchName(supportedAbis[0]))
  }

  /** `is64Bit`: the device lists some 64-bit ABI. */
  function Is64Bit(supported64BitAbis: seq<string>): (b: bool)
    ensures b <==> exists abi :: abi in supported64BitAbis
  {
    if |supported64BitAbis| > 0 then
      assert supported64BitAbis[0] in supported64BitAbis;
      true
    else false
  }

  /** `isARM`: the preferred ABI is one of the ARM ones; reading the first
      entry of an empty list fails. */
  function IsARM(supportedAbis: seq<string>): (r: Option<bool>)
    ensures r.None? <==> |supportedAbis| == 0
    ensures r.Some? ==> (r.value <==> supportedAbis[0] in {"arm64-v8a", "armeabi-v7a", "aarch64", "arm"})
  {
    match ArchAsString(supportedAbis)
    case None => None
    case Some(arch) => Some(arch == "aarch64" || arch == "arm")
  }

  /** `isX86`: the preferred ABI is one of the x86 ones; reading the first
      entry of an empty list fails. */
  function IsX86(supportedAbis: seq<string>): (r: Option<bool>)
    ensures r.None? <==> |supportedAbis| == 0
    ensures r.Some? ==> (r.value <==> supportedAbis[0] in {"x86_64", "x86"})
  {
    match ArchAsString(supportedAbis)
    case None => None
    case Some(arch) => Some(arch == "x86_64" || arch == "x86")
  }

  /** The known ABIs map to the launcher's names, and the names are a fixed
      point: mapping twice changes nothing. */
  lemma ArchNameKnown(abi: string)
    ensures ArchName("arm64-v8a") == "aarch64" && ArchName("armeabi-v7a") == "arm"
    ensures ArchName(ArchName(abi)) == ArchName(abi)
  {
  }

  /** A device is never both ARM and x86; both tests fail together on an
      empty ABI list; the ARM test holds exactly for the ARM ABIs (or an
      ABI already spelled with the launcher's name). */
  lemma ArmAndX86Exclusive(supportedAbis: seq<string>)
    ensures IsARM(supportedAbis).None? <==> IsX86(supportedAbis).None?
    ensures IsARM(supportedAbis).Some? ==> !(IsARM(supportedAbis).value && IsX86(supportedAbis).value)
    ensures IsARM(supportedAbis).Some? ==>
      (IsARM(supportedAbis).value <==> supportedAbis[0] in {"arm64-v8a", "armeabi-v7a", "aarch64", "arm"})
    ensures IsX86(supportedAbis).Some? ==>
      (IsX86(supportedAbis).value <==> supportedAbis[0] in {"x86_64", "x86"})
  {
  }
}

=== FILE: char_sender.dfy ===
/** The LWJGL implementation of the character sender: characters become
    CHAR events and key presses become KEY events carrying the GLFW key the
    Android key maps to, all sent through `SLBridge.sendInputData`.

    The numeric values of `SLBridge.EVENT_TYPE_*` and of the GLFW keys are
    not part of this model: the event type is symbolic and the first field
    of a KEY event carries the GLFW key itself. */
module LwjglCharSender {
  import opened Keycodes
  import opened SenderStrategy
  import Text

  datatype EventType = EventTypeChar | EventTypeKey

  /** The first field of an event: a number, or the GLFW key of a KEY event. */
  datatype Field = Num(n: int) | Glfw(key: GlfwKey)

  /** One `sendInputData(type, i1, i2, i3, i4)`. */
  datatype InputData = InputData(kind: EventType, i1: Field, i2: int, i3: int, i4: int)

  /** What `sendOther` reads from the Android key event. */
  datatype AndroidKeyEvent = AndroidKeyEvent(keyCode: int, action: int, unicodeChar: int)

  /** The GLFW key for an Android key code: the table's key when the code is
      in the table, `GLFW_KEY_UNKNOWN` otherwise. */
  function LwjglKeyOf(keyCode: int): (k: GlfwKey)
  {
    var index := IndexByKey(keyCode);
    if index >= 0 then ValueByIndex(index).value else KeyUnknown
  }

  /** The key `sendKeyPress` sends is the table's key for a code in the
      table and `GLFW_KEY_UNKNOWN` for any other code. */
  lemma LwjglKeyOfTable(keyCode: int)
    ensures forall i :: 0 <= i < |TABLE| && TABLE[i].android == keyCode ==> LwjglKeyOf(keyCode) == TABLE[i].lwjgl
    ensures (forall i :: 0 <= i < |TABLE| ==> TABLE[i].android != keyCode) ==> LwjglKeyOf(keyCode) == KeyUnknown
  {
    forall i | 0 <= i < |TABLE| && TABLE[i].android == keyCode
      ensures LwjglKeyOf(keyCode) == TABLE[i].lwjgl
    {
      SameCodeSameSlot(i, IndexByKey(keyCode));
    }
  }

  /** No Android code appears in two slots of the table. */
  lemma SameCodeSameSlot(i: int, j: int)
    requires 0 <= i < |TABLE| && 0 <= j < |TABLE|
    requires TABLE[i].android == TABLE[j].android
    ensures i == j
  {
    TableAscending();
    var codes := AndroidCodes(TABLE);
    AscendingIsSorted(codes);
    assert codes[i] == codes[j];
  }

  /** `sendChar`: one CHAR event carrying the character's code. */
  function SendCharEvents(c: Text.CodeUnit): (r: seq<InputData>)
    ensures |r| == 1 && r[0].kind == EventTypeChar
    ensures r[0].i1 == Num(c) && r[0].i2 == 0 && r[0].i3 == 0 && r[0].i4 == 0
  {
    [InputData(EventTypeChar, Num(c), 0, 0, 0)]
  }

  /** `sendKeyPress`: one KEY event with the mapped key, the character's
      code, state 1 exactly when pressed, and the modifiers unchanged. */
  function SendKeyPressEvents(keyCode: int, keyChar: Text.CodeUnit, mods: int, isPressed: bool): (r: seq<InputData>)
    ensures |r| == 1 && r[0].kind == EventTypeKey
    ensures r[0].i1 == Glfw(LwjglKeyOf(keyCode)) && r[0].i2 == keyChar
    ensures r[0].i3 == (if isPressed then 1 else 0) && r[0].i4 == mods
  {
    [InputData(EventTypeKey, Glfw(LwjglKeyOf(keyCode)), keyChar, if isPressed then 1 else 0, mods)]
  }

  /** `sendOther`: for a key in the table, a KEY event with state 1 on
      ACTION_DOWN and 0 on ACTION_UP and no modifiers; nothing for a key
      outside the table or any other action. The character is the low 16
      bits of `unicodeChar`. */
  function SendOtherEvents(ev: AndroidKeyEvent): (r: seq<InputData>)
    ensures |r| <= 1
    ensures |r| == 1 <==> (exists i :: 0 <= i < |TABLE| && TABLE[i].android == ev.keyCode)
                           && (ev.action == ACTION_DOWN || ev.action == ACTION_UP)
    ensures |r| == 1 ==> r[0] == InputData(EventTypeKey, Glfw(LwjglKeyOf(ev.keyCode)), ev.unicodeChar % 0x1_0000,
                                           if ev.action == ACTION_DOWN then 1 else 0, 0)
  {
    var index := IndexByKey(ev.keyCode);
    if index < 0 then []
    else
      var key := ValueByIndex(index).value;
      var keyChar := ev.unicodeChar % 0x1_0000;
      if ev.action == ACTION_DOWN then [InputData(EventTypeKey, Glfw(key), keyChar, 1, 0)]
      else if ev.action == ACTION_UP then [InputData(EventTypeKey, Glfw(key), keyChar, 0, 0)]
      else []
  }

  /** The events one abstract-method call produces in this implementation. */
  function Perform(call: SenderCall): (r: seq<InputData>)
    ensures |r| == 1
  {
    match call
    case SendChar(c) => SendCharEvents(c)
    case SendKeyPress(k, c, mods, pressed) => SendKeyPressEvents(k, c, mods, pressed)
  }

  function Run(calls: seq<SenderCall>): (r: seq<InputData>)
    ensures |r| == |calls|
    decreases |calls|
  {
    if |calls| == 0 then [] else Perform(calls[0]) + Run(calls[1..])
  }

  /** For a key in the table, `sendOther` sends what `sendKeyPress` would
      with no modifiers, the press flag taken from the action and the
      character the code unit `unicodeChar.toChar()` keeps. */
  lemma SendOtherIsKeyPress(ev: AndroidKeyEvent)
    requires exists i :: 0 <= i < |TABLE| && TABLE[i].android == ev.keyCode
    requires ev.action == ACTION_DOWN || ev.action == ACTION_UP
    ensures SendOtherEvents(ev) == SendKeyPressEvents(ev.keyCode, ev.unicodeChar % 0x1_0000, 0, ev.action == ACTION_DOWN)
  {
  }

  /** The codes of the CHAR events, in order: what the game reads as typed
      text. */
  function TypedText(events: seq<InputData>): seq<int>
    decreases |events|
  {
    if |events| == 0 then []
    else if events[0].kind == EventTypeChar && events[0].i1.Num? then [events[0].i1.n] + TypedText(events[1..])
    else TypedText(events[1..])
  }

  /** One `sendChar` per code unit of a string. */
  function Typing(s: seq<Text.CodeUnit>): (calls: seq<SenderCall>)
    ensures |calls| == |s| && forall i :: 0 <= i < |s| ==> calls[i] == SendChar(s[i])
  {
    seq(|s|, i requires 0 <= i < |s| => SendChar(s[i]))
  }

  /** Typing a string one `sendChar` per code unit delivers exactly its
      code units, in order. */
  lemma {:induction false} TypingRoundTrip(s: seq<Text.CodeUnit>)
    ensures TypedText(Run(Typing(s))) == s
    decreases |s|
  {
    var calls := Typing(s);
    if |s| > 0 {
      assert calls[1..] == Typing(s[1..]);
      TypingRoundTrip(s[1..]);
      assert Run(calls)[0] == InputData(EventTypeChar, Num(s[0]), 0, 0, 0);
      assert Run(calls)[1..] == Run(Typing(s[1..]));
      assert s == [s[0]] + s[1..];
    }
  }

  /** A character beyond the Basic Multilingual Plane is typed as two CHAR
      events, its high and then its low surrogate. */
  lemma AstralCharTypesSurrogatePair(c: char)
    requires c as int >= 0x1_0000
    ensures var codes := TypedText(Run(Typing(Text.Utf16Units(c))));
      && |codes| == 2
      && 0xD800 <= codes[0] < 0xDC00 && 0xDC00 <= codes[1] < 0xE000
      && 0x1_0000 + (codes[0] - 0xD800) * 0x400 + (codes[1] - 0xDC00) == c as int
  {
    TypingRoundTrip(Text.Utf16Units(c));
  }

  /** The GLFW keys held down after a sequence of events, starting from
      `held`: state 1 adds the key, state 0 removes it. */
  function HeldKeys(held: set<GlfwKey>, events: seq<InputData>): set<GlfwKey>
    decreases |events|
  {
    if |events| == 0 then held
    else
      var e := events[0];
      var next :=
        if e.kind == EventTypeKey && e.i1.Glfw? then
          if e.i3 == 1 then held + {e.i1.key} else if e.i3 == 0 then held - {e.i1.key} else held
        else held;
      HeldKeys(next, events[1..])
  }

  lemma {:induction false} HeldKeysAppend(held: set<GlfwKey>, a: seq<InputData>, b: seq<InputData>)
    ensures HeldKeys(held, a + b) == HeldKeys(HeldKeys(held, a), b)
    decreases |a|
  {
    if |a| == 0 {
      assert a + b == b;
    } else {
      assert (a + b)[0] == a[0] && (a + b)[1..] == a[1..] + b;
      var e := a[0];
      var next :=
        if e.kind == EventTypeKey && e.i1.Glfw? then
          if e.i3 == 1 then held + {e.i1.key} else if e.i3 == 0 then held - {e.i1.key} else held
        else held;
      HeldKeysAppend(next, a[1..], b);
    }
  }

  lemma {:induction false} RunAppend(a: seq<SenderCall>, b: seq<SenderCall>)
    ensures Run(a + b) == Run(a) + Run(b)
    decreases |a|
  {
    if |a| == 0 {
      assert a + b == b;
    } else {
      assert (a + b)[0] == a[0] && (a + b)[1..] == a[1..] + b;
      RunAppend(a[1..], b);
    }
  }

  /** A tap, run through this implementation, presses and releases the
      same GLFW key. */
  lemma TapReleasesGlfw(keyCode: int, keyChar: Text.CodeUnit)
    ensures HeldKeys({}, Run([SendKeyPress(keyCode, keyChar, 0, true), SendKeyPress(keyCode, keyChar, 0, false)])) == {}
  {
    var calls := [SendKeyPress(keyCode, keyChar, 0, true), SendKeyPress(keyCode, keyChar, 0, false)];
    var key := LwjglKeyOf(keyCode);
    var down := InputData(EventTypeKey, Glfw(key), keyChar, 1, 0);
    var up := InputData(EventTypeKey, Glfw(key), keyChar, 0, 0);
    assert calls[1..] == [calls[1]] && calls[1..][1..] == [];
    assert Run(calls[1..]) == [up];
    assert Run(calls) == [down] + [up];
    PressReleaseGlfw(key, keyChar as int);
  }

  lemma PressReleaseGlfw(key: GlfwKey, keyChar: int)
    ensures HeldKeys({}, [InputData(EventTypeKey, Glfw(key), keyChar, 1, 0)] + [InputData(EventTypeKey, Glfw(key), keyChar, 0, 0)]) == {}
  {
    var r := [InputData(EventTypeKey, Glfw(key), keyChar, 1, 0)] + [InputData(EventTypeKey, Glfw(key), keyChar, 0, 0)];
    var none: set<GlfwKey> := {};
    assert r[0].i3 == 1 && r[1..][0].i3 == 0 && r[1..][1..] == [];
    assert HeldKeys(none, r) == HeldKeys(none + {key}, r[1..]);
    assert HeldKeys(none + {key}, r[1..]) == HeldKeys((none + {key}) - {key}, []);
    assert (none + {key}) - {key} == none;
  }

  /** One default method, run through this implementation, leaves no GLFW
      key held down. */
  lemma CompositeReleasesGlfw(m: Composite)
    ensures HeldKeys({}, Run(Calls(m))) == {}
  {
    var r := Run(Calls(m));
    if !m.Enter? && !m.Tab? {
      TapReleasesGlfw(TapKey(m).0, TapKey(m).1);
    } else {
      assert r[1..] == [];
    }
  }

  /** Any run of the default methods leaves every GLFW key released. */
  lemma {:induction false} ScriptReleasesGlfw(ms: seq<Composite>)
    ensures HeldKeys({}, Run(Script(ms))) == {}
    decreases |ms|
  {
    if |ms| > 0 {
      RunAppend(Calls(ms[0]), Script(ms[1..]));
      HeldKeysAppend({}, Run(Calls(ms[0])), Run(Script(ms[1..])));
      CompositeReleasesGlfw(ms[0]);
      ScriptReleasesGlfw(ms[1..]);
    }
  }
}

=== FILE: cursor_registry.dfy ===
/** The GLFW cursor registry of the LWJGL port: every standard cursor shape
    gets a numeric id the first time it is registered, ids counting up
    from 4, and the id-to-shape and shape-to-id maps stay each other's
    inverse. The arrow shape is registered by the static initializer, so it
    holds the first id and is the default cursor. */
module CursorRegistry {
  /** `GLFW.GLFW_ARROW_CURSOR`, as GLFW defines it. */
  const GLFW_ARROW_CURSOR: int := 0x0003_6001

  const FIRST_ID: int := 4

  /** The two maps and the id counter. */
  datatype Registry = Registry(cursors: map<int, int>, shapes: map<int, int>, nextId: int)

  /** The maps are inverse to each other and every id in use lies below the
      counter (and at or above the first id). */
  predicate Valid(r: Registry) {
    && r.nextId >= FIRST_ID
    && (forall id :: id in r.cursors ==> FIRST_ID <= id < r.nextId)
    && (forall id :: id in r.cursors ==> r.cursors[id] in r.shapes && r.shapes[r.cursors[id]] == id)
    && (forall s :: s in r.shapes ==> r.shapes[s] in r.cursors && r.cursors[r.shapes[s]] == s)
  }

  /** Before the static initializer runs. */
  const Empty: Registry := Registry(map[], map[], FIRST_ID)

  /** `registerCursor(shape)`: the shape's existing id if it has one;
      otherwise the counter's value, recorded in both maps, and the counter
      moves on. */
  function Register(r: Registry, shape: int): (res: (Registry, int))
    requires Valid(r)
    ensures Valid(res.0)
    ensures shape in r.shapes ==> res == (r, r.shapes[shape])
    ensures shape !in r.shapes ==>
      && res.1 == r.nextId
      && res.1 !in r.cursors
      && res.0.nextId == r.nextId + 1
    ensures res.0.shapes.Keys == r.shapes.Keys + {shape}
    ensures res.0.cursors.Keys == r.cursors.Keys + {res.1}
    ensures forall id :: id in r.cursors ==> id in res.0.cursors && res.0.cursors[id] == r.cursors[id]
  {
    if shape in r.shapes then (r, r.shapes[shape])
    else
      var id := r.nextId;
      (Registry(r.cursors[id := shape], r.shapes[shape := id], id + 1), id)
  }

  /** `getShape(cursor)`: the registered shape, or the arrow for an unknown id. */
  function GetShape(r: Registry, cursor: int): (s: int)
    ensures cursor in r.cursors ==> s == r.cursors[cursor]
    ensures cursor !in r.cursors ==> s == GLFW_ARROW_CURSOR
    ensures Valid(r) && cursor in r.cursors ==> r.shapes[s] == cursor
  {
    if cursor in r.cursors then r.cursors[cursor] else GLFW_ARROW_CURSOR
  }

  /** The registry after the static initializer, and `DEFAULT_CURSOR`: only
      the arrow is registered, under the first id. */
  function Initialized(): (res: (Registry, int))
    ensures Valid(res.0)
    ensures res.0.cursors == map[FIRST_ID := GLFW_ARROW_CURSOR] && res.0.shapes == map[GLFW_ARROW_CURSOR := FIRST_ID]
    ensures res.1 == FIRST_ID && res.0.nextId == FIRST_ID + 1
  {
    Register(Empty, GLFW_ARROW_CURSOR)
  }

  /** The default cursor is the first id and shows the arrow. */
  lemma DefaultCursorIsArrow()
    ensures Initialized().1 == FIRST_ID
    ensures GetShape(Initialized().0, Initialized().1) == GLFW_ARROW_CURSOR
    ensures Initialized().0.nextId == FIRST_ID + 1
  {
  }

  /** Looking a fresh id up gives back the shape registered under it. */
  lemma RegisterThenGetShape(r: Registry, shape: int)
    requires Valid(r)
    ensures GetShape(Register(r, shape).0, Register(r, shape).1) == shape
  {
  }

  /** Registering a shape a second time changes nothing and returns the
      same id. */
  lemma RegisterIdempotent(r: Registry, shape: int)
    requires Valid(r)
    ensures Register(Register(r, shape).0, shape) == (Register(r, shape).0, Register(r, shape).1)
  {
  }

  /** Registering several shapes in turn: the final registry and the ids
      handed out. */
  function RegisterAll(r: Registry, shapes: seq<int>): (res: (Registry, seq<int>))
    requires Valid(r)
    ensures Valid(res.0) && |res.1| == |shapes|
    ensures res.0.nextId >= r.nextId
    ensures forall id :: id in r.cursors ==> id in res.0.cursors && res.0.cursors[id] == r.cursors[id]
    ensures forall k :: 0 <= k < |shapes| ==> res.1[k] in res.0.cursors && res.0.cursors[res.1[k]] == shapes[k]
    decreases |shapes|
  {
    if |shapes| == 0 then (r, [])
    else
      var (r1, id) := Register(r, shapes[0]);
      var (r2, ids) := RegisterAll(r1, shapes[1..]);
      (r2, [id] + ids)
  }

  /** Shapes never seen before, all different, get consecutive ids from
      the counter on. */
  lemma {:induction false} FreshShapesGetConsecutiveIds(r: Registry, shapes: seq<int>)
    requires Valid(r)
    requires forall k :: 0 <= k < |shapes| ==> shapes[k] !in r.shapes
    requires forall j, k :: 0 <= j < k < |shapes| ==> shapes[j] != shapes[k]
    ensures forall k :: 0 <= k < |shapes| ==> RegisterAll(r, shapes).1[k] == r.nextId + k
    ensures RegisterAll(r, shapes).0.nextId == r.nextId + |shapes|
    decreases |shapes|
  {
    if |shapes| > 0 {
      var (r1, id) := Register(r, shapes[0]);
      assert forall k :: 0 <= k < |shapes[1..]| ==> shapes[1..][k] !in r1.shapes by {
        forall k | 0 <= k < |shapes[1..]| ensures shapes[1..][k] !in r1.shapes {
          assert shapes[1..][k] == shapes[k + 1];
        }
      }
      FreshShapesGetConsecutiveIds(r1, shapes[1..]);
    }
  }

  /** Ids are never reused: distinct shapes always get distinct ids, and an
      id keeps its shape forever. */
  lemma {:induction false} IdsNeverReused(r: Registry, shapes: seq<int>)
    requires Valid(r)
    ensures forall j, k :: 0 <= j < |shapes| && 0 <= k < |shapes| && shapes[j] != shapes[k]
              ==> RegisterAll(r, shapes).1[j] != RegisterAll(r, shapes).1[k]
  {
    var (r2, ids) := RegisterAll(r, shapes);
    forall j, k | 0 <= j < |shapes| && 0 <= k < |shapes| && shapes[j] != shapes[k]
      ensures ids[j] != ids[k]
    {
      assert r2.cursors[ids[j]] == shapes[j];
    }
  }
}

=== FILE: driver_plugins.dfy ===
/** The app tree's GPU driver registry: the bundled Turnip driver plus
    drivers contributed by plugin apps, one of them current. Package-manager
    and settings reads become parameters. */
module DriverPlugins {
  import opened Wrappers

  datatype Driver = Driver(id: string, name: string, summary: string, path: string)

  /** The driver list and the current driver (absent until one is set). */
  datatype Manager = Manager(drivers: seq<Driver>, current: Option<Driver>)

  const Fresh: Manager := Manager([], None)

  datatype DriverError = NoDrivers

  /** The first driver with the given id, if any (Kotlin `find`). */
  function Find(drivers: seq<Driver>, id: string): (r: Option<nat>)
    ensures r.Some? ==> r.value < |drivers| && drivers[r.value].id == id
    ensures r.Some? ==> forall k :: 0 <= k < r.value ==> drivers[k].id != id
    ensures r.None? ==> forall k :: 0 <= k < |drivers| ==> drivers[k].id != id
    decreases |drivers|
  {
    if |drivers| == 0 then None
    else if drivers[0].id == id then Some(0)
    else match Find(drivers[1..], id)
      case None => None
      case Some(k) => Some(k + 1)
  }

  /** `setDriverById`: the first driver with that id, else the first driver;
      with no drivers at all the list lookup fails. */
  function SetDriverById(m: Manager, driverId: string): (r: Result<Manager, DriverError>)
    ensures r.Failure? <==> |m.drivers| == 0
    ensures r.Success? ==> r.value.drivers == m.drivers && r.value.current.Some?
    ensures r.Success? ==> r.value.current.value in m.drivers
    ensures (r.Success? && exists k :: 0 <= k < |m.drivers| && m.drivers[k].id == driverId)
      ==> r.value.current.value.id == driverId
    ensures (r.Success? && forall k :: 0 <= k < |m.drivers| ==> m.drivers[k].id != driverId)
      ==> r.value.current == Some(m.drivers[0])
  {
    if |m.drivers| == 0 then Failure(NoDrivers)
    else match Find(m.drivers, driverId)
      case Some(k) => Success(m.(current := Some(m.drivers[k])))
      case None => Success(m.(current := Some(m.drivers[0])))
  }

  /** `initDriver`: clear the list only when resetting, append Turnip (the
      default driver id, the app's native library directory), then select
      by the saved setting. It never fails, and the current driver is the
      saved one when it is listed, Turnip or an earlier driver otherwise. */
  function InitDriver(m: Manager, reset: bool, defaultId: string, nativeLibraryDir: string, savedId: string): (r: Manager)
    ensures var kept := if reset then [] else m.drivers;
      r.drivers == kept + [Driver(defaultId, "Turnip", "", nativeLibraryDir)]
    ensures r.current.Some? && r.current.value in r.drivers
    ensures (exists k :: 0 <= k < |r.drivers| && r.drivers[k].id == savedId) ==> r.current.value.id == savedId
    ensures (forall k :: 0 <= k < |r.drivers| ==> r.drivers[k].id != savedId) ==> r.current == Some(r.drivers[0])
  {
    var kept := if reset then [] else m.drivers;
    var listed := Manager(kept + [Driver(defaultId, "Turnip", "", nativeLibraryDir)], m.current);
    SetDriverById(listed, savedId).value
  }

  /** What `parsePlugin` reads of an installed app. */
  datatype MetaData = MetaData(fclPlugin: bool, driver: Option<string>)
  datatype AppInfo = AppInfo(isSystem: bool, metaData: Option<MetaData>, packageName: string,
                             nativeLibraryDir: string, appLabel: string)

  /** The driver an app contributes: only a non-system app whose metadata
      says `fclPlugin=true` and names a driver. Its id is the package name. */
  function PluginDriver(info: AppInfo): (d: Option<Driver>)
    ensures d.Some? <==> !info.isSystem && info.metaData.Some? && info.metaData.value.fclPlugin
                         && info.metaData.value.driver.Some?
    ensures d.Some? ==> d.value.id == info.packageName && d.value.name == info.metaData.value.driver.value
                        && d.value.path == info.nativeLibraryDir
  {
    if info.isSystem then None
    else match info.metaData
      case None => None
      case Some(md) =>
        if !md.fclPlugin then None
        else match md.driver
          case None => None
          case Some(driver) => Some(Driver(info.packageName, driver, "From plugin: " + info.appLabel, info.nativeLibraryDir))
  }

  /** `parsePlugin`: append the contributed driver, if any; the current
      driver is untouched. */
  function ParsePlugin(m: Manager, info: AppInfo): (r: Manager)
    ensures r.current == m.current
    ensures PluginDriver(info).None? ==> r == m
    ensures PluginDriver(info).Some? ==> r.drivers == m.drivers + [PluginDriver(info).value]
  {
    match PluginDriver(info)
    case None => m
    case Some(d) => m.(drivers := m.drivers + [d])
  }

  /** A plugin added after initialisation becomes selectable by its package
      name, unless an earlier driver already uses that id. */
  lemma PluginSelectable(m: Manager, info: AppInfo)
    requires PluginDriver(info).Some?
    requires forall k :: 0 <= k < |m.drivers| ==> m.drivers[k].id != info.packageName
    ensures SetDriverById(ParsePlugin(m, info), info.packageName).Success?
    ensures SetDriverById(ParsePlugin(m, info), info.packageName).value.current == PluginDriver(info)
  {
    var r := ParsePlugin(m, info);
    var n := |m.drivers|;
    assert r.drivers[n] == PluginDriver(info).value;
    assert forall k :: 0 <= k < n ==> r.drivers[k] == m.drivers[k];
  }
}

=== FILE: egl_bridge.dfy ===
/** The native renderer bridge (`egl_bridge.c`): a per-process state machine that
    turns the `POJAV_RENDERER` selection into a backend (GL4ES, Zink on Vulkan,
    VirGL, or plain Vulkan), sets the environment the chosen driver reads, and then
    routes every GLFW-level call (swap, make-current, swap-interval, context
    creation) to the adapter of that backend.

    Every call into EGL, OSMesa, VirGL, the `br_*` bridge table, the loader or the
    Android window API is recorded as a `Call` and its outcome is a parameter. */
module EglBridge {
  import opened Wrappers
  import opened Text
  import Numerals
  import FrameCounter

  const GLFW_CLIENT_API: int := 0x22001
  /** `GLFW_NO_API` is read as "Vulkan". */
  const GLFW_NO_API: int := 0
  const GLFW_OPENGL_API: int := 0x30001

  /** A native pointer or EGL handle; 0 is `NULL`, which is also `EGL_NO_DISPLAY`,
      `EGL_NO_SURFACE` and `EGL_NO_CONTEXT`. */
  type Ptr = p: nat | p <= Numerals.ULONG_MAX
  const NULL: Ptr := 0

  /** The environment variables the bridge reads or writes (their names are given
      by `Name`); `Other` stands for any variable the bridge never touches. */
  datatype Var =
    | PojavRenderer | VulkanPtr | PreferSystemDriver
    | GalliumDriver | MesaLoaderDriverOverride | MesaDiskCacheSingleFile | OsmesaNoFlushFrontbuffer
    | MesaGlVersionOverride | MesaGlslVersionOverride
    | LibglFb | LibglNoMipmap | LibglWorkaroundNullTex | LibglNoError | LibglRecycleFbo
    | LibglVertexClamp | LibglAlways16Bits | LibglAllowUnofficialEs3
    | Other(name: string)

  function Name(v: Var): string {
    match v
    case PojavRenderer => "POJAV_RENDERER"
    case VulkanPtr => "VULKAN_PTR"
    case PreferSystemDriver => "POJAV_ZINK_PREFER_SYSTEM_DRIVER"
    case GalliumDriver => "GALLIUM_DRIVER"
    case MesaLoaderDriverOverride => "MESA_LOADER_DRIVER_OVERRIDE"
    case MesaDiskCacheSingleFile => "MESA_DISK_CACHE_SINGLE_FILE"
    case OsmesaNoFlushFrontbuffer => "OSMESA_NO_FLUSH_FRONTBUFFER"
    case MesaGlVersionOverride => "MESA_GL_VERSION_OVERRIDE"
    case MesaGlslVersionOverride => "MESA_GLSL_VERSION_OVERRIDE"
    case LibglFb => "LIBGL_FB"
    case LibglNoMipmap => "LIBGL_NOMIPMAP"
    case LibglWorkaroundNullTex => "LIBGL_WORKAROUND_NULLTEX"
    case LibglNoError => "LIBGL_NOERROR"
    case LibglRecycleFbo => "LIBGL_RECYCLEFBO"
    case LibglVertexClamp => "LIBGL_VERTEX_CLAMP"
    case LibglAlways16Bits => "LIBGL_ALWAYS_16_BITS"
    case LibglAllowUnofficialEs3 => "LIBGL_ALLOW_UNOFFICIAL_ES3"
    case Other(n) => n
  }

  /** The process environment. */
  type Env = map<Var, string>

  /** `config_renderer`; `Unset` is the zero it starts as. */
  datatype Config = Unset | Gl4es | VkZink | Virgl | Vulkan

  /** Which generic bridge table fills the `br_*` function pointers (all null
      before `set_gl_bridge_tbl` or `set_osm_bridge_tbl` runs). */
  datatype Table = NoTable | GlTable | OsmTable

  /** The GL4ES EGL handles kept in `potatoBridge`. */
  datatype EglHandles = EglHandles(display: Ptr, surface: Ptr, context: Ptr)

  datatype Bridge = Bridge(
    environ: bool,                 // pojav_environ != NULL
    config: Config,
    env: Env,
    table: Table,
    egl: EglHandles,
    window: Ptr,                   // pojav_environ->pojavWindow
    savedWidth: int,
    savedHeight: int,
    fps: FrameCounter.Counter)

  /** The calls the bridge makes into code outside this file, in order. */
  datatype Call =
    | SetGlTable | SetOsmTable
    | BrInit | BrSetupWindow | BrSwapBuffers | BrMakeCurrent(target: Ptr) | BrSwapInterval(interval: int) | BrGetCurrent
    | VirglLoadSymbols | VirglInit | VirglSwapBuffers | VirglMakeCurrent(target: Ptr)
    | VirglSwapInterval(interval: int) | VirglCreateContext | VirglGetCurrent
    | EglMakeCurrent(display: Ptr, draw: Ptr, read: Ptr, context: Ptr)
    | EglDestroySurface(display: Ptr, surface: Ptr)
    | EglDestroyContext(display: Ptr, context: Ptr)
    | EglTerminate(display: Ptr)
    | EglReleaseThread
    | LoadTurnip | DlopenVulkan
    | PutFpsValue(frames: nat)
    | WindowFromSurface | WindowRelease(released: Ptr) | WindowAcquire(acquired: Ptr)
    | WindowSetGeometry(resized: Ptr, width: int, height: int)

  /** How a call can bring the process down. */
  datatype Fault =
    | NullEnviron      // dereference of a null pojav_environ
    | Abort            // abort() on an unsupported client API
    | NullBridgeEntry  // call through a br_* pointer no table has filled

  datatype Outcome<T> = Done(bridge: Bridge, calls: seq<Call>, value: T) | Crash(fault: Fault)

  /** What the device and the loaders answer: the API level, whether the build
      can load the bundled Turnip driver, and the handles `loadTurnipVulkan()` and
      `dlopen("libvulkan.so")` return. */
  datatype Platform = Platform(apiLevel: int, adrenoPossible: bool, turnip: Ptr, libvulkan: Ptr)

  /** The backends whose calls go through the `br_*` table. */
  predicate UsesBridgeTable(c: Config) {
    c == Gl4es || c == VkZink
  }

  /** Every backend routed through `br_*` has a table installed. */
  predicate Consistent(b: Bridge) {
    UsesBridgeTable(b.config) ==> b.table != NoTable
  }

  /** The process as it starts: nothing configured, no table, null handles. */
  function Initial(environ: bool, env: Env): (b: Bridge)
    ensures Consistent(b) && b.config == Unset && b.table == NoTable
  {
    Bridge(environ, Unset, env, NoTable, EglHandles(NULL, NULL, NULL), NULL, 0, 0, FrameCounter.Fresh)
  }

  // ---------------------------------------------------------------------------
  // Vulkan loading and the VULKAN_PTR memo
  // ---------------------------------------------------------------------------

  /** `load_vulkan` tries Turnip first when the system driver is not preferred,
      the device is at API level 28 or above and the build supports Adreno. */
  predicate TriesTurnip(env: Env, p: Platform) {
    PreferSystemDriver !in env && p.apiLevel >= 28 && p.adrenoPossible
  }

  /** The loader handle `load_vulkan` ends up publishing. */
  function VulkanHandle(env: Env, p: Platform): Ptr {
    if TriesTurnip(env, p) && p.turnip != NULL then p.turnip else p.libvulkan
  }

  /** `load_vulkan`: publishes the loader handle in `VULKAN_PTR` as hex. */
  function LoadVulkan(env: Env, p: Platform): (r: (Env, seq<Call>))
    ensures VulkanPtr in r.0 && r.0 == env[VulkanPtr := r.0[VulkanPtr]]
    // reading the memo back with strtoul(…, 16) gives the published handle
    ensures Numerals.StrToULong16(r.0[VulkanPtr]) == VulkanHandle(env, p)
    ensures LoadTurnip in r.1 <==> TriesTurnip(env, p)
    // the system loader is opened exactly when Turnip was not used
    ensures DlopenVulkan in r.1 <==> !(TriesTurnip(env, p) && p.turnip != NULL)
  {
    var h := VulkanHandle(env, p);
    ReadMemo(h);
    (env[VulkanPtr := Numerals.ToHex(h)], VulkanLoadCalls(env, p))
  }

  /** The libraries `load_vulkan` opens: Turnip when it tries it, then the
      system loader unless Turnip answered. */
  function VulkanLoadCalls(env: Env, p: Platform): seq<Call> {
    if !TriesTurnip(env, p) then [DlopenVulkan]
    else if p.turnip != NULL then [LoadTurnip]
    else [LoadTurnip, DlopenVulkan]
  }

  lemma ReadMemo(h: Ptr)
    ensures Numerals.StrToULong16(Numerals.ToHex(h)) == h
  {
    Numerals.ReadFormattedPointer(h);
  }

  /** `maybe_load_vulkan`: loads Vulkan only when no memo exists, then returns the
      memo read as base 16. */
  function MaybeLoadVulkan(b: Bridge, p: Platform): (r: Outcome<Ptr>)
    ensures r.Done? && r.bridge.table == b.table && r.bridge.config == b.config
    ensures VulkanPtr in b.env ==>
              r.bridge == b && r.calls == [] && r.value == Numerals.StrToULong16(b.env[VulkanPtr])
    ensures VulkanPtr !in b.env ==>
              r.value == VulkanHandle(b.env, p) && r.calls != [] &&
              r.bridge == b.(env := r.bridge.env) && VulkanPtr in r.bridge.env &&
              r.bridge.env == b.env[VulkanPtr := r.bridge.env[VulkanPtr]]
  {
    if VulkanPtr in b.env then
      Done(b, [], Numerals.StrToULong16(b.env[VulkanPtr]))
    else
      var (env, calls) := LoadVulkan(b.env, p);
      Done(b.(env := env), calls, Numerals.StrToULong16(env[VulkanPtr]))
  }

  /** Asking for the Vulkan handle twice loads at most once: the second request
      makes no call, changes nothing and returns the same handle. */
  lemma MaybeLoadVulkanIsMemoised(b: Bridge, p: Platform, q: Platform)
    ensures var r1 := MaybeLoadVulkan(b, p);
            var r2 := MaybeLoadVulkan(r1.bridge, q);
            r2.calls == [] && r2.bridge == r1.bridge && r2.value == r1.value
  {
    var r1 := MaybeLoadVulkan(b, p);
    assert VulkanPtr in r1.bridge.env;
  }

  // ---------------------------------------------------------------------------
  // Renderer selection
  // ---------------------------------------------------------------------------

  /** The `POJAV_RENDERER` values the bridge distinguishes: the exact tokens it
      compares against, any other value starting with `opengles`, and the rest. */
  datatype Token =
    | CustomGallium | VulkanZink | GalliumFreedreno | GalliumPanfrost | GalliumVirgl
    | Gles3Gl4es | Gles2Gl4es | Gles1Gl4es | OsmesaGl4es
    | OtherGles | Unrecognised

  /** The tokens the `opengles` prefix test accepts. */
  predicate IsGles(t: Token) {
    t == Gles3Gl4es || t == Gles2Gl4es || t == Gles1Gl4es || t == OtherGles
  }

  /** The literal each exact token is compared against. */
  function TokenText(t: Token): string
    requires t != OtherGles && t != Unrecognised
  {
    match t
    case CustomGallium => "custom_gallium"
    case VulkanZink => "vulkan_zink"
    case GalliumFreedreno => "gallium_freedreno"
    case GalliumPanfrost => "gallium_panfrost"
    case GalliumVirgl => "gallium_virgl"
    case Gles3Gl4es => "opengles3_ng_gl4es"
    case Gles2Gl4es => "opengles2_ng_gl4es"
    case Gles1Gl4es => "opengles1_ng_gl4es"
    case OsmesaGl4es => "osmesa_ng_gl4es"
  }

  /** How the `strcmp` and `strncmp` tests classify a renderer string. */
  function TokenOf(s: string): (t: Token)
    ensures t != OtherGles && t != Unrecognised ==> s == TokenText(t)
    ensures t == OtherGles || t == Unrecognised ==>
              forall u :: u != OtherGles && u != Unrecognised ==> s != TokenText(u)
    ensures IsGles(t) <==> StartsWith(s, "opengles")
  {
    if s == "custom_gallium" then
      assert s[0] == 'c';
      CustomGallium
    else if s == "vulkan_zink" then
      assert s[0] == 'v';
      VulkanZink
    else if s == "gallium_freedreno" then
      assert s[0] == 'g';
      GalliumFreedreno
    else if s == "gallium_panfrost" then
      assert s[0] == 'g';
      GalliumPanfrost
    else if s == "gallium_virgl" then
      assert s[0] == 'g';
      GalliumVirgl
    else if s == "opengles3_ng_gl4es" then
      assert s[..8] == "opengles";
      Gles3Gl4es
    else if s == "opengles2_ng_gl4es" then
      assert s[..8] == "opengles";
      Gles2Gl4es
    else if s == "opengles1_ng_gl4es" then
      assert s[..8] == "opengles";
      Gles1Gl4es
    else if s == "osmesa_ng_gl4es" then
      assert s[1] != "opengles"[1];
      OsmesaGl4es
    else if StartsWith(s, "opengles") then OtherGles
    else Unrecognised
  }

  /** The backend each token selects; `None` keeps the old one. */
  function TokenBackend(t: Token): Option<Config> {
    match t
    case CustomGallium | VulkanZink | GalliumFreedreno | GalliumPanfrost => Some(VkZink)
    case GalliumVirgl => Some(Virgl)
    case Gles3Gl4es | Gles2Gl4es | Gles1Gl4es | OsmesaGl4es | OtherGles => Some(Gl4es)
    case Unrecognised => None
  }

  /** The bridge table each token installs; `None` keeps the old one. */
  function TokenTable(t: Token): Option<Table> {
    match TokenBackend(t)
    case Some(Gl4es) => Some(GlTable)
    case Some(VkZink) => Some(OsmTable)
    case _ => None
  }

  /** The tokens that (re)load Vulkan and overwrite the `VULKAN_PTR` memo. */
  predicate TokenLoadsVulkan(t: Token) {
    t == CustomGallium || t == VulkanZink
  }

  /** A variable's value, `None` when unset (`getenv` returning `NULL`). */
  function Lookup(env: Env, v: Var): Option<string> {
    if v in env then Some(env[v]) else None
  }

  /** The GL4ES settings: the six every `*_ng_gl4es` token writes, the ES3 pair
      and the OSMesa version pair where they apply. */
  function Gl4esSetting(v: Var, es3: bool, osmesaVersion: bool): Option<string> {
    match v
    case LibglFb => Some("2")
    case LibglNoMipmap | LibglWorkaroundNullTex | LibglNoError | LibglRecycleFbo | LibglVertexClamp => Some("1")
    case LibglAlways16Bits | LibglAllowUnofficialEs3 => if es3 then Some("1") else None
    case MesaGlVersionOverride => if osmesaVersion then Some("3.2") else None
    case MesaGlslVersionOverride => if osmesaVersion then Some("150") else None
    case _ => None
  }

  /** The value token `t` forces on variable `v`, overwriting any earlier one. */
  function Forced(t: Token, v: Var): Option<string> {
    match t
    case VulkanZink => if v == GalliumDriver then Some("zink") else None
    case GalliumFreedreno =>
      if v == MesaLoaderDriverOverride then Some("kgsl")
      else if v == GalliumDriver then Some("freedreno") else None
    case GalliumPanfrost =>
      if v == GalliumDriver then Some("panfrost")
      else if v == MesaDiskCacheSingleFile then Some("1") else None
    case GalliumVirgl =>
      if v == GalliumDriver then Some("virpipe")
      else if v == MesaGlVersionOverride then Some("4.3")
      else if v == MesaGlslVersionOverride then Some("430") else None
    case Gles3Gl4es => Gl4esSetting(v, true, false)
    case Gles2Gl4es | Gles1Gl4es => Gl4esSetting(v, false, false)
    case OsmesaGl4es => Gl4esSetting(v, true, true)
    case _ => None
  }

  /** The value token `t` gives variable `v` only when it is unset. */
  function Default(t: Token, v: Var): Option<string> {
    if t == GalliumVirgl && v == OsmesaNoFlushFrontbuffer then Some("1") else None
  }

  /** The value of `v` after selecting `t`: the Vulkan memo for the tokens that
      load Vulkan, else a forced value, else the old value, else a default. */
  function ExpectedValue(env: Env, t: Token, p: Platform, v: Var): Option<string> {
    if TokenLoadsVulkan(t) && v == VulkanPtr then Some(Numerals.ToHex(VulkanHandle(env, p)))
    else if Forced(t, v).Some? then Forced(t, v)
    else if v in env then Some(env[v])
    else Default(t, v)
  }

  /** The state and calls `pojavInitOpenGL` must produce for the selected token,
      stated against the token tables above. */
  ghost predicate FollowsTokenTable(b: Bridge, p: Platform, brInitOk: bool, b': Bridge, calls: seq<Call>)
    requires PojavRenderer in b.env
  {
    var t := TokenOf(b.env[PojavRenderer]);
    b'.config == TokenBackend(t).GetOr(b.config)
    && b'.table == TokenTable(t).GetOr(b.table)
    && (forall v :: Lookup(b'.env, v) == ExpectedValue(b.env, t, p, v))
    && b' == b.(config := b'.config, table := b'.table, env := b'.env)
    && (BrInit in calls <==> t != GalliumVirgl && UsesBridgeTable(b'.config))
    && (BrSetupWindow in calls <==> BrInit in calls && brInitOk)
    && (VirglInit in calls <==> t == GalliumVirgl)
    && (DlopenVulkan in calls || LoadTurnip in calls ==> TokenLoadsVulkan(t))
  }

  /** The six variables every `*_ng_gl4es` token sets, in the order it sets them. */
  function Gl4esBaseEnv(env: Env): Env {
    env[LibglFb := "2"][LibglNoMipmap := "1"][LibglWorkaroundNullTex := "1"]
       [LibglNoError := "1"][LibglRecycleFbo := "1"][LibglVertexClamp := "1"]
  }

  /** What selecting a renderer changes: backend, table, environment, and the
      calls made on the way. */
  datatype Selection = Selection(config: Config, table: Table, env: Env, calls: seq<Call>)

  /** The exact-match token blocks of `pojavInitOpenGL`, applied after the
      `opengles` prefix block. The blocks test distinct literals, so at most one
      of them runs. */
  function TokenBlock(s: Selection, t: Token, p: Platform): Selection {
    match t
    case CustomGallium =>
      var loaded := LoadVulkan(s.env, p);
      Selection(VkZink, OsmTable, loaded.0, s.calls + loaded.1 + [SetOsmTable])
    case VulkanZink =>
      var loaded := LoadVulkan(s.env, p);
      Selection(VkZink, OsmTable, loaded.0[GalliumDriver := "zink"], s.calls + loaded.1 + [SetOsmTable])
    case GalliumFreedreno =>
      Selection(VkZink, OsmTable, s.env[MesaLoaderDriverOverride := "kgsl"][GalliumDriver := "freedreno"],
                s.calls + [SetOsmTable])
    case GalliumPanfrost =>
      Selection(VkZink, OsmTable, s.env[GalliumDriver := "panfrost"][MesaDiskCacheSingleFile := "1"],
                s.calls + [SetOsmTable])
    case GalliumVirgl =>
      var e1 := s.env[GalliumDriver := "virpipe"];
      var e2 := if OsmesaNoFlushFrontbuffer in e1 then e1 else e1[OsmesaNoFlushFrontbuffer := "1"];
      var e3 := e2[MesaGlVersionOverride := "4.3"][MesaGlslVersionOverride := "430"];
      Selection(Virgl, s.table, e3, s.calls + [VirglLoadSymbols, VirglInit])
    case Gles3Gl4es =>
      Selection(Gl4es, GlTable, Gl4esBaseEnv(s.env)[LibglAlways16Bits := "1"][LibglAllowUnofficialEs3 := "1"],
                s.calls + [SetGlTable])
    case Gles2Gl4es | Gles1Gl4es =>
      Selection(Gl4es, GlTable, Gl4esBaseEnv(s.env), s.calls + [SetGlTable])
    case OsmesaGl4es =>
      Selection(Gl4es, GlTable,
                Gl4esBaseEnv(s.env)[LibglAlways16Bits := "1"][LibglAllowUnofficialEs3 := "1"]
                  [MesaGlVersionOverride := "3.2"][MesaGlslVersionOverride := "150"],
                s.calls + [SetGlTable])
    case OtherGles | Unrecognised => s
  }

  /** The selection part of `pojavInitOpenGL`: the `opengles` prefix block, then
      the exact-match token blocks. */
  function SelectRenderer(b: Bridge, t: Token, p: Platform): Selection {
    var s0 := Selection(b.config, b.table, b.env, []);
    var s1 := if IsGles(t) then Selection(Gl4es, GlTable, b.env, [SetGlTable]) else s0;
    TokenBlock(s1, t, p)
  }

  /** What selection must do besides the environment: install the backend and
      table the token tables name, call neither `br_init` nor
      `br_setup_window`, initialise VirGL only for its token, and load Vulkan
      only for the tokens that need it. */
  predicate ShapeHolds(b: Bridge, t: Token, s: Selection) {
    && s.config == TokenBackend(t).GetOr(b.config)
    && s.table == TokenTable(t).GetOr(b.table)
    && BrInit !in s.calls && BrSetupWindow !in s.calls
    && (VirglInit in s.calls <==> t == GalliumVirgl)
    && (DlopenVulkan in s.calls || LoadTurnip in s.calls ==> TokenLoadsVulkan(t))
  }

  /** Selection installs the backend and table the token tables name, calls
      neither `br_init` nor `br_setup_window`, and loads Vulkan only for the
      tokens that need it. */
  lemma SelectShape(b: Bridge, t: Token, p: Platform)
    ensures var s := SelectRenderer(b, t, p);
            s.config == TokenBackend(t).GetOr(b.config)
            && s.table == TokenTable(t).GetOr(b.table)
            && BrInit !in s.calls && BrSetupWindow !in s.calls
            && (VirglInit in s.calls <==> t == GalliumVirgl)
            && (DlopenVulkan in s.calls || LoadTurnip in s.calls ==> TokenLoadsVulkan(t))
  {
    if TokenLoadsVulkan(t) {
      SelectShapeLoading(b, t, p);
    } else {
      SelectShapeOther(b, t, p);
    }
  }

  lemma SelectShapeLoading(b: Bridge, t: Token, p: Platform)
    requires TokenLoadsVulkan(t)
    ensures ShapeHolds(b, t, SelectRenderer(b, t, p))
  {
    SelectLoadingCalls(b, t, p);
    LoadingCallsShape(b.env, p, SelectRenderer(b, t, p).calls);
  }

  lemma SelectLoadingCalls(b: Bridge, t: Token, p: Platform)
    requires TokenLoadsVulkan(t)
    ensures var s := SelectRenderer(b, t, p);
            s.config == VkZink && s.table == OsmTable && s.calls == VulkanLoadCalls(b.env, p) + [SetOsmTable]
  {
    var s1 := Selection(b.config, b.table, b.env, []);
    assert SelectRenderer(b, t, p) == TokenBlock(s1, t, p);
    var calls := VulkanLoadCalls(b.env, p);
    assert LoadVulkan(b.env, p).1 == calls;
    assert [] + calls == calls;
  }

  lemma LoadingCallsShape(env: Env, p: Platform, calls: seq<Call>)
    requires calls == VulkanLoadCalls(env, p) + [SetOsmTable]
    ensures BrInit !in calls && BrSetupWindow !in calls && VirglInit !in calls
  {
  }

  lemma SelectShapeOther(b: Bridge, t: Token, p: Platform)
    requires !TokenLoadsVulkan(t)
    ensures ShapeHolds(b, t, SelectRenderer(b, t, p))
  {
  }

  /** Selection leaves the environment the token tables prescribe. */
  lemma SelectEnv(b: Bridge, t: Token, p: Platform)
    ensures forall v :: Lookup(SelectRenderer(b, t, p).env, v) == ExpectedValue(b.env, t, p, v)
  {
    forall v ensures Lookup(SelectRenderer(b, t, p).env, v) == ExpectedValue(b.env, t, p, v) {
      SelectEnvAt(b, t, p, v);
    }
  }

  lemma SelectEnvAt(b: Bridge, t: Token, p: Platform, v: Var)
    ensures Lookup(SelectRenderer(b, t, p).env, v) == ExpectedValue(b.env, t, p, v)
  {
    match t
    case CustomGallium => SelectEnvAtCustomGallium(b, p, v);
    case VulkanZink => SelectEnvAtVulkanZink(b, p, v);
    case GalliumFreedreno => SelectEnvAtGalliumFreedreno(b, p, v);
    case GalliumPanfrost => SelectEnvAtGalliumPanfrost(b, p, v);
    case GalliumVirgl => SelectEnvAtGalliumVirgl(b, p, v);
    case Gles3Gl4es => SelectEnvAtGles3Gl4es(b, p, v);
    case Gles2Gl4es => SelectEnvAtGles2Gl4es(b, p, v);
    case Gles1Gl4es => SelectEnvAtGles1Gl4es(b, p, v);
    case OsmesaGl4es => SelectEnvAtOsmesaGl4es(b, p, v);
    case OtherGles => SelectEnvAtOtherGles(b, p, v);
    case Unrecognised => SelectEnvAtUnrecognised(b, p, v);
  }

  // One lemma per token keeps each proof obligation small.

  lemma SelectEnvAtCustomGallium(b: Bridge, p: Platform, v: Var)
    ensures Lookup(SelectRenderer(b, CustomGallium, p).env, v) == ExpectedValue(b.env, CustomGallium, p, v)
  {
  }

  lemma SelectEnvAtVulkanZink(b: Bridge, p: Platform, v: Var)
    ensures Lookup(SelectRenderer(b, VulkanZink, p).env, v) == ExpectedValue(b.env, VulkanZink, p, v)
  {
    SelectVulkanZinkEnv(b, p);
    LoadVulkanMemo(b.env, p);
    VulkanZinkValue(b.env, p, v);
  }

  lemma SelectVulkanZinkEnv(b: Bridge, p: Platform)
    ensures SelectRenderer(b, VulkanZink, p).env == LoadVulkan(b.env, p).0[GalliumDriver := "zink"]
  {
  }

  lemma VulkanZinkValue(env: Env, p: Platform, v: Var)
    ensures Lookup(env[VulkanPtr := Numerals.ToHex(VulkanHandle(env, p))][GalliumDriver := "zink"], v)
            == ExpectedValue(env, VulkanZink, p, v)
  {
  }

  lemma LoadVulkanMemo(env: Env, p: Platform)
    ensures LoadVulkan(env, p).0 == env[VulkanPtr := Numerals.ToHex(VulkanHandle(env, p))]
  {
  }

  lemma SelectEnvAtGalliumFreedreno(b: Bridge, p: Platform, v: Var)
    ensures Lookup(SelectRenderer(b, GalliumFreedreno, p).env, v) == ExpectedValue(b.env, GalliumFreedreno, p, v)
  {
  }

  lemma SelectEnvAtGalliumPanfrost(b: Bridge, p: Platform, v: Var)
    ensures Lookup(SelectRenderer(b, GalliumPanfrost, p).env, v) == ExpectedValue(b.env, GalliumPanfrost, p, v)
  {
  }

  lemma SelectEnvAtGalliumVirgl(b: Bridge, p: Platform, v: Var)
    ensures Lookup(SelectRenderer(b, GalliumVirgl, p).env, v) == ExpectedValue(b.env, GalliumVirgl, p, v)
  {
  }

  lemma SelectEnvAtGles3Gl4es(b: Bridge, p: Platform, v: Var)
    ensures Lookup(SelectRenderer(b, Gles3Gl4es, p).env, v) == ExpectedValue(b.env, Gles3Gl4es, p, v)
  {
  }

  lemma SelectEnvAtGles2Gl4es(b: Bridge, p: Platform, v: Var)
    ensures Lookup(SelectRenderer(b, Gles2Gl4es, p).env, v) == ExpectedValue(b.env, Gles2Gl4es, p, v)
  {
  }

  lemma SelectEnvAtGles1Gl4es(b: Bridge, p: Platform, v: Var)
    ensures Lookup(SelectRenderer(b, Gles1Gl4es, p).env, v) == ExpectedValue(b.env, Gles1Gl4es, p, v)
  {
  }

  lemma SelectEnvAtOsmesaGl4es(b: Bridge, p: Platform, v: Var)
    ensures Lookup(SelectRenderer(b, OsmesaGl4es, p).env, v) == ExpectedValue(b.env, OsmesaGl4es, p, v)
  {
  }

  lemma SelectEnvAtOtherGles(b: Bridge, p: Platform, v: Var)
    ensures Lookup(SelectRenderer(b, OtherGles, p).env, v) == ExpectedValue(b.env, OtherGles, p, v)
  {
  }

  lemma SelectEnvAtUnrecognised(b: Bridge, p: Platform, v: Var)
    ensures Lookup(SelectRenderer(b, Unrecognised, p).env, v) == ExpectedValue(b.env, Unrecognised, p, v)
  {
  }

  /** `pojavInitOpenGL`: -1 when `POJAV_RENDERER` is unset (or an `opengles` token
      meets a null environ), otherwise the token table is applied, VirGL returns
      early, and GL4ES/Zink run `br_init` and, if it succeeds, `br_setup_window`. */
  function InitOpenGL(b: Bridge, p: Platform, brInitOk: bool): (r: Outcome<int>)
    requires Consistent(b)
    ensures PojavRenderer !in b.env ==> r == Done(b, [], -1)
    ensures PojavRenderer in b.env && !b.environ ==>
              r == if StartsWith(b.env[PojavRenderer], "opengles") then Done(b, [], -1)
                   else Crash(NullEnviron)
    ensures PojavRenderer in b.env && b.environ ==>
              r.Done? && r.value == 0 && FollowsTokenTable(b, p, brInitOk, r.bridge, r.calls)
    ensures r.Done? ==> Consistent(r.bridge)
  {
    if PojavRenderer !in b.env then Done(b, [], -1)
    else
      var t := TokenOf(b.env[PojavRenderer]);
      if IsGles(t) && !b.environ then Done(b, [], -1)
      else if !b.environ then Crash(NullEnviron)
      else
        var s := SelectRenderer(b, t, p);
        SelectShape(b, t, p);
        SelectEnv(b, t, p);
        var b2 := b.(config := s.config, table := s.table, env := s.env);
        var c2 := s.calls;
        if t == GalliumVirgl then Done(b2, c2, 0)
        else
          var tail := if UsesBridgeTable(b2.config) then [BrInit] + (if brInitOk then [BrSetupWindow] else []) else [];
          Done(b2, c2 + tail, 0)
  }

  // ---------------------------------------------------------------------------
  // Window hint and dispatch
  // ---------------------------------------------------------------------------

  /** `pojavSetWindowHint`: only `GLFW_CLIENT_API` matters; `GLFW_NO_API` selects
      Vulkan, `GLFW_OPENGL_API` changes nothing, and any other API aborts. */
  function SetWindowHint(b: Bridge, hint: int, value: int): (r: Outcome<()>)
    ensures r.Done? ==> r.calls == [] && (Consistent(b) ==> Consistent(r.bridge))
    ensures r.Done? && hint == GLFW_CLIENT_API && value == GLFW_NO_API ==> r.bridge == b.(config := Vulkan)
    ensures r.Done? && !(hint == GLFW_CLIENT_API && value == GLFW_NO_API) ==> r.bridge == b
    ensures r.Crash? <==> hint == GLFW_CLIENT_API &&
                          ((value != GLFW_NO_API && value != GLFW_OPENGL_API) || (value == GLFW_NO_API && !b.environ))
    ensures r == Crash(Abort) <==> hint == GLFW_CLIENT_API && value != GLFW_NO_API && value != GLFW_OPENGL_API
  {
    if hint != GLFW_CLIENT_API then Done(b, [], ())
    else if value == GLFW_NO_API then
      if b.environ then Done(b.(config := Vulkan), [], ()) else Crash(NullEnviron)
    else if value == GLFW_OPENGL_API then Done(b, [], ())
    else Crash(Abort)
  }

  /** The adapter a per-frame call is routed to under `c`. */
  function Dispatch(c: Config, br: Call, virgl: Call): seq<Call> {
    if UsesBridgeTable(c) then [br] else if c == Virgl then [virgl] else []
  }

  /** `pojavSwapBuffers`: the frame counter runs first, then the buffers of the
      active backend are swapped. */
  function SwapBuffers(b: Bridge, now: FrameCounter.Millis): (r: Outcome<()>)
    ensures !b.environ <==> r == Crash(NullEnviron)
    ensures r.Done? ==> r.bridge == b.(fps := FrameCounter.Tick(b.fps, now).0)
    ensures r.Done? ==> (BrSwapBuffers in r.calls <==> UsesBridgeTable(b.config))
    ensures r.Done? ==> (VirglSwapBuffers in r.calls <==> b.config == Virgl)
    // a frame report, when one fires, precedes the swap
    ensures r.Done? ==> (FrameCounter.Tick(b.fps, now).1.Some? <==> |r.calls| > 0 && r.calls[0].PutFpsValue?)
    ensures r.Done? && FrameCounter.Tick(b.fps, now).1.Some? ==> r.calls[0] == PutFpsValue(b.fps.frameCount + 1)
  {
    if !b.environ then Crash(NullEnviron)
    else
      var (fps, report) := FrameCounter.Tick(b.fps, now);
      var reported := if report.Some? then [PutFpsValue(report.value)] else [];
      Done(b.(fps := fps), reported + Dispatch(b.config, BrSwapBuffers, VirglSwapBuffers), ())
  }

  /** `pojavMakeCurrent`. */
  function MakeCurrent(b: Bridge, target: Ptr): (r: Outcome<()>)
    ensures !b.environ <==> r == Crash(NullEnviron)
    ensures r.Done? ==> r.bridge == b && |r.calls| <= 1
    ensures r.Done? ==> (BrMakeCurrent(target) in r.calls <==> UsesBridgeTable(b.config))
    ensures r.Done? ==> (VirglMakeCurrent(target) in r.calls <==> b.config == Virgl)
  {
    if !b.environ then Crash(NullEnviron)
    else Done(b, Dispatch(b.config, BrMakeCurrent(target), VirglMakeCurrent(target)), ())
  }

  /** `pojavSwapInterval`. */
  function SwapInterval(b: Bridge, interval: int): (r: Outcome<()>)
    ensures !b.environ <==> r == Crash(NullEnviron)
    ensures r.Done? ==> r.bridge == b && |r.calls| <= 1
    ensures r.Done? ==> (BrSwapInterval(interval) in r.calls <==> UsesBridgeTable(b.config))
    ensures r.Done? ==> (VirglSwapInterval(interval) in r.calls <==> b.config == Virgl)
  {
    if !b.environ then Crash(NullEnviron)
    else Done(b, Dispatch(b.config, BrSwapInterval(interval), VirglSwapInterval(interval)), ())
  }

  /** `pojavCreateContext`: 1 exactly when the active adapter reports success. */
  function CreateContext(b: Bridge, brInitOk: bool, virglContext: Ptr): (r: Outcome<int>)
    ensures !b.environ <==> r == Crash(NullEnviron)
    ensures r.Done? ==> r.bridge == b
    ensures r.Done? ==>
              (r.value == 1 <==> (UsesBridgeTable(b.config) && brInitOk) || (b.config == Virgl && virglContext != NULL))
    ensures r.Done? ==> (r.value == 0 <==> !(r.value == 1))
    ensures r.Done? ==> (BrInit in r.calls <==> UsesBridgeTable(b.config))
    ensures r.Done? ==> (VirglCreateContext in r.calls <==> b.config == Virgl)
  {
    if !b.environ then Crash(NullEnviron)
    else if UsesBridgeTable(b.config) then Done(b, [BrInit], if brInitOk then 1 else 0)
    else if b.config == Virgl then Done(b, [VirglCreateContext], if virglContext != NULL then 1 else 0)
    else Done(b, [], 0)
  }

  /** `pojavGetCurrentContext`: VirGL asks VirGL; every other configuration asks
      `br_get_current`, which is a null pointer until a table is installed. */
  function GetCurrentContext(b: Bridge, brCurrent: Ptr, virglCurrent: Ptr): (r: Outcome<Ptr>)
    ensures r.Crash? <==> !b.environ || (b.config != Virgl && b.table == NoTable)
    ensures r.Done? ==> r.bridge == b
    ensures r.Done? ==> (r.calls == [VirglGetCurrent] && r.value == virglCurrent <==> b.config == Virgl)
    ensures r.Done? && b.config != Virgl ==> r.calls == [BrGetCurrent] && r.value == brCurrent
  {
    if !b.environ then Crash(NullEnviron)
    else if b.config == Virgl then Done(b, [VirglGetCurrent], virglCurrent)
    else if b.table == NoTable then Crash(NullBridgeEntry)
    else Done(b, [BrGetCurrent], brCurrent)
  }

  /** `pojavTerminate`: GL4ES unbinds, destroys and terminates its EGL objects in
      that order and forgets the handles; every other backend does nothing. */
  function Terminate(b: Bridge): (r: Outcome<()>)
    ensures !b.environ <==> r == Crash(NullEnviron)
    ensures r.Done? && b.config != Gl4es ==> r.bridge == b && r.calls == []
    ensures r.Done? && b.config == Gl4es ==>
              r.bridge == b.(egl := EglHandles(NULL, NULL, NULL)) &&
              r.calls == [EglMakeCurrent(b.egl.display, NULL, NULL, NULL),
                          EglDestroySurface(b.egl.display, b.egl.surface),
                          EglDestroyContext(b.egl.display, b.egl.context),
                          EglTerminate(b.egl.display),
                          EglReleaseThread]
  {
    if !b.environ then Crash(NullEnviron)
    else if b.config == Gl4es then
      var d := b.egl.display;
      Done(b.(egl := EglHandles(NULL, NULL, NULL)),
           [EglMakeCurrent(d, NULL, NULL, NULL), EglDestroySurface(d, b.egl.surface),
            EglDestroyContext(d, b.egl.context), EglTerminate(d), EglReleaseThread], ())
    else Done(b, [], ())
  }

  // ---------------------------------------------------------------------------
  // Window management
  // ---------------------------------------------------------------------------

  /** `setupBridgeWindow`: with an environ, stores the surface's window and calls
      `br_setup_window` only when a table is installed. */
  function SetupBridgeWindow(b: Bridge, surfaceWindow: Ptr): (r: Outcome<()>)
    ensures r.Done?
    ensures !b.environ ==> r.bridge == b && r.calls == []
    ensures b.environ ==> r.bridge == b.(window := surfaceWindow) && WindowFromSurface in r.calls
    ensures BrSetupWindow in r.calls <==> b.environ && b.table != NoTable
  {
    if !b.environ then Done(b, [], ())
    else Done(b.(window := surfaceWindow),
              [WindowFromSurface] + (if b.table != NoTable then [BrSetupWindow] else []), ())
  }

  /** `releaseBridgeWindow`: releases the window but keeps the pointer. */
  function ReleaseBridgeWindow(b: Bridge): (r: Outcome<()>)
    ensures !b.environ <==> r == Crash(NullEnviron)
    ensures r.Done? ==> r.bridge.window == b.window && r.bridge == b && r.calls == [WindowRelease(b.window)]
  {
    if !b.environ then Crash(NullEnviron) else Done(b, [WindowRelease(b.window)], ())
  }

  /** Because the pointer is kept, releasing twice releases the same window twice. */
  lemma ReleaseTwiceReleasesSameWindow(b: Bridge)
    requires b.environ
    ensures var r1 := ReleaseBridgeWindow(b);
            r1.Done? && var r2 := ReleaseBridgeWindow(r1.bridge);
            r2.Done? && r1.calls + r2.calls == [WindowRelease(b.window), WindowRelease(b.window)]
  {
  }

  /** `pojavInit`: acquires and sizes the window, runs `pojavInitOpenGL` and
      returns 1 whatever that returned. */
  function Init(b: Bridge, p: Platform, width: int, height: int, brInitOk: bool): (r: Outcome<int>)
    requires Consistent(b)
    ensures !b.environ <==> r == Crash(NullEnviron)
    ensures r.Done? ==> r.value == 1 && Consistent(r.bridge)
    ensures r.Done? ==> r.bridge.savedWidth == width && r.bridge.savedHeight == height
    ensures r.Done? ==> |r.calls| >= 2 && r.calls[..2] == [WindowAcquire(b.window), WindowSetGeometry(b.window, width, height)]
  {
    if !b.environ then Crash(NullEnviron)
    else
      var b1 := b.(savedWidth := width, savedHeight := height);
      var pre := [WindowAcquire(b.window), WindowSetGeometry(b.window, width, height)];
      match InitOpenGL(b1, p, brInitOk)
      case Done(b2, c2, _) => Done(b2, pre + c2, 1)
      case Crash(f) => Crash(f)
  }

  /** `refreshBridgeWindow`: installs a table via `pojavInitOpenGL` when none is
      present; then, if a table is present, calls `br_setup_window` and re-runs
      `br_init` for GL4ES and Zink. The result of that second `br_init` is
      discarded, so it is not a parameter here. */
  function RefreshBridgeWindow(b: Bridge, p: Platform, firstInitOk: bool): (r: Outcome<()>)
    requires Consistent(b)
    ensures r.Done? ==> Consistent(r.bridge)
    ensures b.table != NoTable ==> r.Done? && r.bridge == b
    ensures b.table != NoTable && b.environ && UsesBridgeTable(b.config) ==> r.calls == [BrSetupWindow, BrInit]
    // the window is set up exactly when a table is (now) installed
    ensures r.Done? ==> (BrSetupWindow in r.calls <==> r.bridge.table != NoTable)
    ensures r.Crash? ==> b.table == NoTable && !b.environ
  {
    var first := if b.table == NoTable then InitOpenGL(b, p, firstInitOk) else Done(b, [], 0);
    match first
    case Crash(f) => Crash(f)
    case Done(b1, c1, _) =>
      if b1.table == NoTable then Done(b1, c1, ())
      else
        var again := b1.environ && b1.config != Unset && UsesBridgeTable(b1.config);
        Done(b1, c1 + [BrSetupWindow] + (if again then [BrInit] else []), ())
  }

  // ---------------------------------------------------------------------------
  // Properties across operations
  // ---------------------------------------------------------------------------

  /** Once the client API hint selects Vulkan, no per-frame call reaches an
      adapter and context creation reports failure. */
  lemma {:induction false} NoApiSilencesDispatch(b: Bridge, now: FrameCounter.Millis, target: Ptr, interval: int, ok: bool, ctx: Ptr)
    requires b.environ
    ensures var h := SetWindowHint(b, GLFW_CLIENT_API, GLFW_NO_API);
            h.Done? &&
            var v := h.bridge;
            SwapBuffers(v, now).calls == (if FrameCounter.Tick(v.fps, now).1.Some? then [PutFpsValue(v.fps.frameCount + 1)] else []) &&
            MakeCurrent(v, target).calls == [] &&
            SwapInterval(v, interval).calls == [] &&
            CreateContext(v, ok, ctx).value == 0
  {
    var v := SetWindowHint(b, GLFW_CLIENT_API, GLFW_NO_API).bridge;
    assert v.config == Vulkan;
    assert Dispatch(v.config, BrSwapBuffers, VirglSwapBuffers) == [];
  }

  /** After a GL4ES terminate every EGL handle is the null handle, and a second
      terminate passes only null handles to EGL. */
  lemma TerminateInvalidatesHandles(b: Bridge)
    requires b.environ && b.config == Gl4es
    ensures var r1 := Terminate(b);
            r1.Done? && r1.bridge.egl == EglHandles(NULL, NULL, NULL) &&
            var r2 := Terminate(r1.bridge);
            r2.Done? && r2.bridge == r1.bridge &&
            forall k :: 0 <= k < |r2.calls| && r2.calls[k].EglDestroySurface? ==> r2.calls[k].surface == NULL
  {
  }
}

=== FILE: file_selector.dfy ===
/** The non-visual helpers of the file selector: the size label, the
    new-folder dialog's validation and button gating, the confirm button of
    the selector, and the path bar's segments. */
module FileSelector {
  import opened Wrappers
  import opened Text
  import Numerals

  // ---------------------------------------------------------------------------
  // formatFileSize
  // ---------------------------------------------------------------------------

  const KIB: int := 1024
  const MIB: int := 1024 * 1024
  const GIB: int := 1024 * 1024 * 1024

  datatype SizeUnit = B | KB | MB | GB

  function UnitName(u: SizeUnit): string {
    match u
    case B => "B"
    case KB => "KB"
    case MB => "MB"
    case GB => "GB"
  }

  function UnitBytes(u: SizeUnit): int {
    match u
    case B => 1
    case KB => KIB
    case MB => MIB
    case GB => GIB
  }

  /** The unit `formatFileSize` picks: the largest of B, KB, MB, GB whose
      size in bytes does not exceed `size` (B for anything below 1024,
      negative sizes included). */
  function UnitFor(size: int): (u: SizeUnit)
    ensures u == B <==> size < KIB
    ensures u != B ==> UnitBytes(u) <= size
    ensures u != GB ==> size < 1024 * UnitBytes(u)
  {
    if size < KIB then B else if size < MIB then KB else if size < GIB then MB else GB
  }

  /** `formatFileSize`: the size counted in the chosen unit (truncated),
      a space, and the unit. */
  function FormatFileSize(size: int): (r: string)
    ensures exists n :: r == Numerals.IntToString(n) + " " + UnitName(UnitFor(size))
                        && n * UnitBytes(UnitFor(size)) <= size < (n + 1) * UnitBytes(UnitFor(size))
  {
    var n := size / UnitBytes(UnitFor(size));
    assert n * UnitBytes(UnitFor(size)) <= size < (n + 1) * UnitBytes(UnitFor(size));
    Numerals.IntToString(n) + " " + UnitName(UnitFor(size))
  }

  /** The label reads back as the whole number of units, which is below 1024
      for every unit but GB and at least 1 for every unit but B. */
  lemma FileSizeLabel(size: int)
    requires Numerals.IsInt32(size / UnitBytes(UnitFor(size)))
    ensures var u := UnitFor(size);
      var n := size / UnitBytes(u);
      && FormatFileSize(size) == Numerals.IntToString(n) + " " + UnitName(u)
      && Numerals.ParseInt(Numerals.IntToString(n)) == Some(n)
      && n * UnitBytes(u) <= size < (n + 1) * UnitBytes(u)
      && (u != GB ==> n < 1024)
      && (u != B ==> n >= 1)
  {
    var u := UnitFor(size);
    var n := size / UnitBytes(u);
    Numerals.ParseIntToString(n);
    QuotientBounds(size, UnitBytes(u));
    if u != GB {
      assert size < 1024 * UnitBytes(u);
    }
  }

  /** The truncated quotient brackets the dividend. */
  lemma QuotientBounds(size: int, b: int)
    requires b > 0
    ensures (size / b) * b <= size < (size / b + 1) * b
    ensures size < 1024 * b ==> size / b < 1024
    ensures b <= size ==> size / b >= 1
  {
  }

  // ---------------------------------------------------------------------------
  // The new-folder dialog
  // ---------------------------------------------------------------------------

  /** The characters the name field rejects. A backslash is accepted. */
  predicate IsForbiddenChar(c: char) {
    c in {'/', ':', '*', '?', '"', '<', '>', '|'}
  }

  /** The error flag the name field computes on every change. */
  function NameInError(name: string): (e: bool)
    ensures e <==> name == "" || exists i :: 0 <= i < |name| && IsForbiddenChar(name[i])
  {
    |name| == 0 || HasForbidden(name)
  }

  function HasForbidden(s: string): (b: bool)
    ensures b <==> exists i :: 0 <= i < |s| && IsForbiddenChar(s[i])
    decreases |s|
  {
    if |s| == 0 then false
    else if IsForbiddenChar(s[0]) then true
    else
      assert forall i :: 1 <= i < |s| ==> s[i] == s[1..][i - 1];
      HasForbidden(s[1..])
  }

  /** The dialog's two state variables. */
  datatype NewFolderDialog = NewFolderDialog(dirName: string, isError: bool)

  const Opened: NewFolderDialog := NewFolderDialog("", false)

  /** Typing replaces the name and recomputes the error flag. */
  function Edit(d: NewFolderDialog, text: string): (r: NewFolderDialog)
    ensures r.dirName == text
    ensures r.isError <==> NameInError(text)
  {
    NewFolderDialog(text, NameInError(text))
  }

  /** The create button is enabled for a non-blank name not in error. */
  predicate CreateEnabled(d: NewFolderDialog) {
    !IsBlank(d.dirName) && !d.isError
  }

  /** Clicking create: the name passed to `onConfirm`, if any. */
  function ClickCreate(d: NewFolderDialog): (r: Option<string>)
    ensures r.Some? <==> !IsBlank(d.dirName)
    ensures r.Some? ==> r.value == d.dirName
  {
    if !IsBlank(d.dirName) then Some(d.dirName) else None
  }

  /** The flag always matches the name, except in the freshly opened dialog,
      whose empty name is not yet flagged. */
  predicate FlagInvariant(d: NewFolderDialog) {
    d == Opened || d.isError == NameInError(d.dirName)
  }

  /** Whatever was typed, a name reaching `onConfirm` through the enabled
      button is non-blank and has no forbidden character. */
  lemma CreatedNameIsValid(d: NewFolderDialog)
    requires FlagInvariant(d)
    requires CreateEnabled(d)
    ensures ClickCreate(d) == Some(d.dirName)
    ensures forall i :: 0 <= i < |d.dirName| ==> !IsForbiddenChar(d.dirName[i])
  {
  }

  /** Editing keeps the flag invariant. */
  lemma EditKeepsFlag(d: NewFolderDialog, text: string)
    ensures FlagInvariant(Edit(d, text))
  {
  }

  // ---------------------------------------------------------------------------
  // The selector's confirm button and the path bar
  // ---------------------------------------------------------------------------

  datatype SelectorResult = Cancelled | Selected(path: string)

  /** Clicking the select button: the result handed to `onSelection` (if
      any); the dialog is dismissed in every case (not modelled further). */
  function ConfirmSelection(selectedPath: Option<string>): (r: Option<SelectorResult>)
    ensures r.Some? <==> selectedPath.Some?
    ensures r.Some? ==> r.value == Selected(selectedPath.value)
  {
    match selectedPath
    case None => None
    case Some(p) => Some(Selected(p))
  }

  /** Kotlin `substringAfter(delimiter)`: the text after the first
      occurrence, or the whole string when it does not occur. */
  function SubstringAfter(s: string, delimiter: string): (r: string)
    ensures IndexOf(s, delimiter, 0).None? ==> r == s
    ensures IndexOf(s, delimiter, 0).Some? ==> r == s[IndexOf(s, delimiter, 0).value + |delimiter|..]
  {
    match IndexOf(s, delimiter, 0)
    case None => s
    case Some(i) => s[i + |delimiter|..]
  }

  /** The non-empty strings of `parts`, in order. */
  function NonEmpty(parts: seq<string>): (r: seq<string>)
    ensures forall k :: 0 <= k < |r| ==> r[k] != ""
    ensures forall x :: x in r <==> x in parts && x != ""
    decreases |parts|
  {
    if |parts| == 0 then []
    else if parts[0] == "" then NonEmpty(parts[1..])
    else [parts[0]] + NonEmpty(parts[1..])
  }

  /** The path bar's segments: the absolute path after the storage root,
      split on '/', empty pieces dropped. */
  function PathSegments(path: string, storageRoot: string): (r: seq<string>)
    ensures forall k :: 0 <= k < |r| ==> r[k] != "" && '/' !in r[k]
  {
    var parts := Split(SubstringAfter(path, storageRoot), '/');
    var r := NonEmpty(parts);
    assert forall k :: 0 <= k < |r| ==> r[k] in parts;
    r
  }

  /** For a path under the root, the segments joined with '/' give the path
      below the root, without its leading and repeated slashes. */
  lemma SegmentsOfCleanPath(root: string, segs: seq<string>)
    requires |root| > 0
    requires |segs| >= 1
    requires forall k :: 0 <= k < |segs| ==> segs[k] != "" && '/' !in segs[k]
    requires IndexOf(root + "/" + Join(segs, '/'), root, 0) == Some(0)
    ensures PathSegments(root + "/" + Join(segs, '/'), root) == segs
  {
    var path := root + "/" + Join(segs, '/');
    var rest := "/" + Join(segs, '/');
    assert path[|root|..] == rest;
    assert rest == Join([""] + segs, '/') by {
      JoinCons("", segs);
    }
    SplitJoin([""] + segs, '/');
    assert ([""] + segs)[1..] == segs;
    NonEmptyKeeps(segs);
  }

  lemma JoinCons(first: string, rest: seq<string>)
    requires |rest| >= 1
    ensures Join([first] + rest, '/') == first + "/" + Join(rest, '/')
  {
    assert ([first] + rest)[0] == first && ([first] + rest)[1..] == rest;
  }

  lemma {:induction false} NonEmptyKeeps(parts: seq<string>)
    requires forall k :: 0 <= k < |parts| ==> parts[k] != ""
    ensures NonEmpty(parts) == parts
    decreases |parts|
  {
    if |parts| > 0 {
      NonEmptyKeeps(parts[1..]);
    }
  }
}

=== FILE: frame_counter.dfy ===
/** The frame counter the native bridge runs on every buffer swap (`calculateFPS`):
    it counts frames and, once at least a second of monotonic time has passed since
    the last report, hands the raw frame count to the host and starts over. */
module FrameCounter {
  import opened Wrappers

  /** Milliseconds that must pass before a report fires. */
  const REPORT_INTERVAL_MS: nat := 1000

  /** Arithmetic on the millisecond clock is `uint64_t`. */
  const UINT64_MODULUS: nat := 0x1_0000_0000_0000_0000

  type Millis = t: nat | t < UINT64_MODULUS

  /** The two function-static variables: `lastTime` (0 = never seeded) and
      `frameCount`. */
  datatype Counter = Counter(lastTime: Millis, frameCount: nat)

  /** The state before the first swap. */
  const Fresh: Counter := Counter(0, 0)

  /** `currentTimeMs - lastTime` computed in `uint64_t`. */
  function Elapsed(last: Millis, now: Millis): Millis {
    (now - last) % UINT64_MODULUS
  }

  /** One call at clock reading `now`: the new counter and, when a report fires,
      the frame count handed to the host. */
  function Tick(c: Counter, now: Millis): (r: (Counter, Option<nat>))
    // the first call seeds the reference time
    ensures c.lastTime == 0 ==> r.0.lastTime == now
    // a report fires exactly when a second has passed since the (seeded) reference time
    ensures r.1.Some? <==> Elapsed(if c.lastTime == 0 then now else c.lastTime, now) >= REPORT_INTERVAL_MS
    // the reported value is the raw number of frames, this one included
    ensures r.1.Some? ==> r.1.value == c.frameCount + 1 && r.0 == Counter(now, 0)
    // otherwise the frame is only counted
    ensures r.1.None? ==> r.0.frameCount == c.frameCount + 1
    ensures r.1.None? && c.lastTime != 0 ==> r.0.lastTime == c.lastTime
  {
    var last := if c.lastTime == 0 then now else c.lastTime;
    var count := c.frameCount + 1;
    if Elapsed(last, now) >= REPORT_INTERVAL_MS then (Counter(now, 0), Some(count))
    else (Counter(last, count), None)
  }

  /** Feeds the clock readings `times` in order: the final counter and the
      reports in the order they fired. */
  function Run(c: Counter, times: seq<Millis>): (Counter, seq<nat>)
    decreases |times|
  {
    if |times| == 0 then (c, [])
    else
      var (c1, rep) := Tick(c, times[0]);
      var (cn, reps) := Run(c1, times[1..]);
      (cn, (if rep.Some? then [rep.value] else []) + reps)
  }

  function Sum(xs: seq<nat>): nat
    decreases |xs|
  {
    if |xs| == 0 then 0 else xs[0] + Sum(xs[1..])
  }

  lemma {:induction false} SumAppend(a: seq<nat>, b: seq<nat>)
    ensures Sum(a + b) == Sum(a) + Sum(b)
    decreases |a|
  {
    if |a| > 0 {
      assert (a + b)[1..] == a[1..] + b;
      SumAppend(a[1..], b);
    } else {
      assert a + b == b;
    }
  }

  /** No frame is lost or counted twice: the frames reported plus the frames
      still pending equal the frames pending at the start plus one per swap. */
  lemma {:induction false} FramesConserved(c: Counter, times: seq<Millis>)
    ensures Sum(Run(c, times).1) + Run(c, times).0.frameCount == c.frameCount + |times|
    decreases |times|
  {
    if |times| > 0 {
      var (c1, rep) := Tick(c, times[0]);
      FramesConserved(c1, times[1..]);
      var head: seq<nat> := if rep.Some? then [rep.value] else [];
      SumAppend(head, Run(c1, times[1..]).1);
      assert Sum(head) == if rep.Some? then rep.value else 0 by {
        if rep.Some? { assert head[1..] == []; }
      }
    }
  }

  /** Every report carries at least one frame. */
  lemma {:induction false} ReportsArePositive(c: Counter, times: seq<Millis>)
    ensures forall k :: 0 <= k < |Run(c, times).1| ==> Run(c, times).1[k] >= 1
    decreases |times|
  {
    if |times| > 0 {
      var (c1, rep) := Tick(c, times[0]);
      ReportsArePositive(c1, times[1..]);
    }
  }
}

=== FILE: home_polling.dfy ===
/** The home screen's version-polling loop: while version checking is
    enabled it fetches the latest versions forever, waiting an hour after a
    success and an exponentially growing delay (one minute doubling up to an
    hour) after each failure. The fetch itself is a parameter: the sequence
    of its outcomes. */
module HomePolling {
  import opened Wrappers
  import Numerals

  const INITIAL_BACKOFF_MS: int := 60 * 1000
  const MAX_BACKOFF_MS: int := 60 * 60 * 1000
  const NORMAL_POLL_MS: int := 60 * 60 * 1000

  /** The text shown after a failed fetch, before the exception message. */
  const ERROR_PREFIX: string := "获取版本信息失败: "

  datatype FetchOutcome = Fetched | FetchFailed(message: string)

  /** The loop's variables: the current backoff and the error message shown. */
  datatype Poller = Poller(backoff: int, error: Option<string>)

  const Start: Poller := Poller(INITIAL_BACKOFF_MS, None)

  predicate ValidBackoff(b: int) {
    INITIAL_BACKOFF_MS <= b <= MAX_BACKOFF_MS
  }

  /** One pass of the loop body: the next state and the delay before the
      next pass. The error message is cleared before the fetch, so it holds
      exactly the last failure's text, or nothing after a success. */
  function Round(p: Poller, outcome: FetchOutcome): (r: (Poller, int))
    requires ValidBackoff(p.backoff)
    ensures ValidBackoff(r.0.backoff)
    ensures ValidBackoff(r.1)
    ensures outcome.Fetched? ==> r == (Start, NORMAL_POLL_MS)
    ensures outcome.FetchFailed? ==>
      && r.1 == p.backoff
      && r.0.backoff == (if 2 * p.backoff <= MAX_BACKOFF_MS then 2 * p.backoff else MAX_BACKOFF_MS)
      && r.0.error == Some(ERROR_PREFIX + outcome.message)
  {
    var cleared := p.(error := None);
    match outcome
    case Fetched => (cleared.(backoff := INITIAL_BACKOFF_MS), NORMAL_POLL_MS)
    case FetchFailed(msg) =>
      var next := if p.backoff * 2 <= MAX_BACKOFF_MS then p.backoff * 2 else MAX_BACKOFF_MS;
      (Poller(next, Some(ERROR_PREFIX + msg)), p.backoff)
  }

  /** The delays between fetches for the given fetch outcomes. Nothing is
      polled when version checking is off. */
  function Waits(enabled: bool, p: Poller, outcomes: seq<FetchOutcome>): (r: seq<int>)
    requires ValidBackoff(p.backoff)
    ensures |r| == if enabled then |outcomes| else 0
    decreases |outcomes|
  {
    if !enabled || |outcomes| == 0 then []
    else
      var (q, wait) := Round(p, outcomes[0]);
      [wait] + Waits(enabled, q, outcomes[1..])
  }

  /** No delay is shorter than a minute or longer than an hour. */
  lemma {:induction false} WaitsBounded(enabled: bool, p: Poller, outcomes: seq<FetchOutcome>)
    requires ValidBackoff(p.backoff)
    ensures forall i :: 0 <= i < |Waits(enabled, p, outcomes)| ==> ValidBackoff(Waits(enabled, p, outcomes)[i])
    decreases |outcomes|
  {
    if enabled && |outcomes| > 0 {
      var (q, wait) := Round(p, outcomes[0]);
      WaitsBounded(enabled, q, outcomes[1..]);
    }
  }

  /** Starting after a success (or at launch), the `k`-th consecutive failure
      waits one minute doubled `k` times, capped at an hour. */
  lemma {:induction false} BackoffDoubles(failures: seq<FetchOutcome>, k: nat)
    requires forall i :: 0 <= i < |failures| ==> failures[i].FetchFailed?
    requires k < |failures|
    ensures Waits(true, Start, failures)[k] == Min(INITIAL_BACKOFF_MS * Numerals.Pow2(k), MAX_BACKOFF_MS)
  {
    BackoffDoublesFrom(Start.backoff, None, failures, k);
  }

  function Min(a: int, b: int): int {
    if a <= b then a else b
  }

  lemma {:induction false} BackoffDoublesFrom(b: int, e: Option<string>, failures: seq<FetchOutcome>, k: nat)
    requires ValidBackoff(b)
    requires forall i :: 0 <= i < |failures| ==> failures[i].FetchFailed?
    requires k < |failures|
    ensures Waits(true, Poller(b, e), failures)[k] == Min(b * Numerals.Pow2(k), MAX_BACKOFF_MS)
    decreases k
  {
    if k > 0 {
      var (q, wait) := Round(Poller(b, e), failures[0]);
      assert Waits(true, Poller(b, e), failures)[k] == Waits(true, q, failures[1..])[k - 1];
      BackoffDoublesFrom(q.backoff, q.error, failures[1..], k - 1);
      assert Numerals.Pow2(k) == 2 * Numerals.Pow2(k - 1);
      if 2 * b <= MAX_BACKOFF_MS {
        assert q.backoff * Numerals.Pow2(k - 1) == b * Numerals.Pow2(k);
      } else {
        assert b * Numerals.Pow2(k) >= 2 * b;
      }
    }
  }
}

=== FILE: keycodes.dfy ===
/** The Android → GLFW key table (`EfficientAndroidLWJGLKeycode`): 106 pairs
    filled by the static initializer in ascending order of the Android key
    code, looked up with `Arrays.binarySearch`.

    The Android codes are the values `android.view.KeyEvent` documents. The
    GLFW side is symbolic (`GlfwKey`): the numeric `LwjglGlfwKeycode`
    constants are not part of this model, and nothing here depends on them
    beyond which slots share a key. */
module Keycodes {
  import opened Wrappers

  const KEYCODE_COUNT: nat := 106

  /** `KeyEvent.ACTION_DOWN` and `KeyEvent.ACTION_UP`. */
  const ACTION_DOWN: int := 0
  const ACTION_UP: int := 1

  /** The Android key codes other code refers to by name. */
  const KEYCODE_UNKNOWN: int := 0
  const KEYCODE_DPAD_UP: int := 19
  const KEYCODE_DPAD_DOWN: int := 20
  const KEYCODE_DPAD_LEFT: int := 21
  const KEYCODE_DPAD_RIGHT: int := 22
  const KEYCODE_DEL: int := 67

  /** The GLFW keys the table maps to (`GLFW_KEY_*`). */
  datatype GlfwKey =
    | KeyUnknown | KeyHome | KeyEscape | Key0 | Key1 | Key2
    | Key3 | Key4 | Key5 | Key6 | Key7 | Key8
    | Key9 | KeyUp | KeyDown | KeyLeft | KeyRight | KeyA
    | KeyB | KeyC | KeyD | KeyE | KeyF | KeyG
    | KeyH | KeyI | KeyJ | KeyK | KeyL | KeyM
    | KeyN | KeyO | KeyP | KeyQ | KeyR | KeyS
    | KeyT | KeyU | KeyV | KeyW | KeyX | KeyY
    | KeyZ | KeyComma | KeyPeriod | KeyLeftAlt | KeyRightAlt | KeyLeftShift
    | KeyRightShift | KeyTab | KeySpace | KeyEnter | KeyBackspace | KeyGraveAccent
    | KeyMinus | KeyEqual | KeyLeftBracket | KeyRightBracket | KeyBackslash | KeySemicolon
    | KeyApostrophe | KeySlash | KeyKpAdd | KeyPageUp | KeyPageDown | KeyLeftControl
    | KeyRightControl | KeyCapsLock | KeyPause | KeyEnd | KeyInsert | KeyF1
    | KeyF2 | KeyF3 | KeyF4 | KeyF5 | KeyF6 | KeyF7
    | KeyF8 | KeyF9 | KeyF10 | KeyF11 | KeyF12 | KeyNumLock
    | KeyKp0 | KeyKp1 | KeyKp2 | KeyKp3 | KeyKp4 | KeyKp5
    | KeyKp6 | KeyKp7 | KeyKp8 | KeyKp9 | KeyKpDivide | KeyKpMultiply
    | KeyKpSubtract | KeyKpDecimal | KeyKpEnter

  /** One `add(androidKeycode, LWJGLKeycode)` of the static initializer. */
  datatype Entry = Entry(android: int, lwjgl: GlfwKey)

  /** KEYCODE_UNKNOWN … KEYCODE_8. */
  const CHUNK_0: seq<Entry> := [
      Entry(0, KeyUnknown),
      Entry(3, KeyHome),
      Entry(4, KeyEscape),
      Entry(7, Key0),
      Entry(8, Key1),
      Entry(9, Key2),
      Entry(10, Key3),
      Entry(11, Key4),
      Entry(12, Key5),
      Entry(13, Key6),
      Entry(14, Key7),
      Entry(15, Key8)
    ]

  /** KEYCODE_9 … KEYCODE_F. */
  const CHUNK_1: seq<Entry> := [
      Entry(16, Key9),
      Entry(18, Key3),
      Entry(19, KeyUp),
      Entry(20, KeyDown),
      Entry(21, KeyLeft),
      Entry(22, KeyRight),
      Entry(29, KeyA),
      Entry(30, KeyB),
      Entry(31, KeyC),
      Entry(32, KeyD),
      Entry(33, KeyE),
      Entry(34, KeyF)
    ]

  /** KEYCODE_G … KEYCODE_R. */
  const CHUNK_2: seq<Entry> := [
      Entry(35, KeyG),
      Entry(36, KeyH),
      Entry(37, KeyI),
      Entry(38, KeyJ),
      Entry(39, KeyK),
      Entry(40, KeyL),
      Entry(41, KeyM),
      Entry(42, KeyN),
      Entry(43, KeyO),
      Entry(44, KeyP),
      Entry(45, KeyQ),
      Entry(46, KeyR)
    ]

  /** KEYCODE_S … KEYCODE_ALT_RIGHT. */
  const CHUNK_3: seq<Entry> := [
      Entry(47, KeyS),
      Entry(48, KeyT),
      Entry(49, KeyU),
      Entry(50, KeyV),
      Entry(51, KeyW),
      Entry(52, KeyX),
      Entry(53, KeyY),
      Entry(54, KeyZ),
      Entry(55, KeyComma),
      Entry(56, KeyPeriod),
      Entry(57, KeyLeftAlt),
      Entry(58, KeyRightAlt)
    ]

  /** KEYCODE_SHIFT_LEFT … KEYCODE_BACKSLASH. */
  const CHUNK_4: seq<Entry> := [
      Entry(59, KeyLeftShift),
      Entry(60, KeyRightShift),
      Entry(61, KeyTab),
      Entry(62, KeySpace),
      Entry(66, KeyEnter),
      Entry(67, KeyBackspace),
      Entry(68, KeyGraveAccent),
      Entry(69, KeyMinus),
      Entry(70, KeyEqual),
      Entry(71, KeyLeftBracket),
      Entry(72, KeyRightBracket),
      Entry(73, KeyBackslash)
    ]

  /** KEYCODE_SEMICOLON … KEYCODE_BREAK. */
  const CHUNK_5: seq<Entry> := [
      Entry(74, KeySemicolon),
      Entry(75, KeyApostrophe),
      Entry(76, KeySlash),
      Entry(77, Key2),
      Entry(81, KeyKpAdd),
      Entry(92, KeyPageUp),
      Entry(93, KeyPageDown),
      Entry(111, KeyEscape),
      Entry(113, KeyLeftControl),
      Entry(114, KeyRightControl),
      Entry(115, KeyCapsLock),
      Entry(121, KeyPause)
    ]

  /** KEYCODE_MOVE_HOME … KEYCODE_F9. */
  const CHUNK_6: seq<Entry> := [
      Entry(122, KeyHome),
      Entry(123, KeyEnd),
      Entry(124, KeyInsert),
      Entry(131, KeyF1),
      Entry(132, KeyF2),
      Entry(133, KeyF3),
      Entry(134, KeyF4),
      Entry(135, KeyF5),
      Entry(136, KeyF6),
      Entry(137, KeyF7),
      Entry(138, KeyF8),
      Entry(139, KeyF9)
    ]

  /** KEYCODE_F10 … KEYCODE_NUMPAD_7. */
  const CHUNK_7: seq<Entry> := [
      Entry(140, KeyF10),
      Entry(141, KeyF11),
      Entry(142, KeyF12),
      Entry(143, KeyNumLock),
      Entry(144, KeyKp0),
      Entry(145, KeyKp1),
      Entry(146, KeyKp2),
      Entry(147, KeyKp3),
      Entry(148, KeyKp4),
      Entry(149, KeyKp5),
      Entry(150, KeyKp6),
      Entry(151, KeyKp7)
    ]

  /** KEYCODE_NUMPAD_8 … KEYCODE_NUMPAD_EQUALS. */
  const CHUNK_8: seq<Entry> := [
      Entry(152, KeyKp8),
      Entry(153, KeyKp9),
      Entry(154, KeyKpDivide),
      Entry(155, KeyKpMultiply),
      Entry(156, KeyKpSubtract),
      Entry(157, KeyKpAdd),
      Entry(158, KeyKpDecimal),
      Entry(159, KeyComma),
      Entry(160, KeyKpEnter),
      Entry(161, KeyEqual)
    ]

  /** The two parallel arrays, as the static initializer leaves them. */
  const TABLE: seq<Entry> :=
    CHUNK_0 + CHUNK_1 + CHUNK_2 + CHUNK_3 + CHUNK_4 + CHUNK_5 + CHUNK_6 + CHUNK_7 + CHUNK_8

  function AndroidCodes(t: seq<Entry>): (r: seq<int>)
    ensures |r| == |t| && forall i :: 0 <= i < |t| ==> r[i] == t[i].android
  {
    seq(|t|, i requires 0 <= i < |t| => t[i].android)
  }

  /** Strictly ascending, adjacent pair by adjacent pair. */
  predicate Ascending(s: seq<int>) {
    forall i :: 0 <= i < |s| - 1 ==> s[i] < s[i + 1]
  }

  /** Non-decreasing, any pair: what `Arrays.binarySearch` requires. */
  predicate Sorted(s: seq<int>) {
    forall i, j :: 0 <= i <= j < |s| ==> s[i] <= s[j]
  }

  lemma {:induction false} AscendingIsSorted(s: seq<int>)
    requires Ascending(s)
    ensures Sorted(s)
    ensures forall i, j :: 0 <= i < j < |s| ==> s[i] < s[j]
    decreases |s|
  {
    if |s| > 1 {
      AscendingIsSorted(s[1..]);
      forall i, j | 0 <= i < j < |s| ensures s[i] < s[j] {
        if i > 0 {
          assert s[i] == s[1..][i - 1] && s[j] == s[1..][j - 1];
        } else if j > 1 {
          assert s[1] == s[1..][0] && s[j] == s[1..][j - 1];
        }
      }
    }
  }

  lemma AscendingConcat(a: seq<int>, b: seq<int>)
    requires Ascending(a) && Ascending(b)
    requires |a| > 0 && |b| > 0 ==> a[|a| - 1] < b[0]
    ensures Ascending(a + b)
  {
    var ab := a + b;
    forall i | 0 <= i < |ab| - 1 ensures ab[i] < ab[i + 1] {
      if i + 1 < |a| {
      } else if i + 1 == |a| {
      } else {
        assert ab[i] == b[i - |a|] && ab[i + 1] == b[i + 1 - |a|];
      }
    }
  }

  lemma AndroidCodesConcat(a: seq<Entry>, b: seq<Entry>)
    ensures AndroidCodes(a + b) == AndroidCodes(a) + AndroidCodes(b)
  {
  }

  lemma Chunk0Ascending()
    ensures Ascending(AndroidCodes(CHUNK_0))
  {
  }

  lemma Chunk1Ascending()
    ensures Ascending(AndroidCodes(CHUNK_1))
  {
  }

  lemma Chunk2Ascending()
    ensures Ascending(AndroidCodes(CHUNK_2))
  {
  }

  lemma Chunk3Ascending()
    ensures Ascending(AndroidCodes(CHUNK_3))
  {
  }

  lemma Chunk4Ascending()
    ensures Ascending(AndroidCodes(CHUNK_4))
  {
  }

  lemma Chunk5Ascending()
    ensures Ascending(AndroidCodes(CHUNK_5))
  {
  }

  lemma Chunk6Ascending()
    ensures Ascending(AndroidCodes(CHUNK_6))
  {
  }

  lemma Chunk7Ascending()
    ensures Ascending(AndroidCodes(CHUNK_7))
  {
  }

  lemma Chunk8Ascending()
    ensures Ascending(AndroidCodes(CHUNK_8))
  {
  }

  /** The static initializer fills exactly `KEYCODE_COUNT` slots, with the
      Android codes strictly ascending, which `Arrays.binarySearch` needs. */
  lemma TableAscending()
    ensures |TABLE| == KEYCODE_COUNT
    ensures Ascending(AndroidCodes(TABLE))
    ensures Sorted(AndroidCodes(TABLE))
  {
    var acc := CHUNK_0;
    Chunk0Ascending();
    Chunk1Ascending(); AndroidCodesConcat(acc, CHUNK_1); AscendingConcat(AndroidCodes(acc), AndroidCodes(CHUNK_1)); acc := acc + CHUNK_1;
    Chunk2Ascending(); AndroidCodesConcat(acc, CHUNK_2); AscendingConcat(AndroidCodes(acc), AndroidCodes(CHUNK_2)); acc := acc + CHUNK_2;
    Chunk3Ascending(); AndroidCodesConcat(acc, CHUNK_3); AscendingConcat(AndroidCodes(acc), AndroidCodes(CHUNK_3)); acc := acc + CHUNK_3;
    Chunk4Ascending(); AndroidCodesConcat(acc, CHUNK_4); AscendingConcat(AndroidCodes(acc), AndroidCodes(CHUNK_4)); acc := acc + CHUNK_4;
    Chunk5Ascending(); AndroidCodesConcat(acc, CHUNK_5); AscendingConcat(AndroidCodes(acc), AndroidCodes(CHUNK_5)); acc := acc + CHUNK_5;
    Chunk6Ascending(); AndroidCodesConcat(acc, CHUNK_6); AscendingConcat(AndroidCodes(acc), AndroidCodes(CHUNK_6)); acc := acc + CHUNK_6;
    Chunk7Ascending(); AndroidCodesConcat(acc, CHUNK_7); AscendingConcat(AndroidCodes(acc), AndroidCodes(CHUNK_7)); acc := acc + CHUNK_7;
    Chunk8Ascending(); AndroidCodesConcat(acc, CHUNK_8); AscendingConcat(AndroidCodes(acc), AndroidCodes(CHUNK_8)); acc := acc + CHUNK_8;
    assert acc == TABLE;
    AscendingIsSorted(AndroidCodes(TABLE));
  }

  // ---------------------------------------------------------------------------
  // Lookups
  // ---------------------------------------------------------------------------

  /** `Arrays.binarySearch` on `a[low..high]` (inclusive bounds), with
      everything left of `low` below the key and everything right of `high`
      above it: the slot of the key, or `-(insertion point) - 1`. */
  function BinarySearch(a: seq<int>, key: int, low: int, high: int): (r: int)
    requires Sorted(a)
    requires 0 <= low <= high + 1 <= |a|
    requires forall i :: 0 <= i < low ==> a[i] < key
    requires forall i :: high < i < |a| ==> a[i] > key
    ensures 0 <= r ==> r < |a| && a[r] == key
    ensures r < 0 ==> 0 <= -(r + 1) <= |a|
                      && (forall i :: 0 <= i < -(r + 1) ==> a[i] < key)
                      && (forall i :: -(r + 1) <= i < |a| ==> a[i] > key)
    decreases high - low
  {
    if low > high then -(low + 1)
    else
      var mid := (low + high) / 2;
      if a[mid] < key then BinarySearch(a, key, mid + 1, high)
      else if a[mid] > key then BinarySearch(a, key, low, mid - 1)
      else mid
  }

  /** `getIndexByKey`: the slot holding Android code `key`, or a negative
      number when the table has no such slot. */
  function IndexByKey(key: int): (r: int)
    ensures r >= 0 <==> exists i :: 0 <= i < |TABLE| && TABLE[i].android == key
    ensures r >= 0 ==> r < |TABLE| && TABLE[r].android == key
  {
    TableAscending();
    var codes := AndroidCodes(TABLE);
    var r := BinarySearch(codes, key, 0, |codes| - 1);
    assert forall i :: 0 <= i < |TABLE| ==> TABLE[i].android == codes[i];
    r
  }

  /** `containsIndex`: accepts every slot of the table, and on a lookup's
      answer it tells whether the table has a slot for the key. */
  function ContainsIndex(index: int): (contained: bool)
    ensures 0 <= index < |TABLE| ==> contained
    ensures forall key :: IndexByKey(key) == index ==> (contained <==> exists i :: 0 <= i < |TABLE| && TABLE[i].android == key)
  {
    index >= 0
  }

  /** A slot found for a key is a slot of the table, and the table has a
      slot for a key exactly when `containsIndex` accepts its index. */
  lemma ContainsIndexMeansPresent(key: int)
    ensures ContainsIndex(IndexByKey(key)) <==> exists i :: 0 <= i < |TABLE| && TABLE[i].android == key
  {
  }

  /** `getValueByIndex`: the GLFW key in the slot; an index outside the array
      throws (`None`). */
  function ValueByIndex(index: int): (r: Option<GlfwKey>)
    ensures r.Some? <==> 0 <= index < KEYCODE_COUNT
    ensures r.Some? ==> r.value == TABLE[index].lwjgl
  {
    TableAscending();
    if 0 <= index < |TABLE| then Some(TABLE[index].lwjgl) else None
  }

  /** `getIndexByValue`: the first slot holding the GLFW key, or 0. */
  function IndexByValue(key: GlfwKey): (r: nat)
    ensures r < KEYCODE_COUNT
    ensures (exists i :: 0 <= i < |TABLE| && TABLE[i].lwjgl == key) ==> TABLE[r].lwjgl == key
    ensures forall i :: 0 <= i < r ==> TABLE[i].lwjgl != key
    ensures (forall i :: 0 <= i < |TABLE| ==> TABLE[i].lwjgl != key) ==> r == 0
  {
    TableAscending();
    FirstSlot(TABLE, key, 0)
  }

  function FirstSlot(t: seq<Entry>, key: GlfwKey, i: nat): (r: nat)
    requires i <= |t| && |t| > 0
    ensures r < |t|
    ensures (exists j :: i <= j < |t| && t[j].lwjgl == key) ==> i <= r && t[r].lwjgl == key
                                                                && forall j :: i <= j < r ==> t[j].lwjgl != key
    ensures (forall j :: i <= j < |t| ==> t[j].lwjgl != key) ==> r == 0
    decreases |t| - i
  {
    if i == |t| then 0
    else if t[i].lwjgl == key then i
    else FirstSlot(t, key, i + 1)
  }

  /** The table is not injective: BACK and ESCAPE share a GLFW key, so
      looking ESCAPE's key back up lands on BACK's slot. */
  lemma BackAndEscapeShareKey()
    ensures TABLE[2].android == 4 && TABLE[67].android == 111
    ensures ValueByIndex(67) == ValueByIndex(2) == Some(KeyEscape)
    ensures IndexByValue(KeyEscape) == 2
  {
    assert TABLE[0].lwjgl == KeyUnknown && TABLE[1].lwjgl == KeyHome && TABLE[2].lwjgl == KeyEscape;
  }

  /** HOME and MOVE_HOME share a GLFW key. */
  lemma HomeAndMoveHomeShareKey()
    ensures TABLE[1].android == 3 && TABLE[72].android == 122
    ensures ValueByIndex(72) == ValueByIndex(1) == Some(KeyHome)
    ensures IndexByValue(KeyHome) == 1
  {
    assert TABLE[0].lwjgl == KeyUnknown && TABLE[1].lwjgl == KeyHome;
  }

  /** PLUS and NUMPAD_ADD share a GLFW key. */
  lemma PlusAndNumpadAddShareKey()
    ensures TABLE[64].android == 81 && TABLE[101].android == 157
    ensures ValueByIndex(101) == ValueByIndex(64) == Some(KeyKpAdd)
    ensures IndexByValue(KeyKpAdd) == 64
  {
    NoKpAddBeforePlus();
    assert forall i :: 0 <= i < 64 ==> TABLE[..64][i] == TABLE[i];
  }

  /** None of the first 64 slots holds the numpad-add key. */
  lemma NoKpAddBeforePlus()
    ensures Lacks(TABLE[..64], KeyKpAdd)
  {
    var front := CHUNK_0 + CHUNK_1 + CHUNK_2 + CHUNK_3 + CHUNK_4 + CHUNK_5[..4];
    assert Lacks(CHUNK_0, KeyKpAdd) && Lacks(CHUNK_1, KeyKpAdd) && Lacks(CHUNK_2, KeyKpAdd);
    assert Lacks(CHUNK_3, KeyKpAdd) && Lacks(CHUNK_4, KeyKpAdd) && Lacks(CHUNK_5[..4], KeyKpAdd);
    LacksConcat(CHUNK_0, CHUNK_1, KeyKpAdd);
    LacksConcat(CHUNK_0 + CHUNK_1, CHUNK_2, KeyKpAdd);
    LacksConcat(CHUNK_0 + CHUNK_1 + CHUNK_2, CHUNK_3, KeyKpAdd);
    LacksConcat(CHUNK_0 + CHUNK_1 + CHUNK_2 + CHUNK_3, CHUNK_4, KeyKpAdd);
    LacksConcat(CHUNK_0 + CHUNK_1 + CHUNK_2 + CHUNK_3 + CHUNK_4, CHUNK_5[..4], KeyKpAdd);
    assert TABLE[..64] == front;
  }

  /** No slot of `t` holds `key`. */
  predicate Lacks(t: seq<Entry>, key: GlfwKey) {
    forall i :: 0 <= i < |t| ==> t[i].lwjgl != key
  }

  lemma LacksConcat(a: seq<Entry>, b: seq<Entry>, key: GlfwKey)
    requires Lacks(a, key) && Lacks(b, key)
    ensures Lacks(a + b, key)
  {
    forall i | |a| <= i < |a + b| ensures (a + b)[i].lwjgl != key {
      assert (a + b)[i] == b[i - |a|];
    }
  }

  /** Looking a slot's key back up finds a slot with the same key, never a
      later one. */
  lemma IndexByValueOfSlot(i: nat)
    requires i < KEYCODE_COUNT
    ensures IndexByValue(ValueByIndex(i).value) <= i
    ensures TABLE[IndexByValue(ValueByIndex(i).value)].lwjgl == TABLE[i].lwjgl
  {
    TableAscending();
  }

  // ---------------------------------------------------------------------------
  // execKey
  // ---------------------------------------------------------------------------

  /** The modifier flags `CallbackBridge` keeps. */
  datatype Holding = Holding(alt: bool, capsLock: bool, ctrl: bool, numLock: bool, shift: bool)

  /** What `execKey` reads from the Android key event. */
  datatype KeyEventInfo = KeyEventInfo(action: int, unicodeChar: int,
                                       altPressed: bool, capsLockOn: bool, ctrlPressed: bool,
                                       numLockOn: bool, shiftPressed: bool)

  /** `CallbackBridge.sendKeyPress(keycode, keychar, scancode, mods, isDown)`,
      the character as its UTF-16 code unit. */
  datatype KeyPress = KeyPress(key: GlfwKey, keyChar: int, scancode: int, mods: int, isDown: bool)

  /** `execKey(event, valueIndex)`: the modifier flags are copied from the
      event, then the slot's key is sent with scancode 0, the current
      modifiers (`modsOf`, computed by `CallbackBridge`) and the press flag
      `action == ACTION_DOWN`. An index outside the table throws after the
      flags were set (no key press). */
  function ExecKey(ev: KeyEventInfo, valueIndex: int, modsOf: Holding -> int): (r: (Holding, Option<KeyPress>))
    ensures r.0 == Holding(ev.altPressed, ev.capsLockOn, ev.ctrlPressed, ev.numLockOn, ev.shiftPressed)
    ensures r.1.Some? <==> 0 <= valueIndex < KEYCODE_COUNT
    ensures r.1.Some? ==> r.1.value.key == TABLE[valueIndex].lwjgl
    ensures r.1.Some? ==> r.1.value.scancode == 0 && r.1.value.mods == modsOf(r.0)
    ensures r.1.Some? ==> (r.1.value.isDown <==> ev.action == ACTION_DOWN)
    ensures r.1.Some? ==> r.1.value.keyChar == ev.unicodeChar % 0x1_0000
  {
    var holding := Holding(ev.altPressed, ev.capsLockOn, ev.ctrlPressed, ev.numLockOn, ev.shiftPressed);
    match ValueByIndex(valueIndex)
    case None => (holding, None)
    case Some(key) =>
      var ch := if ev.unicodeChar != 0 then ev.unicodeChar % 0x1_0000 else 0;
      (holding, Some(KeyPress(key, ch, 0, modsOf(holding), ev.action == ACTION_DOWN)))
  }
}

=== FILE: launch_args.dfy ===
/** The app tree's launch-argument builder: the Java arguments (auth agent,
    Cacio, Log4j, client jar), the manifest's JVM arguments with the launch
    classpath, the module export for Java 9 and later, the main class, the
    game arguments and the quick-play server. The file system, the
    manifest and the launcher's version name are parameters. */
module LaunchArgs {
  import opened Wrappers
  import opened Text
  import opened AccountData
  import AccountExtensions
  import Numerals
  import StringUtils
  import AppLauncher

  datatype ArgsError =
    | NoPackageInMainClass   // `substring(0, lastIndexOf("."))` with no '.'
    | NoVersionInfo          // `getVersionInfo()!!`

  // ---------------------------------------------------------------------------
  // getAllArgs
  // ---------------------------------------------------------------------------

  const DEFAULT_PORT: int := 25565

  /** The package of a main class: everything before its last '.'. */
  function MainClassPackage(mainClass: string): (pkg: Result<string, ArgsError>)
    ensures pkg.Failure? <==> '.' !in mainClass
    ensures pkg.Success? ==>
      && |pkg.value| < |mainClass| && mainClass[|pkg.value|] == '.'
      && pkg.value == mainClass[..|pkg.value|] && '.' !in mainClass[|pkg.value| + 1..]
  {
    match LastCharIndex(mainClass, '.')
    case None => Failure(NoPackageInMainClass)
    case Some(i) => Success(mainClass[..i])
  }

  /** The export that opens the main class's package to the classpath. */
  function ExportArg(pkg: string): string {
    pkg + "/" + pkg + "=ALL-UNNAMED"
  }

  /** A class name `pkg.Cls` yields `pkg`. */
  lemma PackageOfQualifiedName(pkg: string, cls: string)
    requires '.' !in cls
    ensures MainClassPackage(pkg + "." + cls) == Success(pkg)
  {
    var s := pkg + "." + cls;
    assert s[|pkg|] == '.' && s[|pkg|] in s;
    var p := MainClassPackage(s).value;
    NotAfter(s, '.', |p|, |pkg|);
    forall k | |pkg| < k < |s| ensures s[k] != '.' {
      assert s[k] == cls[k - |pkg| - 1];
    }
    assert |p| <= |pkg|;
    assert s[..|pkg|] == pkg;
  }

  /** The quick-play server arguments for "host[:port]": a missing or
      unreadable port is 25565. */
  function ServerArgs(address: string): (args: seq<string>)
    ensures |args| == 4 && args[0] == "--server" && args[2] == "--port"
    ensures args[1] == Split(address, ':')[0]
    ensures |Split(address, ':')| == 1 ==> args[3] == Numerals.IntToString(DEFAULT_PORT)
  {
    var parts := Split(address, ':');
    var port := if |parts| > 1 then Numerals.ParseInt(parts[1]).GetOr(DEFAULT_PORT) else DEFAULT_PORT;
    ["--server", parts[0], "--port", Numerals.IntToString(port)]
  }

  /** A "host:port" address gives the host and the port back; a bare host
      gets the default port; an unreadable port falls back to it. */
  lemma ServerAddressReadsBack(host: string, port: int, junk: string)
    requires ':' !in host && ':' !in junk && Numerals.IsInt32(port)
    requires Numerals.ParseInt(junk).None?
    ensures ServerArgs(host + ":" + Numerals.IntToString(port)) == ["--server", host, "--port", Numerals.IntToString(port)]
    ensures ServerArgs(host) == ["--server", host, "--port", Numerals.IntToString(DEFAULT_PORT)]
    ensures ServerArgs(host + ":" + junk) == ["--server", host, "--port", Numerals.IntToString(DEFAULT_PORT)]
  {
    var p := Numerals.IntToString(port);
    NoColonInNumeral(port);
    SplitNone(p, ':');
    SplitCons(host, p, ':');
    assert host + ":" + p == host + [':'] + p;
    Numerals.ParseIntToString(port);
    SplitNone(host, ':');
    SplitNone(junk, ':');
    SplitCons(host, junk, ':');
    assert host + ":" + junk == host + [':'] + junk;
  }

  lemma NoColonInNumeral(i: int)
    ensures ':' !in Numerals.IntToString(i)
  {
    var s := Numerals.IntToString(i);
    Numerals.DigitsOfNat(if i < 0 then -i else i);
    forall k | 0 <= k < |s| ensures s[k] != ':' {
      if i < 0 && k == 0 {
      } else if i < 0 {
        assert s[k] == s[1..][k - 1];
      }
    }
  }

  /** `getAllArgs`: the Java arguments, the JVM arguments, the package
      export on Java 9 and later, the main class, the game arguments, and
      the server for a version with info and a server address. A main class
      without a package fails on Java 9 and later; game arguments that fail
      (no version info) fail the whole list. */
  function GetAllArgs(javaArgs: seq<string>, jvmArgs: seq<string>, javaVersion: int, mainClass: string,
                      clientArgs: Result<seq<string>, ArgsError>, hasVersionInfo: bool,
                      serverIp: Option<string>): (r: Result<seq<string>, ArgsError>)
    ensures javaVersion > 8 && '.' !in mainClass ==> r == Failure(NoPackageInMainClass)
    ensures r.Success? <==> clientArgs.Success? && (javaVersion <= 8 || '.' in mainClass)
    ensures r.Success? ==>
      Laid(r.value, javaArgs + jvmArgs, if javaVersion > 8 then 2 else 0, mainClass, clientArgs.value,
           if hasVersionInfo && serverIp.Some? then ServerArgs(serverIp.value) else [])
    ensures r.Success? && javaVersion > 8 ==> ExportsAt(r.value, |javaArgs| + |jvmArgs|, mainClass)
  {
    var exports := Exports(javaVersion, mainClass);
    if exports.Failure? then Failure(exports.error)
    else if clientArgs.Failure? then Failure(clientArgs.error)
    else
      var tail := if hasVersionInfo && serverIp.Some? then ServerArgs(serverIp.value) else [];
      var head := javaArgs + jvmArgs;
      var r := Assemble(head, exports.value, mainClass, clientArgs.value, tail);
      assert |exports.value| == if javaVersion > 8 then 2 else 0;
      assert javaVersion > 8 ==> ExportsAt(r, |head|, mainClass) by {
        if javaVersion > 8 {
          assert r[|head| + 0] == exports.value[0] && r[|head| + 1] == exports.value[1];
        }
      }
      Success(r)
  }

  /** `--add-exports` and the export of the main class's package sit at
      `at` and `at + 1`. */
  ghost predicate ExportsAt(r: seq<string>, at: nat, mainClass: string) {
    && at + 1 < |r| && MainClassPackage(mainClass).Success?
    && r[at] == "--add-exports" && r[at + 1] == ExportArg(MainClassPackage(mainClass).value)
  }

  /** The package export on Java 9 and later, nothing before; a main class
      without a package fails on Java 9 and later. */
  function Exports(javaVersion: int, mainClass: string): (r: Result<seq<string>, ArgsError>)
    ensures r.Failure? <==> javaVersion > 8 && '.' !in mainClass
    ensures r.Failure? ==> r.error == NoPackageInMainClass
    ensures r.Success? && javaVersion <= 8 ==> r.value == []
    ensures r.Success? && javaVersion > 8 ==>
      r.value == ["--add-exports", ExportArg(MainClassPackage(mainClass).value)]
  {
    if javaVersion > 8 then
      match MainClassPackage(mainClass)
      case Failure(e) => Failure(e)
      case Success(pkg) => Success(["--add-exports", ExportArg(pkg)])
    else Success([])
  }

  /** `r` is `head`, then `ex` arguments, then `m`, then `client`, then
      `tail`. */
  ghost predicate Laid<T>(r: seq<T>, head: seq<T>, ex: nat, m: T, client: seq<T>, tail: seq<T>) {
    && |r| == |head| + ex + 1 + |client| + |tail|
    && r[..|head|] == head
    && r[|head| + ex] == m
    && r[|head| + ex + 1..|head| + ex + 1 + |client|] == client
    && r[|r| - |tail|..] == tail
  }

  /** The parts one after the other: `head`, `ex`, `m`, `client`, `tail`. */
  function Assemble(head: seq<string>, ex: seq<string>, m: string, client: seq<string>, tail: seq<string>): (r: seq<string>)
    ensures Laid(r, head, |ex|, m, client, tail)
    ensures forall k :: 0 <= k < |ex| ==> r[|head| + k] == ex[k]
  {
    var r := head + ex + [m] + client + tail;
    assert r[..|head|] == head;
    assert r[|head| + |ex| + 1..|head| + |ex| + 1 + |client|] == client;
    assert r[|r| - |tail|..] == tail;
    r
  }

  // ---------------------------------------------------------------------------
  // getJavaArgs
  // ---------------------------------------------------------------------------

  const NIDE8_HOST: string := "auth.mc-user.com"
  const NIDE8_PREFIX: string := "https://" + NIDE8_HOST + ":233/"
  const NIDE8_CLIENT: string := "-Dnide8auth.client=true"

  /** A Java agent with its option. */
  function Agent(jar: string, option: string): string {
    "-javaagent:" + jar + "=" + option
  }

  /** The authentication agent: none for a local account or an account
      that is not an auth-server account or has no base URL; the Nide8
      agent (with its server prefix removed from the URL) and its client
      flag for a mc-user.com server; authlib-injector otherwise. */
  function AuthArgs(a: Account, nide8Jar: string, authlibJar: string): (args: seq<string>)
    ensures |args| <= 2
    ensures |args| > 0 <==> !AccountExtensions.IsLocalAccount(a) && AccountExtensions.IsAuthServerAccount(a) && a.otherBaseUrl.Some?
    ensures |args| == 2 <==> |args| > 0 && Contains(a.otherBaseUrl.value, NIDE8_HOST)
    ensures |args| == 2 ==> args == [Agent(nide8Jar, ReplaceAll(a.otherBaseUrl.value, NIDE8_PREFIX, "")), NIDE8_CLIENT]
    ensures |args| == 1 ==> args == [Agent(authlibJar, a.otherBaseUrl.value)]
  {
    if AccountExtensions.IsLocalAccount(a) then []
    else if AccountExtensions.IsAuthServerAccount(a) then
      match a.otherBaseUrl
      case None => []
      case Some(url) =>
        if Contains(url, NIDE8_HOST) then [Agent(nide8Jar, ReplaceAll(url, NIDE8_PREFIX, "")), NIDE8_CLIENT]
        else [Agent(authlibJar, url)]
    else []
  }

  /** An auth-server account's URL reaches its agent untouched unless it is
      a Nide8 server, whose prefix is removed. */
  lemma AuthAgentOption(a: Account, nide8Jar: string, authlibJar: string, id: string)
    requires a.accountType == Some(AccountExtensions.AUTHSERVER)
    ensures a.otherBaseUrl == Some(NIDE8_PREFIX + id) ==>
      AuthArgs(a, nide8Jar, authlibJar)[0] == Agent(nide8Jar, ReplaceAll(NIDE8_PREFIX + id, NIDE8_PREFIX, ""))
    ensures a.otherBaseUrl.Some? && !Contains(a.otherBaseUrl.value, NIDE8_HOST) ==>
      AuthArgs(a, nide8Jar, authlibJar) == [Agent(authlibJar, a.otherBaseUrl.value)]
    ensures a.otherBaseUrl.None? ==> AuthArgs(a, nide8Jar, authlibJar) == []
  {
    if a.otherBaseUrl == Some(NIDE8_PREFIX + id) {
      var url := NIDE8_PREFIX + id;
      assert OccursAt(url, NIDE8_HOST, 8) by {
        assert url == "https://" + (NIDE8_HOST + (":233/" + id));
        assert url[8..] == NIDE8_HOST + (":233/" + id);
      }
    }
  }

  const LOG4J_NAME: string := "log4j2.xml"

  /** `getJavaArgs`: the authentication agent, the Cacio arguments (the Java
      8 set when the runtime is Java 8), the Log4j configuration in the
      version's folder and the client jar. Writing a default Log4j file
      when it is missing has no effect on the list. */
  function JavaArgs(a: Account, nide8Jar: string, authlibJar: string, width: int, height: int, javaVersion: int,
                    versionPath: string, clientJar: string): (args: seq<string>)
    ensures var auth := AuthArgs(a, nide8Jar, authlibJar);
      && |args| == |auth| + 7 + 2
      && args[..|auth|] == auth
      && args[|auth|..|auth| + 7] == AppLauncher.CacioJavaArgs(width, height, javaVersion == 8)
      && args[|args| - 2] == "-Dlog4j.configurationFile=" + versionPath + "/" + LOG4J_NAME
      && args[|args| - 1] == "-Dminecraft.client.jar=" + clientJar
  {
    AuthArgs(a, nide8Jar, authlibJar)
    + AppLauncher.CacioJavaArgs(width, height, javaVersion == 8)
    + ["-Dlog4j.configurationFile=" + versionPath + "/" + LOG4J_NAME, "-Dminecraft.client.jar=" + clientJar]
  }

  // ---------------------------------------------------------------------------
  // Library rules and the launch classpath
  // ---------------------------------------------------------------------------

  /** A library rule: its action and the OS name it is limited to. */
  datatype Rule = Rule(action: string, osName: Option<string>)

  /** A rule applies on this device: no OS given, or Linux in any case. */
  predicate OsMatches(rule: Rule) {
    rule.osName.None? || EqualsIgnoreCase(rule.osName.value, "linux")
  }

  /** A rule that sets the verdict: an allow or disallow that applies. */
  predicate Decides(rule: Rule) {
    OsMatches(rule) && (rule.action == "allow" || rule.action == "disallow")
  }

  /** One loop step: an applying allow sets the verdict, an applying
      disallow clears it, anything else keeps it. */
  function Step(rule: Rule, allowed: bool): bool {
    if rule.action == "allow" && OsMatches(rule) then true
    else if rule.action == "disallow" && OsMatches(rule) then false
    else allowed
  }

  /** The loop over the rules, first to last. */
  function Verdict(rules: seq<Rule>, allowed: bool): bool
    decreases |rules|
  {
    if |rules| == 0 then allowed else Verdict(rules[1..], Step(rules[0], allowed))
  }

  /** `checkLibraryRules`: no rules allow; otherwise the rules start from
      "not allowed". */
  function CheckLibraryRules(rules: Option<seq<Rule>>): (allowed: bool)
    ensures rules.None? || |rules.value| == 0 ==> allowed
    ensures rules.Some? && |rules.value| > 0 ==> allowed == Verdict(rules.value, false)
  {
    if rules.None? || |rules.value| == 0 then true else Verdict(rules.value, false)
  }

  /** The last rule that decides, if any. */
  function LastDeciding(rules: seq<Rule>): (j: Option<nat>)
    ensures j.Some? ==>
      && j.value < |rules| && Decides(rules[j.value])
      && forall k :: j.value < k < |rules| ==> !Decides(rules[k])
    ensures j.None? ==> forall k :: 0 <= k < |rules| ==> !Decides(rules[k])
    decreases |rules|
  {
    if |rules| == 0 then None
    else if Decides(rules[|rules| - 1]) then Some(|rules| - 1)
    else LastDeciding(rules[..|rules| - 1])
  }

  /** The last deciding rule is the only one with nothing deciding after
      it. */
  lemma LastDecidingUnique(rules: seq<Rule>, j: nat)
    requires j < |rules| && Decides(rules[j]) && forall k :: j < k < |rules| ==> !Decides(rules[k])
    ensures LastDeciding(rules) == Some(j)
  {
    var l := LastDeciding(rules);
    assert l.Some?;
    assert !(l.value < j);
    assert !(l.value > j);
  }

  /** The rule loop's verdict is the last deciding rule's action; with no
      deciding rule it is the starting value. */
  lemma {:induction false} VerdictIsLastDeciding(rules: seq<Rule>, allowed: bool)
    ensures Verdict(rules, allowed) == match LastDeciding(rules)
      case None => allowed
      case Some(j) => rules[j].action == "allow"
    decreases |rules|
  {
    if |rules| > 0 {
      var tail := rules[1..];
      var a := Step(rules[0], allowed);
      VerdictIsLastDeciding(tail, a);
      assert forall k :: 0 <= k < |tail| ==> tail[k] == rules[k + 1];
      match LastDeciding(tail)
      case Some(t) =>
        LastDecidingUnique(rules, t + 1);
      case None =>
        if Decides(rules[0]) {
          LastDecidingUnique(rules, 0);
        } else {
          assert forall k :: 0 <= k < |rules| ==> !Decides(rules[k]) by {
            forall k | 0 <= k < |rules| ensures !Decides(rules[k]) {
              if k > 0 { assert rules[k] == tail[k - 1]; }
            }
          }
        }
    }
  }

  /** A library is allowed exactly when it has no rules, or some applying
      allow is followed by no applying allow or disallow. */
  lemma RulesAllowIff(rules: seq<Rule>)
    requires |rules| > 0
    ensures CheckLibraryRules(Some(rules)) <==>
      exists j :: 0 <= j < |rules| && Decides(rules[j]) && rules[j].action == "allow"
        && forall k :: j < k < |rules| ==> !Decides(rules[k])
  {
    VerdictIsLastDeciding(rules, false);
    if exists j :: 0 <= j < |rules| && Decides(rules[j]) && rules[j].action == "allow"
        && forall k :: j < k < |rules| ==> !Decides(rules[k]) {
      var j :| 0 <= j < |rules| && Decides(rules[j]) && rules[j].action == "allow"
        && forall k :: j < k < |rules| ==> !Decides(rules[k]);
      LastDecidingUnique(rules, j);
    }
  }

  /** What the classpath step reads of a manifest library: its rules,
      whether it has an artifact, and the path `progressLibrary` gives it
      (none when the library is filtered out). */
  datatype Library = Library(rules: Option<seq<Rule>>, hasArtifact: bool, artifactPath: Option<string>)

  predicate OnClasspath(lib: Library) {
    CheckLibraryRules(lib.rules) && lib.hasArtifact && lib.artifactPath.Some?
  }

  function LibraryJar(librariesHome: string, lib: Library): string
    requires lib.artifactPath.Some?
  {
    librariesHome + "/" + lib.artifactPath.value
  }

  /** `generateLibClasspath`: the allowed libraries with an artifact and a
      path, in manifest order, under the libraries folder. */
  function LibClasspath(libs: seq<Library>, librariesHome: string): (jars: seq<string>)
    ensures |jars| <= |libs|
    ensures forall x :: x in jars <==> exists i :: 0 <= i < |libs| && OnClasspath(libs[i]) && x == LibraryJar(librariesHome, libs[i])
    decreases |libs|
  {
    if |libs| == 0 then []
    else
      var rest := LibClasspath(libs[1..], librariesHome);
      assert forall i :: 1 <= i < |libs| ==> libs[1..][i - 1] == libs[i];
      if OnClasspath(libs[0]) then [LibraryJar(librariesHome, libs[0])] + rest else rest
  }

  /** The existing entries of a list, in order. */
  function Existing(paths: seq<string>, present: string -> bool): (kept: seq<string>)
    ensures forall x :: x in kept <==> x in paths && present(x)
    decreases |paths|
  {
    if |paths| == 0 then []
    else if present(paths[0]) then [paths[0]] + Existing(paths[1..], present)
    else Existing(paths[1..], present)
  }

  /** `generateLaunchClassPath`: the existing library jars, then the client
      jar when it exists, joined by ':'. */
  function LaunchClassPathEntries(libJars: seq<string>, present: string -> bool, clientJar: string): (entries: seq<string>)
    ensures forall x :: x in entries <==> (x in libJars || x == clientJar) && present(x)
  {
    Existing(libJars, present) + (if present(clientJar) then [clientJar] else [])
  }

  /** `generateLaunchClassPath`: when no path holds ':', splitting the
      classpath gives back the existing library jars and then the existing
      client jar, in order (one empty entry when there are none). */
  function GenerateLaunchClassPath(libJars: seq<string>, present: string -> bool, clientJar: string): (path: string)
    ensures (forall i :: 0 <= i < |libJars| ==> ':' !in libJars[i]) && ':' !in clientJar ==>
      Split(path, ':') == Pieces(LaunchClassPathEntries(libJars, present, clientJar))
  {
    var entries := LaunchClassPathEntries(libJars, present, clientJar);
    assert (forall i :: 0 <= i < |libJars| ==> ':' !in libJars[i]) && ':' !in clientJar ==>
      Split(Join(entries, ':'), ':') == Pieces(entries) by {
      if (forall i :: 0 <= i < |libJars| ==> ':' !in libJars[i]) && ':' !in clientJar {
        forall k | 0 <= k < |entries| ensures ':' !in entries[k] {
          assert entries[k] in entries;
        }
        ReadBackPieces(entries, ':');
      }
    }
    Join(entries, ':')
  }

  /** When no path holds ':', splitting the classpath lists exactly the
      existing jars and the existing client jar. */
  lemma LaunchClassPathReadsBack(libJars: seq<string>, present: string -> bool, clientJar: string)
    requires forall i :: 0 <= i < |libJars| ==> ':' !in libJars[i]
    requires ':' !in clientJar
    requires |LaunchClassPathEntries(libJars, present, clientJar)| > 0
    ensures var parts := Split(GenerateLaunchClassPath(libJars, present, clientJar), ':');
      forall x :: x in parts <==> (x in libJars || x == clientJar) && present(x)
  {
    var entries := LaunchClassPathEntries(libJars, present, clientJar);
    forall k | 0 <= k < |entries| ensures ':' !in entries[k] {
      assert entries[k] in entries;
    }
    SplitJoin(entries, ':');
  }

  /** `getLWJGL3ClassPath`: the ".jar" files of the LWJGL folder joined by
      ':', or "" when the folder cannot be listed. */
  function Lwjgl3ClassPath(listing: Option<seq<string>>): (path: string)
    ensures listing.None? ==> path == ""
    ensures listing.Some? && (forall i :: 0 <= i < |listing.value| ==> ':' !in listing.value[i]) ==>
      Split(path, ':') == Pieces(Jars(listing.value))
  {
    assert listing.Some? && (forall i :: 0 <= i < |listing.value| ==> ':' !in listing.value[i]) ==>
      Split(Join(Jars(listing.value), ':'), ':') == Pieces(Jars(listing.value)) by {
      if listing.Some? && (forall i :: 0 <= i < |listing.value| ==> ':' !in listing.value[i]) {
        var jars := Jars(listing.value);
        forall k | 0 <= k < |jars| ensures ':' !in jars[k] {
          assert jars[k] in listing.value;
        }
        ReadBackPieces(jars, ':');
      }
    }
    match listing
    case None => ""
    case Some(files) => Join(Jars(files), ':')
  }

  function Jars(files: seq<string>): (jars: seq<string>)
    ensures forall x :: x in jars <==> x in files && EndsWith(x, ".jar")
    decreases |files|
  {
    if |files| == 0 then []
    else if EndsWith(files[0], ".jar") then [files[0]] + Jars(files[1..])
    else Jars(files[1..])
  }

  /** The LWJGL jars `getLWJGL3ClassPath` lists. */
  function LwjglJars(listing: Option<seq<string>>): seq<string> {
    if listing.None? then [] else Jars(listing.value)
  }


  /** A list of classpath entries as splitting reads it back: no entries
      read as one empty entry. */
  function Pieces(xs: seq<string>): (r: seq<string>)
    ensures |r| >= 1
    ensures |xs| > 0 ==> r == xs
  {
    if |xs| == 0 then [""] else xs
  }

  lemma JoinPieces(xs: seq<string>, d: char)
    ensures Join(Pieces(xs), d) == Join(xs, d)
  {
  }

  /** Entries free of the separator split back out of their join. */
  lemma ReadBackPieces(xs: seq<string>, d: char)
    requires forall k :: 0 <= k < |xs| ==> d !in xs[k]
    ensures Split(Join(xs, d), d) == Pieces(xs)
  {
    JoinPieces(xs, d);
    SplitJoin(Pieces(xs), d);
  }

  /** No LWJGL jar, library jar or client jar holds ':'. */
  predicate ColonFreeClassPath(listing: Option<seq<string>>, libJars: seq<string>, clientJar: string) {
    && (listing.Some? ==> forall i :: 0 <= i < |listing.value| ==> ':' !in listing.value[i])
    && (forall i :: 0 <= i < |libJars| ==> ':' !in libJars[i])
    && ':' !in clientJar
  }

  /** The launch classpath of `getMinecraftJVMArgs`: the LWJGL classpath,
      ':', then the game's launch classpath. When no path holds ':', it
      lists the LWJGL jars first and then the existing library jars and the
      existing client jar, in order; an empty half leaves one empty entry. */
  function LaunchClassPath(listing: Option<seq<string>>, libJars: seq<string>, present: string -> bool,
                           clientJar: string): (path: string)
    ensures ColonFreeClassPath(listing, libJars, clientJar)
        ==> Split(path, ':') == Pieces(LwjglJars(listing)) + Pieces(LaunchClassPathEntries(libJars, present, clientJar))
  {
    var path := Lwjgl3ClassPath(listing) + ":" + GenerateLaunchClassPath(libJars, present, clientJar);
    var a := Pieces(LwjglJars(listing));
    var b := Pieces(LaunchClassPathEntries(libJars, present, clientJar));
    assert ColonFreeClassPath(listing, libJars, clientJar) ==> Split(path, ':') == a + b by {
      if ColonFreeClassPath(listing, libJars, clientJar) {
        JoinPieces(LwjglJars(listing), ':');
        JoinPieces(LaunchClassPathEntries(libJars, present, clientJar), ':');
        JoinAppend(a, b, ':');
        assert path == Join(a + b, ':');
        forall k | 0 <= k < |a + b| ensures ':' !in (a + b)[k] {
          if k < |a| {
            if |LwjglJars(listing)| > 0 {
              assert a[k] in Jars(listing.value);
            }
          } else {
            if |LaunchClassPathEntries(libJars, present, clientJar)| > 0 {
              assert b[k - |a|] in LaunchClassPathEntries(libJars, present, clientJar);
            }
          }
        }
        SplitJoin(a + b, ':');
      }
    }
    path
  }

  // ---------------------------------------------------------------------------
  // getMinecraftJVMArgs
  // ---------------------------------------------------------------------------

  /** A manifest argument: a string, or anything else (a conditional rule
      object), which is dropped. */
  datatype JsonArg = Str(s: string) | Other

  const CLASSPATH_PLACEHOLDER: string := "${classpath}"
  const NATIVES_PLACEHOLDER: string := "${natives_directory}"
  const IGNORE_LIST: string := "-DignoreList="

  /** Arguments whose natives placeholder is sent to the cache folder. */
  predicate ExtractsNatives(s: string) {
    Contains(s, "-Dio.netty.native.workdir") || Contains(s, "-Djna.tmpdir")
    || Contains(s, "-Dorg.lwjgl.system.SharedLibraryExtractPath")
  }

  /** `processJvmArg`: the version's jar appended to the ignore list; the
      natives placeholder of an extraction path replaced by the cache
      folder; the classpath placeholder replaced by the launch classpath. */
  function ProcessJvmArg(a: JsonArg, versionName: string, cacheDir: string, launchClassPath: string): (r: Option<string>)
    ensures r.None? <==> a.Other?
    ensures a.Str? && StartsWith(a.s, IGNORE_LIST) ==> r == Some(a.s + "," + versionName + ".jar")
    ensures a == Str(CLASSPATH_PLACEHOLDER) ==> r == Some(launchClassPath)
    ensures a.Str? && !StartsWith(a.s, IGNORE_LIST) && ExtractsNatives(a.s) ==> r == Some(ReplaceAll(a.s, NATIVES_PLACEHOLDER, cacheDir))
    ensures a.Str? && !StartsWith(a.s, IGNORE_LIST) && !ExtractsNatives(a.s) && a.s != CLASSPATH_PLACEHOLDER ==> r == Some(a.s)
  {
    match a
    case Other => None
    case Str(s) =>
      ClasspathPlaceholderIsPlain();
      if StartsWith(s, IGNORE_LIST) then Some(s + "," + versionName + ".jar")
      else if ExtractsNatives(s) then Some(ReplaceAll(s, NATIVES_PLACEHOLDER, cacheDir))
      else if s == CLASSPATH_PLACEHOLDER then Some(launchClassPath)
      else Some(s)
  }

  /** The classpath placeholder is neither an ignore list nor an
      extraction path. */
  lemma ClasspathPlaceholderIsPlain()
    ensures !StartsWith(CLASSPATH_PLACEHOLDER, IGNORE_LIST)
    ensures !ExtractsNatives(CLASSPATH_PLACEHOLDER)
  {
    assert CLASSPATH_PLACEHOLDER[0] == '$';
    assert |CLASSPATH_PLACEHOLDER| < |"-Dio.netty.native.workdir"|;
    forall i ensures !OccursAt(CLASSPATH_PLACEHOLDER, "-Djna.tmpdir", i) {
      if i == 0 { assert CLASSPATH_PLACEHOLDER[0] != "-Djna.tmpdir"[0]; }
    }
    assert |CLASSPATH_PLACEHOLDER| < |"-Dorg.lwjgl.system.SharedLibraryExtractPath"|;
  }

  /** `mapNotNull` of `processJvmArg`: a string comes out exactly when some
      argument processes to it; the non-string arguments are dropped. */
  function ProcessJvmArgs(args: seq<JsonArg>, versionName: string, cacheDir: string, launchClassPath: string): (r: seq<string>)
    ensures |r| <= |args|
    ensures forall x :: x in r <==> exists i :: 0 <= i < |args| && ProcessJvmArg(args[i], versionName, cacheDir, launchClassPath) == Some(x)
    decreases |args|
  {
    if |args| == 0 then []
    else
      var rest := ProcessJvmArgs(args[1..], versionName, cacheDir, launchClassPath);
      assert forall x :: (exists i :: 0 <= i < |args[1..]| && ProcessJvmArg(args[1..][i], versionName, cacheDir, launchClassPath) == Some(x))
                     ==> exists i :: 0 <= i < |args| && ProcessJvmArg(args[i], versionName, cacheDir, launchClassPath) == Some(x)
      by {
        forall x | exists i :: 0 <= i < |args[1..]| && ProcessJvmArg(args[1..][i], versionName, cacheDir, launchClassPath) == Some(x)
          ensures exists i :: 0 <= i < |args| && ProcessJvmArg(args[i], versionName, cacheDir, launchClassPath) == Some(x)
        {
          var i :| 0 <= i < |args[1..]| && ProcessJvmArg(args[1..][i], versionName, cacheDir, launchClassPath) == Some(x);
          assert args[1..][i] == args[i + 1];
        }
      }
      assert forall x :: (exists i :: 0 <= i < |args| && ProcessJvmArg(args[i], versionName, cacheDir, launchClassPath) == Some(x))
                     ==> ProcessJvmArg(args[0], versionName, cacheDir, launchClassPath) == Some(x) || x in rest
      by {
        forall x | exists i :: 0 <= i < |args| && ProcessJvmArg(args[i], versionName, cacheDir, launchClassPath) == Some(x)
          ensures ProcessJvmArg(args[0], versionName, cacheDir, launchClassPath) == Some(x) || x in rest
        {
          var i :| 0 <= i < |args| && ProcessJvmArg(args[i], versionName, cacheDir, launchClassPath) == Some(x);
          if i > 0 {
            assert args[1..][i - 1] == args[i];
          }
        }
      }
      match ProcessJvmArg(args[0], versionName, cacheDir, launchClassPath)
      case None => rest
      case Some(s) => [s] + rest
  }

  /** Processing a list in two parts is processing each part in turn. */
  lemma {:induction false} ProcessJvmArgsAppend(a: seq<JsonArg>, b: seq<JsonArg>, versionName: string, cacheDir: string, launchClassPath: string)
    ensures ProcessJvmArgs(a + b, versionName, cacheDir, launchClassPath)
            == ProcessJvmArgs(a, versionName, cacheDir, launchClassPath) + ProcessJvmArgs(b, versionName, cacheDir, launchClassPath)
    decreases |a|
  {
    if |a| == 0 {
      assert a + b == b;
    } else {
      assert (a + b)[0] == a[0] && (a + b)[1..] == a[1..] + b;
      ProcessJvmArgsAppend(a[1..], b, versionName, cacheDir, launchClassPath);
    }
  }

  /** When every argument is a string, each one is processed in its place:
      nothing is dropped and the order is kept. */
  lemma {:induction false} ProcessJvmArgsInOrder(args: seq<JsonArg>, versionName: string, cacheDir: string, launchClassPath: string)
    requires forall i :: 0 <= i < |args| ==> args[i].Str?
    ensures var r := ProcessJvmArgs(args, versionName, cacheDir, launchClassPath);
      |r| == |args| && forall i :: 0 <= i < |args| ==> Some(r[i]) == ProcessJvmArg(args[i], versionName, cacheDir, launchClassPath)
    decreases |args|
  {
    if |args| > 0 {
      ProcessJvmArgsInOrder(args[1..], versionName, cacheDir, launchClassPath);
      var r := ProcessJvmArgs(args, versionName, cacheDir, launchClassPath);
      var rest := ProcessJvmArgs(args[1..], versionName, cacheDir, launchClassPath);
      assert r == [ProcessJvmArg(args[0], versionName, cacheDir, launchClassPath).value] + rest;
      forall i | 0 < i < |args|
        ensures Some(r[i]) == ProcessJvmArg(args[i], versionName, cacheDir, launchClassPath)
      {
        assert r[i] == rest[i - 1] && args[1..][i - 1] == args[i];
      }
    }
  }

  /** The classpath placeholder, exactly, is among the arguments. */
  predicate HasClasspath(args: seq<JsonArg>) {
    Str(CLASSPATH_PLACEHOLDER) in args
  }

  /** The launcher's entries of a variable map: name, version, and the
      version type (the custom info unless blank, else the manifest's type,
      else "release"). */
  function LauncherInfo(launcherVersion: string, customInfo: string, manifestType: Option<string>): (vars: seq<(string, string)>)
    ensures |vars| == 3 && vars[0] == ("launcher_name", "ShardLauncher") && vars[1] == ("launcher_version", launcherVersion)
    ensures vars[2].0 == "version_type"
    ensures !IsBlank(customInfo) ==> vars[2].1 == customInfo
    ensures IsBlank(customInfo) ==> vars[2].1 == manifestType.GetOr("release")
  {
    [("launcher_name", "ShardLauncher"), ("launcher_version", launcherVersion),
     ("version_type", if !IsBlank(customInfo) then customInfo else manifestType.GetOr("release"))]
  }

  /** The JVM arguments' variables, in insertion order. */
  function JvmVars(librariesHome: string, versionId: string, nativesDir: string, info: seq<(string, string)>): (vars: seq<(string, string)>)
    ensures |vars| == 4 + |info| && vars[4..] == info
    ensures vars[3] == ("natives_directory", nativesDir) && vars[2] == ("version_name", versionId)
  {
    [("classpath_separator", ":"), ("library_directory", librariesHome), ("version_name", versionId),
     ("natives_directory", nativesDir)] + info
  }

  /** `getMinecraftJVMArgs`: the processed manifest arguments with the
      variables filled in, followed by "-cp" and the launch classpath when
      no argument was the classpath placeholder. */
  function MinecraftJvmArgs(jvm: Option<seq<JsonArg>>, vars: seq<(string, string)>, versionName: string,
                            cacheDir: string, launchClassPath: string): (r: seq<string>)
    ensures var processed := ProcessJvmArgs(jvm.GetOr([]), versionName, cacheDir, launchClassPath);
      && (HasClasspath(jvm.GetOr([])) ==> |r| == |processed|)
      && (!HasClasspath(jvm.GetOr([])) ==> |r| == |processed| + 2 && r[|processed|..] == ["-cp", launchClassPath])
      && r[..|processed|] == StringUtils.InsertJSONValueList(processed, vars)
  {
    var args := jvm.GetOr([]);
    var replaced := StringUtils.InsertJSONValueList(ProcessJvmArgs(args, versionName, cacheDir, launchClassPath), vars);
    if HasClasspath(args) then replaced else replaced + ["-cp", launchClassPath]
  }

  /** The launch classpath reaches the JVM either way: through the
      placeholder's position or through the appended "-cp". */
  lemma {:induction false} ClasspathPlaceholderBecomesClasspath(args: seq<JsonArg>, versionName: string, cacheDir: string,
                                                                launchClassPath: string)
    ensures HasClasspath(args) ==> launchClassPath in ProcessJvmArgs(args, versionName, cacheDir, launchClassPath)
    decreases |args|
  {
    if |args| > 0 {
      ClasspathPlaceholderBecomesClasspath(args[1..], versionName, cacheDir, launchClassPath);
      if HasClasspath(args) && args[0] != Str(CLASSPATH_PLACEHOLDER) {
        assert Str(CLASSPATH_PLACEHOLDER) in args[1..];
      }
    }
  }

  /** With variables whose placeholders the classpath does not hold, the
      launch classpath appears verbatim among the JVM arguments. */
  lemma ClasspathReachesJvm(jvm: Option<seq<JsonArg>>, vars: seq<(string, string)>, versionName: string,
                            cacheDir: string, launchClassPath: string)
    requires forall k :: 0 <= k < |vars| ==> !Contains(launchClassPath, StringUtils.Placeholder(vars[k].0))
    ensures launchClassPath in MinecraftJvmArgs(jvm, vars, versionName, cacheDir, launchClassPath)
  {
    var args := jvm.GetOr([]);
    var processed := ProcessJvmArgs(args, versionName, cacheDir, launchClassPath);
    var r := MinecraftJvmArgs(jvm, vars, versionName, cacheDir, launchClassPath);
    if HasClasspath(args) {
      ClasspathPlaceholderBecomesClasspath(args, versionName, cacheDir, launchClassPath);
      var i :| 0 <= i < |processed| && processed[i] == launchClassPath;
      StringUtils.SubstituteAbsent(launchClassPath, vars);
      assert r[..|processed|][i] == launchClassPath;
    } else {
      assert r[|processed|..][1] == launchClassPath;
    }
  }

  /** Without the placeholder the JVM arguments end in "-cp" and the launch
      classpath, whose entries are the LWJGL jars and then the game's
      existing jars. */
  lemma JvmClassPathListsLwjglFirst(jvm: Option<seq<JsonArg>>, vars: seq<(string, string)>, versionName: string,
                                    cacheDir: string, listing: Option<seq<string>>, libJars: seq<string>,
                                    present: string -> bool, clientJar: string)
    requires !HasClasspath(jvm.GetOr([]))
    requires listing.Some? ==> forall i :: 0 <= i < |listing.value| ==> ':' !in listing.value[i]
    requires forall i :: 0 <= i < |libJars| ==> ':' !in libJars[i]
    requires ':' !in clientJar
    ensures var r := MinecraftJvmArgs(jvm, vars, versionName, cacheDir, LaunchClassPath(listing, libJars, present, clientJar));
      && |r| >= 2 && r[|r| - 2] == "-cp"
      && Split(r[|r| - 1], ':') == Pieces(LwjglJars(listing)) + Pieces(LaunchClassPathEntries(libJars, present, clientJar))
  {
    var cp := LaunchClassPath(listing, libJars, present, clientJar);
    var r := MinecraftJvmArgs(jvm, vars, versionName, cacheDir, cp);
    var n := |ProcessJvmArgs(jvm.GetOr([]), versionName, cacheDir, cp)|;
    assert r[n..] == ["-cp", cp];
    assert r[|r| - 1] == r[n..][1];
  }

  // ---------------------------------------------------------------------------
  // getMinecraftClientArgs
  // ---------------------------------------------------------------------------

  /** What the game arguments read of the account. */
  datatype Session = Session(accessToken: string, username: string, profileId: string, xUid: Option<string>)

  /** The profile id with its dashes removed. */
  function AuthUuid(profileId: string): (uuid: string)
    ensures '-' !in uuid
    ensures |uuid| <= |profileId|
  {
    DeleteCharRemovesIt(profileId, '-');
    DeleteShrinks(profileId, "-");
    ReplaceAll(profileId, "-", "")
  }

  /** The game arguments' variables, in insertion order; the version info
      must be present. */
  function ClientVars(s: Session, assetsHome: string, assetIndexId: string, gameDir: string,
                      minecraftVersion: Option<string>, info: seq<(string, string)>): (vars: Result<seq<(string, string)>, ArgsError>)
    ensures vars.Failure? <==> minecraftVersion.None?
    ensures vars.Success? ==> |vars.value| == 12 + |info| && vars.value[12..] == info
    ensures vars.Success? ==> vars.value[0] == ("auth_session", s.accessToken) && vars.value[1] == ("auth_access_token", s.accessToken)
    ensures vars.Success? ==> vars.value[3] == ("auth_uuid", AuthUuid(s.profileId)) && vars.value[4] == ("auth_xuid", s.xUid.GetOr(""))
    ensures vars.Success? ==> vars.value[11] == ("version_name", minecraftVersion.value)
  {
    match minecraftVersion
    case None => Failure(NoVersionInfo)
    case Some(mv) =>
      Success([("auth_session", s.accessToken), ("auth_access_token", s.accessToken), ("auth_player_name", s.username),
               ("auth_uuid", AuthUuid(s.profileId)), ("auth_xuid", s.xUid.GetOr("")), ("assets_root", assetsHome),
               ("assets_index_name", assetIndexId), ("game_assets", assetsHome), ("game_directory", gameDir),
               ("user_properties", "{}"), ("user_type", "msa"), ("version_name", mv)] + info)
  }

  /** The string game arguments of a new-style manifest. */
  function StringArgs(game: seq<JsonArg>): (strs: seq<string>)
    ensures forall x :: x in strs <==> Str(x) in game
    decreases |game|
  {
    if |game| == 0 then []
    else match game[0]
      case Str(s) => [s] + StringArgs(game[1..])
      case Other => StringArgs(game[1..])
  }

  /** The pieces that are not empty, in order. */
  function NonEmpty(pieces: seq<string>): (r: seq<string>)
    ensures forall i :: 0 <= i < |r| ==> |r[i]| > 0
    ensures forall x :: x in r <==> x in pieces && |x| > 0
    decreases |pieces|
  {
    if |pieces| == 0 then []
    else if |pieces[0]| > 0 then [pieces[0]] + NonEmpty(pieces[1..])
    else NonEmpty(pieces[1..])
  }

  /** `splitAndFilterEmpty`: the non-empty pieces between spaces. */
  function SplitAndFilterEmpty(s: string): (r: seq<string>)
    ensures forall i :: 0 <= i < |r| ==> |r[i]| > 0 && ' ' !in r[i]
  {
    var pieces := Split(s, ' ');
    assert forall x :: x in NonEmpty(pieces) ==> ' ' !in x;
    NonEmpty(pieces)
  }

  /** Non-empty pieces pass the filter untouched. */
  lemma {:induction false} NonEmptyKeeps(ws: seq<string>)
    requires forall i :: 0 <= i < |ws| ==> |ws[i]| > 0
    ensures NonEmpty(ws) == ws
    decreases |ws|
  {
    if |ws| > 0 {
      assert forall i :: 0 <= i < |ws[1..]| ==> ws[1..][i] == ws[i + 1];
      NonEmptyKeeps(ws[1..]);
      assert [ws[0]] + ws[1..] == ws;
    }
  }

  /** Words joined by spaces split back into the same words. */
  lemma SplitJoinedWords(ws: seq<string>)
    requires forall i :: 0 <= i < |ws| ==> |ws[i]| > 0 && ' ' !in ws[i]
    ensures SplitAndFilterEmpty(Join(ws, ' ')) == ws
  {
    if |ws| == 0 {
      assert Split("", ' ') == [""];
      assert NonEmpty([""]) == NonEmpty([""][1..]);
    } else {
      SplitJoin(ws, ' ');
      NonEmptyKeeps(ws);
    }
  }

  /** `getMinecraftClientArgs`: the legacy argument string, or the string
      game arguments joined by spaces, split and filtered, with the
      variables filled in. */
  function ClientArgs(minecraftArguments: Option<string>, game: Option<seq<JsonArg>>,
                      vars: Result<seq<(string, string)>, ArgsError>): (r: Result<seq<string>, ArgsError>)
    ensures r.Failure? <==> vars.Failure?
    ensures r.Success? ==>
      var words := SplitAndFilterEmpty(match minecraftArguments
        case Some(legacy) => legacy
        case None => Join(StringArgs(game.GetOr([])), ' '));
      |r.value| == |words| && forall i :: 0 <= i < |words| ==> r.value[i] == StringUtils.Substitute(words[i], vars.value)
  {
    match vars
    case Failure(e) => Failure(e)
    case Success(vs) =>
      var text := match minecraftArguments
        case Some(legacy) => legacy
        case None => Join(StringArgs(game.GetOr([])), ' ');
      Success(StringUtils.InsertJSONValueList(SplitAndFilterEmpty(text), vs))
  }

  /** New-style game arguments made of single words keep their order and
      count: only the variables change. */
  lemma NewStyleArgsKeepWords(game: seq<JsonArg>, vars: seq<(string, string)>)
    requires forall x :: Str(x) in game ==> |x| > 0 && ' ' !in x
    ensures var r := ClientArgs(None, Some(game), Success(vars));
      r.Success? && r.value == StringUtils.InsertJSONValueList(StringArgs(game), vars)
  {
    var ws := StringArgs(game);
    forall i | 0 <= i < |ws| ensures |ws[i]| > 0 && ' ' !in ws[i] {
      assert ws[i] in ws;
    }
    SplitJoinedWords(ws);
  }
}

=== FILE: math_utils.dfy ===
/** `findNearestPositive`: among the objects whose value is at least the target,
    the one whose value lies closest above it, with the distance (`RankedValue`).
    Used to pick the Java runtime nearest to a required major version.

    Two definitions live here. `FindNearestPositive` is the behaviour the
    function is meant to have, on unbounded integers. `FindNearestPositiveAsWritten`
    follows the code on 32-bit `Int`s, where the running minimum starts at
    `Int.MAX_VALUE` and `value - targetValue` can wrap; the lemmas at the end
    exhibit the two inputs on which it differs. */
module MathUtils {
  import opened Wrappers
  import Numerals

  datatype RankedValue<T> = RankedValue(value: T, delta: int)

  predicate Qualifies<T>(target: int, key: T -> int, x: T) {
    key(x) >= target
  }

  /** `best` is a valid running choice after the first `i` objects: it is
      the earliest slot with the least value among the qualifying ones so far,
      and no exact match has been seen (that would have returned). */
  predicate ScanState<T>(target: int, objs: seq<T>, key: T -> int, i: nat, best: Option<nat>)
    requires i <= |objs|
  {
    && (best.None? <==> forall j :: 0 <= j < i ==> key(objs[j]) < target)
    && (best.Some? ==>
          && best.value < i
          && key(objs[best.value]) > target
          && (forall j :: 0 <= j < i && key(objs[j]) >= target ==> key(objs[j]) >= key(objs[best.value]))
          && (forall j :: 0 <= j < best.value && key(objs[j]) >= target ==> key(objs[j]) > key(objs[best.value])))
  }

  /** The loop of `findNearestPositive` from slot `i` on, with the slot
      selected so far. */
  function Scan<T>(target: int, objs: seq<T>, key: T -> int, i: nat, best: Option<nat>): (r: Option<nat>)
    requires i <= |objs|
    requires ScanState(target, objs, key, i, best)
    ensures r.None? <==> forall j :: 0 <= j < |objs| ==> key(objs[j]) < target
    ensures r.Some? ==> r.value < |objs| && key(objs[r.value]) >= target
    ensures r.Some? ==> forall j :: 0 <= j < |objs| && key(objs[j]) >= target ==> key(objs[j]) >= key(objs[r.value])
    ensures r.Some? ==> forall j :: 0 <= j < r.value && key(objs[j]) >= target ==> key(objs[j]) > key(objs[r.value])
    decreases |objs| - i
  {
    if i == |objs| then best
    else
      var v := key(objs[i]);
      if v < target then Scan(target, objs, key, i + 1, best)
      else if v - target == 0 then Some(i)
      else if best.None? || v < key(objs[best.value]) then Scan(target, objs, key, i + 1, Some(i))
      else Scan(target, objs, key, i + 1, best)
  }

  /** The slot `findNearestPositive` picks. */
  function NearestSlot<T>(target: int, objs: seq<T>, key: T -> int): (r: Option<nat>)
    ensures r.Some? ==> r.value < |objs|
  {
    Scan(target, objs, key, 0, None)
  }

  /** The result for a chosen slot: the object and its distance. */
  function AtSlot<T>(target: int, objs: seq<T>, key: T -> int, slot: Option<nat>): Option<RankedValue<T>>
    requires slot.Some? ==> slot.value < |objs|
  {
    match slot
    case None => None
    case Some(k) => Some(RankedValue(objs[k], key(objs[k]) - target))
  }

  /** The intended `findNearestPositive`: null exactly when no object reaches
      the target; otherwise an object at or above the target whose distance
      is the least among all such objects, the earliest one on a tie. */
  function FindNearestPositive<T>(target: int, objs: seq<T>, key: T -> int): (r: Option<RankedValue<T>>)
    ensures r.None? <==> forall j :: 0 <= j < |objs| ==> key(objs[j]) < target
    ensures r.Some? ==> r.value.delta >= 0
    ensures r.Some? ==> forall j :: 0 <= j < |objs| && key(objs[j]) >= target ==> key(objs[j]) - target >= r.value.delta
    ensures r.Some? ==>
      exists i :: 0 <= i < |objs| && r.value == RankedValue(objs[i], key(objs[i]) - target)
        && forall j :: 0 <= j < i && key(objs[j]) >= target ==> key(objs[j]) - target > r.value.delta
  {
    var slot := NearestSlot(target, objs, key);
    if slot.Some? then
      assert AtSlot(target, objs, key, slot).value.value == objs[slot.value];
      AtSlot(target, objs, key, slot)
    else None
  }

  /** An exact match is what comes back, and the first one at that. */
  lemma ExactMatchIsFirst<T>(target: int, objs: seq<T>, key: T -> int, i: nat)
    requires i < |objs| && key(objs[i]) == target
    requires forall j :: 0 <= j < i ==> key(objs[j]) != target
    ensures NearestSlot(target, objs, key) == Some(i)
  {
    var r := NearestSlot(target, objs, key);
    assert r.Some?;
    assert key(objs[r.value]) == target;
  }

  // ---------------------------------------------------------------------------
  // The code as written, on 32-bit Ints
  // ---------------------------------------------------------------------------

  const TWO_POW_32: int := 0x1_0000_0000

  /** Kotlin `Int` subtraction: the exact difference wrapped to 32 bits. */
  function Sub32(a: int, b: int): (r: int)
    ensures Numerals.IsInt32(r)
    ensures Numerals.IsInt32(a - b) ==> r == a - b
  {
    (a - b - Numerals.INT_MIN) % TWO_POW_32 + Numerals.INT_MIN
  }

  /** The loop as written: `minDelta` starts at `Int.MAX_VALUE`, the
      difference is an `Int` subtraction, and a candidate replaces the
      selection only when strictly below `minDelta`. */
  function ScanAsWritten<T>(target: int, objs: seq<T>, key: T -> int, i: nat,
                            minDelta: int, selected: Option<T>): (r: Option<RankedValue<T>>)
    requires i <= |objs|
    ensures selected.None? && (forall j :: i <= j < |objs| ==> key(objs[j]) < target) ==> r.None?
    ensures r.Some? ==> Some(r.value.value) == selected
                        || exists j :: i <= j < |objs| && r.value.value == objs[j] && key(objs[j]) >= target
    decreases |objs| - i
  {
    if i == |objs| then
      match selected
      case None => None
      case Some(o) => Some(RankedValue(o, minDelta))
    else
      var v := key(objs[i]);
      if v < target then ScanAsWritten(target, objs, key, i + 1, minDelta, selected)
      else
        var delta := Sub32(v, target);
        if delta == 0 then Some(RankedValue(objs[i], 0))
        else if delta < minDelta then ScanAsWritten(target, objs, key, i + 1, delta, Some(objs[i]))
        else ScanAsWritten(target, objs, key, i + 1, minDelta, selected)
  }

  /** `findNearestPositive` as written: null when no object reaches the
      target, and otherwise, when not null, an object that does. */
  function FindNearestPositiveAsWritten<T>(target: int, objs: seq<T>, key: T -> int): (r: Option<RankedValue<T>>)
    ensures (forall j :: 0 <= j < |objs| ==> key(objs[j]) < target) ==> r.None?
    ensures r.Some? ==> exists j :: 0 <= j < |objs| && r.value.value == objs[j] && key(objs[j]) >= target
  {
    ScanAsWritten(target, objs, key, 0, Numerals.INT_MAX, None)
  }

  function Id(x: int): int { x }

  /** Finding: an object exactly `Int.MAX_VALUE` above the target never beats
      the initial `minDelta`, so the code returns null although an object
      qualifies. */
  lemma AsWrittenMissesMaxDelta()
    ensures FindNearestPositiveAsWritten(0, [Numerals.INT_MAX], Id) == None
    ensures FindNearestPositive(0, [Numerals.INT_MAX], Id)
            == Some(RankedValue(Numerals.INT_MAX, Numerals.INT_MAX))
  {
    assert Sub32(Numerals.INT_MAX, 0) == Numerals.INT_MAX;
    var objs := [Numerals.INT_MAX];
    assert ScanAsWritten(0, objs, Id, 1, Numerals.INT_MAX, None) == None;
    assert NearestSlot(0, objs, Id) == Some(0);
  }

  /** Finding: with a negative target the `Int` subtraction wraps, and the
      object is returned with a negative distance. */
  lemma AsWrittenWrapsDelta()
    ensures FindNearestPositiveAsWritten(-1, [Numerals.INT_MAX], Id)
            == Some(RankedValue(Numerals.INT_MAX, Numerals.INT_MIN))
    ensures FindNearestPositive(-1, [Numerals.INT_MAX], Id)
            == Some(RankedValue(Numerals.INT_MAX, Numerals.INT_MAX + 1))
  {
    assert Sub32(Numerals.INT_MAX, -1) == Numerals.INT_MIN;
    var objs := [Numerals.INT_MAX];
    var w := Some(RankedValue(Numerals.INT_MAX, Numerals.INT_MIN));
    assert ScanAsWritten(-1, objs, Id, 1, Numerals.INT_MIN, Some(Numerals.INT_MAX)) == w;
    assert NearestSlot(-1, objs, Id) == Some(0);
  }

  /** The running minimum the code keeps for a selection. */
  function MinDelta<T>(target: int, objs: seq<T>, key: T -> int, best: Option<nat>): int
    requires best.Some? ==> best.value < |objs|
  {
    if best.None? then Numerals.INT_MAX else key(objs[best.value]) - target
  }

  function Selected<T>(objs: seq<T>, best: Option<nat>): Option<T>
    requires best.Some? ==> best.value < |objs|
  {
    if best.None? then None else Some(objs[best.value])
  }

  /** One step of both loops on a slot that takes over the selection. */
  lemma TakeOverStep<T>(target: int, objs: seq<T>, key: T -> int, i: nat, best: Option<nat>)
    requires i < |objs| && ScanState(target, objs, key, i, best)
    requires key(objs[i]) > target && key(objs[i]) - target < Numerals.INT_MAX
    requires best.None? || key(objs[i]) < key(objs[best.value])
    ensures ScanState(target, objs, key, i + 1, Some(i))
    ensures ScanAsWritten(target, objs, key, i, MinDelta(target, objs, key, best), Selected(objs, best))
         == ScanAsWritten(target, objs, key, i + 1, MinDelta(target, objs, key, Some(i)), Selected(objs, Some(i)))
    ensures Scan(target, objs, key, i, best) == Scan(target, objs, key, i + 1, Some(i))
  {
    assert Sub32(key(objs[i]), target) == key(objs[i]) - target;
  }

  /** One step of both loops on a slot that leaves the selection alone. */
  lemma KeepStep<T>(target: int, objs: seq<T>, key: T -> int, i: nat, best: Option<nat>)
    requires i < |objs| && ScanState(target, objs, key, i, best)
    requires key(objs[i]) < target || (best.Some? && key(objs[i]) >= key(objs[best.value]))
    requires key(objs[i]) - target < Numerals.INT_MAX
    ensures ScanState(target, objs, key, i + 1, best)
    ensures ScanAsWritten(target, objs, key, i, MinDelta(target, objs, key, best), Selected(objs, best))
         == ScanAsWritten(target, objs, key, i + 1, MinDelta(target, objs, key, best), Selected(objs, best))
    ensures Scan(target, objs, key, i, best) == Scan(target, objs, key, i + 1, best)
  {
    if key(objs[i]) >= target {
      assert Sub32(key(objs[i]), target) == key(objs[i]) - target;
    }
  }

  /** Both loops stop at an exact match and return it. */
  lemma ExactStep<T>(target: int, objs: seq<T>, key: T -> int, i: nat, best: Option<nat>)
    requires i < |objs| && ScanState(target, objs, key, i, best)
    requires key(objs[i]) == target
    ensures ScanAsWritten(target, objs, key, i, MinDelta(target, objs, key, best), Selected(objs, best))
            == AtSlot(target, objs, key, Scan(target, objs, key, i, best))
  {
    assert Sub32(key(objs[i]), target) == 0;
  }

  /** Past the end both loops return the selection they hold. */
  lemma EndStep<T>(target: int, objs: seq<T>, key: T -> int, best: Option<nat>)
    requires ScanState(target, objs, key, |objs|, best)
    ensures ScanAsWritten(target, objs, key, |objs|, MinDelta(target, objs, key, best), Selected(objs, best))
            == AtSlot(target, objs, key, Scan(target, objs, key, |objs|, best))
  {
  }

  /** Where no object lies `Int.MAX_VALUE` or more above the target (so no
      difference wraps either), the code as written agrees with the intended
      result. */
  lemma {:induction false} AsWrittenAgreesInRange<T>(target: int, objs: seq<T>, key: T -> int, i: nat,
                                                   best: Option<nat>)
    requires i <= |objs|
    requires ScanState(target, objs, key, i, best)
    requires forall j :: 0 <= j < |objs| && key(objs[j]) >= target ==> key(objs[j]) - target < Numerals.INT_MAX
    ensures ScanAsWritten(target, objs, key, i, MinDelta(target, objs, key, best), Selected(objs, best))
            == AtSlot(target, objs, key, Scan(target, objs, key, i, best))
    decreases |objs| - i
  {
    if i == |objs| {
      EndStep(target, objs, key, best);
    } else {
      var v := key(objs[i]);
      if v == target {
        ExactStep(target, objs, key, i, best);
      } else if v > target && (best.None? || v < key(objs[best.value])) {
        TakeOverStep(target, objs, key, i, best);
        AsWrittenAgreesInRange(target, objs, key, i + 1, Some(i));
      } else {
        KeepStep(target, objs, key, i, best);
        AsWrittenAgreesInRange(target, objs, key, i + 1, best);
      }
    }
  }

  /** The code as written agrees with the intended result on every list
      where no qualifying object lies `Int.MAX_VALUE` or more above the target. */
  lemma AsWrittenAgrees<T>(target: int, objs: seq<T>, key: T -> int)
    requires forall j :: 0 <= j < |objs| && key(objs[j]) >= target ==> key(objs[j]) - target < Numerals.INT_MAX
    ensures FindNearestPositiveAsWritten(target, objs, key) == FindNearestPositive(target, objs, key)
  {
    AsWrittenAgreesInRange(target, objs, key, 0, None);
  }
}

=== FILE: mc_options.dfy ===
/** The ShardLauncher tree's `options.txt` handling: the `key:value` line
    format read into a map, written back out, edited key by key, and the
    default game language chosen from the device locale. Reading and
    writing the file become parameters and results. */
module MCOptions {
  import opened Wrappers
  import opened Text

  /** The parameter map. */
  type Options = map<string, string>

  /** One line of the file: the text before its first ':' is the key and
      everything after it (further colons included) the value; a line
      whose first ':' is at index 0, or that has none, contributes
      nothing. */
  function ParseLine(line: string): (r: Option<(string, string)>)
    ensures r.Some? <==> exists i :: 0 < i < |line| && line[i] == ':' && ':' !in line[..i]
    ensures r.Some? ==> |r.value.0| > 0 && ':' !in r.value.0 && line == r.value.0 + ":" + r.value.1
  {
    match CharIndex(line, ':')
    case None => None
    case Some(i) =>
      if i > 0 then
        assert line == line[..i] + ":" + line[i + 1..];
        Some((line[..i], line[i + 1..]))
      else
        assert forall j :: 0 < j < |line| && line[j] == ':' ==> ':' in line[..j] by {
          forall j | 0 < j < |line| && line[j] == ':' ensures ':' in line[..j] {
            assert line[..j][0] == ':';
          }
        }
        None
  }

  /** The lines read into a map, in order, a later duplicate key
      overwriting an earlier one. */
  function LoadLines(acc: Options, lines: seq<string>): Options
    decreases |lines|
  {
    if |lines| == 0 then acc
    else
      var next := match ParseLine(lines[0])
        case None => acc
        case Some(kv) => acc[kv.0 := kv.1];
      LoadLines(next, lines[1..])
  }

  /** What reading `options.txt` gave. */
  datatype OptionsFile = Missing | Unreadable | Contents(text: string)

  /** A line terminator as `BufferedReader.readLine` sees one. */
  predicate IsBreak(c: char) {
    c == '\n' || c == '\r'
  }

  predicate NoBreak(s: string) {
    forall k :: 0 <= k < |s| ==> !IsBreak(s[k])
  }

  /** The index of the first terminator. */
  function LineBreak(s: string): (r: Option<nat>)
    ensures r.Some? ==> r.value < |s| && IsBreak(s[r.value]) && NoBreak(s[..r.value])
    ensures r.None? ==> NoBreak(s)
    decreases |s|
  {
    if |s| == 0 then None
    else if IsBreak(s[0]) then Some(0)
    else match LineBreak(s[1..])
      case None => None
      case Some(k) =>
        assert s[..k + 1] == [s[0]] + s[1..][..k];
        Some(k + 1)
  }

  /** `File.readLines`: a line ends at "\n", "\r" or "\r\n", and a final
      terminator does not start another line, so empty text has none. */
  function ReadLines(text: string): (lines: seq<string>)
    ensures forall k :: 0 <= k < |lines| ==> NoBreak(lines[k])
    decreases |text|
  {
    match LineBreak(text)
    case None => if |text| == 0 then [] else [text]
    case Some(i) =>
      var next := if text[i] == '\r' && i + 1 < |text| && text[i + 1] == '\n' then i + 2 else i + 1;
      [text[..i]] + ReadLines(text[next..])
  }

  /** The three line endings. */
  predicate IsTerminator(t: string) {
    t == "\n" || t == "\r" || t == "\r\n"
  }

  /** A terminator after a line ends exactly that line, provided a lone
      "\r" is not followed by a "\n" it would swallow. */
  lemma ReadLinesStep(line: string, t: string, rest: string)
    requires NoBreak(line) && IsTerminator(t)
    requires t == "\r" ==> |rest| == 0 || rest[0] != '\n'
    ensures ReadLines(line + t + rest) == [line] + ReadLines(rest)
  {
    var text := line + t + rest;
    var i := |line|;
    assert text[..i] == line;
    assert IsBreak(text[i]);
    NoBreakHasNoBreak(text, i);
    if t == "\r\n" {
      assert text[i + 2..] == rest;
    } else {
      assert text[i + 1..] == rest;
    }
  }

  lemma NoBreakHasNoBreak(text: string, i: nat)
    requires i < |text| && IsBreak(text[i]) && NoBreak(text[..i])
    ensures LineBreak(text) == Some(i)
  {
  }

  /** A line without terminator reads as itself. */
  lemma ReadLinesOfLine(line: string)
    requires NoBreak(line) && |line| > 0
    ensures ReadLines(line) == [line]
  {
  }

  /** Lines joined by "\n" read back when the last one is not empty (an
      empty last line would leave a final terminator behind). */
  lemma {:induction false} JoinedLinesReadBack(lines: seq<string>)
    requires |lines| > 0 && |lines[|lines| - 1]| > 0
    requires forall k :: 0 <= k < |lines| ==> NoBreak(lines[k])
    ensures ReadLines(Join(lines, '\n')) == lines
    decreases |lines|
  {
    if |lines| == 1 {
      ReadLinesOfLine(lines[0]);
    } else {
      var rest := Join(lines[1..], '\n');
      assert Join(lines, '\n') == lines[0] + "\n" + rest;
      ReadLinesStep(lines[0], "\n", rest);
      JoinedLinesReadBack(lines[1..]);
      assert lines == [lines[0]] + lines[1..];
    }
  }

  /** Each line followed by the terminator `t`. */
  function Terminated(lines: seq<string>, t: string): string
    decreases |lines|
  {
    if |lines| == 0 then "" else lines[0] + t + Terminated(lines[1..], t)
  }

  /** Lines each ended by any of the three terminators read back. */
  lemma {:induction false} TerminatedLinesReadBack(lines: seq<string>, t: string)
    requires IsTerminator(t)
    requires forall k :: 0 <= k < |lines| ==> NoBreak(lines[k])
    ensures ReadLines(Terminated(lines, t)) == lines
    decreases |lines|
  {
    if |lines| == 0 {
      assert ReadLines("") == [];
    } else {
      var rest := Terminated(lines[1..], t);
      if t == "\r" && |rest| > 0 {
        assert rest[0] != '\n' by {
          if |lines[1]| > 0 {
            assert rest[0] == lines[1][0];
          } else {
            assert rest[0] == t[0];
          }
        }
      }
      ReadLinesStep(lines[0], t, rest);
      TerminatedLinesReadBack(lines[1..], t);
      assert lines == [lines[0]] + lines[1..];
    }
  }

  /** `setup`: the map is cleared, then loaded from the file when it exists
      and can be read. */
  function Setup(f: OptionsFile): (m: Options)
    ensures !f.Contents? ==> m == map[]
  {
    match f
    case Contents(text) => LoadLines(map[], ReadLines(text))
    case _ => map[]
  }

  /** The map a sequence of entries builds, a later entry for a key
      overwriting an earlier one. */
  function MapOf(es: seq<(string, string)>): Options
    decreases |es|
  {
    if |es| == 0 then map[] else MapOf(es[..|es| - 1])[es[|es| - 1].0 := es[|es| - 1].1]
  }

  /** One saved line. */
  function EntryLine(e: (string, string)): string {
    e.0 + ":" + e.1
  }

  function EntryLines(es: seq<(string, string)>): (lines: seq<string>)
    ensures |lines| == |es|
    ensures forall i :: 0 <= i < |es| ==> lines[i] == EntryLine(es[i])
  {
    seq(|es|, i requires 0 <= i < |es| => EntryLine(es[i]))
  }

  /** `save`: the entries, in the map's iteration order `es`, written as
      `key:value` lines joined by '\n'. */
  function Save(es: seq<(string, string)>): (text: string)
    ensures (forall i :: 0 <= i < |es| ==> Storable(es[i])) ==> ReadLines(text) == EntryLines(es)
  {
    var lines := EntryLines(es);
    assert (forall i :: 0 <= i < |es| ==> Storable(es[i])) ==> ReadLines(Join(lines, '\n')) == lines by {
      if forall i :: 0 <= i < |es| ==> Storable(es[i]) {
        if |es| == 0 {
          assert ReadLines("") == [];
        } else {
          EntryLinesHaveNoBreak(es);
          JoinedLinesReadBack(lines);
        }
      }
    }
    Join(lines, '\n')
  }

  /** An entry the file format can carry: a non-empty key without ':' or
      a line terminator, and a value without a line terminator. */
  predicate Storable(e: (string, string)) {
    |e.0| > 0 && ':' !in e.0 && NoBreak(e.0) && NoBreak(e.1)
  }

  lemma ParseEntryLine(e: (string, string))
    requires Storable(e)
    ensures ParseLine(EntryLine(e)) == Some(e)
  {
    var line := EntryLine(e);
    assert line[|e.0|] == ':' && line[..|e.0|] == e.0;
    CharIndexAt(line, ':', |e.0|);
    assert line[|e.0| + 1..] == e.1;
  }

  /** Loading saved lines adds the entries to the map, in order. */
  lemma {:induction false} LoadEntryLines(acc: Options, es: seq<(string, string)>)
    requires forall i :: 0 <= i < |es| ==> Storable(es[i])
    ensures LoadLines(acc, EntryLines(es)) == acc + MapOf(es)
    decreases |es|
  {
    if |es| > 0 {
      var last := es[|es| - 1];
      var init := es[..|es| - 1];
      EntryLinesSnoc(es);
      LoadEntryLines(acc, init);
      LoadSplit(acc, EntryLines(init), [EntryLine(last)]);
      LoadOneEntry(acc + MapOf(init), last);
      UnionUpdate(acc, MapOf(init), last.0, last.1);
    } else {
      assert acc + map[] == acc;
    }
  }

  lemma EntryLinesSnoc(es: seq<(string, string)>)
    requires |es| > 0
    ensures EntryLines(es) == EntryLines(es[..|es| - 1]) + [EntryLine(es[|es| - 1])]
  {
  }

  lemma LoadOneEntry(acc: Options, e: (string, string))
    requires Storable(e)
    ensures LoadLines(acc, [EntryLine(e)]) == acc[e.0 := e.1]
  {
    ParseEntryLine(e);
    assert [EntryLine(e)][1..] == [];
  }

  lemma UnionUpdate(a: Options, b: Options, k: string, v: string)
    ensures a + b[k := v] == (a + b)[k := v]
  {
  }

  lemma {:induction false} LoadSplit(acc: Options, a: seq<string>, b: seq<string>)
    ensures LoadLines(acc, a + b) == LoadLines(LoadLines(acc, a), b)
    decreases |a|
  {
    if |a| > 0 {
      var next := match ParseLine(a[0]) case None => acc case Some(kv) => acc[kv.0 := kv.1];
      assert (a + b)[1..] == a[1..] + b;
      LoadSplit(next, a[1..], b);
    } else {
      assert a + b == b;
    }
  }

  /** Saving and loading again gives back the map the entries build. */
  lemma SaveLoadRoundTrip(es: seq<(string, string)>)
    requires forall i :: 0 <= i < |es| ==> Storable(es[i])
    ensures Setup(Contents(Save(es))) == MapOf(es)
  {
    if |es| == 0 {
      EmptySaveLoads();
    } else {
      NonEmptySaveLoads(es);
    }
  }

  lemma NonEmptySaveLoads(es: seq<(string, string)>)
    requires |es| > 0
    requires forall i :: 0 <= i < |es| ==> Storable(es[i])
    ensures Setup(Contents(Save(es))) == MapOf(es)
  {
    var none: Options := map[];
    LoadEntryLines(none, es);
    EmptyUnion(MapOf(es));
  }

  lemma EmptyUnion(m: Options)
    ensures map[] + m == m
  {
  }

  /** An empty map saves as the empty text, which loads as an empty map. */
  lemma EmptySaveLoads()
    ensures Setup(Contents(Save([]))) == MapOf([])
  {
    assert Save([]) == "";
    assert ReadLines("") == [];
  }

  lemma EntryLinesHaveNoBreak(es: seq<(string, string)>)
    requires forall i :: 0 <= i < |es| ==> Storable(es[i])
    ensures forall k :: 0 <= k < |es| ==> NoBreak(EntryLines(es)[k]) && |EntryLines(es)[k]| > 0
  {
    var lines := EntryLines(es);
    forall k | 0 <= k < |es| ensures NoBreak(lines[k]) && |lines[k]| > 0 {
      var e := es[k];
      assert lines[k] == e.0 + ":" + e.1;
      forall j | 0 <= j < |lines[k]| ensures !IsBreak(lines[k][j]) {
        if j < |e.0| {
          assert lines[k][j] == e.0[j];
        } else if j > |e.0| {
          assert lines[k][j] == e.1[j - |e.0| - 1];
        }
      }
    }
  }

  /** A file whose lines end in "\r\n" or "\r", as written on another
      platform, loads the same map as the one `save` writes. */
  lemma AnyLineEndingLoadsAlike(es: seq<(string, string)>, t: string)
    requires IsTerminator(t)
    requires forall i :: 0 <= i < |es| ==> Storable(es[i])
    ensures Setup(Contents(Terminated(EntryLines(es), t))) == MapOf(es)
  {
    var none: Options := map[];
    EntryLinesHaveNoBreak(es);
    TerminatedLinesReadBack(EntryLines(es), t);
    LoadEntryLines(none, es);
    EmptyUnion(MapOf(es));
  }

  /** When the entries list every key of a map once, with its value, they
      build exactly that map: so save followed by load restores the map. */
  lemma {:induction false} MapOfEnumeration(es: seq<(string, string)>, m: Options)
    requires forall i, j :: 0 <= i < j < |es| ==> es[i].0 != es[j].0
    requires forall i :: 0 <= i < |es| ==> es[i].0 in m && m[es[i].0] == es[i].1
    requires forall k :: k in m ==> exists i :: 0 <= i < |es| && es[i].0 == k
    ensures MapOf(es) == m
    decreases |es|
  {
    if |es| == 0 {
      assert forall k :: k !in m;
      assert m == map[];
    } else {
      var last := es[|es| - 1];
      var init := es[..|es| - 1];
      var rest := m - {last.0};
      forall k | k in rest ensures exists i :: 0 <= i < |init| && init[i].0 == k {
        var i :| 0 <= i < |es| && es[i].0 == k;
        assert i < |es| - 1;
        assert init[i].0 == k;
      }
      MapOfEnumeration(init, rest);
      assert m == rest[last.0 := last.1];
    }
  }

  // ---------------------------------------------------------------------------
  // Editing
  // ---------------------------------------------------------------------------

  function Set(m: Options, key: string, value: string): (r: Options)
    ensures key in r && r[key] == value
    ensures forall k :: k != key ==> (k in r <==> k in m) && (k in m ==> r[k] == m[k])
  {
    m[key := value]
  }

  /** `get`: the stored value, null for a key never set. */
  function Get(m: Options, key: string): (r: Option<string>)
    ensures r.None? <==> key !in m
    ensures r.Some? ==> r.value == m[key]
  {
    if key in m then Some(m[key]) else None
  }

  /** `containsKey`: exactly the keys `get` finds. */
  function ContainsKey(m: Options, key: string): (b: bool)
    ensures b <==> Get(m, key).Some?
  {
    key in m
  }

  /** A set value reads back, other keys read as before, and `containsKey`
      agrees with `get` being non-null. */
  lemma SetThenGet(m: Options, key: string, value: string, other: string)
    requires other != key
    ensures Get(Set(m, key, value), key) == Some(value)
    ensures Get(Set(m, key, value), other) == Get(m, other)
    ensures ContainsKey(m, other) <==> Get(m, other).Some?
  {
  }

  // ---------------------------------------------------------------------------
  // Language
  // ---------------------------------------------------------------------------

  const DEFAULT_LANG: string := "en_us"

  /** The languages with one game language whatever the country. */
  const FIXED_LANGS: map<string, string> := map[
    "ja" := "ja_jp", "ko" := "ko_kr", "de" := "de_de", "fr" := "fr_fr",
    "es" := "es_es", "it" := "it_it", "pt" := "pt_br", "ru" := "ru_ru"]

  /** The game language for a device locale. */
  function McLang(language: string, country: string): (lang: string)
    ensures language in FIXED_LANGS ==> lang == FIXED_LANGS[language]
    ensures language != "zh" && language !in FIXED_LANGS ==> lang == DEFAULT_LANG
    ensures language == "zh" ==> lang in {"zh_cn", "zh_tw", DEFAULT_LANG}
    ensures language == "zh" ==> (lang == "zh_cn" <==> country in {"CN", "SG"})
    ensures language == "zh" ==> (lang == "zh_tw" <==> country in {"TW", "HK", "MO"})
  {
    if language == "zh" then
      if country == "CN" || country == "SG" then "zh_cn"
      else if country == "TW" || country == "HK" || country == "MO" then "zh_tw"
      else DEFAULT_LANG
    else if language == "ja" then "ja_jp"
    else if language == "ko" then "ko_kr"
    else if language == "de" then "de_de"
    else if language == "fr" then "fr_fr"
    else if language == "es" then "es_es"
    else if language == "it" then "it_it"
    else if language == "pt" then "pt_br"
    else if language == "ru" then "ru_ru"
    else DEFAULT_LANG
  }

  /** `loadLanguage`: "lang" is written only when it is missing or blank;
      nothing else changes. */
  function LoadLanguage(m: Options, language: string, country: string): (r: Options)
    ensures Get(m, "lang").Some? && !IsBlank(m["lang"]) ==> r == m
    ensures (Get(m, "lang").None? || IsBlank(m["lang"])) ==> Get(r, "lang") == Some(McLang(language, country))
    ensures forall k :: k != "lang" ==> (k in r <==> k in m) && (k in m ==> r[k] == m[k])
  {
    var current := Get(m, "lang");
    if current.None? || IsBlank(current.value) then Set(m, "lang", McLang(language, country)) else m
  }

  /** Once a language is set, choosing again from any locale keeps it. */
  lemma LoadLanguageIdempotent(m: Options, language: string, country: string, language2: string, country2: string)
    ensures LoadLanguage(LoadLanguage(m, language, country), language2, country2) == LoadLanguage(m, language, country)
  {
    var r := LoadLanguage(m, language, country);
    if Get(m, "lang").None? || IsBlank(m["lang"]) {
      var l := McLang(language, country);
      assert |l| > 0 && !IsWhitespace(l[0]);
    }
  }
}

=== FILE: minecraft_launcher.dfy ===
/** The app tree's standalone Minecraft launcher: the runtime it resolves
    (the version's own or one detected in the runtime folder), the memory
    it asks for, the library filter, the classpath, and the game arguments
    with their variables filled in. The file system, the account and the
    version's manifest are parameters. */
module MinecraftLauncher {
  import opened Wrappers
  import opened Text
  import StringUtils
  import AppRuntimes
  import AppLauncher
  import LaunchArgs

  // ---------------------------------------------------------------------------
  // Memory and runtime
  // ---------------------------------------------------------------------------

  /** `progressFinalUserArgs`: the version's own allocation when it is
      positive, else the requested one, handed to the base launcher. */
  function ProgressFinalUserArgs(args: seq<string>, configRam: int, ram: int): (r: seq<string>)
    ensures |r| == |args| + 8 && r[..|args|] == args
    ensures configRam > 0 ==> r[|args|] == AppLauncher.MaxHeapArg(configRam)
    ensures configRam <= 0 ==> r[|args|] == AppLauncher.MaxHeapArg(ram)
  {
    AppLauncher.ProgressFinalUserArgs(args, if configRam > 0 then configRam else ram)
  }

  /** The first entry whose JDK 8 layout is `jdk8`, if any. */
  function FirstOfKind(es: seq<AppRuntimes.Entry>, jdk8: bool): (j: Option<nat>)
    ensures j.Some? ==> j.value < |es| && AppRuntimes.IsJDK8(es[j.value]) == jdk8
    ensures j.Some? ==> forall k :: 0 <= k < j.value ==> AppRuntimes.IsJDK8(es[k]) != jdk8
    ensures j.None? ==> forall k :: 0 <= k < |es| ==> AppRuntimes.IsJDK8(es[k]) != jdk8
    decreases |es|
  {
    if |es| == 0 then None
    else if AppRuntimes.IsJDK8(es[0]) == jdk8 then Some(0)
    else match FirstOfKind(es[1..], jdk8)
      case None => None
      case Some(k) => Some(k + 1)
  }

  /** Versions before 1.13 prefer a JDK 8 runtime. */
  predicate PrefersJdk8(mcMain: int) {
    mcMain < 13
  }

  /** `detectDefaultRuntime`: in the runtime folder, the first entry of the
      preferred kind (JDK 8 for versions before 1.13, any other layout
      otherwise); else the first entry; with nothing listed, "jre8" or
      "jre17". The version code's main number is a parameter. */
  function DetectDefaultRuntime(listing: Option<seq<AppRuntimes.Entry>>, mcMain: int): (name: string)
    ensures listing.None? || |listing.value| == 0 ==> name == (if PrefersJdk8(mcMain) then "jre8" else "jre17")
    ensures listing.Some? && |listing.value| > 0 ==> exists j :: 0 <= j < |listing.value| && listing.value[j].name == name
    ensures listing.Some? ==>
      var k := FirstOfKind(listing.value, PrefersJdk8(mcMain));
      && (k.Some? ==> name == listing.value[k.value].name)
      && (k.None? && |listing.value| > 0 ==> name == listing.value[0].name)
  {
    var fallback := if PrefersJdk8(mcMain) then "jre8" else "jre17";
    match listing
    case None => fallback
    case Some(es) =>
      match FirstOfKind(es, PrefersJdk8(mcMain))
      case Some(k) => es[k].name
      case None => if |es| > 0 then es[0].name else fallback
  }

  /** The runtime found for an old version is a JDK 8 whenever the folder
      holds one, and for a new version a later runtime whenever it holds
      one. */
  lemma DetectedRuntimeHasPreferredKind(es: seq<AppRuntimes.Entry>, mcMain: int, i: nat)
    requires i < |es| && AppRuntimes.IsJDK8(es[i]) == PrefersJdk8(mcMain)
    ensures exists j ::
      && 0 <= j < |es| && es[j].name == DetectDefaultRuntime(Some(es), mcMain)
      && AppRuntimes.IsJDK8(es[j]) == PrefersJdk8(mcMain)
  {
    var k := FirstOfKind(es, PrefersJdk8(mcMain));
    assert k.Some?;
  }

  /** `resolveRuntime`: the version's runtime name unless empty, else the
      detected one; Java 8 when its home has the JDK 8 layout, else 17.
      Whether a runtime home has that layout is the parameter `jdk8`. */
  function ResolveRuntime(configRuntime: string, listing: Option<seq<AppRuntimes.Entry>>, mcMain: int,
                          jdk8: string -> bool, osArch: Option<string>): (r: AppRuntimes.Runtime)
    ensures configRuntime != "" ==> r.name == configRuntime
    ensures configRuntime == "" ==> r.name == DetectDefaultRuntime(listing, mcMain)
    ensures r.isJDK8 == jdk8(r.name) && r.versionString.None? && r.arch == osArch
    ensures r.javaVersion == (if r.isJDK8 then 8 else 17)
  {
    var name := if configRuntime != "" then configRuntime else DetectDefaultRuntime(listing, mcMain);
    AppRuntimes.Runtime(name, None, osArch, if jdk8(name) then 8 else 17, jdk8(name))
  }

  /** The resolved runtime is the one the runtime manager reads for the
      same folder entry. */
  lemma ResolvedAgreesWithManager(configRuntime: string, listing: Option<seq<AppRuntimes.Entry>>, mcMain: int,
                                  jdk8: string -> bool, osArch: Option<string>, e: AppRuntimes.Entry)
    requires e.name == ResolveRuntime(configRuntime, listing, mcMain, jdk8, osArch).name
    requires jdk8(e.name) == AppRuntimes.IsJDK8(e)
    ensures ResolveRuntime(configRuntime, listing, mcMain, jdk8, osArch) == AppRuntimes.GetRuntime(e, osArch)
  {
  }

  // ---------------------------------------------------------------------------
  // Library filter and classpath
  // ---------------------------------------------------------------------------

  /** The rule loop with early return: the first applying allow or
      disallow decides; with none, the library is included. */
  function FirstVerdict(rules: seq<LaunchArgs.Rule>): bool
    decreases |rules|
  {
    if |rules| == 0 then true
    else if rules[0].action == "allow" && LaunchArgs.OsMatches(rules[0]) then true
    else if rules[0].action == "disallow" && LaunchArgs.OsMatches(rules[0]) then false
    else FirstVerdict(rules[1..])
  }

  /** `shouldIncludeLibrary`: no rules include the library. */
  function ShouldIncludeLibrary(rules: Option<seq<LaunchArgs.Rule>>): (keep: bool)
    ensures rules.None? || |rules.value| == 0 ==> keep
    ensures rules.Some? ==> keep == FirstVerdict(rules.value)
  {
    if rules.None? || |rules.value| == 0 then true else FirstVerdict(rules.value)
  }

  /** The first rule that decides, if any. */
  function FirstDeciding(rules: seq<LaunchArgs.Rule>): (j: Option<nat>)
    ensures j.Some? ==>
      && j.value < |rules| && LaunchArgs.Decides(rules[j.value])
      && forall k :: 0 <= k < j.value ==> !LaunchArgs.Decides(rules[k])
    ensures j.None? ==> forall k :: 0 <= k < |rules| ==> !LaunchArgs.Decides(rules[k])
    decreases |rules|
  {
    if |rules| == 0 then None
    else if LaunchArgs.Decides(rules[0]) then Some(0)
    else match FirstDeciding(rules[1..])
      case None => None
      case Some(k) => Some(k + 1)
  }

  /** The early-return loop includes a library exactly when no rule
      decides or the first deciding rule allows. */
  lemma {:induction false} FirstVerdictIsFirstDeciding(rules: seq<LaunchArgs.Rule>)
    ensures FirstVerdict(rules) == match FirstDeciding(rules)
      case None => true
      case Some(j) => rules[j].action == "allow"
    decreases |rules|
  {
    if |rules| > 0 && !LaunchArgs.Decides(rules[0]) {
      FirstVerdictIsFirstDeciding(rules[1..]);
    }
  }

  /** Where exactly one rule decides, this launcher's filter and the
      argument builder's rule check agree: both follow that rule. */
  lemma FiltersAgreeOnOneDecidingRule(rules: seq<LaunchArgs.Rule>, j: nat)
    requires j < |rules| && LaunchArgs.Decides(rules[j])
    requires forall k :: 0 <= k < |rules| && k != j ==> !LaunchArgs.Decides(rules[k])
    ensures ShouldIncludeLibrary(Some(rules)) == LaunchArgs.CheckLibraryRules(Some(rules))
    ensures ShouldIncludeLibrary(Some(rules)) <==> rules[j].action == "allow"
  {
    FirstVerdictIsFirstDeciding(rules);
    LaunchArgs.VerdictIsLastDeciding(rules, false);
    LaunchArgs.LastDecidingUnique(rules, j);
    var f := FirstDeciding(rules);
    assert f == Some(j) by {
      assert f.Some?;
      assert !(f.value < j) && !(f.value > j);
    }
  }

  /** The two filters differ otherwise: this one lets the first deciding
      rule win and includes a library no rule decides, the argument builder
      lets the last one win and excludes it. */
  lemma FiltersDiffer()
    ensures var both := [LaunchArgs.Rule("allow", None), LaunchArgs.Rule("disallow", None)];
      ShouldIncludeLibrary(Some(both)) && !LaunchArgs.CheckLibraryRules(Some(both))
    ensures var other := [LaunchArgs.Rule("allow", Some("osx"))];
      ShouldIncludeLibrary(Some(other)) && !LaunchArgs.CheckLibraryRules(Some(other))
  {
    var other := [LaunchArgs.Rule("allow", Some("osx"))];
    assert !EqualsIgnoreCase("osx", "linux") by { assert |"osx"| != |"linux"|; }
    assert other[1..] == [];
  }

  /** A library of the manifest: its rules and its artifact's path. */
  datatype Library = Library(rules: Option<seq<LaunchArgs.Rule>>, artifactPath: string)

  /** The existing jars of the included libraries, in order. */
  function LibraryJars(libs: seq<Library>, librariesDir: string, present: string -> bool): (jars: seq<string>)
    ensures forall x :: x in jars <==>
      exists i :: 0 <= i < |libs| && ShouldIncludeLibrary(libs[i].rules) && x == librariesDir + "/" + libs[i].artifactPath && present(x)
    decreases |libs|
  {
    if |libs| == 0 then []
    else
      var rest := LibraryJars(libs[1..], librariesDir, present);
      assert forall i :: 1 <= i < |libs| ==> libs[1..][i - 1] == libs[i];
      var jar := librariesDir + "/" + libs[0].artifactPath;
      if ShouldIncludeLibrary(libs[0].rules) && present(jar) then [jar] + rest else rest
  }

  /** `buildClassPath`: the library jars, then the version jar when it
      exists, joined by ':'. */
  function ClassPathParts(libs: seq<Library>, librariesDir: string, versionJar: string, present: string -> bool): (parts: seq<string>)
    ensures forall x :: x in parts <==> x in LibraryJars(libs, librariesDir, present) || (x == versionJar && present(versionJar))
    ensures present(versionJar) ==> |parts| > 0 && parts[|parts| - 1] == versionJar
  {
    LibraryJars(libs, librariesDir, present) + (if present(versionJar) then [versionJar] else [])
  }

  /** No library jar path and not the version jar holds ':'. */
  predicate ColonFreeJars(libs: seq<Library>, librariesDir: string, versionJar: string) {
    && (forall i :: 0 <= i < |libs| ==> ':' !in librariesDir + "/" + libs[i].artifactPath)
    && ':' !in versionJar
  }

  /** The parts joined by ':'. With ':'-free paths and an existing version
      jar, splitting the classpath lists exactly the parts, the version jar
      last. */
  function BuildClassPath(libs: seq<Library>, librariesDir: string, versionJar: string, present: string -> bool): (cp: string)
    ensures ColonFreeJars(libs, librariesDir, versionJar) && present(versionJar)
        ==> Split(cp, ':') == ClassPathParts(libs, librariesDir, versionJar, present)
  {
    var parts := ClassPathParts(libs, librariesDir, versionJar, present);
    assert ColonFreeJars(libs, librariesDir, versionJar) && present(versionJar) ==> Split(Join(parts, ':'), ':') == parts by {
      if ColonFreeJars(libs, librariesDir, versionJar) && present(versionJar) {
        forall k | 0 <= k < |parts| ensures ':' !in parts[k] {
          assert parts[k] in parts;
        }
        SplitJoin(parts, ':');
      }
    }
    Join(parts, ':')
  }

  // ---------------------------------------------------------------------------
  // Game arguments
  // ---------------------------------------------------------------------------

  /** What the variables read of the account. */
  datatype Player = Player(username: string, profileId: string, uniqueUuid: string, accessToken: string)

  /** `replaceArgumentVariables`' replacements, in the order applied. */
  function GameVars(p: Player, versionId: string, gameDir: string, assetIndexId: string,
                    manifestType: Option<string>): (vars: seq<(string, string)>)
    ensures |vars| == 10
    ensures vars[5] == ("auth_uuid", if p.profileId != "" then p.profileId else p.uniqueUuid)
    ensures vars[3] == ("assets_root", gameDir + "/assets")
    ensures vars[7] == ("user_type", "mojang") && vars[8] == ("version_type", manifestType.GetOr("release"))
  {
    [("auth_player_name", p.username), ("version_name", versionId), ("game_directory", gameDir),
     ("assets_root", gameDir + "/assets"), ("assets_index_name", assetIndexId),
     ("auth_uuid", if p.profileId != "" then p.profileId else p.uniqueUuid),
     ("auth_access_token", p.accessToken), ("user_type", "mojang"),
     ("version_type", manifestType.GetOr("release")), ("user_properties", "{}")]
  }

  /** The pieces that are not blank, in order. */
  function NotBlank(pieces: seq<string>): (r: seq<string>)
    ensures |r| <= |pieces|
    ensures forall x :: x in r <==> x in pieces && !IsBlank(x)
    decreases |pieces|
  {
    if |pieces| == 0 then []
    else if !IsBlank(pieces[0]) then [pieces[0]] + NotBlank(pieces[1..])
    else NotBlank(pieces[1..])
  }

  /** `buildGameArguments` as written: the legacy string has its variables
      filled in first and is split on spaces afterwards, so a value holding
      a space (a game folder such as "My Games") becomes several arguments.
      New-style string arguments are filled in one by one. */
  function BuildGameArgumentsAsWritten(legacy: Option<string>, game: Option<seq<LaunchArgs.JsonArg>>,
                                       vars: seq<(string, string)>): (args: seq<string>)
    ensures legacy.Some? ==> args == NotBlank(Split(StringUtils.Substitute(legacy.value, vars), ' '))
    ensures legacy.None? ==> args == StringUtils.InsertJSONValueList(LaunchArgs.StringArgs(game.GetOr([])), vars)
  {
    match legacy
    case Some(s) => NotBlank(Split(StringUtils.Substitute(s, vars), ' '))
    case None => StringUtils.InsertJSONValueList(LaunchArgs.StringArgs(game.GetOr([])), vars)
  }

  /** A legacy "${key}" whose value holds a space comes out as two
      arguments. */
  lemma AsWrittenSplitsValue(key: string, a: string, b: string)
    requires ' ' !in a && ' ' !in b && !IsBlank(a) && !IsBlank(b)
    ensures BuildGameArgumentsAsWritten(Some(StringUtils.Placeholder(key)), None, [(key, a + " " + b)]) == [a, b]
  {
    StringUtils.PlaceholderAlone(key, a + " " + b);
    SplitNone(b, ' ');
    SplitCons(a, b, ' ');
    assert a + " " + b == a + [' '] + b;
    assert NotBlank([b]) == [b];
  }

  /** `buildGameArguments`, corrected: the legacy string is split into its
      non-blank words first and each word is filled in on its own, as the
      argument builder does, so every value stays one argument. */
  function BuildGameArguments(legacy: Option<string>, game: Option<seq<LaunchArgs.JsonArg>>,
                              vars: seq<(string, string)>): (args: seq<string>)
    ensures legacy.Some? ==> |args| == |NotBlank(Split(legacy.value, ' '))|
    ensures legacy.Some? ==> forall i :: 0 <= i < |args| ==>
      args[i] == StringUtils.Substitute(NotBlank(Split(legacy.value, ' '))[i], vars)
    ensures legacy.None? ==> args == BuildGameArgumentsAsWritten(legacy, game, vars)
  {
    match legacy
    case Some(s) => StringUtils.InsertJSONValueList(NotBlank(Split(s, ' ')), vars)
    case None => StringUtils.InsertJSONValueList(LaunchArgs.StringArgs(game.GetOr([])), vars)
  }

  /** In the corrected form a legacy "${key}" becomes exactly its value,
      whatever the value holds. */
  lemma ValueStaysOneArgument(key: string, value: string)
    requires ' ' !in key
    ensures BuildGameArguments(Some(StringUtils.Placeholder(key)), None, [(key, value)]) == [value]
  {
    var p := StringUtils.Placeholder(key);
    assert ' ' !in p by {
      assert p == "${" + key + "}";
      assert forall c :: c in p ==> c in "${" || c in key || c in "}";
    }
    SplitNone(p, ' ');
    assert !IsBlank(p) by { assert p[0] == '$'; }
    assert NotBlank([p]) == [p];
    StringUtils.PlaceholderAlone(key, value);
  }

  /** `replaceArgumentVariables` over the game arguments. */
  function GameArguments(legacy: Option<string>, game: Option<seq<LaunchArgs.JsonArg>>, p: Player, versionId: string,
                         gameDir: string, assetIndexId: string, manifestType: Option<string>): (args: seq<string>)
    ensures args == BuildGameArguments(legacy, game, GameVars(p, versionId, gameDir, assetIndexId, manifestType))
    ensures legacy.Some? ==> |args| == |NotBlank(Split(legacy.value, ' '))|
  {
    BuildGameArguments(legacy, game, GameVars(p, versionId, gameDir, assetIndexId, manifestType))
  }

  /** What the launch reads of the version manifest: the libraries, the
      main class, the legacy argument string, the new-style game arguments,
      the asset index id and the version type. */
  datatype VersionJson = VersionJson(libraries: seq<Library>, mainClass: string, minecraftArguments: Option<string>,
                                     game: Option<seq<LaunchArgs.JsonArg>>, assetIndexId: string, versionType: Option<string>)

  /** The libraries folder of a game folder. */
  function LibrariesDir(gameDir: string): string {
    gameDir + "/libraries"
  }

  /** The client jar of a version inside a game folder. */
  function VersionJar(gameDir: string, versionId: string): string {
    gameDir + "/versions/" + versionId + "/" + versionId + ".jar"
  }

  /** `buildMinecraftArgs`: "-cp", the classpath built from the manifest's
      libraries and the version jar of the game folder, the manifest's main
      class, then the game arguments exactly as the source builds them
      (legacy strings split after substitution). */
  function BuildMinecraftArgs(v: VersionJson, p: Player, versionId: string, gameDir: string,
                              present: string -> bool): (args: seq<string>)
    ensures |args| >= 3 && args[0] == "-cp" && args[2] == v.mainClass
    ensures args[1] == BuildClassPath(v.libraries, LibrariesDir(gameDir), VersionJar(gameDir, versionId), present)
    ensures args[3..] == BuildGameArgumentsAsWritten(v.minecraftArguments, v.game,
                                                     GameVars(p, versionId, gameDir, v.assetIndexId, v.versionType))
  {
    var classPath := BuildClassPath(v.libraries, LibrariesDir(gameDir), VersionJar(gameDir, versionId), present);
    var gameArgs := BuildGameArgumentsAsWritten(v.minecraftArguments, v.game,
                                                GameVars(p, versionId, gameDir, v.assetIndexId, v.versionType));
    ["-cp", classPath, v.mainClass] + gameArgs
  }

  /** With ':'-free jar paths and an existing version jar, the argument
      after "-cp" splits back into exactly the existing jars of the included
      libraries, in manifest order, followed by the version jar. */
  lemma MinecraftArgsClassPathReadsBack(v: VersionJson, p: Player, versionId: string, gameDir: string,
                                        present: string -> bool)
    requires ColonFreeJars(v.libraries, LibrariesDir(gameDir), VersionJar(gameDir, versionId))
    requires present(VersionJar(gameDir, versionId))
    ensures var args := BuildMinecraftArgs(v, p, versionId, gameDir, present);
      var parts := Split(args[1], ':');
      parts == LibraryJars(v.libraries, LibrariesDir(gameDir), present) + [VersionJar(gameDir, versionId)]
  {
  }

  /** For a manifest without a legacy argument string the arguments after
      the main class are the corrected game arguments, so the split of
      substituted values only affects legacy manifests. */
  lemma ModernManifestArgsAreCorrected(v: VersionJson, p: Player, versionId: string, gameDir: string,
                                       present: string -> bool)
    requires v.minecraftArguments.None?
    ensures var args := BuildMinecraftArgs(v, p, versionId, gameDir, present);
      args[3..] == GameArguments(None, v.game, p, versionId, gameDir, v.assetIndexId, v.versionType)
  {
  }
}

=== FILE: network.dfy ===
/** The retry and fallback policies of the network helpers. HTTP itself is a
    parameter: `get(url)` is what `httpGet` yields for `url` (the body, or
    null when the server does not answer 200 or the connection fails), a
    retried block is the sequence of its per-call outcomes, and a mirror is
    the outcome of one connection and its reads. */
module NetworkUtils {
  import opened Wrappers
  import Numerals

  /** The exceptions the helpers throw. `Raised(e)` is an exception of the
      retried block, passed through unchanged. */
  datatype NetError<E> =
    | IoFailed(url: string)       // IOException("Failed to fetch from $url")
    | AllUrlsFailed               // RuntimeException("All URLs failed")
    | ShouldNotReach              // RuntimeException("Should not reach here")
    | Raised(e: E)

  // ---------------------------------------------------------------------------
  // fetchStringFromUrl / fetchStringFromUrls
  // ---------------------------------------------------------------------------

  /** `fetchStringFromUrl`: the body, or an `IOException` naming the URL. */
  function FetchOne<E>(get: string -> Option<string>, url: string): (r: Result<string, NetError<E>>)
    ensures r.Success? <==> get(url).Some?
    ensures r.Success? ==> r.value == get(url).value
    ensures r.Failure? ==> r.error == IoFailed(url)
  {
    match get(url)
    case Some(body) => Success(body)
    case None => Failure(IoFailed(url))
  }

  /** The first position at or after `i` whose URL answers. */
  function FirstAnswering(get: string -> Option<string>, urls: seq<string>, i: nat): (r: Option<nat>)
    requires i <= |urls|
    ensures r.Some? ==> i <= r.value < |urls| && get(urls[r.value]).Some?
    ensures forall j :: i <= j < |urls| && (r.None? || j < r.value) ==> get(urls[j]).None?
    decreases |urls| - i
  {
    if i == |urls| then None
    else if get(urls[i]).Some? then Some(i)
    else FirstAnswering(get, urls, i + 1)
  }

  /** The loop of `fetchStringFromUrls` from position `i` on, as written: a
      failure on a URL that equals the list's last URL rethrows at once,
      wherever in the list that URL sits. */
  function FetchFromAsWritten<E>(get: string -> Option<string>, urls: seq<string>, i: nat): (r: Result<string, NetError<E>>)
    requires i <= |urls|
    ensures r.Success? ==> exists j :: i <= j < |urls| && get(urls[j]) == Some(r.value)
    ensures r.Failure? ==> r.error == if i == |urls| then AllUrlsFailed else IoFailed(urls[|urls| - 1])
    decreases |urls| - i
  {
    if i == |urls| then Failure(AllUrlsFailed)
    else
      match FetchOne(get, urls[i])
      case Success(body) => Success(body)
      case Failure(e) =>
        if urls[i] == urls[|urls| - 1] then Failure(e) else FetchFromAsWritten(get, urls, i + 1)
  }

  /** `fetchStringFromUrls` as written. */
  function FetchFromUrlsAsWritten<E>(get: string -> Option<string>, urls: seq<string>): Result<string, NetError<E>> {
    FetchFromAsWritten(get, urls, 0)
  }

  /** What the code as written returns: a body comes from some URL that
      answered, the first URL's answer is taken when it has one, and a
      failure reports the last URL (or no URL at all for an empty list). */
  lemma FetchFromUrlsAsWrittenOutcome<E>(get: string -> Option<string>, urls: seq<string>)
    ensures var r := FetchFromUrlsAsWritten<E>(get, urls);
      && (r.Success? ==> exists j :: 0 <= j < |urls| && get(urls[j]) == Some(r.value))
      && (|urls| > 0 && get(urls[0]).Some? ==> r.Success? && r.value == get(urls[0]).value)
      && (r.Failure? ==> r.error == if |urls| == 0 then AllUrlsFailed else IoFailed(urls[|urls| - 1]))
  {
  }

  /** The intended loop: every URL is tried in order, and only the failure at
      the last position is rethrown. */
  function FetchFrom<E>(get: string -> Option<string>, urls: seq<string>, i: nat): (r: Result<string, NetError<E>>)
    requires i <= |urls|
    ensures r.Success? <==> FirstAnswering(get, urls, i).Some?
    ensures r.Success? ==> r.value == get(urls[FirstAnswering(get, urls, i).value]).value
    ensures r.Failure? && i < |urls| ==> r.error == IoFailed(urls[|urls| - 1])
    ensures r.Failure? && i == |urls| ==> r.error == AllUrlsFailed
    decreases |urls| - i
  {
    if i == |urls| then Failure(AllUrlsFailed)
    else
      match FetchOne(get, urls[i])
      case Success(body) => Success(body)
      case Failure(e) => if i == |urls| - 1 then Failure(e) else FetchFrom(get, urls, i + 1)
  }

  /** `fetchStringFromUrls` as intended: the body of the first URL that
      answers; if none does, the `IOException` of the last URL; an empty
      list throws "All URLs failed". */
  function FetchStringFromUrls<E>(get: string -> Option<string>, urls: seq<string>): (r: Result<string, NetError<E>>)
    ensures r.Success? <==> exists j :: 0 <= j < |urls| && get(urls[j]).Some?
    ensures r.Success? ==> exists j :: 0 <= j < |urls| && get(urls[j]) == Some(r.value)
                                && forall k :: 0 <= k < j ==> get(urls[k]).None?
    ensures r.Failure? ==> r.error == if |urls| == 0 then AllUrlsFailed else IoFailed(urls[|urls| - 1])
  {
    var r := FetchFrom(get, urls, 0);
    if r.Success? then
      var j := FirstAnswering(get, urls, 0).value;
      assert get(urls[j]) == Some(r.value);
      r
    else r
  }

  /** When the last URL occurs only at the end of the list, the code as
      written behaves as intended. */
  lemma {:induction false} AsWrittenAgreesFrom<E>(get: string -> Option<string>, urls: seq<string>, i: nat)
    requires i <= |urls|
    requires forall j :: 0 <= j < |urls| - 1 ==> urls[j] != urls[|urls| - 1]
    ensures FetchFromAsWritten<E>(get, urls, i) == FetchFrom<E>(get, urls, i)
    decreases |urls| - i
  {
    if i < |urls| && get(urls[i]).None? && i < |urls| - 1 {
      AsWrittenAgreesFrom<E>(get, urls, i + 1);
    }
  }

  lemma AsWrittenAgrees<E>(get: string -> Option<string>, urls: seq<string>)
    requires forall j :: 0 <= j < |urls| - 1 ==> urls[j] != urls[|urls| - 1]
    ensures FetchFromUrlsAsWritten<E>(get, urls) == FetchStringFromUrls<E>(get, urls)
  {
    AsWrittenAgreesFrom<E>(get, urls, 0);
  }

  /** A server where only "b" answers. */
  function OnlyB(url: string): Option<string> {
    if url == "b" then Some("ok") else None
  }

  /** Finding: with the last URL also at the front, its first failure ends the
      loop and the answering URL in between is never tried. */
  lemma AsWrittenSkipsAfterDuplicateLast()
    ensures FetchFromUrlsAsWritten<()>(OnlyB, ["a", "b", "a"]) == Failure(IoFailed("a"))
    ensures FetchStringFromUrls<()>(OnlyB, ["a", "b", "a"]) == Success("ok")
  {
    var urls := ["a", "b", "a"];
    assert urls[0] == urls[2] && OnlyB(urls[0]).None?;
    assert OnlyB(urls[1]) == Some("ok");
    assert FetchFrom<()>(OnlyB, urls, 1) == Success("ok");
  }

  // ---------------------------------------------------------------------------
  // withRetry
  // ---------------------------------------------------------------------------

  /** What `withRetry` does, in order: run the block (the `k`-th call) or
      sleep. */
  datatype Step = Call(k: nat) | Pause(ms: int)

  /** The first call index in `[k, n)` whose outcome is a success. */
  function FirstSuccess<T, E>(outcomes: nat -> Result<T, E>, k: nat, n: int): (r: Option<nat>)
    ensures r.Some? ==> k <= r.value < n && outcomes(r.value).Success?
    ensures forall j :: k <= j < n && (r.None? || j < r.value) ==> outcomes(j).Failure?
    decreases n - k
  {
    if n <= k then None
    else if outcomes(k).Success? then Some(k)
    else FirstSuccess(outcomes, k + 1, n)
  }

  /** `currentDelay *= 2` on a `Long`: the doubled delay, wrapped to 64
      bits. */
  function Doubled(delay: int): int {
    Numerals.WrapLong(2 * delay)
  }

  /** The steps of `n` calls starting at call `k` with delay `delay`: a call,
      then a pause, alternately, with no pause after the last call. */
  function Schedule(k: nat, delay: int, n: nat): (r: seq<Step>)
    requires n >= 1
    ensures |r| == 2 * n - 1
    decreases n
  {
    if n == 1 then [Call(k)] else [Call(k), Pause(delay)] + Schedule(k + 1, Doubled(delay), n - 1)
  }

  /** The delay after `m` doublings. */
  function DoubledPow(delay: int, m: nat): int {
    if m == 0 then delay else Doubled(DoubledPow(delay, m - 1))
  }

  /** A `Long` delay doubled `m` times is the exact `delay * 2^m` wrapped to
      64 bits. */
  lemma {:induction false} DoubledTimes(delay: int, m: nat)
    requires Numerals.IsLong(delay)
    ensures DoubledPow(delay, m) == Numerals.WrapLong(delay * Numerals.Pow2(m))
    decreases m
  {
    if m > 0 {
      var x := delay * Numerals.Pow2(m - 1);
      DoubledTimes(delay, m - 1);
      Numerals.WrapDouble(x);
      DoubleOfProduct(delay, m);
      calc {
        DoubledPow(delay, m);
        Doubled(Numerals.WrapLong(x));
        Numerals.WrapLong(2 * x);
        Numerals.WrapLong(delay * Numerals.Pow2(m));
      }
    }
  }

  /** `delay * 2^m` is twice `delay * 2^(m-1)`. */
  lemma DoubleOfProduct(delay: int, m: nat)
    requires m > 0
    ensures delay * Numerals.Pow2(m) == 2 * (delay * Numerals.Pow2(m - 1))
  {
    var p := Numerals.Pow2(m - 1);
    assert Numerals.Pow2(m) == 2 * p;
    assert delay * (2 * p) == 2 * (delay * p);
  }

  /** Step `2m` of a schedule is call `k + m`, and step `2m + 1` sleeps the
      delay doubled `m` times. */
  lemma {:induction false} ScheduleAt(k: nat, delay: int, n: nat, m: nat)
    requires m < n
    ensures Schedule(k, delay, n)[2 * m] == Call(k + m)
    ensures m < n - 1 ==> Schedule(k, delay, n)[2 * m + 1] == Pause(DoubledPow(delay, m))
    decreases m
  {
    if m > 0 {
      ScheduleAt(k + 1, Doubled(delay), n - 1, m - 1);
      DoubledPowShift(delay, m - 1);
    }
  }

  /** Doubling first and then `m` more times is doubling `m + 1` times. */
  lemma {:induction false} DoubledPowShift(delay: int, m: nat)
    ensures DoubledPow(Doubled(delay), m) == DoubledPow(delay, m + 1)
    decreases m
  {
    if m > 0 {
      DoubledPowShift(delay, m - 1);
    }
  }

  /** How many calls the loop makes from the `k`-th on: up to the first
      success, or to the last allowed attempt. */
  function Attempts<T, E>(outcomes: nat -> Result<T, E>, maxRetries: int, k: nat): (n: nat)
    requires k < maxRetries
  {
    match FirstSuccess(outcomes, k, maxRetries)
    case Some(f) => f - k + 1
    case None => maxRetries - k
  }

  /** The `repeat` loop from the `k`-th attempt on, with the current delay:
      the result and the steps taken. */
  function RetryFrom<T, E>(outcomes: nat -> Result<T, E>, maxRetries: int, k: nat, delay: int)
    : (r: (Result<T, NetError<E>>, seq<Step>))
    requires k < maxRetries
    // it stops at the first success, or after the last allowed attempt
    ensures Attempts(outcomes, maxRetries, k) >= 1
    ensures r.1 == Schedule(k, delay, Attempts(outcomes, maxRetries, k))
    ensures r.0.Success? <==> FirstSuccess(outcomes, k, maxRetries).Some?
    ensures r.0.Success? ==> r.0.value == outcomes(FirstSuccess(outcomes, k, maxRetries).value).value
    ensures r.0.Failure? ==> r.0.error == Raised(outcomes(maxRetries - 1).error)
    decreases maxRetries - k
  {
    match outcomes(k)
    case Success(v) => (Success(v), [Call(k)])
    case Failure(e) =>
      if k == maxRetries - 1 then (Failure(Raised(e)), [Call(k)])
      else
        var rest := RetryFrom(outcomes, maxRetries, k + 1, Doubled(delay));
        (rest.0, [Call(k), Pause(delay)] + rest.1)
  }

  /** `withRetry(maxRetries, initialDelay, block)`: with no attempts allowed
      it throws "Should not reach here" without calling the block. */
  function WithRetry<T, E>(maxRetries: int, initialDelay: int, outcomes: nat -> Result<T, E>)
    : (r: (Result<T, NetError<E>>, seq<Step>))
    ensures maxRetries <= 0 ==> r == (Failure(ShouldNotReach), [])
    ensures maxRetries > 0 ==> r.1 != [] && r.1[0] == Call(0)
  {
    if maxRetries <= 0 then (Failure(ShouldNotReach), [])
    else RetryFrom(outcomes, maxRetries, 0, initialDelay)
  }

  /** The block runs at most `maxRetries` times, calls alternate with pauses
      and the last step is a call; the `m`-th call is call number `m`, and
      the pause after it is `initialDelay * 2^m` wrapped to a `Long`, which
      is the exact product whenever that fits. */
  lemma RetrySchedule<T, E>(maxRetries: int, initialDelay: int, outcomes: nat -> Result<T, E>, m: nat)
    requires maxRetries > 0 && Numerals.IsLong(initialDelay)
    ensures var steps := WithRetry(maxRetries, initialDelay, outcomes).1;
      && |steps| % 2 == 1
      && (|steps| + 1) / 2 <= maxRetries
      && steps[|steps| - 1].Call?
      && (2 * m < |steps| ==> steps[2 * m] == Call(m))
      && (2 * m + 1 < |steps| ==> steps[2 * m + 1] == Pause(Numerals.WrapLong(initialDelay * Numerals.Pow2(m))))
      && (2 * m + 1 < |steps| && Numerals.IsLong(initialDelay * Numerals.Pow2(m)) ==>
            steps[2 * m + 1] == Pause(initialDelay * Numerals.Pow2(m)))
  {
    var n := Attempts(outcomes, maxRetries, 0);
    ScheduleAt(0, initialDelay, n, n - 1);
    if m < n {
      ScheduleAt(0, initialDelay, n, m);
      DoubledTimes(initialDelay, m);
    }
  }

  /** `withRetry` returns the first success, and otherwise rethrows the last
      attempt's exception. */
  lemma RetryResult<T, E>(maxRetries: int, initialDelay: int, outcomes: nat -> Result<T, E>)
    requires maxRetries > 0
    ensures var r := WithRetry(maxRetries, initialDelay, outcomes).0;
      && (r.Success? <==> exists k :: 0 <= k < maxRetries && outcomes(k).Success?)
      && (r.Success? ==> exists k :: 0 <= k < maxRetries && outcomes(k) == Success(r.value)
                                      && forall j :: 0 <= j < k ==> outcomes(j).Failure?)
      && (r.Failure? ==> r == Failure(Raised(outcomes(maxRetries - 1).error)))
  {
    var r := WithRetry(maxRetries, initialDelay, outcomes).0;
    var f := FirstSuccess(outcomes, 0, maxRetries);
    if r.Success? {
      assert outcomes(f.value) == Success(r.value);
    }
  }

  // ---------------------------------------------------------------------------
  // downloadFromMirrorList
  // ---------------------------------------------------------------------------

  /** One mirror: the connection fails, the server answers something other
      than 200, or it serves chunks of `bytesRead` bytes, either to the end of
      the stream or until a read throws. */
  datatype Mirror = Unreachable | NotOk | Serves(chunks: seq<nat>, completes: bool)

  /** The running totals `onProgress` receives while reading `chunks`, having
      already counted `done` bytes. */
  function Progress(done: nat, chunks: seq<nat>): (r: seq<nat>)
    ensures |r| == |chunks|
    decreases |chunks|
  {
    if |chunks| == 0 then [] else [done + chunks[0]] + Progress(done + chunks[0], chunks[1..])
  }

  function Total(chunks: seq<nat>): nat
    decreases |chunks|
  {
    if |chunks| == 0 then 0 else chunks[0] + Total(chunks[1..])
  }

  predicate NonDecreasing(xs: seq<nat>) {
    forall i, j :: 0 <= i <= j < |xs| ==> xs[i] <= xs[j]
  }

  /** The totals only grow while one mirror is read, every total is at least
      the starting count, and the last equals everything read. */
  lemma {:induction false} ProgressGrows(done: nat, chunks: seq<nat>)
    ensures NonDecreasing(Progress(done, chunks))
    ensures forall i :: 0 <= i < |chunks| ==> Progress(done, chunks)[i] >= done
    ensures |chunks| > 0 ==> Progress(done, chunks)[|chunks| - 1] == done + Total(chunks)
    decreases |chunks|
  {
    if |chunks| > 0 {
      ProgressGrows(done + chunks[0], chunks[1..]);
    }
  }

  /** `downloadFromMirrorList`: whether a mirror served the whole file, and the
      progress reports in order. Each mirror's count starts again at 0. */
  function Download(mirrors: seq<Mirror>): (r: (bool, seq<nat>))
    ensures r.0 <==> exists i :: 0 <= i < |mirrors| && mirrors[i].Serves? && mirrors[i].completes
    decreases |mirrors|
  {
    if |mirrors| == 0 then (false, [])
    else
      match mirrors[0]
      case Serves(chunks, completes) =>
        if completes then
          assert mirrors[0].Serves? && mirrors[0].completes;
          (true, Progress(0, chunks))
        else
          var rest := Download(mirrors[1..]);
          assert forall i :: 1 <= i < |mirrors| ==> mirrors[i] == mirrors[1..][i - 1];
          (rest.0, Progress(0, chunks) + rest.1)
      case _ =>
        var rest := Download(mirrors[1..]);
        assert forall i :: 1 <= i < |mirrors| ==> mirrors[i] == mirrors[1..][i - 1];
        (rest.0, rest.1)
  }

  /** When every mirror before the first complete one sends nothing, the
      reports only grow and the last is the size of the file the complete
      mirror served. */
  lemma {:induction false} DownloadProgress(mirrors: seq<Mirror>, i: nat)
    requires i < |mirrors| && mirrors[i].Serves? && mirrors[i].completes && |mirrors[i].chunks| > 0
    requires forall j :: 0 <= j < i ==> !mirrors[j].Serves? || mirrors[j].chunks == []
    requires forall j :: 0 <= j < i ==> !(mirrors[j].Serves? && mirrors[j].completes)
    ensures Download(mirrors).0
    ensures NonDecreasing(Download(mirrors).1)
    ensures Download(mirrors).1 != [] && Download(mirrors).1[|Download(mirrors).1| - 1] == Total(mirrors[i].chunks)
    decreases i
  {
    if i == 0 {
      ProgressGrows(0, mirrors[0].chunks);
    } else {
      DownloadProgress(mirrors[1..], i - 1);
      if mirrors[0].Serves? {
        assert Progress(0, mirrors[0].chunks) == [];
      }
    }
  }

  /** A mirror that breaks after sending data makes the count start again:
      the reports are not monotone across mirrors. */
  lemma RestartAfterBrokenMirror()
    ensures Download([Serves([5], false), Serves([3], true)]) == (true, [5, 3])
  {
    var ms := [Serves([5], false), Serves([3], true)];
    assert ms[1..] == [Serves([3], true)];
    assert Progress(0, [5]) == [5] && Progress(0, [3]) == [3];
    assert Download(ms[1..]) == (true, [3]);
    assert Download(ms).1 == Progress(0, [5]) + [3] == [5, 3];
  }
}

=== FILE: numerals.dfy ===
/** Decimal and hexadecimal numerals: Kotlin's `Int.toString`/`toIntOrNull`, and
    the `%x`-style pointer formatting with the C `strtoul(s, NULL, 16)` reading
    the native bridge uses to pass a pointer through an environment variable. */
module Numerals {
  import opened Wrappers

  /** Two to the power `k`. */
  function Pow2(k: nat): (r: nat)
    ensures r >= 1
  {
    if k == 0 then 1 else 2 * Pow2(k - 1)
  }

  /** Bounds of a Kotlin/Java `Int`. */
  const INT_MIN: int := -0x8000_0000
  const INT_MAX: int := 0x7fff_ffff

  /** `ULONG_MAX` on the 64-bit Android ABIs (`unsigned long` is 64 bits wide). */
  const ULONG_MAX: int := 0xffff_ffff_ffff_ffff

  predicate IsInt32(v: int) {
    INT_MIN <= v <= INT_MAX
  }

  /** Bounds of a Kotlin/Java `Long`. */
  const LONG_MIN: int := -0x8000_0000_0000_0000
  const LONG_MAX: int := 0x7fff_ffff_ffff_ffff
  const TWO_POW_64: int := 0x1_0000_0000_0000_0000

  predicate IsLong(v: int) {
    LONG_MIN <= v <= LONG_MAX
  }

  /** Kotlin `Long` arithmetic: the exact value wrapped to 64 bits, which
      differs from it by a multiple of 2^64. */
  function WrapLong(x: int): (r: int)
    ensures IsLong(r)
    ensures IsLong(x) ==> r == x
    ensures (r - x) % TWO_POW_64 == 0
  {
    (x - LONG_MIN) % TWO_POW_64 + LONG_MIN
  }

  /** Doubling a wrapped value and wrapping again is wrapping the doubled
      exact value. */
  lemma WrapDouble(a: int)
    ensures WrapLong(2 * WrapLong(a)) == WrapLong(2 * a)
  {
    var w := WrapLong(a);
    var k := (w - a) / TWO_POW_64;
    assert w - a == k * TWO_POW_64;
    assert 2 * w - 2 * a == 2 * k * TWO_POW_64;
    var r1 := WrapLong(2 * w);
    var r2 := WrapLong(2 * a);
    var k1 := (r1 - 2 * w) / TWO_POW_64;
    var k2 := (r2 - 2 * a) / TWO_POW_64;
    assert r1 - 2 * w == k1 * TWO_POW_64;
    assert r2 - 2 * a == k2 * TWO_POW_64;
    assert r1 - r2 == (k1 + 2 * k - k2) * TWO_POW_64;
  }

  // ---------------------------------------------------------------------------
  // Decimal
  // ---------------------------------------------------------------------------

  predicate IsDigit(c: char) {
    '0' <= c <= '9'
  }

  predicate AllDigits(s: string) {
    forall i :: 0 <= i < |s| ==> IsDigit(s[i])
  }

  function DigitChar(d: nat): char
    requires d < 10
  {
    ('0' as int + d) as char
  }

  function DigitValue(c: char): nat
    requires IsDigit(c)
  {
    c as int - '0' as int
  }

  /** The decimal digits of `n`, without leading zeros. */
  function NatToString(n: nat): (r: string)
    ensures |r| >= 1 && AllDigits(r)
    ensures |r| > 1 ==> r[0] != '0'
    decreases n
  {
    if n < 10 then [DigitChar(n)] else NatToString(n / 10) + [DigitChar(n % 10)]
  }

  /** Kotlin `Int.toString()` / string templates of an integer. */
  function IntToString(i: int): string {
    if i < 0 then "-" + NatToString(-i) else NatToString(i)
  }

  /** The value of a run of decimal digits, most significant first. */
  function DigitsValue(s: string): nat
    requires AllDigits(s)
    decreases |s|
  {
    if |s| == 0 then 0 else DigitsValue(s[..|s| - 1]) * 10 + DigitValue(s[|s| - 1])
  }

  /** Reading back the digits of `n` gives `n`. */
  lemma {:induction false} DigitsOfNat(n: nat)
    ensures DigitsValue(NatToString(n)) == n
    decreases n
  {
    if n >= 10 {
      var r := NatToString(n);
      assert r[..|r| - 1] == NatToString(n / 10);
      DigitsOfNat(n / 10);
    }
  }

  /** Kotlin `String.toIntOrNull()`: an optional `+`/`-` followed by at least one
      decimal digit, and a value that fits an `Int`; anything else is null. */
  function ParseInt(s: string): (r: Option<int>)
    ensures r.Some? ==> IsInt32(r.value)
    ensures r.Some? ==> |s| > 0 && (IsDigit(s[0]) || s[0] == '-' || s[0] == '+')
  {
    if |s| == 0 then None
    else if s[0] == '-' || s[0] == '+' then
      if |s| == 1 || !AllDigits(s[1..]) then None
      else
        var v: int := if s[0] == '-' then 0 - DigitsValue(s[1..]) as int else DigitsValue(s[1..]);
        if IsInt32(v) then Some(v) else None
    else if AllDigits(s) then
      var v := DigitsValue(s);
      if IsInt32(v) then Some(v) else None
    else None
  }

  /** `toIntOrNull` reads back every `Int` that `toString` writes. */
  lemma ParseIntToString(i: int)
    requires IsInt32(i)
    ensures ParseInt(IntToString(i)) == Some(i)
  {
    if i < 0 {
      var s := IntToString(i);
      assert s[1..] == NatToString(-i);
      DigitsOfNat(-i);
    } else {
      DigitsOfNat(i);
    }
  }

  // ---------------------------------------------------------------------------
  // Hexadecimal
  // ---------------------------------------------------------------------------

  predicate IsHexDigit(c: char) {
    IsDigit(c) || 'a' <= c <= 'f' || 'A' <= c <= 'F'
  }

  predicate AllHex(s: string) {
    forall i :: 0 <= i < |s| ==> IsHexDigit(s[i])
  }

  function HexValue(c: char): (v: nat)
    requires IsHexDigit(c)
    ensures v < 16
  {
    if IsDigit(c) then DigitValue(c)
    else if 'a' <= c <= 'f' then c as int - 'a' as int + 10
    else c as int - 'A' as int + 10
  }

  /** The lower-case hex digit for `d`. */
  function HexChar(d: nat): (c: char)
    requires d < 16
    ensures IsHexDigit(c) && HexValue(c) == d
  {
    if d < 10 then DigitChar(d) else ('a' as int + d - 10) as char
  }

  /** The lower-case hexadecimal digits of `n` without leading zeros, as C's
      `%x` / `PRIxPTR` and Java's `Integer.toHexString` write them. */
  function ToHex(n: nat): (r: string)
    ensures |r| >= 1 && AllHex(r)
    ensures |r| > 1 ==> r[0] != '0'
    decreases n
  {
    if n < 16 then [HexChar(n)] else ToHex(n / 16) + [HexChar(n % 16)]
  }

  /** The value of a run of hex digits, most significant first. */
  function HexDigitsValue(s: string): nat
    requires AllHex(s)
    decreases |s|
  {
    if |s| == 0 then 0 else HexDigitsValue(s[..|s| - 1]) * 16 + HexValue(s[|s| - 1])
  }

  /** Reading back the hex digits of `n` gives `n`. */
  lemma {:induction false} HexOfNat(n: nat)
    ensures HexDigitsValue(ToHex(n)) == n
    decreases n
  {
    if n >= 16 {
      var r := ToHex(n);
      assert r[..|r| - 1] == ToHex(n / 16);
      HexOfNat(n / 16);
    }
  }

  /** C `isspace` in the "C" locale. */
  predicate IsCSpace(c: char) {
    c in {' ', '\t', '\n', '\U{000B}', '\U{000C}', '\r'}
  }

  function SkipCSpace(s: string): (r: string)
    ensures |r| <= |s| && r == s[|s| - |r|..]
    ensures |s| > 0 && !IsCSpace(s[0]) ==> r == s
    decreases |s|
  {
    if |s| > 0 && IsCSpace(s[0]) then SkipCSpace(s[1..]) else s
  }

  /** The longest prefix of `s` made of hex digits. */
  function HexPrefix(s: string): (r: string)
    ensures r <= s && AllHex(r)
    ensures |r| < |s| ==> !IsHexDigit(s[|r|])
    decreases |s|
  {
    if |s| > 0 && IsHexDigit(s[0]) then [s[0]] + HexPrefix(s[1..]) else ""
  }

  /** C `strtoul(s, NULL, 16)` for a 64-bit `unsigned long`: leading white space
      is skipped, an optional sign and an optional `0x`/`0X` are accepted, then the
      longest run of hex digits is read. No digits gives 0, an out-of-range value
      gives `ULONG_MAX`, and a minus sign negates modulo 2^64. */
  function StrToULong16(s: string): (r: nat)
    ensures r <= ULONG_MAX
  {
    var a := SkipCSpace(s);
    var neg := |a| > 0 && a[0] == '-';
    var b := if |a| > 0 && (a[0] == '-' || a[0] == '+') then a[1..] else a;
    var c := if |b| >= 3 && b[0] == '0' && (b[1] == 'x' || b[1] == 'X') && IsHexDigit(b[2])
             then b[2..] else b;
    var v := HexDigitsValue(HexPrefix(c));
    if v > ULONG_MAX then ULONG_MAX
    else if neg then (ULONG_MAX + 1 - v) % (ULONG_MAX + 1)
    else v
  }

  /** `strtoul(…, 16)` reads back any pointer-sized value that `%x` wrote. */
  lemma ReadFormattedPointer(p: nat)
    requires p <= ULONG_MAX
    ensures StrToULong16(ToHex(p)) == p
  {
    var s := ToHex(p);
    assert !IsCSpace(s[0]) && s[0] != '-' && s[0] != '+';
    assert SkipCSpace(s) == s;
    assert HexPrefix(s) == s;
    HexOfNat(p);
  }
}

=== FILE: renderers.dfy ===
/** The app tree's renderer registry: three built-in renderers, one of them
    current, chosen by id. */
module Renderers {
  import opened Wrappers
  import opened Text

  datatype Renderer = OpenGLES2 | OpenGLES3 | Vulkan

  /** The id `setCurrentRenderer` recognises, or None for any other id. */
  function RendererOfId(id: string): Option<Renderer> {
    if id == "opengles2" then Some(OpenGLES2)
    else if id == "opengles3" then Some(OpenGLES3)
    else if id == "vulkan" then Some(Vulkan)
    else None
  }

  /** `getRendererId`: an id the registry recognises as this renderer, so
      no two renderers share one. */
  function RendererId(r: Renderer): (id: string)
    ensures RendererOfId(id) == Some(r)
  {
    match r
    case OpenGLES2 => "opengles2"
    case OpenGLES3 => "opengles3"
    case Vulkan => "vulkan"
  }

  /** `getRendererName`: the GL renderers are named by their OpenGL ES
      version, the other one is "Vulkan". */
  function RendererName(r: Renderer): (name: string)
    ensures r != Vulkan <==> StartsWith(name, "OpenGL ES ")
    ensures r == Vulkan <==> name == "Vulkan"
    ensures r == OpenGLES2 ==> name[|"OpenGL ES "|..] == "2.0"
    ensures r == OpenGLES3 ==> name[|"OpenGL ES "|..] == "3.0"
  {
    match r
    case OpenGLES2 => "OpenGL ES 2.0"
    case OpenGLES3 => "OpenGL ES 3.0"
    case Vulkan => "Vulkan"
  }

  /** `getRendererSummary`: every renderer has one, its name followed by
      " renderer". */
  function RendererSummary(r: Renderer): (summary: Option<string>)
    ensures summary == Some(RendererName(r) + " renderer")
  {
    match r
    case OpenGLES2 =>
      assert "OpenGL ES 2.0" + " renderer" == "OpenGL ES 2.0 renderer";
      Some("OpenGL ES 2.0 renderer")
    case OpenGLES3 =>
      assert "OpenGL ES 3.0" + " renderer" == "OpenGL ES 3.0 renderer";
      Some("OpenGL ES 3.0 renderer")
    case Vulkan =>
      assert "Vulkan" + " renderer" == "Vulkan renderer";
      Some("Vulkan renderer")
  }

  /** `getRendererLibrary`: every renderer has one; the two GL renderers
      share "libGL.so.1" and Vulkan alone loads another. */
  function RendererLibrary(r: Renderer): (lib: Option<string>)
    ensures lib.Some?
    ensures r != Vulkan <==> lib == Some("libGL.so.1")
    ensures r == Vulkan ==> lib == Some("libvulkan.so")
  {
    match r
    case OpenGLES2 => Some("libGL.so.1")
    case OpenGLES3 => Some("libGL.so.1")
    case Vulkan => Some("libvulkan.so")
  }

  /** `getRendererEnv`: one variable per renderer, LIBGL_ES for the GL
      renderers, naming the GLES major version, and the zink loader
      override for Vulkan. */
  function RendererEnv(r: Renderer): (env: map<string, string>)
    ensures |env| == 1
    ensures r != Vulkan ==> "LIBGL_ES" in env && "MESA_LOADER_DRIVER_OVERRIDE" !in env
    ensures r == Vulkan ==> env == map["MESA_LOADER_DRIVER_OVERRIDE" := "zink"] && "LIBGL_ES" !in env
    ensures r == OpenGLES2 ==> env["LIBGL_ES"] == "2"
    ensures r == OpenGLES3 ==> env["LIBGL_ES"] == "3"
  {
    match r
    case OpenGLES2 => map["LIBGL_ES" := "2"]
    case OpenGLES3 => map["LIBGL_ES" := "3"]
    case Vulkan => map["MESA_LOADER_DRIVER_OVERRIDE" := "zink"]
  }

  /** The EGL library: Mesa's for the GL renderers, none for Vulkan. */
  function RendererEGL(r: Renderer): (egl: Option<string>)
    ensures egl.None? <==> r == Vulkan
  {
    match r
    case OpenGLES2 => Some("libEGL_mesa.so")
    case OpenGLES3 => Some("libEGL_mesa.so")
    case Vulkan => None
  }

  /** `getUniqueIdentifier`, the interface default: the renderer id. */
  function UniqueIdentifier(r: Renderer): (id: string)
    ensures id == RendererId(r)
  {
    RendererId(r)
  }

  /** The registry's state: the current renderer. */
  datatype Registry = Registry(current: Renderer)

  const Initial: Registry := Registry(OpenGLES2)

  /** `isCurrentRendererValid` is not implemented: always valid. */
  function IsCurrentRendererValid(reg: Registry): (valid: bool)
    ensures valid
  {
    true
  }

  /** `setCurrentRenderer`: the renderer with that id, or OpenGL ES 2 for an
      unknown id. */
  function SetCurrentRenderer(reg: Registry, rendererId: string): (next: Registry)
    ensures forall r: Renderer :: RendererId(r) == rendererId ==> next.current == r
    ensures RendererId(next.current) == rendererId || next.current == OpenGLES2
  {
    if rendererId == "opengles2" then Registry(OpenGLES2)
    else if rendererId == "opengles3" then Registry(OpenGLES3)
    else if rendererId == "vulkan" then Registry(Vulkan)
    else Registry(OpenGLES2)
  }

  /** Selecting a renderer by its own id makes it current, whatever was
      current before; distinct renderers have distinct ids. */
  lemma SelectByOwnId(reg: Registry, r: Renderer)
    ensures SetCurrentRenderer(reg, RendererId(r)).current == r
    ensures forall q: Renderer :: RendererId(q) == RendererId(r) ==> q == r
  {
  }
}

=== FILE: resource_manager.dfy ===
/** The ShardLauncher tree's resource check: which essentials are missing
    and what to advise, from the installed runtimes and the built-in
    renderer list (both parameters). */
module ResourceManager {
  import opened Wrappers

  /** What the check reads of an installed runtime. */
  datatype Runtime = Runtime(name: string, javaVersion: int)

  datatype CheckResult = CheckResult(hasJavaRuntime: bool, hasRenderers: bool,
                                     missingResources: seq<string>, recommendedActions: seq<string>)

  const MISSING_JAVA: string := "Java 运行时"
  const INSTALL_JAVA: string := "安装内置 Java 运行时环境"
  const MISSING_RENDERERS: string := "渲染器库"
  const RENDERERS_BUILT_IN: string := "渲染器库已内置，无需额外安装"
  const ADVISE_JAVA_8: string := "建议安装 Java 8 运行时以获得最佳兼容性"
  const ADVISE_JAVA_17: string := "建议安装 Java 17+ 运行时以支持现代 Minecraft 版本"

  predicate HasJava8(runtimes: seq<Runtime>) {
    exists k :: 0 <= k < |runtimes| && runtimes[k].javaVersion == 8
  }

  predicate HasJava17(runtimes: seq<Runtime>) {
    exists k :: 0 <= k < |runtimes| && runtimes[k].javaVersion >= 17
  }

  /** The position of each piece of advice in the order the check adds
      them; 4 for any other text. */
  function AdviceRank(action: string): nat {
    if action == INSTALL_JAVA then 0
    else if action == RENDERERS_BUILT_IN then 1
    else if action == ADVISE_JAVA_8 then 2
    else if action == ADVISE_JAVA_17 then 3
    else 4
  }

  /** `checkResources`: missing items and advice, each added in the
      source's order. The advice holds exactly the applicable ones of the
      four messages, each once, in the order install Java, renderers built
      in, Java 8, Java 17. */
  function CheckResources<R>(runtimes: seq<Runtime>, renderers: seq<R>): (r: CheckResult)
    ensures r.hasJavaRuntime <==> |runtimes| > 0
    ensures r.hasRenderers <==> |renderers| > 0
    ensures MISSING_JAVA in r.missingResources <==> |runtimes| == 0
    ensures MISSING_RENDERERS in r.missingResources <==> |renderers| == 0
    ensures ADVISE_JAVA_8 in r.recommendedActions <==> |runtimes| > 0 && !HasJava8(runtimes)
    ensures ADVISE_JAVA_17 in r.recommendedActions <==> |runtimes| > 0 && !HasJava17(runtimes)
    ensures INSTALL_JAVA in r.recommendedActions <==> |runtimes| == 0
    ensures RENDERERS_BUILT_IN in r.recommendedActions <==> |renderers| == 0
    ensures forall i :: 0 <= i < |r.recommendedActions| ==> AdviceRank(r.recommendedActions[i]) < 4
    ensures forall i, j :: 0 <= i < j < |r.recommendedActions| ==> AdviceRank(r.recommendedActions[i]) < AdviceRank(r.recommendedActions[j])
    ensures |r.missingResources| <= 2 && |r.recommendedActions| <= 3
  {
    var hasJava := |runtimes| > 0;
    var hasRenderers := |renderers| > 0;
    var missing := (if hasJava then [] else [MISSING_JAVA]) + (if hasRenderers then [] else [MISSING_RENDERERS]);
    var actions := (if hasJava then [] else [INSTALL_JAVA])
      + (if hasRenderers then [] else [RENDERERS_BUILT_IN])
      + (if hasJava && !HasJava8(runtimes) then [ADVISE_JAVA_8] else [])
      + (if hasJava && !HasJava17(runtimes) then [ADVISE_JAVA_17] else []);
    CheckResult(hasJava, hasRenderers, missing, actions)
  }

  /** Without any runtime the only advice is to install one (plus the
      renderer note when the list is empty): the version advice needs a
      runtime to compare against. */
  lemma NoRuntimeNoVersionAdvice<R>(renderers: seq<R>)
    ensures var r := CheckResources([], renderers);
      && r.recommendedActions == [INSTALL_JAVA] + (if |renderers| > 0 then [] else [RENDERERS_BUILT_IN])
      && !r.hasJavaRuntime
  {
  }

  /** A Java 8 runtime and a Java 17 runtime silence both pieces of
      advice. */
  lemma Java8And17SilenceAdvice<R>(runtimes: seq<Runtime>, renderers: seq<R>, i: nat, j: nat)
    requires i < |runtimes| && j < |runtimes|
    requires runtimes[i].javaVersion == 8 && runtimes[j].javaVersion >= 17
    ensures ADVISE_JAVA_8 !in CheckResources(runtimes, renderers).recommendedActions
    ensures ADVISE_JAVA_17 !in CheckResources(runtimes, renderers).recommendedActions
  {
  }

  /** One progress report: a percentage and the message shown with it. */
  datatype Progress = Progress(percent: int, message: string)

  /** What `installEssentialResources` reports and returns. */
  datatype InstallReport = InstallReport(steps: seq<Progress>, succeeded: bool)

  const CHECKING_RESOURCES := "检查内置资源..."
  const NO_JAVA_RUNTIME := "未检测到 Java 运行时，请前往设置安装"
  const CHECK_COMPLETE := "基础资源检查完成"

  /** The progress reports of `installEssentialResources` and its result.
      The runtime listing is `None` when reading it throws: then only the
      starting report has been made and the result is a failure. Otherwise
      the start is followed by 50 with the missing-runtime advice when there
      are no runtimes, or by 100 when there are some, and the result is
      success. */
  function InstallProgress(listing: Option<seq<Runtime>>): (r: InstallReport)
    ensures r.succeeded <==> listing.Some?
    ensures |r.steps| >= 1 && r.steps[0] == Progress(0, CHECKING_RESOURCES)
    ensures listing.None? ==> |r.steps| == 1
    ensures listing.Some? ==> |r.steps| == 2
    ensures listing.Some? ==> (r.steps[1].percent == 50 <==> |listing.value| == 0)
    ensures listing.Some? ==> (r.steps[1].percent == 100 <==> |listing.value| > 0)
    ensures listing.Some? ==> (r.steps[1].message == NO_JAVA_RUNTIME <==> |listing.value| == 0)
  {
    match listing
    case None => InstallReport([Progress(0, CHECKING_RESOURCES)], false)
    case Some(runtimes) =>
      var last := if |runtimes| == 0 then Progress(50, NO_JAVA_RUNTIME) else Progress(100, CHECK_COMPLETE);
      InstallReport([Progress(0, CHECKING_RESOURCES), last], true)
  }

  /** Installing and checking agree: a successful install reports the
      missing-runtime step exactly when the check advises installing Java,
      and finishes at 100 exactly when the check finds a runtime. */
  lemma InstallAgreesWithCheck<R>(runtimes: seq<Runtime>, renderers: seq<R>)
    ensures var r := InstallProgress(Some(runtimes));
      var c := CheckResources(runtimes, renderers);
      r.succeeded
      && (r.steps[1].percent == 50 <==> INSTALL_JAVA in c.recommendedActions)
      && (r.steps[1].percent == 100 <==> c.hasJavaRuntime)
      && (r.steps[1].message == NO_JAVA_RUNTIME <==> MISSING_JAVA in c.missingResources)
  {
  }
}

=== FILE: runtimes.dfy ===
/** The ShardLauncher tree's Java runtime manager: reading a runtime's
    `release` file, the per-name cache in front of it, and picking a runtime
    by Java major version. The runtime directory (whether it exists, what
    its `release` file yields, whether `jre` and `bin/javac` exist) is a
    parameter; the runtime listing is given already sorted. */
module SLRuntimes {
  import opened Wrappers
  import opened Text
  import Numerals
  import MathUtils

  datatype Runtime = Runtime(name: string, versionString: Option<string>, arch: Option<string>,
                             javaVersion: int, isProvidedByLauncher: bool, isJDK8: bool)

  /** `Runtime(name)`: nothing known beyond the name. */
  function Bare(name: string): Runtime {
    Runtime(name, None, None, 0, false, false)
  }

  /** What reading the `release` file gave: no file, an exception, or the
      `JAVA_VERSION` and `OS_ARCH` values found in it. */
  datatype Release = NoReleaseFile | ReadFailed | ReleaseValues(javaVersion: Option<string>, osArch: Option<string>)

  datatype RuntimeDir = RuntimeDir(exists_: bool, release: Release, hasJre: bool, hasJavac: bool)

  type Cache = map<string, Runtime>

  /** The major version in a `JAVA_VERSION` value: the second component
      after a leading "1", else the first; 0 when that is not a number. */
  function MajorVersion(v: string): (major: int)
    ensures var parts := Split(v, '.');
      major == 0 || Numerals.ParseInt(parts[0]) == Some(major)
      || (|parts| > 1 && parts[0] == "1" && Numerals.ParseInt(parts[1]) == Some(major))
    ensures '.' !in v && v != "1" ==> major == Numerals.ParseInt(v).GetOr(0)
  {
    var parts := Split(v, '.');
    assert '.' !in v ==> parts == [v] by {
      if '.' !in v { SplitNone(v, '.'); }
    }
    if parts[0] == "1" then
      if |parts| > 1 then Numerals.ParseInt(parts[1]).GetOr(0) else 0
    else Numerals.ParseInt(parts[0]).GetOr(0)
  }

  lemma ParseNat(n: nat)
    requires n <= Numerals.INT_MAX
    ensures Numerals.ParseInt(Numerals.NatToString(n)) == Some(n)
    ensures '.' !in Numerals.NatToString(n)
  {
    Numerals.ParseIntToString(n);
    var s := Numerals.NatToString(n);
    assert forall i :: 0 <= i < |s| ==> Numerals.IsDigit(s[i]);
  }

  /** Old-style versions "1.N" and "1.N.x" have major version N. */
  lemma MajorOfLegacy(n: nat, rest: string)
    requires n <= Numerals.INT_MAX
    ensures MajorVersion("1." + Numerals.NatToString(n)) == n
    ensures MajorVersion("1." + Numerals.NatToString(n) + "." + rest) == n
  {
    var s := Numerals.NatToString(n);
    ParseNat(n);
    SplitCons("1", s, '.');
    SplitNone(s, '.');
    assert "1." + s == "1" + ['.'] + s;
    SplitCons("1", s + "." + rest, '.');
    SplitCons(s, rest, '.');
    assert "1." + s + "." + rest == "1" + ['.'] + (s + ['.'] + rest);
  }

  /** New-style versions "N" and "N.x", N other than 1, have major version
      N. */
  lemma MajorOfModern(n: nat, rest: string)
    requires n != 1 && n <= Numerals.INT_MAX
    ensures MajorVersion(Numerals.NatToString(n)) == n
    ensures MajorVersion(Numerals.NatToString(n) + "." + rest) == n
  {
    var s := Numerals.NatToString(n);
    ParseNat(n);
    Numerals.DigitsOfNat(n);
    assert Numerals.DigitsValue("1") == 1;
    SplitNone(s, '.');
    SplitCons(s, rest, '.');
  }

  /** `isJDK8`: both `jre` and `bin/javac` exist. */
  predicate IsJDK8(dir: RuntimeDir) {
    dir.hasJre && dir.hasJavac
  }

  /** The runtime read from its directory. `launcherJres` are the names of
      the runtimes the launcher ships. */
  function ReadRuntime(name: string, dir: RuntimeDir, launcherJres: seq<string>): (r: Runtime)
    ensures r.name == name
    ensures r.versionString.None? ==> r == Bare(name)
    ensures r.versionString.Some? <==> dir.release.ReleaseValues? && dir.release.javaVersion.Some? && dir.release.osArch.Some?
    ensures r.versionString.Some? ==>
      && r.versionString == dir.release.javaVersion && r.arch == dir.release.osArch
      && r.javaVersion == MajorVersion(dir.release.javaVersion.value)
      && (r.isProvidedByLauncher <==> name in launcherJres) && (r.isJDK8 <==> IsJDK8(dir))
  {
    match dir.release
    case ReleaseValues(Some(javaVersion), Some(osArch)) =>
      Runtime(name, Some(javaVersion), Some(osArch), MajorVersion(javaVersion), name in launcherJres, IsJDK8(dir))
    case _ => Bare(name)
  }

  /** `loadRuntime`: the cached runtime unless a reload is forced, otherwise
      a fresh read; the result is what the cache holds afterwards. */
  function LoadRuntime(cache: Cache, name: string, forceLoad: bool, dir: RuntimeDir, launcherJres: seq<string>): (r: (Cache, Runtime))
    ensures name in cache && !forceLoad ==> r.1 == cache[name]
    ensures !(name in cache && !forceLoad) ==> r.1 == ReadRuntime(name, dir, launcherJres)
    ensures r.0 == cache[name := r.1]
  {
    if name in cache && !forceLoad then (cache, cache[name])
    else
      var rt := ReadRuntime(name, dir, launcherJres);
      (cache[name := rt], rt)
  }

  /** `forceReload`: evict, then load. The runtime is read from disk
      whatever the cache held, and the cache keeps every other entry. */
  function ForceReload(cache: Cache, name: string, dir: RuntimeDir, launcherJres: seq<string>): (r: (Cache, Runtime))
    ensures r.1 == ReadRuntime(name, dir, launcherJres)
    ensures r.0 == cache[name := r.1]
  {
    var evicted := map k | k in cache && k != name :: cache[k];
    assert evicted[name := ReadRuntime(name, dir, launcherJres)] == cache[name := ReadRuntime(name, dir, launcherJres)];
    LoadRuntime(evicted, name, false, dir, launcherJres)
  }

  /** Evicting first is the same as forcing the load: the runtime is read
      from disk whatever the cache held, and every other entry stays. */
  lemma ForceReloadReadsDisk(cache: Cache, name: string, dir: RuntimeDir, launcherJres: seq<string>)
    ensures ForceReload(cache, name, dir, launcherJres) == LoadRuntime(cache, name, true, dir, launcherJres)
    ensures ForceReload(cache, name, dir, launcherJres).1 == ReadRuntime(name, dir, launcherJres)
  {
    var evicted := map k | k in cache && k != name :: cache[k];
    assert evicted[name := ReadRuntime(name, dir, launcherJres)] == cache[name := ReadRuntime(name, dir, launcherJres)];
  }

  /** A cached runtime survives later loads of the same name until a reload
      is forced. */
  lemma CachedUntilForced(cache: Cache, name: string, dir: RuntimeDir, dir2: RuntimeDir, launcherJres: seq<string>)
    ensures var (c1, r1) := LoadRuntime(cache, name, false, dir, launcherJres);
      LoadRuntime(c1, name, false, dir2, launcherJres) == (c1, r1)
  {
  }

  datatype IOError = DeleteFailed

  /** `removeRuntime`: nothing when the directory is missing; otherwise the
      directory is deleted and only then the cache entry dropped. */
  function RemoveRuntime(cache: Cache, name: string, dirExists: bool, deleteOk: bool): (r: Result<Cache, IOError>)
    ensures !dirExists ==> r == Success(cache)
    ensures dirExists && !deleteOk ==> r.Failure?
    ensures dirExists && deleteOk ==>
      && r.Success? && name !in r.value
      && forall k :: k != name ==> (k in r.value <==> k in cache) && (k in cache ==> r.value[k] == cache[k])
  {
    if !dirExists then Success(cache)
    else if !deleteOk then Failure(DeleteFailed)
    else Success(map k | k in cache && k != name :: cache[k])
  }

  datatype HomeError = SelectedRuntimeBroken

  /** `getRuntimeHome`: the runtime's directory (its name under the runtime
      folder), unless the directory is missing or a forced reload finds no
      version string. The reload's cache update stays either way. */
  function GetRuntimeHome(cache: Cache, name: string, dir: RuntimeDir, launcherJres: seq<string>): (r: (Cache, Result<string, HomeError>))
    ensures !dir.exists_ ==> r == (cache, Failure(SelectedRuntimeBroken))
    ensures dir.exists_ ==> r.0 == cache[name := ReadRuntime(name, dir, launcherJres)]
    ensures dir.exists_ ==> (r.1.Success? <==> dir.release.ReleaseValues? && dir.release.javaVersion.Some? && dir.release.osArch.Some?)
    ensures r.1.Success? ==> r.1.value == name
  {
    if !dir.exists_ then (cache, Failure(SelectedRuntimeBroken))
    else
      var (c, rt) := ForceReload(cache, name, dir, launcherJres);
      ForceReloadReadsDisk(cache, name, dir, launcherJres);
      if rt.versionString.None? then (c, Failure(SelectedRuntimeBroken)) else (c, Success(name))
  }

  /** The first runtime with the given major version. */
  function FirstWithVersion(rs: seq<Runtime>, major: int): (r: Option<nat>)
    ensures r.Some? ==>
      && r.value < |rs| && rs[r.value].javaVersion == major
      && forall j :: 0 <= j < r.value ==> rs[j].javaVersion != major
    ensures r.None? ==> forall j :: 0 <= j < |rs| ==> rs[j].javaVersion != major
    decreases |rs|
  {
    if |rs| == 0 then None
    else if rs[0].javaVersion == major then Some(0)
    else match FirstWithVersion(rs[1..], major)
      case None => None
      case Some(k) => Some(k + 1)
  }

  /** `getExactJreName`: the name of the first runtime with the major
      version. */
  function GetExactJreName(rs: seq<Runtime>, major: int): (name: Option<string>)
    ensures name.Some? <==> exists j :: 0 <= j < |rs| && rs[j].javaVersion == major
    ensures name.Some? ==> exists j ::
      && 0 <= j < |rs| && rs[j].javaVersion == major && rs[j].name == name.value
      && forall k :: 0 <= k < j ==> rs[k].javaVersion != major
  {
    match FirstWithVersion(rs, major)
    case None => None
    case Some(k) => Some(rs[k].name)
  }

  function JavaVersionOf(r: Runtime): int {
    r.javaVersion
  }

  /** The runtime at `j` has the least version at or above `major`, and no
      earlier runtime has that version. */
  ghost predicate FirstNearest(rs: seq<Runtime>, major: int, j: int) {
    && 0 <= j < |rs| && rs[j].javaVersion >= major
    && (forall k :: 0 <= k < |rs| && rs[k].javaVersion >= major ==> rs[k].javaVersion >= rs[j].javaVersion)
    && (forall k :: 0 <= k < j && rs[k].javaVersion >= major ==> rs[k].javaVersion > rs[j].javaVersion)
  }

  /** `getNearestJreName`: `findNearestPositive` over the Java versions,
      which keeps the first of several equally near runtimes. */
  function GetNearestJreName(rs: seq<Runtime>, major: int): (name: Option<string>)
    ensures name.None? <==> forall j :: 0 <= j < |rs| ==> rs[j].javaVersion < major
    ensures name.Some? ==> exists j :: FirstNearest(rs, major, j) && rs[j].name == name.value
  {
    match MathUtils.FindNearestPositive(major, rs, JavaVersionOf)
    case None => None
    case Some(ranked) =>
      assert exists j :: FirstNearest(rs, major, j) && rs[j].name == ranked.value.name by {
        var i :| 0 <= i < |rs| && ranked == MathUtils.RankedValue(rs[i], JavaVersionOf(rs[i]) - major)
          && forall j :: 0 <= j < i && JavaVersionOf(rs[j]) >= major ==> JavaVersionOf(rs[j]) - major > ranked.delta;
        assert FirstNearest(rs, major, i);
      }
      Some(ranked.value.name)
  }

  /** `getNearestJreName` with the search exactly as written. */
  function GetNearestJreNameAsWritten(rs: seq<Runtime>, major: int): (name: Option<string>)
    ensures (forall j :: 0 <= j < |rs| ==> rs[j].javaVersion < major) ==> name.None?
    ensures name.Some? ==> exists j :: 0 <= j < |rs| && rs[j].javaVersion >= major && rs[j].name == name.value
  {
    match MathUtils.FindNearestPositiveAsWritten(major, rs, JavaVersionOf)
    case None => None
    case Some(ranked) => Some(ranked.value.name)
  }

  /** The search as written gives the same name whenever no runtime lies
      `Int.MAX_VALUE` or more versions above the request. */
  lemma NearestAsWrittenAgrees(rs: seq<Runtime>, major: int)
    requires forall j :: 0 <= j < |rs| && rs[j].javaVersion >= major ==> rs[j].javaVersion - major < Numerals.INT_MAX
    ensures GetNearestJreNameAsWritten(rs, major) == GetNearestJreName(rs, major)
  {
    MathUtils.AsWrittenAgrees(major, rs, JavaVersionOf);
  }

  /** An exact runtime, when there is one, is also the nearest. */
  lemma ExactIsNearest(rs: seq<Runtime>, major: int)
    requires GetExactJreName(rs, major).Some?
    ensures GetNearestJreName(rs, major) == GetExactJreName(rs, major)
  {
    var k := FirstWithVersion(rs, major).value;
    MathUtils.ExactMatchIsFirst(major, rs, JavaVersionOf, k);
  }
}

/** The app tree's Java runtime manager: the major version is guessed from
    the directory layout (8 when a `jre` directory exists, 17 otherwise),
    runtimes are listed as directories sorted by name, and there is no
    cache. The runtime folder's listing is a parameter. */
module AppRuntimes {
  import opened Wrappers
  import MathUtils

  datatype Runtime = Runtime(name: string, versionString: Option<string>, arch: Option<string>,
                             javaVersion: int, isJDK8: bool)

  /** One entry of the runtime folder: its name, whether it is a directory,
      and what a `jre` child is. */
  datatype Entry = Entry(name: string, isDirectory: bool, jreExists: bool, jreIsDirectory: bool)

  /** `isJDK8`: a `jre` directory exists inside. */
  predicate IsJDK8(e: Entry) {
    e.jreExists && e.jreIsDirectory
  }

  /** `getRuntime`: the version is 8 for the JDK 8 layout and 17 for any
      other; the arch is the JVM's `os.arch`. */
  function GetRuntime(e: Entry, osArch: Option<string>): (r: Runtime)
    ensures r.name == e.name && r.versionString.None? && r.arch == osArch
    ensures r.isJDK8 <==> IsJDK8(e)
    ensures r.javaVersion == 8 <==> IsJDK8(e)
    ensures r.javaVersion == 17 <==> !IsJDK8(e)
  {
    Runtime(e.name, None, osArch, if IsJDK8(e) then 8 else 17, IsJDK8(e))
  }

  /** `getDefaultRuntime`: the first entry of the listing (directory or
      not) whose guessed version reaches the request; none when the listing
      fails. */
  function GetDefaultRuntime(listing: Option<seq<Entry>>, javaVersion: int, osArch: Option<string>): (r: Option<Runtime>)
    ensures listing.None? ==> r.None?
    ensures r.None? ==> listing.None? || forall j :: 0 <= j < |listing.value| ==> GetRuntime(listing.value[j], osArch).javaVersion < javaVersion
    ensures r.Some? ==> listing.Some? && exists i ::
      && 0 <= i < |listing.value| && r.value == GetRuntime(listing.value[i], osArch)
      && r.value.javaVersion >= javaVersion
      && forall j :: 0 <= j < i ==> GetRuntime(listing.value[j], osArch).javaVersion < javaVersion
  {
    match listing
    case None => None
    case Some(es) => FirstReaching(es, javaVersion, osArch)
  }

  function FirstReaching(es: seq<Entry>, javaVersion: int, osArch: Option<string>): (r: Option<Runtime>)
    ensures r.None? ==> forall j :: 0 <= j < |es| ==> GetRuntime(es[j], osArch).javaVersion < javaVersion
    ensures r.Some? ==> exists i ::
      && 0 <= i < |es| && r.value == GetRuntime(es[i], osArch)
      && r.value.javaVersion >= javaVersion
      && forall j :: 0 <= j < i ==> GetRuntime(es[j], osArch).javaVersion < javaVersion
    decreases |es|
  {
    if |es| == 0 then None
    else if GetRuntime(es[0], osArch).javaVersion >= javaVersion then
      Some(GetRuntime(es[0], osArch))
    else
      var r := FirstReaching(es[1..], javaVersion, osArch);
      assert forall j :: 1 <= j < |es| ==> es[1..][j - 1] == es[j];
      r
  }

  // ---------------------------------------------------------------------------
  // Listing, sorted by name
  // ---------------------------------------------------------------------------

  /** Kotlin's `String.compareTo(...) <= 0`: lexicographic on characters,
      a prefix first. */
  predicate NameLe(a: string, b: string)
    decreases |a|
  {
    |a| == 0 || (|b| > 0 && (a[0] < b[0] || (a[0] == b[0] && NameLe(a[1..], b[1..]))))
  }

  lemma {:induction false} NameLeTotal(a: string, b: string)
    ensures NameLe(a, b) || NameLe(b, a)
    decreases |a|
  {
    if |a| > 0 && |b| > 0 && a[0] == b[0] {
      NameLeTotal(a[1..], b[1..]);
    }
  }

  /** Adjacent runtimes are in name order. */
  predicate SortedByName(rs: seq<Runtime>) {
    forall i :: 0 < i < |rs| ==> NameLe(rs[i - 1].name, rs[i].name)
  }

  function Insert(x: Runtime, rs: seq<Runtime>): (r: seq<Runtime>)
    requires SortedByName(rs)
    ensures SortedByName(r)
    ensures multiset(r) == multiset(rs) + multiset{x}
    ensures |r| > 0 && (r[0] == x || (|rs| > 0 && r[0] == rs[0]))
    decreases |rs|
  {
    if |rs| == 0 then [x]
    else if NameLe(x.name, rs[0].name) then [x] + rs
    else
      NameLeTotal(x.name, rs[0].name);
      var tail := Insert(x, rs[1..]);
      assert rs == [rs[0]] + rs[1..];
      [rs[0]] + tail
  }

  /** `sortedBy { it.name }`, as an insertion sort. */
  function SortByName(rs: seq<Runtime>): (r: seq<Runtime>)
    ensures SortedByName(r)
    ensures multiset(r) == multiset(rs)
    decreases |rs|
  {
    if |rs| == 0 then []
    else
      var tail := SortByName(rs[1..]);
      assert rs == [rs[0]] + rs[1..];
      assert multiset(rs) == multiset(rs[1..]) + multiset{rs[0]};
      Insert(rs[0], tail)
  }

  /** The directories of the listing, as runtimes, in listing order. */
  function DirectoryRuntimes(es: seq<Entry>, osArch: Option<string>): (rs: seq<Runtime>)
    ensures forall r :: r in rs <==> exists e :: e in es && e.isDirectory && r == GetRuntime(e, osArch)
    decreases |es|
  {
    if |es| == 0 then []
    else
      var rest := DirectoryRuntimes(es[1..], osArch);
      assert forall e :: e in es <==> e == es[0] || e in es[1..];
      if es[0].isDirectory then [GetRuntime(es[0], osArch)] + rest else rest
  }

  /** `getRuntimes`: empty when the folder is missing or cannot be listed;
      otherwise one runtime per directory, sorted by name. */
  function GetRuntimes(folderExists: bool, listing: Option<seq<Entry>>, osArch: Option<string>): (rs: seq<Runtime>)
    ensures !folderExists || listing.None? ==> rs == []
    ensures SortedByName(rs)
    ensures folderExists && listing.Some? ==>
      forall r :: r in rs <==> exists e :: e in listing.value && e.isDirectory && r == GetRuntime(e, osArch)
  {
    if !folderExists || listing.None? then []
    else
      var unsorted := DirectoryRuntimes(listing.value, osArch);
      var rs := SortByName(unsorted);
      assert forall r :: r in rs <==> r in multiset(rs);
      assert forall r :: r in unsorted <==> r in multiset(unsorted);
      rs
  }

  /** Every listed runtime is version 8 or 17, agreeing with its layout. */
  lemma ListedVersions(folderExists: bool, listing: Option<seq<Entry>>, osArch: Option<string>)
    ensures forall r :: r in GetRuntimes(folderExists, listing, osArch) ==>
      (r.javaVersion == 8 && r.isJDK8) || (r.javaVersion == 17 && !r.isJDK8)
  {
  }

  // ---------------------------------------------------------------------------
  // Choosing by version
  // ---------------------------------------------------------------------------

  /** `getExactJreName`: the first runtime with that version. */
  function GetExactJreName(rs: seq<Runtime>, major: int): (name: Option<string>)
    ensures name.Some? <==> exists j :: 0 <= j < |rs| && rs[j].javaVersion == major
    ensures name.Some? ==> exists j ::
      && 0 <= j < |rs| && rs[j].javaVersion == major && rs[j].name == name.value
      && forall k :: 0 <= k < j ==> rs[k].javaVersion != major
    decreases |rs|
  {
    if |rs| == 0 then None
    else if rs[0].javaVersion == major then Some(rs[0].name)
    else
      var r := GetExactJreName(rs[1..], major);
      assert forall j :: 1 <= j < |rs| ==> rs[1..][j - 1] == rs[j];
      r
  }

  /** Kotlin `filter { it.javaVersion >= major }`. */
  function AtLeast(rs: seq<Runtime>, major: int): seq<Runtime>
    decreases |rs|
  {
    if |rs| == 0 then []
    else (if rs[0].javaVersion >= major then [rs[0]] else []) + AtLeast(rs[1..], major)
  }

  /** Kotlin `minByOrNull { it.javaVersion }`, continuing from the running
      minimum `best`: a later element replaces it only when strictly
      smaller. */
  function MinByFrom(best: Option<Runtime>, rs: seq<Runtime>): Option<Runtime>
    decreases |rs|
  {
    if |rs| == 0 then best
    else
      var next := if best.None? || rs[0].javaVersion < best.value.javaVersion then Some(rs[0]) else best;
      MinByFrom(next, rs[1..])
  }

  /** `getNearestJreName`: nothing when no runtime reaches the request,
      otherwise the name of the first of the least versions that reach it. */
  function GetNearestJreName(rs: seq<Runtime>, major: int): (r: Option<string>)
    ensures r.None? <==> forall j :: 0 <= j < |rs| ==> rs[j].javaVersion < major
    ensures r.Some? ==> exists i: nat :: IsFirstLeast(rs, major, i) && rs[i].name == r.value
  {
    var m := MinByFrom(None, AtLeast(rs, major));
    assert (m.None? <==> forall j :: 0 <= j < |rs| ==> rs[j].javaVersion < major)
      && (m.Some? ==> exists i: nat :: IsFirstLeast(rs, major, i) && rs[i] == m.value) by {
      FilterThenMin(rs, major, 0, None);
      assert rs[0..] == rs;
      NearestFromIsFirstLeast(rs, major, 0, None);
      var k := NearestFrom(rs, major, 0, None);
      if k.Some? {
        assert IsFirstLeast(rs, major, k.value);
      }
    }
    match m
    case None => None
    case Some(r) => Some(r.name)
  }

  /** The filtered minimum, computed in one pass with the index. */
  function NearestFrom(rs: seq<Runtime>, major: int, i: nat, best: Option<nat>): Option<nat>
    requires i <= |rs|
    requires best.Some? ==> best.value < i
    decreases |rs| - i
  {
    if i == |rs| then best
    else if rs[i].javaVersion >= major && (best.None? || rs[i].javaVersion < rs[best.value].javaVersion) then
      NearestFrom(rs, major, i + 1, Some(i))
    else NearestFrom(rs, major, i + 1, best)
  }

  function Slot(rs: seq<Runtime>, k: Option<nat>): Option<Runtime> {
    if k.Some? && k.value < |rs| then Some(rs[k.value]) else None
  }

  lemma {:induction false} NearestFromBounded(rs: seq<Runtime>, major: int, i: nat, best: Option<nat>)
    requires i <= |rs|
    requires best.Some? ==> best.value < i
    ensures var r := NearestFrom(rs, major, i, best); r.Some? ==> r.value < |rs|
    decreases |rs| - i
  {
    if i < |rs| {
      if rs[i].javaVersion >= major && (best.None? || rs[i].javaVersion < rs[best.value].javaVersion) {
        NearestFromBounded(rs, major, i + 1, Some(i));
      } else {
        NearestFromBounded(rs, major, i + 1, best);
      }
    }
  }

  /** Filtering then taking the minimum is the one-pass scan. */
  lemma {:induction false} FilterThenMin(rs: seq<Runtime>, major: int, i: nat, best: Option<nat>)
    requires i <= |rs|
    requires best.Some? ==> best.value < i
    ensures NearestFrom(rs, major, i, best).Some? ==> NearestFrom(rs, major, i, best).value < |rs|
    ensures MinByFrom(Slot(rs, best), AtLeast(rs[i..], major)) == Slot(rs, NearestFrom(rs, major, i, best))
    decreases |rs| - i
  {
    NearestFromBounded(rs, major, i, best);
    if i < |rs| {
      assert rs[i..][1..] == rs[i + 1..];
      var kept := if rs[i].javaVersion >= major then [rs[i]] else [];
      assert AtLeast(rs[i..], major) == kept + AtLeast(rs[i + 1..], major);
      if rs[i].javaVersion >= major {
        assert ([rs[i]] + AtLeast(rs[i + 1..], major))[1..] == AtLeast(rs[i + 1..], major);
        if best.None? || rs[i].javaVersion < rs[best.value].javaVersion {
          FilterThenMin(rs, major, i + 1, Some(i));
        } else {
          FilterThenMin(rs, major, i + 1, best);
        }
      } else {
        assert [] + AtLeast(rs[i + 1..], major) == AtLeast(rs[i + 1..], major);
        FilterThenMin(rs, major, i + 1, best);
      }
    }
  }

  /** The scan finds the first of the least versions that reach the
      request. */
  lemma {:induction false} NearestFromIsFirstLeast(rs: seq<Runtime>, major: int, i: nat, best: Option<nat>)
    requires i <= |rs|
    requires best.None? <==> forall j :: 0 <= j < i ==> rs[j].javaVersion < major
    requires best.Some? ==>
      && best.value < i && rs[best.value].javaVersion >= major
      && (forall j :: 0 <= j < i && rs[j].javaVersion >= major ==> rs[j].javaVersion >= rs[best.value].javaVersion)
      && (forall j :: 0 <= j < best.value && rs[j].javaVersion >= major ==> rs[j].javaVersion > rs[best.value].javaVersion)
    ensures var r := NearestFrom(rs, major, i, best);
      && (r.None? <==> forall j :: 0 <= j < |rs| ==> rs[j].javaVersion < major)
      && (r.Some? ==>
            && r.value < |rs| && rs[r.value].javaVersion >= major
            && (forall j :: 0 <= j < |rs| && rs[j].javaVersion >= major ==> rs[j].javaVersion >= rs[r.value].javaVersion)
            && (forall j :: 0 <= j < r.value && rs[j].javaVersion >= major ==> rs[j].javaVersion > rs[r.value].javaVersion))
    decreases |rs| - i
  {
    if i < |rs| {
      if rs[i].javaVersion >= major && (best.None? || rs[i].javaVersion < rs[best.value].javaVersion) {
        NearestFromIsFirstLeast(rs, major, i + 1, Some(i));
      } else {
        NearestFromIsFirstLeast(rs, major, i + 1, best);
      }
    }
  }

  function JavaVersionOf(r: Runtime): int {
    r.javaVersion
  }

  /** The app's filter-then-minimum picks the same runtime as
      `findNearestPositive` (the intended one): the first of the least
      versions that reach the request. */
  lemma NearestAgreesWithFindNearestPositive(rs: seq<Runtime>, major: int)
    ensures var fnp := MathUtils.FindNearestPositive(major, rs, JavaVersionOf);
      GetNearestJreName(rs, major) == if fnp.None? then None else Some(fnp.value.value.name)
  {
    NearestByScan(rs, major);
    NearestFromIsFirstLeast(rs, major, 0, None);
    var r := NearestFrom(rs, major, 0, None);
    var fnp := MathUtils.FindNearestPositive(major, rs, JavaVersionOf);
    if r.None? {
      assert fnp.None?;
    } else {
      assert IsFirstLeast(rs, major, r.value);
      var i := FindNearestIndex(rs, major);
      FirstLeastUnique(rs, major, i, r.value);
    }
  }

  /** Index `i` holds the first of the least versions that reach the request. */
  predicate IsFirstLeast(rs: seq<Runtime>, major: int, i: nat) {
    && i < |rs| && rs[i].javaVersion >= major
    && (forall j :: 0 <= j < |rs| && rs[j].javaVersion >= major ==> rs[j].javaVersion >= rs[i].javaVersion)
    && (forall j :: 0 <= j < i && rs[j].javaVersion >= major ==> rs[j].javaVersion > rs[i].javaVersion)
  }

  /** `findNearestPositive` over the Java versions returns the first of the
      least versions reaching the request. */
  lemma FindNearestIndex(rs: seq<Runtime>, major: int) returns (i: nat)
    requires MathUtils.FindNearestPositive(major, rs, JavaVersionOf).Some?
    ensures IsFirstLeast(rs, major, i)
    ensures MathUtils.FindNearestPositive(major, rs, JavaVersionOf).value.value == rs[i]
  {
    var fnp := MathUtils.FindNearestPositive(major, rs, JavaVersionOf);
    i :| 0 <= i < |rs| && fnp.value == MathUtils.RankedValue(rs[i], JavaVersionOf(rs[i]) - major)
      && forall j :: 0 <= j < i && JavaVersionOf(rs[j]) >= major ==> JavaVersionOf(rs[j]) - major > fnp.value.delta;
  }

  /** `getNearestJreName` names the runtime the one-pass scan picks. */
  lemma NearestByScan(rs: seq<Runtime>, major: int)
    ensures var r := NearestFrom(rs, major, 0, None);
      (r.Some? ==> r.value < |rs|)
      && GetNearestJreName(rs, major) == if r.None? then None else Some(rs[r.value].name)
  {
    FilterThenMin(rs, major, 0, None);
    assert rs[0..] == rs;
  }

  /** Two indices that are each the first of the least versions reaching the
      request are the same index. */
  lemma FirstLeastUnique(rs: seq<Runtime>, major: int, i: nat, k: nat)
    requires IsFirstLeast(rs, major, i) && IsFirstLeast(rs, major, k)
    ensures i == k
  {
  }

  /** `loadRuntime`: the empty name gives a placeholder with version 0 and
      no arch; any other name is `getRuntime`. */
  function LoadRuntime(name: string, e: Entry, osArch: Option<string>): (r: Runtime)
    requires e.name == name
    ensures name == "" ==> r == Runtime("", None, None, 0, false)
    ensures name != "" ==> r == GetRuntime(e, osArch) && (r.javaVersion == 8 || r.javaVersion == 17)
  {
    if name == "" then Runtime("", None, None, 0, false) else GetRuntime(e, osArch)
  }
}

=== FILE: sender_strategy.dfy ===
/** The character-sender interface shared by the game's input layers: an
    implementation supplies `sendChar` and `sendKeyPress`, and the interface
    builds Enter, Tab, Backspace and the four arrow keys out of them.

    A default method is modelled by the sequence of calls it makes on the two
    abstract methods, so every implementation inherits its facts. */
module SenderStrategy {
  import opened Keycodes
  import Text

  /** A call on one of the two abstract methods. */
  datatype SenderCall =
    | SendChar(c: Text.CodeUnit)
    | SendKeyPress(keyCode: int, keyChar: Text.CodeUnit, mods: int, isPressed: bool)

  /** The default methods. */
  datatype Composite = Enter | Tab | Backspace | ArrowUp | ArrowDown | ArrowLeft | ArrowRight

  const BACKSPACE_CHAR: Text.CodeUnit := 8
  const NUL_CHAR: Text.CodeUnit := 0
  const NEWLINE: Text.CodeUnit := 0x0A
  const TAB: Text.CodeUnit := 0x09

  /** A press of `keyCode` immediately followed by its release, both with
      the same character and no modifiers. */
  predicate IsTap(calls: seq<SenderCall>, keyCode: int, keyChar: Text.CodeUnit) {
    && |calls| == 2
    && calls[0] == SendKeyPress(keyCode, keyChar, 0, true)
    && calls[1] == SendKeyPress(keyCode, keyChar, 0, false)
  }

  /** The Android key code and character a key-pressing default method uses. */
  function TapKey(m: Composite): (r: (int, Text.CodeUnit))
    requires !m.Enter? && !m.Tab?
  {
    match m
    case Backspace => (KEYCODE_DEL, BACKSPACE_CHAR)
    case ArrowUp => (KEYCODE_DPAD_UP, NUL_CHAR)
    case ArrowDown => (KEYCODE_DPAD_DOWN, NUL_CHAR)
    case ArrowLeft => (KEYCODE_DPAD_LEFT, NUL_CHAR)
    case ArrowRight => (KEYCODE_DPAD_RIGHT, NUL_CHAR)
  }

  /** The calls one default method makes. Enter and Tab type one control
      character; the others tap a key: the press is sent first and the
      release is chained after it. */
  function Calls(m: Composite): (r: seq<SenderCall>)
    ensures m.Enter? ==> r == [SendChar(NEWLINE)]
    ensures m.Tab? ==> r == [SendChar(TAB)]
    ensures !m.Enter? && !m.Tab? ==> IsTap(r, TapKey(m).0, TapKey(m).1)
  {
    match m
    case Enter => [SendChar(NEWLINE)]
    case Tab => [SendChar(TAB)]
    case _ =>
      var (code, ch) := TapKey(m);
      [SendKeyPress(code, ch, 0, true), SendKeyPress(code, ch, 0, false)]
  }

  /** The calls a run of default methods makes, in order. */
  function Script(ms: seq<Composite>): (r: seq<SenderCall>)
    decreases |ms|
  {
    if |ms| == 0 then [] else Calls(ms[0]) + Script(ms[1..])
  }

  /** The Android keys held down after a sequence of calls, starting from
      `held`: a press adds its key, a release removes it. */
  function Held(held: set<int>, calls: seq<SenderCall>): set<int>
    decreases |calls|
  {
    if |calls| == 0 then held
    else
      var next := match calls[0]
        case SendChar(_) => held
        case SendKeyPress(k, _, _, pressed) => if pressed then held + {k} else held - {k};
      Held(next, calls[1..])
  }

  lemma {:induction false} HeldAppend(held: set<int>, a: seq<SenderCall>, b: seq<SenderCall>)
    ensures Held(held, a + b) == Held(Held(held, a), b)
    decreases |a|
  {
    if |a| == 0 {
      assert a + b == b;
    } else {
      assert (a + b)[0] == a[0] && (a + b)[1..] == a[1..] + b;
      var next := match a[0]
        case SendChar(_) => held
        case SendKeyPress(k, _, _, pressed) => if pressed then held + {k} else held - {k};
      HeldAppend(next, a[1..], b);
    }
  }

  /** A tap ends with its key up and every other key as it was. */
  lemma TapHeld(h: set<int>, r: seq<SenderCall>, k: int, c: Text.CodeUnit)
    requires IsTap(r, k, c)
    ensures Held(h, r) == (h + {k}) - {k}
  {
    assert r[1..][1..] == [];
    assert Held(h + {k}, r[1..]) == Held((h + {k}) - {k}, r[1..][1..]);
    assert Held(h, r) == Held(h + {k}, r[1..]);
  }

  /** A single default method releases every key it presses, and no key
      that was up before is down after it. */
  lemma CompositeReleases(held: set<int>, m: Composite)
    ensures Held(held, Calls(m)) <= held
    ensures Held({}, Calls(m)) == {}
  {
    var r := Calls(m);
    if !m.Enter? && !m.Tab? {
      TapHeld(held, r, TapKey(m).0, TapKey(m).1);
      TapHeld({}, r, TapKey(m).0, TapKey(m).1);
    } else {
      assert r[1..] == [];
      assert Held(held, r) == Held(held, r[1..]);
      assert Held({}, r) == Held({}, r[1..]);
    }
  }

  /** However the default methods are combined, nothing stays held down. */
  lemma {:induction false} ScriptLeavesNothingHeld(ms: seq<Composite>)
    ensures Held({}, Script(ms)) == {}
    decreases |ms|
  {
    if |ms| > 0 {
      HeldAppend({}, Calls(ms[0]), Script(ms[1..]));
      CompositeReleases({}, ms[0]);
      ScriptLeavesNothingHeld(ms[1..]);
    }
  }

  /** The number of `sendKeyPress` calls in a call sequence. */
  function KeyPresses(calls: seq<SenderCall>): nat
    decreases |calls|
  {
    if |calls| == 0 then 0
    else (if calls[0].SendKeyPress? then 1 else 0) + KeyPresses(calls[1..])
  }

  lemma {:induction false} KeyPressesAppend(a: seq<SenderCall>, b: seq<SenderCall>)
    ensures KeyPresses(a + b) == KeyPresses(a) + KeyPresses(b)
    decreases |a|
  {
    if |a| == 0 {
      assert a + b == b;
    } else {
      assert (a + b)[0] == a[0] && (a + b)[1..] == a[1..] + b;
      KeyPressesAppend(a[1..], b);
    }
  }

  /** A run of default methods makes two key calls per key-tapping method
      and one character call per Enter or Tab. */
  lemma {:induction false} ScriptCounts(ms: seq<Composite>)
    ensures KeyPresses(Script(ms)) == 2 * Taps(ms)
    ensures |Script(ms)| == 2 * Taps(ms) + (|ms| - Taps(ms))
    decreases |ms|
  {
    if |ms| > 0 {
      KeyPressesAppend(Calls(ms[0]), Script(ms[1..]));
      ScriptCounts(ms[1..]);
      var r := Calls(ms[0]);
      if !ms[0].Enter? && !ms[0].Tab? {
        assert r[1..][1..] == [];
      } else {
        assert r[1..] == [];
      }
    }
  }

  /** How many of `ms` tap a key. */
  function Taps(ms: seq<Composite>): (n: nat)
    ensures n <= |ms|
    decreases |ms|
  {
    if |ms| == 0 then 0 else (if ms[0].Enter? || ms[0].Tab? then 0 else 1) + Taps(ms[1..])
  }
}

=== FILE: setting_unit.dfy ===
/** The app tree's setting unit: a keyed setting with a default that reads
    and writes through a settings repository, refusing both until it has
    been given one. The subclass's read and write hooks are parameters. */
module SettingUnit {
  import opened Wrappers
  import opened Text

  /** A unit's state: its key, its default and, once `init` ran, its
      repository. */
  datatype Unit<T, R> = Unit(key: string, defaultValue: T, repository: Option<R>)

  /** The `IllegalStateException` a use before `init` raises. */
  datatype SettingError = NotInitialized(message: string)

  function NotInitializedMessage(key: string): string {
    "Setting '" + key + "' not initialized. Call init() first."
  }

  /** A fresh unit has no repository. */
  function NewUnit<T, R>(key: string, defaultValue: T): (u: Unit<T, R>)
    ensures u.key == key && u.defaultValue == defaultValue && u.repository.None?
  {
    Unit(key, defaultValue, None)
  }

  predicate Initialized<T, R>(u: Unit<T, R>) {
    u.repository.Some?
  }

  /** `init`: install the repository (a second call replaces it); key and
      default never change. */
  function Init<T, R>(u: Unit<T, R>, repo: R): (v: Unit<T, R>)
    ensures Initialized(v) && v.repository.value == repo
    ensures v.key == u.key && v.defaultValue == u.defaultValue
  {
    u.(repository := Some(repo))
  }

  /** `getValue`: the subclass's read of the repository, or the error naming
      the key when not initialised. */
  function GetValue<T, R>(u: Unit<T, R>, readValue: (R, string) -> T): (r: Result<T, SettingError>)
    ensures r.Success? <==> Initialized(u)
    ensures r.Success? ==> r.value == readValue(u.repository.value, u.key)
    ensures r.Failure? ==> r.error == NotInitialized(NotInitializedMessage(u.key))
  {
    match u.repository
    case None => Failure(NotInitialized(NotInitializedMessage(u.key)))
    case Some(repo) => Success(readValue(repo, u.key))
  }

  /** `setValue`: the subclass's write into the repository, giving the
      repository as it is afterwards, or the same error. */
  function SetValue<T, R>(u: Unit<T, R>, value: T, writeValue: (R, string, T) -> R): (r: Result<Unit<T, R>, SettingError>)
    ensures r.Success? <==> Initialized(u)
    ensures r.Success? ==> r.value.key == u.key && r.value.defaultValue == u.defaultValue
    ensures r.Success? ==> r.value.repository == Some(writeValue(u.repository.value, u.key, value))
    ensures r.Failure? ==> r.error == NotInitialized(NotInitializedMessage(u.key))
  {
    match u.repository
    case None => Failure(NotInitialized(NotInitializedMessage(u.key)))
    case Some(repo) => Success(u.(repository := Some(writeValue(repo, u.key, value))))
  }

  /** The error message names the setting's key, right after "Setting '". */
  lemma MessageNamesKey(key: string)
    ensures OccursAt(NotInitializedMessage(key), key, 9)
    ensures StartsWith(NotInitializedMessage(key), "Setting '")
  {
    var m := NotInitializedMessage(key);
    assert m[9..9 + |key|] == key;
    assert m[..9] == "Setting '";
  }

  /** Before `init` every access fails; after `init` every access succeeds,
      and with a repository whose read returns the last write, a value set
      reads back. */
  lemma InitEnablesAccess<T, R>(u: Unit<T, R>, repo: R, value: T,
                                readValue: (R, string) -> T, writeValue: (R, string, T) -> R)
    requires forall q: R, k: string, x: T {:trigger writeValue(q, k, x)} :: readValue(writeValue(q, k, x), k) == x
    ensures !Initialized(u) ==> GetValue(u, readValue).Failure? && SetValue(u, value, writeValue).Failure?
    ensures GetValue(Init(u, repo), readValue).Success?
    ensures SetValue(Init(u, repo), value, writeValue).Success?
    ensures GetValue(SetValue(Init(u, repo), value, writeValue).value, readValue) == Success(value)
  {
  }
}

=== FILE: sl_game_launcher.dfy ===
/** The ShardLauncher tree's game launcher: which account and renderer a
    launch uses, the extra system properties for Forge 1.7.2 and JNA, the
    renderer's environment, the Cacio (AWT) arguments, the runtime choice
    and the Forge splash switch. Settings, the current account, the
    renderer registry, the file system and the GLES probe are parameters. */
module SLGameLauncher {
  import opened Wrappers
  import opened Text
  import opened AccountData
  import Numerals
  import SLLauncher
  import SLRuntimes

  datatype LaunchError = NoAccountSelected | NoCompatibleRenderers

  // ---------------------------------------------------------------------------
  // Account
  // ---------------------------------------------------------------------------

  /** The account a launch uses: the current one, or for a version set to
      offline login a copy typed as a local account. Launching without a
      current account fails. */
  function LaunchAccount(current: Option<Account>, offlineAccountLogin: bool, localType: string): (r: Result<Account, LaunchError>)
    ensures r.Failure? <==> current.None?
    ensures r.Success? ==> r.value.username == current.value.username && r.value.otherBaseUrl == current.value.otherBaseUrl
    ensures r.Success? ==> r.value.accountType == if offlineAccountLogin then Some(localType) else current.value.accountType
  {
    match current
    case None => Failure(NoAccountSelected)
    case Some(a) => if offlineAccountLogin then Success(a.(accountType := Some(localType))) else Success(a)
  }

  // ---------------------------------------------------------------------------
  // Renderer selection
  // ---------------------------------------------------------------------------

  /** The registry's current renderer id, or `None` when none is valid.
      How the registry resolves an id is the parameter `select`. */
  type RendererState = Option<string>

  /** `initializeRenderer` before a launch: a valid renderer stays; else
      the version's renderer id when it has one; else the first compatible
      renderer; with none compatible the launch fails. */
  function InitializeRenderer(current: RendererState, versionRenderer: string, compatible: seq<string>,
                              select: string -> RendererState): (r: Result<RendererState, LaunchError>)
    ensures current.Some? ==> r == Success(current)
    ensures r.Failure? <==> current.None? && versionRenderer == "" && |compatible| == 0
    ensures current.None? && versionRenderer == "" && |compatible| > 0 ==> r == Success(select(compatible[0]))
    ensures current.None? && versionRenderer != "" ==> r == Success(select(versionRenderer))
  {
    if current.Some? then Success(current)
    else if versionRenderer != "" then Success(select(versionRenderer))
    else if |compatible| > 0 then Success(select(compatible[0]))
    else Failure(NoCompatibleRenderers)
  }

  /** The same choice while the environment is prepared: nothing is
      thrown, and without a compatible renderer none is selected. */
  function EnvRenderer(current: RendererState, versionRenderer: string, compatible: seq<string>,
                       select: string -> RendererState): RendererState
  {
    if current.Some? then current
    else if versionRenderer != "" then select(versionRenderer)
    else if |compatible| > 0 then select(compatible[0])
    else None
  }

  /** The environment step picks the renderer the launch picks, and where
      the launch fails it leaves the renderer unset, so no renderer
      variables are exported. */
  lemma EnvAgreesWithLaunch(current: RendererState, versionRenderer: string, compatible: seq<string>,
                            select: string -> RendererState)
    ensures InitializeRenderer(current, versionRenderer, compatible, select).Success? ==>
      EnvRenderer(current, versionRenderer, compatible, select) == InitializeRenderer(current, versionRenderer, compatible, select).value
    ensures InitializeRenderer(current, versionRenderer, compatible, select).Failure? ==>
      EnvRenderer(current, versionRenderer, compatible, select).None?
  {
  }

  // ---------------------------------------------------------------------------
  // putJavaArgs
  // ---------------------------------------------------------------------------

  /** What the launcher reads of the installed version. */
  datatype VersionInfo = VersionInfo(minecraftVersion: string, loaderName: Option<string>)

  const JNA_PREFIX: string := "net.java.dev.jna:jna:"

  /** The first library whose coordinate starts with the JNA prefix. */
  function FirstJna(libs: seq<string>): (r: Option<nat>)
    ensures r.Some? ==> r.value < |libs| && StartsWith(libs[r.value], JNA_PREFIX)
    ensures r.Some? ==> forall j :: 0 <= j < r.value ==> !StartsWith(libs[j], JNA_PREFIX)
    ensures r.None? ==> forall j :: 0 <= j < |libs| ==> !StartsWith(libs[j], JNA_PREFIX)
    decreases |libs|
  {
    if |libs| == 0 then None
    else if StartsWith(libs[0], JNA_PREFIX) then Some(0)
    else match FirstJna(libs[1..])
      case None => None
      case Some(k) => Some(k + 1)
  }

  /** The JNA version: the third ':' component of the first JNA library,
      when there are three. */
  function JnaVersion(libs: Option<seq<string>>): Option<string> {
    if libs.None? then None
    else match FirstJna(libs.value)
      case None => None
      case Some(k) =>
        var parts := Split(libs.value[k], ':');
        if |parts| >= 3 then Some(parts[2]) else None
  }

  /** A plain "group:artifact:version" JNA coordinate gives its version. */
  lemma JnaVersionOfCoordinate(before: seq<string>, v: string, after: seq<string>)
    requires ':' !in v
    requires forall j :: 0 <= j < |before| ==> !StartsWith(before[j], JNA_PREFIX)
    ensures JnaVersion(Some(before + [JNA_PREFIX + v] + after)) == Some(v)
  {
    var libs := before + [JNA_PREFIX + v] + after;
    assert libs[|before|] == JNA_PREFIX + v;
    assert forall j :: 0 <= j < |before| ==> libs[j] == before[j];
    var k := FirstJna(libs).value;
    assert k == |before| by {
      assert StartsWith(libs[|before|], JNA_PREFIX);
      assert !(k < |before|) && !(|before| < k);
    }
    assert JNA_PREFIX + v == "net.java.dev.jna" + [':'] + "jna" + [':'] + v;
    SplitThree("net.java.dev.jna", "jna", v, ':');
  }

  const JNA_BOOT_KEY: string := "jna.boot.library.path"

  function JnaDir(componentsDir: string, version: string): string {
    componentsDir + "/jna/" + version
  }

  /** `putJavaArgs`: the properties this launcher adds to the defaults.
      `sort.patch=true` exactly for Forge on Minecraft 1.7.2; the JNA
      library path and boot path exactly when the JNA version's directory
      exists. */
  function JavaArgExtras(info: Option<VersionInfo>, libs: Option<seq<string>>, componentsDir: string,
                         nativeLibDir: string, dirExists: string -> bool): (r: seq<(string, string)>)
    ensures ("sort.patch", "true") in r <==>
      info.Some? && info.value.minecraftVersion == "1.7.2" && info.value.loaderName == Some("forge")
    ensures (exists v :: (JNA_BOOT_KEY, v) in r) <==>
      JnaVersion(libs).Some? && dirExists(JnaDir(componentsDir, JnaVersion(libs).value))
    ensures JnaVersion(libs).Some? && dirExists(JnaDir(componentsDir, JnaVersion(libs).value)) ==>
      var dir := JnaDir(componentsDir, JnaVersion(libs).value);
      && |r| >= 2
      && r[|r| - 2] == ("java.library.path", dir + ":" + nativeLibDir)
      && r[|r| - 1] == (JNA_BOOT_KEY, dir)
  {
    var is172 := (if info.Some? then info.value.minecraftVersion else "0.0") == "1.7.2";
    var sort := if is172 && info.Some? && info.value.loaderName == Some("forge") then [("sort.patch", "true")] else [];
    var jv := JnaVersion(libs);
    if jv.Some? && dirExists(JnaDir(componentsDir, jv.value)) then
      var dir := JnaDir(componentsDir, jv.value);
      sort + [("java.library.path", dir + ":" + nativeLibDir), (JNA_BOOT_KEY, dir)]
    else sort
  }

  /** When the JNA directory exists and the user does not set the property
      themselves, the JVM is started with that directory as JNA's boot
      library path: the launcher's put replaces the default. */
  lemma JnaPathReachesJvm(env: SLLauncher.LaunchEnv, userHome: Option<string>, userArgs: string,
                          info: Option<VersionInfo>, libs: Option<seq<string>>, componentsDir: string, dirExists: string -> bool)
    requires JnaVersion(libs).Some? && dirExists(JnaDir(componentsDir, JnaVersion(libs).value))
    requires forall u :: u in SLLauncher.ParseJavaArguments(userArgs) ==> !StartsWith(u, "-D" + JNA_BOOT_KEY)
    ensures SLLauncher.PropertyArg((JNA_BOOT_KEY, JnaDir(componentsDir, JnaVersion(libs).value)))
      in SLLauncher.GetJavaArgs(env, userHome, userArgs, JavaArgExtras(info, libs, componentsDir, env.nativeLibDir, dirExists))
  {
    var extras := JavaArgExtras(info, libs, componentsDir, env.nativeLibDir, dirExists);
    var entry := (JNA_BOOT_KEY, JnaDir(componentsDir, JnaVersion(libs).value));
    assert extras[|extras| - 1] == entry;
    PutAllKeepsLast(SLLauncher.BaseProperties(env, userHome), extras);
    var user := SLLauncher.ParseJavaArguments(userArgs);
    JnaKeyHasNoEquals();
    SLLauncher.OverrideByKey(entry.0, entry.1, user);
    var d := SLLauncher.PropertyArg(entry);
    assert d in SLLauncher.KeepDefaults([d], user);
    assert !SLLauncher.Overridden(d, user);
    assert entry in SLLauncher.PutAll(SLLauncher.BaseProperties(env, userHome), extras);
    SLLauncher.DefaultReachesJvm(env, userHome, userArgs, extras, entry);
  }

  lemma JnaKeyHasNoEquals()
    ensures '=' !in JNA_BOOT_KEY
  {
    forall i | 0 <= i < |JNA_BOOT_KEY| ensures JNA_BOOT_KEY[i] != '=' { }
  }

  /** The last entry put is in the resulting list. */
  lemma PutAllKeepsLast(entries: seq<(string, string)>, extra: seq<(string, string)>)
    requires |extra| > 0
    ensures extra[|extra| - 1] in SLLauncher.PutAll(entries, extra)
    decreases |extra|
  {
    if |extra| == 1 {
      assert SLLauncher.PutAll(SLLauncher.Put(entries, extra[0].0, extra[0].1), extra[1..]) ==
        SLLauncher.Put(entries, extra[0].0, extra[0].1);
    } else {
      PutAllKeepsLast(SLLauncher.Put(entries, extra[0].0, extra[0].1), extra[1..]);
      assert extra[1..][|extra[1..]| - 1] == extra[|extra| - 1];
    }
  }

  // ---------------------------------------------------------------------------
  // Renderer environment
  // ---------------------------------------------------------------------------

  /** What the environment needs of the current renderer. */
  datatype RendererInfo = RendererInfo(id: string, env: map<string, string>, egl: Option<string>, library: Option<string>)

  /** A selected renderer plugin: its directory, GL library name and the
      libraries it asks to load. */
  datatype RendererPlugin = RendererPlugin(path: string, glName: string, dlopen: seq<string>)

  /** The global renderer switches. */
  datatype GraphicsSettings = GraphicsSettings(dumpShaders: bool, zinkPreferSystemDriver: bool, vsyncInZink: bool,
                                               bigCoreAffinity: bool, sustainedPerformance: bool)

  /** The fixed GL4ES set for the "opengles2" renderers. */
  const GL4ES_ENV: map<string, string> := map[
    "LIBGL_ES" := "2", "LIBGL_MIPMAP" := "3", "LIBGL_NOERROR" := "1",
    "LIBGL_NOINTOVLHACK" := "1", "LIBGL_NORMALIZE" := "1"]

  /** The Mesa entries for a Zink renderer. */
  function ZinkEnv(cacheDir: string, mesaName: string): map<string, string> {
    map["MESA_LOADER_DRIVER_OVERRIDE" := "zink", "MESA_GLSL_CACHE_DIR" := cacheDir,
        "force_glsl_extensions_warn" := "true", "allow_higher_compat_version" := "true",
        "allow_glsl_extension_directive_midshader" := "true", "LIB_MESA_NAME" := mesaName]
  }

  /** Every variable a setting can switch on. */
  const SETTING_VARS: set<string> := {"LIBGL_VGPU_DUMP", "POJAV_ZINK_PREFER_SYSTEM_DRIVER", "POJAV_VSYNC_IN_ZINK",
                                      "POJAV_BIG_CORE_AFFINITY", "POJAV_SUSTAINED_PERFORMANCE"}

  /** The variables named by the switched-on settings, one per setting. */
  function SettingKeys(s: GraphicsSettings): (ks: set<string>)
    ensures ks <= SETTING_VARS
    ensures s.dumpShaders <==> "LIBGL_VGPU_DUMP" in ks
    ensures s.zinkPreferSystemDriver <==> "POJAV_ZINK_PREFER_SYSTEM_DRIVER" in ks
    ensures s.vsyncInZink <==> "POJAV_VSYNC_IN_ZINK" in ks
    ensures s.bigCoreAffinity <==> "POJAV_BIG_CORE_AFFINITY" in ks
    ensures s.sustainedPerformance <==> "POJAV_SUSTAINED_PERFORMANCE" in ks
  {
    (if s.dumpShaders then {"LIBGL_VGPU_DUMP"} else {})
    + (if s.zinkPreferSystemDriver then {"POJAV_ZINK_PREFER_SYSTEM_DRIVER"} else {})
    + (if s.vsyncInZink then {"POJAV_VSYNC_IN_ZINK"} else {})
    + (if s.bigCoreAffinity then {"POJAV_BIG_CORE_AFFINITY"} else {})
    + (if s.sustainedPerformance then {"POJAV_SUSTAINED_PERFORMANCE"} else {})
  }

  /** The variables the renderer environment sets besides the settings are
      none of the settings' variables. */
  lemma NotSettingVars()
    ensures "LIBGL_ES" !in SETTING_VARS && "POJAV_RENDERER" !in SETTING_VARS && "POJAVEXEC_EGL" !in SETTING_VARS
    ensures "MESA_LOADER_DRIVER_OVERRIDE" !in SETTING_VARS && "LIB_MESA_NAME" !in SETTING_VARS
  {
  }

  /** One "1" entry per switched-on setting, and nothing else. */
  function SettingsEnv(s: GraphicsSettings): (m: map<string, string>)
    ensures m.Keys == SettingKeys(s)
    ensures forall k :: k in m ==> m[k] == "1"
  {
    map k | k in SettingKeys(s) :: "1"
  }

  /** `loadGraphicsLibrary`: the plugin's GL library inside its directory,
      else the renderer's own library. */
  function LoadGraphicsLibrary(plugin: Option<RendererPlugin>, rendererLibrary: Option<string>): (lib: Option<string>)
    ensures plugin.Some? ==> lib == Some(plugin.value.path + "/" + plugin.value.glName)
    ensures plugin.None? ==> lib == rendererLibrary
  {
    if plugin.Some? then Some(plugin.value.path + "/" + plugin.value.glName) else rendererLibrary
  }

  /** The GLES version exported when nothing set LIBGL_ES: "2" on a device
      without GLES 3; otherwise the number in an "opengles" id ("_5"
      dropped), or "3". */
  function GlesVersion(id: string, glesMajor: int): string {
    if glesMajor < 3 then "2"
    else if StartsWith(id, "opengles") then ReplaceAll(ReplaceAll(id, "opengles", ""), "_5", "")
    else "3"
  }

  /** The entries every renderer gets: the GL4ES set for "opengles2" ids,
      overridden by the renderer's own map, then the EGL name and the
      renderer id. */
  function CommonRendererEnv(env: map<string, string>, r: RendererInfo): (m: map<string, string>)
    ensures "POJAV_RENDERER" in m && m["POJAV_RENDERER"] == r.id
    ensures r.egl.Some? ==> "POJAVEXEC_EGL" in m && m["POJAVEXEC_EGL"] == r.egl.value
    ensures forall k :: k in r.env && k != "POJAV_RENDERER" && (r.egl.None? || k != "POJAVEXEC_EGL") ==>
      k in m && m[k] == r.env[k]
    ensures StartsWith(r.id, "opengles2") ==>
      forall k :: k in GL4ES_ENV && k !in r.env ==> k in m && m[k] == GL4ES_ENV[k]
    ensures forall k :: k in m ==>
      k in env || k in r.env || k == "POJAV_RENDERER" || k == "POJAVEXEC_EGL" || (StartsWith(r.id, "opengles2") && k in GL4ES_ENV)
  {
    var gl := if StartsWith(r.id, "opengles2") then env + GL4ES_ENV else env;
    var withRenderer := gl + r.env;
    var withEgl := if r.egl.Some? then withRenderer["POJAVEXEC_EGL" := r.egl.value] else withRenderer;
    withEgl["POJAV_RENDERER" := r.id]
  }

  /** The Zink entries are none of the renderer's own keys. */
  lemma ZinkKeys(cacheDir: string, mesaName: string)
    ensures "POJAV_RENDERER" !in ZinkEnv(cacheDir, mesaName)
    ensures "POJAVEXEC_EGL" !in ZinkEnv(cacheDir, mesaName)
    ensures "LIBGL_ES" !in ZinkEnv(cacheDir, mesaName)
  {
  }

  /** The Zink entries a non-"opengles" renderer gets on top of the common
      ones. */
  function WithZink(common: map<string, string>, r: RendererInfo, cacheDir: string): (m: map<string, string>)
    ensures StartsWith(r.id, "opengles") ==> m == common
    ensures !StartsWith(r.id, "opengles") ==>
      && "MESA_LOADER_DRIVER_OVERRIDE" in m && m["MESA_LOADER_DRIVER_OVERRIDE"] == "zink"
      && "LIB_MESA_NAME" in m && m["LIB_MESA_NAME"] == r.library.GetOr("null")
      && "MESA_GLSL_CACHE_DIR" in m && m["MESA_GLSL_CACHE_DIR"] == cacheDir
    ensures forall k :: k in common && k !in ZinkEnv(cacheDir, r.library.GetOr("null")) ==> k in m && m[k] == common[k]
    ensures forall k :: k in m ==> k in common || k in ZinkEnv(cacheDir, r.library.GetOr("null"))
  {
    if !StartsWith(r.id, "opengles") then common + ZinkEnv(cacheDir, LoadGraphicsLibrary(None, r.library).GetOr("null")) else common
  }

  /** LIBGL_ES filled in when still missing. */
  function WithGles(m0: map<string, string>, id: string, glesMajor: int): (m: map<string, string>)
    ensures "LIBGL_ES" in m
    ensures "LIBGL_ES" in m0 ==> m == m0
    ensures "LIBGL_ES" !in m0 ==> m == m0["LIBGL_ES" := GlesVersion(id, glesMajor)]
  {
    if "LIBGL_ES" in m0 then m0 else m0["LIBGL_ES" := GlesVersion(id, glesMajor)]
  }

  /** `setRendererEnv`. A selected plugin stops after the common entries.
      Otherwise a non-"opengles" renderer gets the Zink entries, LIBGL_ES is
      filled in when still missing, and the switched-on settings follow. */
  function SetRendererEnv(env: map<string, string>, r: RendererInfo, plugin: Option<RendererPlugin>,
                          cacheDir: string, glesMajor: int, s: GraphicsSettings): (m: map<string, string>)
    ensures "POJAV_RENDERER" in m && m["POJAV_RENDERER"] == r.id
    ensures r.egl.Some? ==> "POJAVEXEC_EGL" in m && m["POJAVEXEC_EGL"] == r.egl.value
    ensures plugin.Some? ==> m == CommonRendererEnv(env, r)
    ensures plugin.None? ==> "LIBGL_ES" in m
    ensures plugin.None? ==> forall k :: k in SettingsEnv(s) ==> k in m && m[k] == "1"
  {
    var common := CommonRendererEnv(env, r);
    if plugin.Some? then common
    else
      ZinkKeys(cacheDir, r.library.GetOr("null"));
      NotSettingVars();
      WithGles(WithZink(common, r, cacheDir), r.id, glesMajor) + SettingsEnv(s)
  }

  /** Without a plugin, a non-"opengles" renderer runs on Zink, with the
      renderer's library as Mesa's name ("null" when it has none). */
  lemma ZinkForOtherRenderers(env: map<string, string>, r: RendererInfo, cacheDir: string, glesMajor: int, s: GraphicsSettings)
    requires !StartsWith(r.id, "opengles")
    ensures var m := SetRendererEnv(env, r, None, cacheDir, glesMajor, s);
      && "MESA_LOADER_DRIVER_OVERRIDE" in m && m["MESA_LOADER_DRIVER_OVERRIDE"] == "zink"
      && "LIB_MESA_NAME" in m && m["LIB_MESA_NAME"] == r.library.GetOr("null")
  {
    var z := WithZink(CommonRendererEnv(env, r), r, cacheDir);
    assert "MESA_LOADER_DRIVER_OVERRIDE" in z && "LIB_MESA_NAME" in z;
    assert "MESA_LOADER_DRIVER_OVERRIDE" != "LIBGL_ES" && "LIB_MESA_NAME" != "LIBGL_ES";
    NotSettingVars();
  }

  /** LIBGL_ES, when no plugin is selected: the renderer's own value wins;
      else the GL4ES "2" for "opengles2" ids; else what the environment
      already held; else the detected version. */
  lemma LibglEsPrecedence(env: map<string, string>, r: RendererInfo, cacheDir: string, glesMajor: int, s: GraphicsSettings)
    ensures var m := SetRendererEnv(env, r, None, cacheDir, glesMajor, s);
      && ("LIBGL_ES" in r.env ==> m["LIBGL_ES"] == r.env["LIBGL_ES"])
      && ("LIBGL_ES" !in r.env && StartsWith(r.id, "opengles2") ==> m["LIBGL_ES"] == "2")
      && ("LIBGL_ES" !in r.env && !StartsWith(r.id, "opengles2") && "LIBGL_ES" in env ==> m["LIBGL_ES"] == env["LIBGL_ES"])
      && ("LIBGL_ES" !in r.env && !StartsWith(r.id, "opengles2") && "LIBGL_ES" !in env ==> m["LIBGL_ES"] == GlesVersion(r.id, glesMajor))
  {
    var common := CommonRendererEnv(env, r);
    LibglEsFromCommon(env, r, cacheDir, glesMajor, s);
    assert "LIBGL_ES" != "POJAV_RENDERER" && "LIBGL_ES" != "POJAVEXEC_EGL";
    if "LIBGL_ES" !in r.env && !StartsWith(r.id, "opengles2") && "LIBGL_ES" in env {
      assert common["LIBGL_ES"] == env["LIBGL_ES"];
    }
  }

  /** Without a plugin, LIBGL_ES is the common entries' value, or the
      detected version when they have none. */
  lemma LibglEsFromCommon(env: map<string, string>, r: RendererInfo, cacheDir: string, glesMajor: int, s: GraphicsSettings)
    ensures var common := CommonRendererEnv(env, r);
      SetRendererEnv(env, r, None, cacheDir, glesMajor, s)["LIBGL_ES"]
        == if "LIBGL_ES" in common then common["LIBGL_ES"] else GlesVersion(r.id, glesMajor)
  {
    ZinkKeys(cacheDir, r.library.GetOr("null"));
    NotSettingVars();
  }

  /** The detected version for the two GLES renderer ids on a GLES 3
      device. */
  lemma GlesVersionOfIds()
    ensures GlesVersion("opengles3", 3) == "3"
    ensures GlesVersion("opengles3_5", 3) == "3"
    ensures GlesVersion("vulkan_zink", 3) == "3"
    ensures GlesVersion("opengles3", 2) == "2"
  {
    assert "opengles3" == "opengles" + "3";
    assert StartsWith("opengles3", "opengles");
    assert "vulkan_zink"[0] == 'v';
  }

  // ---------------------------------------------------------------------------
  // Cacio arguments
  // ---------------------------------------------------------------------------

  /** Opens a package of the java.desktop module to the classpath. */
  function AddExports(pkg: string): (flag: string)
    ensures |flag| > 1 && flag[1] == '-'
  {
    "--add-exports" + "=java.desktop/" + pkg + "=ALL-UNNAMED"
  }

  const ADD_EXPORTS: seq<string> := [
    AddExports("sun.awt"), AddExports("sun.awt.image"), AddExports("sun.java2d"), AddExports("java.awt.peer")]

  /** A system property definition. */
  function SystemProperty(p: string): (def: string)
    ensures |def| > 1 && def[1] == 'D'
  {
    "-D" + p
  }

  function CacioAgent(componentsDir: string): string {
    "-javaagent:" + componentsDir + "/cacio-17/cacio-agent.jar"
  }

  function CacioBootClassPath(componentsDir: string, javaVersion: int): string {
    "-Xbootclasspath/a:" + componentsDir + (if javaVersion >= 17 then "/cacio-17" else "/cacio-8") + "/cacio-ttc.jar"
  }

  function CacioHead(windowWidth: int, windowHeight: int): seq<string> {
    [SystemProperty("java.awt.headless=false"),
     SystemProperty("awt.toolkit=net.java.openjdk.cacio.ctk.CToolkit"),
     SystemProperty("java.awt.graphicsenv=net.java.openjdk.cacio.ctk.CGraphicsEnvironment"),
     SystemProperty("glfwstub.windowWidth=" + Numerals.IntToString(windowWidth)),
     SystemProperty("glfwstub.windowHeight=" + Numerals.IntToString(windowHeight)),
     SystemProperty("glfwstub.initEgl=false")]
  }

  /** `getCacioJavaArgs`: the six headless/toolkit/window properties; for a
      runtime other than Java 8 the four module exports and, from Java 17
      on, the Cacio agent; finally the boot class path, taken from the
      Cacio 17 build exactly when the runtime is Java 17 or newer. */
  function CacioJavaArgs(windowWidth: int, windowHeight: int, isJava8: bool, javaVersion: int, componentsDir: string): (r: seq<string>)
    ensures |r| == 7 + (if isJava8 then 0 else 4 + (if javaVersion >= 17 then 1 else 0))
    ensures r[..6] == CacioHead(windowWidth, windowHeight)
    ensures r[|r| - 1] == CacioBootClassPath(componentsDir, javaVersion)
    ensures !isJava8 ==> r[6..10] == ADD_EXPORTS
    ensures !isJava8 && javaVersion >= 17 ==> r[10] == CacioAgent(componentsDir)
  {
    var middle := if isJava8 then [] else ADD_EXPORTS + (if javaVersion >= 17 then [CacioAgent(componentsDir)] else []);
    var r := CacioHead(windowWidth, windowHeight) + middle + [CacioBootClassPath(componentsDir, javaVersion)];
    assert r[..6] == CacioHead(windowWidth, windowHeight);
    assert !isJava8 ==> r[6..10] == ADD_EXPORTS;
    r
  }

  /** Every Cacio argument is a head property, an export, the agent or
      the boot class path; the exports are absent for Java 8 and the agent
      is absent below Java 17. */
  lemma CacioPresence(windowWidth: int, windowHeight: int, isJava8: bool, javaVersion: int, componentsDir: string)
    ensures var r := CacioJavaArgs(windowWidth, windowHeight, isJava8, javaVersion, componentsDir);
      && (isJava8 ==> forall e :: e in ADD_EXPORTS ==> e !in r)
      && (isJava8 || javaVersion < 17 ==> CacioAgent(componentsDir) !in r)
      && (!isJava8 ==> forall e :: e in ADD_EXPORTS ==> e in r)
  {
    var r := CacioJavaArgs(windowWidth, windowHeight, isJava8, javaVersion, componentsDir);
    if isJava8 || javaVersion < 17 {
      NoAgentBefore17(windowWidth, windowHeight, isJava8, javaVersion, componentsDir);
    }
    if isJava8 {
      NoExportsOnJava8(windowWidth, windowHeight, javaVersion, componentsDir);
    } else {
      assert forall e :: e in ADD_EXPORTS ==> e in r[6..10];
    }
  }

  /** Every Cacio argument but the agent: a head property, an export or
      the boot class path. */
  lemma NoAgentBefore17(windowWidth: int, windowHeight: int, isJava8: bool, javaVersion: int, componentsDir: string)
    requires isJava8 || javaVersion < 17
    ensures CacioAgent(componentsDir) !in CacioJavaArgs(windowWidth, windowHeight, isJava8, javaVersion, componentsDir)
  {
    var r := CacioJavaArgs(windowWidth, windowHeight, isJava8, javaVersion, componentsDir);
    var head := CacioHead(windowWidth, windowHeight);
    var boot := CacioBootClassPath(componentsDir, javaVersion);
    var agent := CacioAgent(componentsDir);
    assert forall i :: 0 <= i < |r| ==> r[i] in head || r[i] in ADD_EXPORTS || r[i] == boot;
    forall i | 0 <= i < |r| ensures r[i] != agent {
      assert agent[1] == 'j';
      if r[i] in head { HeadNotAgentOrExport(windowWidth, windowHeight, r[i]); }
      else if r[i] in ADD_EXPORTS { ExportIsDashDash(r[i]); }
      else { assert r[i][1] == 'X'; }
    }
  }

  /** On Java 8 only the head properties and the boot class path remain. */
  lemma NoExportsOnJava8(windowWidth: int, windowHeight: int, javaVersion: int, componentsDir: string)
    ensures forall e :: e in ADD_EXPORTS ==> e !in CacioJavaArgs(windowWidth, windowHeight, true, javaVersion, componentsDir)
  {
    var r := CacioJavaArgs(windowWidth, windowHeight, true, javaVersion, componentsDir);
    var head := CacioHead(windowWidth, windowHeight);
    var boot := CacioBootClassPath(componentsDir, javaVersion);
    assert |r| == 7 && forall i :: 0 <= i < 6 ==> r[i] in head;
    forall e, i | e in ADD_EXPORTS && 0 <= i < |r| ensures r[i] != e {
      ExportIsDashDash(e);
      if i < 6 { HeadNotAgentOrExport(windowWidth, windowHeight, r[i]); }
      else { assert r[i] == boot && boot[1] == 'X'; }
    }
  }

  /** Every head property starts with "-D". */
  lemma HeadNotAgentOrExport(windowWidth: int, windowHeight: int, a: string)
    requires a in CacioHead(windowWidth, windowHeight)
    ensures |a| > 1 && a[1] == 'D'
  {
    var h := CacioHead(windowWidth, windowHeight);
    assert a == h[0] || a == h[1] || a == h[2] || a == h[3] || a == h[4] || a == h[5];
  }

  /** Every export flag starts with "--". */
  lemma ExportIsDashDash(e: string)
    requires e in ADD_EXPORTS
    ensures |e| > 1 && e[1] == '-'
  {
    assert e == ADD_EXPORTS[0] || e == ADD_EXPORTS[1] || e == ADD_EXPORTS[2] || e == ADD_EXPORTS[3];
  }

  // ---------------------------------------------------------------------------
  // Runtime choice and the splash switch
  // ---------------------------------------------------------------------------

  /** `getRuntimeName`: the version's own runtime; else, with automatic
      choice on, the first of the runtimes nearest at or above the
      manifest's Java major version (8 when the manifest names none); else
      the global default. */
  function GetRuntimeName(versionRuntime: string, defaultRuntime: string, autoPick: bool,
                          manifestMajor: Option<int>, runtimes: seq<SLRuntimes.Runtime>): (name: string)
    ensures versionRuntime != "" ==> name == versionRuntime
    ensures versionRuntime == "" && autoPick && (exists j :: 0 <= j < |runtimes| && runtimes[j].javaVersion >= manifestMajor.GetOr(8)) ==>
      exists j :: SLRuntimes.FirstNearest(runtimes, manifestMajor.GetOr(8), j) && runtimes[j].name == name
    ensures versionRuntime == "" && (!autoPick || forall j :: 0 <= j < |runtimes| ==> runtimes[j].javaVersion < manifestMajor.GetOr(8)) ==>
      name == defaultRuntime
  {
    if versionRuntime != "" then versionRuntime
    else if autoPick then
      match SLRuntimes.GetNearestJreName(runtimes, manifestMajor.GetOr(8))
      case Some(n) => n
      case None => defaultRuntime
    else defaultRuntime
  }

  const SPLASH_ON: string := "enabled=true"
  const SPLASH_OFF: string := "enabled=false"

  /** `disableSplash`: the text written to config/splash.properties, if
      any. Nothing is written when the config directory cannot be made or
      an existing file does not switch the splash on; an absent file gets
      the switch turned off; otherwise every "enabled=true" is rewritten. */
  function DisableSplash(configDirReady: bool, file: Option<string>): (written: Option<string>)
    ensures written.None? <==> !configDirReady || (file.Some? && !Contains(file.value, SPLASH_ON))
    ensures configDirReady && file.None? ==> written == Some(SPLASH_OFF)
    ensures written.Some? && file.Some? ==> written.value == ReplaceAll(file.value, SPLASH_ON, SPLASH_OFF)
    ensures written.Some? && file.Some? ==> |written.value| > |file.value|
  {
    if !configDirReady then None
    else if file.None? then Some(SPLASH_OFF)
    else if Contains(file.value, SPLASH_ON) then
      ReplaceGrows(file.value, SPLASH_ON, SPLASH_OFF);
      Some(ReplaceAll(file.value, SPLASH_ON, SPLASH_OFF))
    else None
  }

  /** The file Forge writes by default is switched off. */
  lemma SplashFileSwitchedOff()
    ensures DisableSplash(true, Some(SPLASH_ON)) == Some(SPLASH_OFF)
  {
    assert OccursAt(SPLASH_ON, SPLASH_ON, 0);
    ReplaceWhole(SPLASH_ON, SPLASH_OFF);
  }

  /** A file whose first "enabled=true" starts a line keeps every line in
      front of it, and that switch is turned off. */
  lemma FirstSplashLineSwitchedOff(pre: string, rest: string)
    requires |pre| == 0 || pre[|pre| - 1] == '\n'
    requires !Contains(pre, SPLASH_ON)
    ensures DisableSplash(true, Some(pre + SPLASH_ON + rest))
            == Some(pre + SPLASH_OFF + ReplaceAll(rest, SPLASH_ON, SPLASH_OFF))
  {
    var t := SPLASH_ON + rest;
    var s := pre + t;
    assert s == pre + SPLASH_ON + rest;
    NoSwitchBeforeLine(pre, t);
    ReplaceKeepsPrefix(pre, t, SPLASH_ON, SPLASH_OFF);
    SwitchLineReplaced(rest);
    assert OccursAt(s, SPLASH_ON, |pre|) by { assert s[|pre|..|pre| + |SPLASH_ON|] == SPLASH_ON; }
    assert pre + (SPLASH_OFF + ReplaceAll(rest, SPLASH_ON, SPLASH_OFF)) == pre + SPLASH_OFF + ReplaceAll(rest, SPLASH_ON, SPLASH_OFF);
  }

  /** No switch starts inside complete lines that hold none. */
  lemma NoSwitchBeforeLine(pre: string, t: string)
    requires |pre| == 0 || pre[|pre| - 1] == '\n'
    requires !Contains(pre, SPLASH_ON)
    ensures forall i :: 0 <= i < |pre| ==> !OccursAt(pre + t, SPLASH_ON, i)
  {
    var s := pre + t;
    forall i | 0 <= i < |pre|
      ensures !OccursAt(s, SPLASH_ON, i)
    {
      if i + |SPLASH_ON| <= |pre| {
        assert s[i..i + |SPLASH_ON|] == pre[i..i + |SPLASH_ON|];
        assert !OccursAt(pre, SPLASH_ON, i);
      } else if i + |SPLASH_ON| <= |s| {
        assert s[|pre| - 1] == '\n';
        assert '\n' !in SPLASH_ON;
        assert s[i..i + |SPLASH_ON|][|pre| - 1 - i] == s[|pre| - 1];
      }
    }
  }

  /** A text starting with the switch has that switch turned off first. */
  lemma SwitchLineReplaced(rest: string)
    ensures ReplaceAll(SPLASH_ON + rest, SPLASH_ON, SPLASH_OFF) == SPLASH_OFF + ReplaceAll(rest, SPLASH_ON, SPLASH_OFF)
  {
    var t := SPLASH_ON + rest;
    assert StartsWith(t, SPLASH_ON);
    assert t[|SPLASH_ON|..] == rest;
  }

  /** Kotlin's `replace` rewrites left to right without rescanning, so a
      switch can survive: "enabled=true" followed by "nabled=true" becomes
      "enabled=falsenabled=true", which still holds "enabled=true". */
  lemma SplashRewriteCanLeaveSwitchOn()
    ensures var w := DisableSplash(true, Some(SPLASH_ON + "nabled=true"));
      w == Some(SPLASH_OFF + "nabled=true") && Contains(w.value, SPLASH_ON)
  {
    var s := SPLASH_ON + "nabled=true";
    assert OccursAt(s, SPLASH_ON, 0);
    assert StartsWith(s, SPLASH_ON);
    assert s[|SPLASH_ON|..] == "nabled=true";
    assert ReplaceAll("nabled=true", SPLASH_ON, SPLASH_OFF) == "nabled=true";
    var w := SPLASH_OFF + "nabled=true";
    assert OccursAt(w, SPLASH_ON, 12) by { assert w[12..24] == SPLASH_ON; }
  }

  // ---------------------------------------------------------------------------
  // initEnv and dlopenEngine
  // ---------------------------------------------------------------------------

  /** `initEnv` on top of the base launcher's map: the driver path, the
      mod loader's variable, the renderer entries when a renderer is valid
      after selection, and the launcher's version code last. */
  function InitEnv(base: map<string, string>, driverPath: string, loaderKey: Option<string>,
                   renderer: RendererState, info: string -> RendererInfo, plugin: Option<RendererPlugin>,
                   cacheDir: string, glesMajor: int, s: GraphicsSettings, versionCode: string): (m: map<string, string>)
    ensures "SHARD_VERSION_CODE" in m && m["SHARD_VERSION_CODE"] == versionCode
    ensures renderer.Some? ==> "POJAV_RENDERER" in m && m["POJAV_RENDERER"] == info(renderer.value).id
    ensures renderer.None? ==> forall k :: k in m ==>
      k in base || k == "DRIVER_PATH" || k == "SHARD_VERSION_CODE" || loaderKey == Some(k)
    ensures "DRIVER_PATH" in m
    ensures loaderKey.Some? && loaderKey.value != "SHARD_VERSION_CODE" && renderer.None? ==> loaderKey.value in m && m[loaderKey.value] == "1"
  {
    var withDriver := base["DRIVER_PATH" := driverPath];
    var withLoader := if loaderKey.Some? then withDriver[loaderKey.value := "1"] else withDriver;
    var withRenderer := if renderer.Some? then SetRendererEnv(withLoader, info(renderer.value), plugin, cacheDir, glesMajor, s) else withLoader;
    assert renderer.Some? ==> "DRIVER_PATH" in withRenderer by {
      if renderer.Some? { RendererEnvKeepsKeys(withLoader, info(renderer.value), plugin, cacheDir, glesMajor, s); }
    }
    withRenderer["SHARD_VERSION_CODE" := versionCode]
  }

  /** The renderer entries only add and overwrite; no variable is
      removed. */
  lemma RendererEnvKeepsKeys(env: map<string, string>, r: RendererInfo, plugin: Option<RendererPlugin>,
                             cacheDir: string, glesMajor: int, s: GraphicsSettings)
    ensures forall k :: k in env ==> k in SetRendererEnv(env, r, plugin, cacheDir, glesMajor, s)
  {
  }

  /** `dlopenEngine`: the libraries opened, in order. The plugin's own
      libraries first; then the graphics library, retried from the native
      directory when a relative name fails and then through the library
      path when that finds another file; OpenAL last. */
  function DlopenEngine(plugin: Option<RendererPlugin>, rendererLibrary: Option<string>, nativeLibDir: string,
                        findInLdLibPath: string -> string, loads: string -> bool): (loaded: seq<string>)
    ensures |loaded| >= 1 && loaded[|loaded| - 1] == nativeLibDir + "/libopenal.so"
    ensures plugin.Some? ==>
      && |loaded| >= |plugin.value.dlopen| + 1
      && forall i :: 0 <= i < |plugin.value.dlopen| ==> loaded[i] == plugin.value.path + "/" + plugin.value.dlopen[i]
    ensures var lib := LoadGraphicsLibrary(plugin, rendererLibrary); var pre := if plugin.Some? then |plugin.value.dlopen| else 0;
      && (lib.None? ==> |loaded| == pre + 1)
      && (lib.Some? ==> |loaded| >= pre + 2 && loaded[pre] == lib.value)
  {
    var pluginLibs := if plugin.Some? then PluginLibraries(plugin.value) else [];
    var lib := LoadGraphicsLibrary(plugin, rendererLibrary);
    var graphics := if lib.Some? then GraphicsAttempts(lib.value, nativeLibDir, findInLdLibPath, loads) else [];
    pluginLibs + graphics + [nativeLibDir + "/libopenal.so"]
  }

  function PluginLibraries(p: RendererPlugin): (libs: seq<string>)
    ensures |libs| == |p.dlopen| && forall i :: 0 <= i < |p.dlopen| ==> libs[i] == p.path + "/" + p.dlopen[i]
  {
    seq(|p.dlopen|, i requires 0 <= i < |p.dlopen| => p.path + "/" + p.dlopen[i])
  }

  /** The attempts for the graphics library: the name itself; the native
      directory for a relative name that failed; the library path's file
      when everything so far failed and it names a different file. */
  function GraphicsAttempts(lib: string, nativeLibDir: string, findInLdLibPath: string -> string, loads: string -> bool): (tries: seq<string>)
    ensures 1 <= |tries| <= 3 && tries[0] == lib
    ensures loads(lib) ==> tries == [lib]
    ensures !loads(lib) && !StartsWith(lib, "/") ==> |tries| >= 2 && tries[1] == nativeLibDir + "/" + lib
    ensures forall i :: 0 <= i < |tries| - 1 ==> !loads(tries[i])
  {
    var first := [lib];
    var second := if !loads(lib) && !StartsWith(lib, "/") then first + [nativeLibDir + "/" + lib] else first;
    var ok := loads(second[|second| - 1]);
    var pathLib := findInLdLibPath(lib);
    if !ok && pathLib != lib then second + [pathLib] else second
  }
}

=== FILE: sl_launcher.dfy ===
/** The ShardLauncher tree's base launcher: how the Java command line is
    assembled from the user's argument string, the default system
    properties and the memory setting; how the access token is hidden in
    the log; and how the native library directories are found. The file
    system, the settings and the device facts are parameters. */
module SLLauncher {
  import opened Wrappers
  import opened Text
  import Numerals

  // ---------------------------------------------------------------------------
  // parseJavaArguments
  // ---------------------------------------------------------------------------

  /** The prefixes that start an argument, in the order they are
      extracted. */
  const SEPARATORS: seq<string> := ["-XX:-", "-XX:+", "-XX:", "--", "-D", "-X", "-javaagent:", "-verbose"]

  /** What the parser produces: no spaces, and a separator at the front. */
  predicate WellFormedArg(a: string) {
    ' ' !in a && exists p :: p in SEPARATORS && StartsWith(a, p)
  }

  predicate AllWellFormed(args: seq<string>) {
    forall k :: 0 <= k < |args| ==> WellFormedArg(args[k])
  }

  /** Where a fragment starting before `from` ends: the nearest occurrence
      of any separator at or after `from`, or the end of the text. */
  function NearestSeparator(s: string, from: nat, seps: seq<string>): (end: nat)
    requires from <= |s|
    ensures from <= end <= |s|
    ensures forall k, i :: 0 <= k < |seps| && from <= i < end ==> !OccursAt(s, seps[k], i)
    ensures end < |s| ==> exists k :: 0 <= k < |seps| && OccursAt(s, seps[k], end)
    decreases |seps|
  {
    if |seps| == 0 then |s|
    else
      var rest := NearestSeparator(s, from, seps[1..]);
      assert forall k :: 1 <= k < |seps| ==> seps[1..][k - 1] == seps[k];
      match IndexOf(s, seps[0], from)
      case None => rest
      case Some(i) => if i < rest then i else rest
  }

  /** A fragment is kept only when it holds at most one '='. */
  predicate AtMostOneEquals(fragment: string) {
    forall i, j :: 0 <= i < |fragment| && 0 <= j < |fragment| && fragment[i] == '=' && fragment[j] == '=' ==> i == j
  }

  /** Adding one fragment: one with two or more '=' is dropped; one that
      holds ',' or follows an argument ending in ',' is glued onto that
      argument; any other is a new argument. */
  function AddFragment(acc: seq<string>, fragment: string): (r: seq<string>)
    ensures !AtMostOneEquals(fragment) ==> r == acc
    ensures AtMostOneEquals(fragment) && |acc| > 0 && (EndsWith(acc[|acc| - 1], ",") || ',' in fragment) ==>
      r == acc[..|acc| - 1] + [acc[|acc| - 1] + fragment]
    ensures AtMostOneEquals(fragment) && !(|acc| > 0 && (EndsWith(acc[|acc| - 1], ",") || ',' in fragment)) ==>
      r == acc + [fragment]
  {
    FirstIsLastIffAtMostOnce(fragment, '=');
    if CharIndex(fragment, '=') != LastCharIndex(fragment, '=') then acc
    else if |acc| > 0 && (EndsWith(acc[|acc| - 1], ",") || ',' in fragment) then
      acc[..|acc| - 1] + [acc[|acc| - 1] + fragment]
    else acc + [fragment]
  }

  /** Gluing and appending keep every argument well formed. */
  lemma AddFragmentWellFormed(acc: seq<string>, fragment: string)
    requires AllWellFormed(acc) && WellFormedArg(fragment)
    ensures AllWellFormed(AddFragment(acc, fragment))
  {
    if AtMostOneEquals(fragment) {
      if |acc| > 0 && (EndsWith(acc[|acc| - 1], ",") || ',' in fragment) {
        var last := acc[|acc| - 1];
        GlueWellFormed(last, fragment);
        AllWellFormedAppend(acc[..|acc| - 1], last + fragment);
      } else {
        AllWellFormedAppend(acc, fragment);
      }
    }
  }

  /** Gluing a fragment without spaces onto a well-formed argument keeps it
      well formed. */
  lemma GlueWellFormed(last: string, fragment: string)
    requires WellFormedArg(last) && ' ' !in fragment
    ensures WellFormedArg(last + fragment)
  {
    var p :| p in SEPARATORS && StartsWith(last, p);
    assert StartsWith(last + fragment, p);
    assert forall c :: c in last + fragment ==> c in last || c in fragment;
  }

  lemma AllWellFormedAppend(args: seq<string>, a: string)
    requires AllWellFormed(args) && WellFormedArg(a)
    ensures AllWellFormed(args + [a])
  {
    assert forall k :: 0 <= k < |args| ==> (args + [a])[k] == args[k];
  }

  /** One round of the inner loop: the fragment from `start` (where
      `prefix` occurs) to the nearest later separator, and the text with
      every copy of that fragment deleted. The fragment is a well-formed
      argument and the text gets strictly shorter. */
  function Cut(cleaned: string, prefix: string, start: nat): (r: (string, string))
    requires prefix in SEPARATORS && OccursAt(cleaned, prefix, start)
    requires ' ' !in cleaned
    ensures WellFormedArg(r.0) && ' ' !in r.1 && |r.1| < |cleaned|
  {
    var end := NearestSeparator(cleaned, start + |prefix|, SEPARATORS);
    var fragment := cleaned[start..end];
    FragmentFacts(cleaned, prefix, start, end);
    DeleteShrinks(cleaned, fragment);
    DeleteKeepsAbsent(cleaned, fragment, ' ');
    (fragment, ReplaceAll(cleaned, fragment, ""))
  }

  /** A slice that starts with a separator, taken from a text without
      spaces, is a well-formed argument occurring where it was cut. */
  lemma FragmentFacts(cleaned: string, prefix: string, start: nat, end: nat)
    requires prefix in SEPARATORS && OccursAt(cleaned, prefix, start)
    requires start + |prefix| <= end <= |cleaned| && ' ' !in cleaned
    ensures WellFormedArg(cleaned[start..end]) && |cleaned[start..end]| > 0
    ensures OccursAt(cleaned, cleaned[start..end], start) && Contains(cleaned, cleaned[start..end])
  {
    var fragment := cleaned[start..end];
    assert fragment[..|prefix|] == prefix;
    assert StartsWith(fragment, prefix);
    assert forall c :: c in fragment ==> c in cleaned;
    assert OccursAt(cleaned, fragment, start);
  }

  /** The inner loop for one separator: cut the fragment at the first
      occurrence of `prefix`, delete every copy of it from the text, and
      repeat until `prefix` no longer occurs. The text shrinks on every
      round, which ends the loop. */
  function Drain(cleaned: string, prefix: string, acc: seq<string>): (r: (string, seq<string>))
    requires prefix in SEPARATORS
    requires ' ' !in cleaned && AllWellFormed(acc)
    ensures ' ' !in r.0 && !Contains(r.0, prefix) && |r.0| <= |cleaned|
    ensures AllWellFormed(r.1)
    decreases |cleaned|
  {
    match IndexOf(cleaned, prefix, 0)
    case None => (cleaned, acc)
    case Some(start) =>
      var (fragment, rest) := Cut(cleaned, prefix, start);
      AddFragmentWellFormed(acc, fragment);
      Drain(rest, prefix, AddFragment(acc, fragment))
  }

  /** The outer loop over the separators, in order. */
  function DrainAll(cleaned: string, seps: seq<string>, acc: seq<string>): (r: seq<string>)
    requires forall k :: 0 <= k < |seps| ==> seps[k] in SEPARATORS
    requires ' ' !in cleaned && AllWellFormed(acc)
    ensures AllWellFormed(r)
    decreases |seps|
  {
    if |seps| == 0 then acc
    else
      var (rest, acc') := Drain(cleaned, seps[0], acc);
      DrainAll(rest, seps[1..], acc')
  }

  /** `parseJavaArguments`: trim, delete every space, then extract the
      arguments separator by separator. No argument has a space in it and
      each begins with a separator. */
  function ParseJavaArguments(args: string): (r: seq<string>)
    ensures AllWellFormed(r)
  {
    var cleaned := ReplaceAll(Trim(args), " ", "");
    DeleteCharRemovesIt(Trim(args), ' ');
    DrainAll(cleaned, SEPARATORS, [])
  }

  /** A text holding no separator gives nothing back. */
  lemma {:induction false} NothingToDrain(cleaned: string, seps: seq<string>, acc: seq<string>)
    requires forall k :: 0 <= k < |seps| ==> seps[k] in SEPARATORS
    requires ' ' !in cleaned && AllWellFormed(acc)
    requires forall k :: 0 <= k < |seps| ==> !Contains(cleaned, seps[k])
    ensures DrainAll(cleaned, seps, acc) == acc
    decreases |seps|
  {
    if |seps| > 0 {
      assert !Contains(cleaned, seps[0]);
      NothingToDrain(cleaned, seps[1..], acc);
    }
  }

  /** A blank argument string gives no arguments. */
  lemma BlankGivesNothing(args: string)
    requires IsBlank(args)
    ensures ParseJavaArguments(args) == []
  {
    assert Trim(args) == "";
    assert ReplaceAll("", " ", "") == "";
    SeparatorsNonEmpty();
    forall k | 0 <= k < |SEPARATORS| ensures !Contains("", SEPARATORS[k]) {
      EmptyHoldsNothing(SEPARATORS[k]);
    }
    NothingToDrain("", SEPARATORS, []);
  }

  lemma SeparatorsNonEmpty()
    ensures forall k :: 0 <= k < |SEPARATORS| ==> |SEPARATORS[k]| > 0
  {
  }

  lemma EmptyHoldsNothing(p: string)
    requires |p| > 0
    ensures !Contains("", p)
  {
    assert forall i :: !OccursAt("", p, i);
  }

  // ---------------------------------------------------------------------------
  // getJavaArgs: default properties the user can override
  // ---------------------------------------------------------------------------

  /** Kotlin `substringBefore(c)`: the text up to the first `c`, or all of
      it. */
  function SubstringBefore(s: string, c: char): (r: string)
    ensures r <= s && c !in r
    ensures c in s ==> s[|r|] == c
    ensures c !in s ==> r == s
  {
    match CharIndex(s, c)
    case None => s
    case Some(i) => s[..i]
  }

  function PropertyArg(p: (string, string)): string {
    "-D" + p.0 + "=" + p.1
  }

  /** A default is overridden when some user argument starts with its
      "-Dkey" part. */
  predicate Overridden(d: string, user: seq<string>) {
    exists u :: u in user && StartsWith(u, SubstringBefore(d, '='))
  }

  /** The defaults that survive, in order. */
  function KeepDefaults(defaults: seq<string>, user: seq<string>): (kept: seq<string>)
    ensures |kept| <= |defaults|
    ensures forall d :: d in kept <==> d in defaults && !Overridden(d, user)
    decreases |defaults|
  {
    if |defaults| == 0 then []
    else
      var rest := KeepDefaults(defaults[1..], user);
      assert forall d :: d in defaults <==> d == defaults[0] || d in defaults[1..];
      if Overridden(defaults[0], user) then rest else [defaults[0]] + rest
  }

  /** A default "-Dkey=value" (the key without '=') is dropped exactly when
      a user argument starts with "-Dkey". */
  lemma OverrideByKey(key: string, value: string, user: seq<string>)
    requires '=' !in key
    ensures PropertyArg((key, value)) in KeepDefaults([PropertyArg((key, value))], user)
      <==> forall u :: u in user ==> !StartsWith(u, "-D" + key)
  {
    var d := PropertyArg((key, value));
    assert d == ("-D" + key) + "=" + value;
    assert '=' !in "-D" + key;
    CharIndexAt(d, '=', |"-D" + key|);
    assert SubstringBefore(d, '=') == "-D" + key;
  }

  /** LinkedHashMap `put`: a known key keeps its place and takes the new
      value; a new key goes last. */
  function Put(entries: seq<(string, string)>, key: string, value: string): (r: seq<(string, string)>)
    ensures (exists k :: 0 <= k < |entries| && entries[k].0 == key) ==> |r| == |entries|
    ensures (forall k :: 0 <= k < |entries| ==> entries[k].0 != key) ==> r == entries + [(key, value)]
    ensures (key, value) in r
    ensures forall e :: e in entries && e.0 != key ==> e in r
    decreases |entries|
  {
    if |entries| == 0 then [(key, value)]
    else if entries[0].0 == key then [(key, value)] + entries[1..]
    else [entries[0]] + Put(entries[1..], key, value)
  }

  function PutAll(entries: seq<(string, string)>, extra: seq<(string, string)>): seq<(string, string)>
    decreases |extra|
  {
    if |extra| == 0 then entries else PutAll(Put(entries, extra[0].0, extra[0].1), extra[1..])
  }

  /** What the default properties are made of on this device. */
  datatype LaunchEnv = LaunchEnv(
    javaHome: string, cacheDir: string, nativeLibDir: string, filesDir: string,
    language: string, country: string, timezone: string, androidRelease: string,
    gameHome: string, dataBasesDir: string, windowWidth: int, windowHeight: int,
    resolvPath: string, launcherName: string)

  /** The default properties in insertion order; the user home is the
      given one or the app's external files directory. */
  function BaseProperties(env: LaunchEnv, userHome: Option<string>): (ps: seq<(string, string)>)
    ensures |ps| == 27
  {
    [("java.home", env.javaHome),
     ("java.io.tmpdir", env.cacheDir),
     ("jna.boot.library.path", env.nativeLibDir),
     ("user.home", userHome.GetOr(env.filesDir)),
     ("user.language", env.language),
     ("user.country", env.country),
     ("user.timezone", env.timezone),
     ("os.name", "Linux"),
     ("os.version", "Android-" + env.androidRelease),
     ("pojav.path.minecraft", env.gameHome),
     ("pojav.path.private.account", env.dataBasesDir),
     ("org.lwjgl.vulkan.libname", "libvulkan.so"),
     ("glfwstub.windowWidth", Numerals.IntToString(env.windowWidth)),
     ("glfwstub.windowHeight", Numerals.IntToString(env.windowHeight)),
     ("glfwstub.initEgl", "false"),
     ("ext.net.resolvPath", env.resolvPath),
     ("log4j2.formatMsgNoLookups", "true"),
     ("java.rmi.server.useCodebaseOnly", "true"),
     ("com.sun.jndi.rmi.object.trustURLCodebase", "false"),
     ("com.sun.jndi.cosnaming.object.trustURLCodebase", "false"),
     ("net.minecraft.clientmodname", env.launcherName),
     ("fml.earlyprogresswindow", "false"),
     ("fml.ignoreInvalidMinecraftCertificates", "true"),
     ("fml.ignorePatchDiscrepancies", "true"),
     ("loader.disable_forked_guis", "true"),
     ("jdk.lang.Process.launchMechanism", "FORK"),
     ("sodium.checks.issue2561", "false")]
  }

  /** `getJavaArgs`: the user's arguments, then the defaults (with the
      launcher's own additions) that no user argument overrides. */
  function GetJavaArgs(env: LaunchEnv, userHome: Option<string>, userArgs: string, extra: seq<(string, string)>): (r: seq<string>)
    ensures var user := ParseJavaArguments(userArgs);
      && |r| >= |user| && r[..|user|] == user
      && forall a :: a in r[|user|..] <==> a in MapArgs(PutAll(BaseProperties(env, userHome), extra)) && !Overridden(a, user)
  {
    var user := ParseJavaArguments(userArgs);
    var defaults := MapArgs(PutAll(BaseProperties(env, userHome), extra));
    var r := user + KeepDefaults(defaults, user);
    assert r[|user|..] == KeepDefaults(defaults, user);
    r
  }

  /** A default entry the user did not override reaches the JVM's
      arguments. */
  lemma DefaultReachesJvm(env: LaunchEnv, userHome: Option<string>, userArgs: string,
                          extra: seq<(string, string)>, e: (string, string))
    requires e in PutAll(BaseProperties(env, userHome), extra)
    requires !Overridden(PropertyArg(e), ParseJavaArguments(userArgs))
    ensures PropertyArg(e) in GetJavaArgs(env, userHome, userArgs, extra)
  {
    var user := ParseJavaArguments(userArgs);
    EntryArgKept(PutAll(BaseProperties(env, userHome), extra), user, e);
    SuffixMember(GetJavaArgs(env, userHome, userArgs, extra), |user|, PropertyArg(e));
  }

  /** An entry's argument is among the kept defaults when not overridden. */
  lemma EntryArgKept(entries: seq<(string, string)>, user: seq<string>, e: (string, string))
    requires e in entries && !Overridden(PropertyArg(e), user)
    ensures PropertyArg(e) in MapArgs(entries) && !Overridden(PropertyArg(e), user)
  {
    var k :| 0 <= k < |entries| && entries[k] == e;
    assert MapArgs(entries)[k] == PropertyArg(e);
  }

  lemma SuffixMember(r: seq<string>, n: nat, a: string)
    requires n <= |r| && a in r[n..]
    ensures a in r
  {
    var j :| 0 <= j < |r[n..]| && r[n..][j] == a;
    assert r[n + j] == a;
  }

  function MapArgs(ps: seq<(string, string)>): (args: seq<string>)
    ensures |args| == |ps| && forall k :: 0 <= k < |ps| ==> args[k] == PropertyArg(ps[k])
  {
    seq(|ps|, k requires 0 <= k < |ps| => PropertyArg(ps[k]))
  }

  // ---------------------------------------------------------------------------
  // progressFinalUserArgs
  // ---------------------------------------------------------------------------

  const PURGED_PREFIXES: seq<string> := [
    "-Xms", "-Xmx", "-d32", "-d64", "-Xint", "-XX:+UseTransparentHugePages",
    "-XX:+UseLargePagesInMetaspace", "-XX:+UseLargePages", "-Dorg.lwjgl.opengl.libname",
    "-Dorg.lwjgl.freetype.libname", "-XX:ActiveProcessorCount"]

  /** `purgeArg`: drop every argument with the prefix, keep the rest in
      order. */
  function Purge(args: seq<string>, prefix: string): (r: seq<string>)
    ensures |r| <= |args|
    ensures forall a :: a in r <==> a in args && !StartsWith(a, prefix)
    decreases |args|
  {
    if |args| == 0 then []
    else
      var rest := Purge(args[1..], prefix);
      assert forall a :: a in args <==> a == args[0] || a in args[1..];
      if StartsWith(args[0], prefix) then rest else [args[0]] + rest
  }

  /** `a` has none of the prefixes. */
  predicate SurvivesAll(a: string, prefixes: seq<string>)
    decreases |prefixes|
  {
    |prefixes| == 0 || (!StartsWith(a, prefixes[0]) && SurvivesAll(a, prefixes[1..]))
  }

  /** One `purgeArg` per prefix, in order. */
  function PurgeAll(args: seq<string>, prefixes: seq<string>): (r: seq<string>)
    ensures forall a :: a in r <==> a in args && SurvivesAll(a, prefixes)
    decreases |prefixes|
  {
    if |prefixes| == 0 then args
    else PurgeAll(Purge(args, prefixes[0]), prefixes[1..])
  }

  /** An argument with none of the purged prefixes. */
  predicate SurvivesPurge(a: string) {
    SurvivesAll(a, PURGED_PREFIXES)
  }

  /** Neither a -Xms nor a -Xmx argument. */
  predicate NoMemoryArg(a: string) {
    !StartsWith(a, "-Xms") && !StartsWith(a, "-Xmx")
  }

  /** A memory argument: the flag, the amount in megabytes, then "M". */
  function MemoryArg(flag: string, ramAllocation: int): string {
    flag + Numerals.IntToString(ramAllocation) + "M"
  }

  /** The arguments appended after the purge. */
  function FinalAdditions(ramAllocation: int, mioLibPatcher: string, nativeLibDir: string, processors: int): seq<string> {
    ["-javaagent:" + mioLibPatcher, MemoryArg("-Xms", ramAllocation), MemoryArg("-Xmx", ramAllocation),
     "-Dorg.lwjgl.freetype.libname=" + nativeLibDir + "/libfreetype.so",
     "-XX:ActiveProcessorCount=" + Numerals.IntToString(processors)]
  }

  /** Of the appended arguments only the second is -Xms and only the third
      is -Xmx. */
  lemma AdditionsShape(ramAllocation: int, mioLibPatcher: string, nativeLibDir: string, processors: int)
    ensures var added := FinalAdditions(ramAllocation, mioLibPatcher, nativeLibDir, processors);
      && MemoryPairSecond(added)
      && added[1] == MemoryArg("-Xms", ramAllocation) && added[2] == MemoryArg("-Xmx", ramAllocation)
      && StartsWith(added[1], "-Xms") && StartsWith(added[2], "-Xmx")
  {
    var added := FinalAdditions(ramAllocation, mioLibPatcher, nativeLibDir, processors);
    var ram := Numerals.IntToString(ramAllocation);
    assert added[0][1] == 'j';
    assert added[3][1] == 'D';
    assert added[4][2] == 'X';
    assert added[1] == "-Xms" + (ram + "M") && added[1][..4] == "-Xms" && added[1][3] == 's';
    assert added[2] == "-Xmx" + (ram + "M") && added[2][..4] == "-Xmx" && added[2][3] == 'x';
  }

  /** `progressFinalUserArgs`: remove the memory, data-model, interpreter,
      large-page, library-name and processor-count arguments, then add the
      patcher agent, the memory pair, the Freetype library and the
      processor count. Exactly one -Xms and one -Xmx remain, fourth and
      third from the end, both with the configured amount; nothing else the
      user gave is lost. */
  function ProgressFinalUserArgs(args: seq<string>, ramAllocation: int, mioLibPatcher: string,
                                 nativeLibDir: string, processors: int): (r: seq<string>)
    ensures |r| >= 5
    ensures r[|r| - 4] == MemoryArg("-Xms", ramAllocation)
    ensures r[|r| - 3] == MemoryArg("-Xmx", ramAllocation)
    ensures MemoryArgsOnlyAt(r, |r| - 4, |r| - 3)
    ensures r == PurgeAll(args, PURGED_PREFIXES) + FinalAdditions(ramAllocation, mioLibPatcher, nativeLibDir, processors)
  {
    AdditionsShape(ramAllocation, mioLibPatcher, nativeLibDir, processors);
    PurgedPrefixesStartWithMemory();
    PurgeThenAdd(args, PURGED_PREFIXES, FinalAdditions(ramAllocation, mioLibPatcher, nativeLibDir, processors))
  }

  lemma PurgedPrefixesStartWithMemory()
    ensures MemoryPrefixesFirst(PURGED_PREFIXES)
  {
  }

  /** Every argument in front of the five additions is one the user gave
      that has none of the purged prefixes. */
  lemma ProgressDropsPurged(args: seq<string>, ramAllocation: int, mioLibPatcher: string,
                            nativeLibDir: string, processors: int, i: nat)
    requires i + 5 < |ProgressFinalUserArgs(args, ramAllocation, mioLibPatcher, nativeLibDir, processors)|
    ensures var r := ProgressFinalUserArgs(args, ramAllocation, mioLibPatcher, nativeLibDir, processors);
      r[i] in args && SurvivesPurge(r[i])
  {
    var kept := PurgeAll(args, PURGED_PREFIXES);
    var added := FinalAdditions(ramAllocation, mioLibPatcher, nativeLibDir, processors);
    assert |added| == 5;
    assert kept[i] in kept;
  }

  /** Nothing the user gave is lost unless it has a purged prefix. */
  lemma ProgressKeepsSurvivors(args: seq<string>, ramAllocation: int, mioLibPatcher: string,
                               nativeLibDir: string, processors: int, a: string)
    requires a in args && SurvivesPurge(a)
    ensures a in ProgressFinalUserArgs(args, ramAllocation, mioLibPatcher, nativeLibDir, processors)
  {
    AdditionsShape(ramAllocation, mioLibPatcher, nativeLibDir, processors);
  }

  /** The only -Xms argument is at `xms` and the only -Xmx one at `xmx`. */
  predicate MemoryArgsOnlyAt(r: seq<string>, xms: int, xmx: int) {
    && (forall i :: 0 <= i < |r| && StartsWith(r[i], "-Xms") ==> i == xms)
    && (forall i :: 0 <= i < |r| && StartsWith(r[i], "-Xmx") ==> i == xmx)
  }

  /** The purged prefixes start with the memory pair. */
  predicate MemoryPrefixesFirst(prefixes: seq<string>) {
    |prefixes| >= 2 && prefixes[0] == "-Xms" && prefixes[1] == "-Xmx"
  }

  /** Five arguments of which only the second may be -Xms and only the third
      -Xmx. */
  predicate MemoryPairSecond(added: seq<string>) {
    && |added| == 5 && NoMemoryArg(added[0]) && NoMemoryArg(added[3]) && NoMemoryArg(added[4])
    && !StartsWith(added[1], "-Xmx") && !StartsWith(added[2], "-Xms")
  }

  /** Purging prefixes that start with the memory pair, then appending five
      arguments of which only the second is -Xms and only the third -Xmx. */
  function PurgeThenAdd(args: seq<string>, prefixes: seq<string>, added: seq<string>): (r: seq<string>)
    requires MemoryPrefixesFirst(prefixes)
    requires MemoryPairSecond(added)
    ensures |r| >= 5 && r[|r| - 4] == added[1] && r[|r| - 3] == added[2]
    ensures MemoryArgsOnlyAt(r, |r| - 4, |r| - 3)
    ensures forall a :: a in args && SurvivesAll(a, prefixes) ==> a in r
    ensures r == PurgeAll(args, prefixes) + added
  {
    var kept := PurgeAll(args, prefixes);
    assert forall a | a in kept :: NoMemoryArg(a) by {
      assert prefixes[1..][0] == "-Xmx";
    }
    MemoryArgsAtEnd(kept, added);
    kept + added
  }

  /** Appending five arguments, of which only the second is -Xms and only
      the third -Xmx, to arguments with no memory argument. */
  lemma MemoryArgsAtEnd(kept: seq<string>, added: seq<string>)
    requires forall a :: a in kept ==> NoMemoryArg(a)
    requires MemoryPairSecond(added)
    ensures var r := kept + added;
      && |r| >= 5 && r[|r| - 4] == added[1] && r[|r| - 3] == added[2]
      && (forall i :: 0 <= i < |r| && StartsWith(r[i], "-Xms") ==> i == |r| - 4)
      && (forall i :: 0 <= i < |r| && StartsWith(r[i], "-Xmx") ==> i == |r| - 3)
  {
    var r := kept + added;
    assert forall i :: 0 <= i < |kept| ==> r[i] == kept[i] && kept[i] in kept;
    assert forall i :: |kept| <= i < |r| ==> r[i] == added[i - |kept|];
  }

  // ---------------------------------------------------------------------------
  // The launch command and its log
  // ---------------------------------------------------------------------------

  /** The command: the runtime's java binary, the final Java arguments,
      then the game's JVM arguments. */
  function LaunchCommand(runtimeHome: string, javaArgs: seq<string>, jvmArgs: seq<string>): (cmd: seq<string>)
    ensures |cmd| == 1 + |javaArgs| + |jvmArgs|
    ensures cmd[0] == runtimeHome + "/bin/java"
    ensures cmd[1..1 + |javaArgs|] == javaArgs && cmd[1 + |javaArgs|..] == jvmArgs
  {
    var cmd := [runtimeHome + "/bin/java"] + javaArgs + jvmArgs;
    assert cmd[1..1 + |javaArgs|] == javaArgs;
    assert cmd[1 + |javaArgs|..] == jvmArgs;
    cmd
  }

  const MASK_LINE: string := "ARG: ********************"

  /** An argument is hidden in the log when it directly follows an
      "--accessToken..." argument that is itself shown. */
  predicate IsHidden(args: seq<string>, i: nat)
    requires i < |args|
    decreases i
  {
    i > 0 && !IsHidden(args, i - 1) && StartsWith(args[i - 1], "--accessToken")
  }

  /** The log line for argument `k`. */
  function LogLine(args: seq<string>, k: nat): string
    requires k < |args|
  {
    if IsHidden(args, k) then MASK_LINE else "ARG: " + args[k]
  }

  /** The log lines for the command: one per argument, the hidden ones
      masked. */
  method LogArgs(args: seq<string>) returns (log: seq<string>)
    ensures |log| == |args|
    ensures forall k :: 0 <= k < |args| ==> log[k] == LogLine(args, k)
  {
    log := [];
    var i := 0;
    while i < |args|
      invariant 0 <= i <= |args| && |log| == i
      invariant i < |args| ==> !IsHidden(args, i)
      invariant forall k :: 0 <= k < i ==> log[k] == LogLine(args, k)
    {
      var arg := args[i];
      if StartsWith(arg, "--accessToken") && i + 1 < |args| {
        assert IsHidden(args, i + 1);
        assert LogLine(args, i) == "ARG: " + arg && LogLine(args, i + 1) == MASK_LINE;
        log := log + ["ARG: " + arg, MASK_LINE];
        i := i + 2;
      } else {
        assert LogLine(args, i) == "ARG: " + arg;
        log := log + ["ARG: " + arg];
        i := i + 1;
      }
    }
  }

  /** The value after a shown "--accessToken" argument is masked, and the
      masking never hides two arguments in a row. */
  lemma TokenValueMasked(args: seq<string>, i: nat)
    requires i + 1 < |args| && StartsWith(args[i], "--accessToken") && !IsHidden(args, i)
    ensures IsHidden(args, i + 1)
    ensures i + 2 < |args| ==> !IsHidden(args, i + 2)
  {
  }

  // ---------------------------------------------------------------------------
  // Library directories
  // ---------------------------------------------------------------------------

  datatype ArchError = UnsupportedArchitecture

  /** The last candidate with property `p`, if any. */
  function LastWhere(xs: seq<string>, p: string -> bool): (r: Option<nat>)
    ensures r.Some? ==> r.value < |xs| && p(xs[r.value]) && forall j :: r.value < j < |xs| ==> !p(xs[j])
    ensures r.None? ==> forall j :: 0 <= j < |xs| ==> !p(xs[j])
    decreases |xs|
  {
    if |xs| == 0 then None
    else if p(xs[|xs| - 1]) then Some(|xs| - 1)
    else LastWhere(xs[..|xs| - 1], p)
  }

  /** The architecture directories tried for an arch: the three x86 names
      for an x86 arch, the arch itself otherwise. */
  function ArchCandidates(arch: string, isX86: string -> bool): seq<string> {
    Split(if isX86(arch) then "i386/i486/i586" else arch, '/')
  }

  /** `getJavaLibDir`: "/lib/<d>" for the last candidate directory `d`
      that exists under the runtime's lib folder, "/lib" when none does;
      a runtime without an arch is unsupported. */
  function GetJavaLibDir(arch: Option<string>, isX86: string -> bool, libDirExists: string -> bool): (r: Result<string, ArchError>)
    ensures r.Failure? <==> arch.None?
    ensures arch.Some? ==>
      var cands := ArchCandidates(arch.value, isX86);
      && (r.value == "/lib" <==> forall j :: 0 <= j < |cands| ==> !libDirExists(cands[j]))
      && (r.value != "/lib" ==>
            exists i ::
              && 0 <= i < |cands| && r.value == "/lib/" + cands[i] && libDirExists(cands[i])
              && forall j :: i < j < |cands| ==> !libDirExists(cands[j]))
  {
    if arch.None? then Failure(UnsupportedArchitecture)
    else
      var cands := ArchCandidates(arch.value, isX86);
      match LastWhere(cands, libDirExists)
      case None => Success("/lib")
      case Some(i) =>
        assert |"/lib/" + cands[i]| > |"/lib"|;
        Success("/lib/" + cands[i])
  }

  /** The x86 arch tries i386, i486 and i586, in that order. */
  lemma X86Candidates(arch: string, isX86: string -> bool)
    requires isX86(arch)
    ensures ArchCandidates(arch, isX86) == ["i386", "i486", "i586"]
  {
    assert "i386/i486/i586" == "i386" + ['/'] + "i486" + ['/'] + "i586";
    SplitThree("i386", "i486", "i586", '/');
  }

  /** `getJvmLibDir`: "/server" when the server VM library is there,
      "/client" otherwise. */
  function GetJvmLibDir(serverVmExists: bool): (d: string)
    ensures d == "/server" <==> serverVmExists
    ensures d == "/client" <==> !serverVmExists
  {
    if serverVmExists then "/server" else "/client"
  }

  function OptionList(o: Option<string>): (l: seq<string>)
    ensures o.Some? ==> l == [o.value]
    ensures o.None? ==> l == []
  {
    if o.Some? then [o.value] else []
  }

  /** The entries of `getLibraryPath`, in order, missing ones skipped. */
  function LibraryPathEntries(is64: bool, rendererPlugin: Option<string>, runtimeModDir: Option<string>, nativeLibDir: string): seq<string> {
    var lib := if is64 then "lib64" else "lib";
    ["/system/" + lib, "/vendor/" + lib, "/vendor/" + lib + "/hw"] + OptionList(rendererPlugin) + OptionList(runtimeModDir) + [nativeLibDir]
  }

  /** No directory given to `getLibraryPath` holds the separator ':'. */
  predicate ColonFree(rendererPlugin: Option<string>, runtimeModDir: Option<string>, nativeLibDir: string) {
    && ':' !in nativeLibDir
    && (rendererPlugin.Some? ==> ':' !in rendererPlugin.value)
    && (runtimeModDir.Some? ==> ':' !in runtimeModDir.value)
  }

  /** `getLibraryPath`: the entries joined by ':'. The variable reads back
      as its entries when none holds ':': the system directories first, the
      app's native directory last. */
  function GetLibraryPath(is64: bool, rendererPlugin: Option<string>, runtimeModDir: Option<string>, nativeLibDir: string): (path: string)
    ensures ColonFree(rendererPlugin, runtimeModDir, nativeLibDir) ==>
      var parts := Split(path, ':');
      && parts == LibraryPathEntries(is64, rendererPlugin, runtimeModDir, nativeLibDir)
      && parts[0] == (if is64 then "/system/lib64" else "/system/lib")
      && parts[|parts| - 1] == nativeLibDir
      && |parts| == 4 + (if rendererPlugin.Some? then 1 else 0) + (if runtimeModDir.Some? then 1 else 0)
  {
    var es := LibraryPathEntries(is64, rendererPlugin, runtimeModDir, nativeLibDir);
    assert ColonFree(rendererPlugin, runtimeModDir, nativeLibDir) ==> Split(Join(es, ':'), ':') == es by {
      if ColonFree(rendererPlugin, runtimeModDir, nativeLibDir) {
        var lib := if is64 then "lib64" else "lib";
        assert ':' !in "/system/" + lib && ':' !in "/vendor/" + lib && ':' !in "/vendor/" + lib + "/hw";
        assert forall k :: 0 <= k < |es| ==> ':' !in es[k];
        SplitJoin(es, ':');
      }
    }
    Join(es, ':')
  }

  /** `getRuntimeLibraryPath`: the FFmpeg and renderer plugin directories,
      the runtime's lib and jli directories, its VM directory (for a JDK 8
      layout also the jre lib directory), the system and vendor
      directories, then JNA, the runtime mod and the app's native
      directory, joined by ':'. */
  function RuntimeLibraryPathEntries(ffmpeg: Option<string>, rendererPlugin: Option<string>, runtimeHome: string,
                                     javaLibDir: string, jvmLibDir: string, isJDK8: bool, is64: bool,
                                     jnaDir: string, runtimeModDir: Option<string>, nativeLibDir: string): (es: seq<string>)
    ensures |es| == 8 + |OptionList(ffmpeg)| + |OptionList(rendererPlugin)| + |OptionList(runtimeModDir)|
    ensures es[|es| - 1] == nativeLibDir
    ensures var base := |OptionList(ffmpeg)| + |OptionList(rendererPlugin)|;
      && es[base] == runtimeHome + javaLibDir && es[base + 1] == runtimeHome + javaLibDir + "/jli"
      && es[base + 2] == (if isJDK8 then runtimeHome + "/jre" + javaLibDir + jvmLibDir + ":" + runtimeHome + "/jre" + javaLibDir
                          else runtimeHome + javaLibDir + jvmLibDir)
  {
    var lib := if is64 then "lib64" else "lib";
    OptionList(ffmpeg) + OptionList(rendererPlugin)
      + [runtimeHome + javaLibDir, runtimeHome + javaLibDir + "/jli",
         if isJDK8 then runtimeHome + "/jre" + javaLibDir + jvmLibDir + ":" + runtimeHome + "/jre" + javaLibDir
         else runtimeHome + javaLibDir + jvmLibDir,
         "/system/" + lib, "/vendor/" + lib, "/vendor/" + lib + "/hw", jnaDir]
      + OptionList(runtimeModDir) + [nativeLibDir]
  }

  /** `r` is the library inside the `i`-th directory and is a file. */
  predicate LibraryIn(dirs: seq<string>, i: int, libName: string, isFile: string -> bool, r: string) {
    0 <= i < |dirs| && r == dirs[i] + "/" + libName && isFile(r)
  }

  /** `findInLdLibPath`: the library in the first directory of the path
      that holds it as a file, or the bare name; never absent. */
  function FindInLdLibPath(libName: string, path: string, isFile: string -> bool): (r: string)
    ensures var dirs := Split(path, ':');
      && (r != libName ==> exists i :: LibraryIn(dirs, i, libName, isFile, r))
      && ((exists i :: 0 <= i < |dirs| && isFile(dirs[i] + "/" + libName)) ==>
            exists i ::
              && LibraryIn(dirs, i, libName, isFile, r)
              && forall j :: 0 <= j < i ==> !isFile(dirs[j] + "/" + libName))
  {
    var dirs := Split(path, ':');
    var found := FirstDirHolding(dirs, libName, isFile);
    if found.None? then libName
    else
      var r := dirs[found.value] + "/" + libName;
      assert LibraryIn(dirs, found.value, libName, isFile, r);
      r
  }

  function FirstDirHolding(dirs: seq<string>, libName: string, isFile: string -> bool): (r: Option<nat>)
    ensures r.Some? ==>
      && r.value < |dirs| && isFile(dirs[r.value] + "/" + libName)
      && forall j :: 0 <= j < r.value ==> !isFile(dirs[j] + "/" + libName)
    ensures r.None? ==> forall j :: 0 <= j < |dirs| ==> !isFile(dirs[j] + "/" + libName)
    decreases |dirs|
  {
    if |dirs| == 0 then None
    else if isFile(dirs[0] + "/" + libName) then Some(0)
    else match FirstDirHolding(dirs[1..], libName, isFile)
      case None => None
      case Some(k) => Some(k + 1)
  }
}

=== FILE: string_utils.dfy ===
/** The app tree's string helpers: placeholder substitution over argument
    lists, dotted version comparison, Unicode escaping and the null/blank
    helpers. */
module StringUtils {
  import opened Wrappers
  import opened Text
  import Numerals

  // ---------------------------------------------------------------------------
  // insertJSONValueList
  // ---------------------------------------------------------------------------

  /** The placeholder `${key}`. */
  function Placeholder(key: string): (p: string)
    ensures |p| == |key| + 3
  {
    "${" + key + "}"
  }

  /** One argument with every entry's placeholder replaced by its value, the
      entries taken in the map's iteration order. */
  function Substitute(arg: string, vars: seq<(string, string)>): string
    decreases |vars|
  {
    if |vars| == 0 then arg
    else Substitute(ReplaceAll(arg, Placeholder(vars[0].0), vars[0].1), vars[1..])
  }

  /** `insertJSONValueList`: the arguments one by one, each substituted on
      its own. */
  function InsertJSONValueList(args: seq<string>, vars: seq<(string, string)>): (r: seq<string>)
    ensures |r| == |args|
    ensures forall i :: 0 <= i < |args| ==> r[i] == Substitute(args[i], vars)
  {
    seq(|args|, i requires 0 <= i < |args| => Substitute(args[i], vars))
  }

  /** An argument holding no placeholder of any key comes back unchanged. */
  lemma {:induction false} SubstituteAbsent(arg: string, vars: seq<(string, string)>)
    requires forall k :: 0 <= k < |vars| ==> !Contains(arg, Placeholder(vars[k].0))
    ensures Substitute(arg, vars) == arg
    decreases |vars|
  {
    if |vars| > 0 {
      ReplaceAbsent(arg, Placeholder(vars[0].0), vars[0].1);
      assert forall k :: 0 <= k < |vars[1..]| ==> vars[1..][k] == vars[k + 1];
      SubstituteAbsent(arg, vars[1..]);
    }
  }

  /** An argument that is exactly one placeholder becomes the value of the
      single entry it names. */
  lemma PlaceholderAlone(key: string, value: string)
    ensures Substitute(Placeholder(key), [(key, value)]) == value
  {
    var p := Placeholder(key);
    assert StartsWith(p, p);
    assert p[|p|..] == "";
    assert ReplaceAll(p, p, value) == value + ReplaceAll("", p, value);
  }

  // ---------------------------------------------------------------------------
  // isVersionLowerThan
  // ---------------------------------------------------------------------------

  /** The numeric components of a dotted version; a component that is not
      an `Int` counts as 0. */
  function Components(v: string): (c: seq<int>)
    ensures |c| == |Split(v, '.')|
  {
    var parts := Split(v, '.');
    seq(|parts|, i requires 0 <= i < |parts| => Numerals.ParseInt(parts[i]).GetOr(0))
  }

  /** Component `i`, or 0 past the end. */
  function At(c: seq<int>, i: nat): int {
    if i < |c| then c[i] else 0
  }

  /** The comparison loop from position `i` up to `n`. */
  function LowerFrom(p: seq<int>, q: seq<int>, i: nat, n: nat): bool
    decreases n - i
  {
    if i >= n then false
    else if At(p, i) < At(q, i) then true
    else if At(p, i) > At(q, i) then false
    else LowerFrom(p, q, i + 1, n)
  }

  function Max(a: nat, b: nat): nat {
    if a < b then b else a
  }

  /** `isVersionLowerThan`: lower exactly when, missing components counting
      as 0, some component is smaller and every earlier one is equal. */
  function IsVersionLowerThan(v: string, other: string): (b: bool)
    ensures var p, q := Components(v), Components(other);
      b <==> exists k :: 0 <= k < Max(|p|, |q|) && At(p, k) < At(q, k)
                         && forall j :: 0 <= j < k ==> At(p, j) == At(q, j)
  {
    var p := Components(v);
    var q := Components(other);
    LowerFromMeans(p, q, 0, Max(|p|, |q|));
    LowerFrom(p, q, 0, Max(|p|, |q|))
  }

  /** The loop's answer, stated without the loop: some position before `n`
      is smaller, and every earlier one is equal. */
  lemma {:induction false} LowerFromMeans(p: seq<int>, q: seq<int>, i: nat, n: nat)
    ensures LowerFrom(p, q, i, n) <==>
      exists k :: i <= k < n && At(p, k) < At(q, k) && forall j :: i <= j < k ==> At(p, j) == At(q, j)
    decreases n - i
  {
    if i < n {
      LowerFromMeans(p, q, i + 1, n);
      if At(p, i) < At(q, i) {
      } else if At(p, i) > At(q, i) {
        forall k | i <= k < n
          ensures !(At(p, k) < At(q, k) && forall j :: i <= j < k ==> At(p, j) == At(q, j))
        {
          if k > i { assert At(p, i) != At(q, i); }
        }
      } else if LowerFrom(p, q, i + 1, n) {
        var k :| i + 1 <= k < n && At(p, k) < At(q, k) && forall j :: i + 1 <= j < k ==> At(p, j) == At(q, j);
        assert forall j :: i <= j < k ==> At(p, j) == At(q, j);
      } else {
        forall k | i <= k < n
          ensures !(At(p, k) < At(q, k) && forall j :: i <= j < k ==> At(p, j) == At(q, j))
        {
          if k > i {
            assert !(At(p, k) < At(q, k) && forall j :: i + 1 <= j < k ==> At(p, j) == At(q, j));
          }
        }
      }
    }
  }

  /** No version is lower than itself, and of two versions at most one is
      lower than the other. */
  lemma VersionOrderStrict(a: string, b: string)
    ensures !IsVersionLowerThan(a, a)
    ensures IsVersionLowerThan(a, b) ==> !IsVersionLowerThan(b, a)
  {
    var p := Components(a);
    var q := Components(b);
    var n := Max(|p|, |q|);
    LowerFromMeans(p, p, 0, Max(|p|, |p|));
    LowerFromMeans(p, q, 0, n);
    LowerFromMeans(q, p, 0, Max(|q|, |p|));
    if IsVersionLowerThan(a, b) {
      var k :| 0 <= k < n && At(p, k) < At(q, k) && forall j :: 0 <= j < k ==> At(p, j) == At(q, j);
      forall l | 0 <= l < n
        ensures !(At(q, l) < At(p, l) && forall j :: 0 <= j < l ==> At(q, j) == At(p, j))
      {
        if l < k { assert At(p, l) == At(q, l); }
        else if l > k { assert At(p, k) < At(q, k); }
      }
    }
  }

  /** Missing trailing components count as zero: "1.0" and "1" are equal
      versions, neither lower than the other. */
  lemma TrailingZeroIsEqual()
    ensures !IsVersionLowerThan("1.0", "1") && !IsVersionLowerThan("1", "1.0")
  {
    SplitDigit('1');
    SplitDigit('0');
    assert "1.0"[1..] == ".0" && ".0"[1..] == "0";
    assert Split("1.0", '.') == ["1", "0"];
    assert Numerals.ParseInt("1") == Some(1);
    assert Numerals.ParseInt("0") == Some(0);
    var p := Components("1.0");
    var q := Components("1");
    assert p == [1, 0] && q == [1];
    assert At(p, 0) == 1 && At(q, 0) == 1 && At(p, 1) == 0 && At(q, 1) == 0;
    assert Max(|p|, |q|) == 2 && Max(|q|, |p|) == 2;
    assert !LowerFrom(p, q, 1, 2) && !LowerFrom(q, p, 1, 2);
  }

  lemma SplitDigit(c: char)
    requires c != '.'
    ensures Split([c], '.') == [[c]]
  {
    assert [c][1..] == "";
    assert Split("", '.') == [""];
    assert [c] + "" == [c];
  }

  // ---------------------------------------------------------------------------
  // toUnicodeEscaped
  // ---------------------------------------------------------------------------

  /** The four lower-case hex digits of a code unit, most significant
      first: Kotlin's `code.toString(16).padStart(4, '0')`. */
  function Hex4(u: CodeUnit): string {
    [Numerals.HexChar(u / 0x1000), Numerals.HexChar(u / 0x100 % 16),
     Numerals.HexChar(u / 0x10 % 16), Numerals.HexChar(u % 16)]
  }

  /** One code unit: kept when it is ASCII, else `\u` and its four hex
      digits. */
  function EscapeUnit(u: CodeUnit): string {
    if u > 127 then "\\u" + Hex4(u) else [u as char]
  }

  /** `toUnicodeEscaped`: the escaped text is pure ASCII and never shorter
      than the input. */
  function ToUnicodeEscaped(s: seq<CodeUnit>): (r: string)
    ensures |r| >= |s|
    ensures forall i :: 0 <= i < |r| ==> r[i] as int <= 127
    decreases |s|
  {
    if |s| == 0 then ""
    else
      var e := EscapeUnit(s[0]);
      var tail := ToUnicodeEscaped(s[1..]);
      EscapeUnitAscii(s[0]);
      assert forall i :: |e| <= i < |e + tail| ==> (e + tail)[i] == tail[i - |e|];
      e + tail
  }

  /** The four digits read back as the unit. */
  lemma Hex4Value(u: CodeUnit)
    ensures |Hex4(u)| == 4 && Numerals.AllHex(Hex4(u))
    ensures Numerals.HexDigitsValue(Hex4(u)) == u
  {
    var h := Hex4(u);
    assert h[..3][..2][..1][..0] == "";
    assert Numerals.HexDigitsValue(h[..3][..2][..1]) == u / 0x1000;
    assert Numerals.HexDigitsValue(h[..3][..2]) == u / 0x100;
    assert Numerals.HexDigitsValue(h[..3]) == u / 0x10;
  }

  /** A non-ASCII unit escapes to six characters: `\u` and four hex digits
      whose value is the unit. */
  lemma EscapeUnitShape(u: CodeUnit)
    requires u > 127
    ensures var e := EscapeUnit(u);
      && |e| == 6 && e[0] == '\\' && e[1] == 'u' && Numerals.AllHex(e[2..6])
      && Numerals.HexDigitsValue(e[2..6]) == u
  {
    Hex4Value(u);
    assert EscapeUnit(u)[2..6] == Hex4(u);
  }

  /** Each escaped unit is ASCII. */
  lemma EscapeUnitAscii(u: CodeUnit)
    ensures forall i :: 0 <= i < |EscapeUnit(u)| ==> EscapeUnit(u)[i] as int <= 127
  {
    if u > 127 {
      EscapeUnitShape(u);
      var e := EscapeUnit(u);
      forall i | 2 <= i < 6 ensures e[i] as int <= 127 {
        assert Numerals.IsHexDigit(e[2..6][i - 2]);
      }
    }
  }

  /** Reading an escaped text back: `\u` and four hex digits is one unit,
      any other character is its own unit. */
  function Unescape(t: string): (r: seq<CodeUnit>)
    ensures |r| <= |t|
    ensures (forall i :: 0 <= i < |t| ==> t[i] != '\\') ==>
      |r| == |t| && forall k :: 0 <= k < |t| ==> r[k] == t[k] as int % 0x1_0000
    decreases |t|
  {
    if |t| == 0 then []
    else if |t| >= 6 && t[0] == '\\' && t[1] == 'u' && Numerals.AllHex(t[2..6]) then
      [Numerals.HexDigitsValue(t[2..6]) % 0x1_0000] + Unescape(t[6..])
    else [t[0] as int % 0x1_0000] + Unescape(t[1..])
  }

  /** Reading back one escaped unit in front of any text. */
  lemma UnescapeUnit(u: CodeUnit, rest: string)
    requires u != '\\' as int
    ensures Unescape(EscapeUnit(u) + rest) == [u] + Unescape(rest)
  {
    var t := EscapeUnit(u) + rest;
    if u > 127 {
      EscapeUnitShape(u);
      assert t[2..6] == EscapeUnit(u)[2..6];
      assert t[6..] == rest;
    } else {
      assert t[1..] == rest;
    }
  }

  /** Escaping loses nothing when the text has no backslash of its own. */
  lemma {:induction false} EscapeRoundTrip(s: seq<CodeUnit>)
    requires forall i :: 0 <= i < |s| ==> s[i] != '\\' as int
    ensures Unescape(ToUnicodeEscaped(s)) == s
    decreases |s|
  {
    if |s| > 0 {
      EscapeRoundTrip(s[1..]);
      UnescapeUnit(s[0], ToUnicodeEscaped(s[1..]));
      assert [s[0]] + s[1..] == s;
    }
  }

  // ---------------------------------------------------------------------------
  // Null and blank helpers
  // ---------------------------------------------------------------------------

  /** `isEmptyOrBlank`: null, empty or whitespace only. */
  function IsEmptyOrBlank(s: Option<string>): (b: bool)
    ensures b <==> s.None? || forall i :: 0 <= i < |s.value| ==> IsWhitespace(s.value[i])
  {
    s.None? || IsBlank(s.value)
  }

  /** `isNotEmptyOrBlank`: some character that is not whitespace. */
  function IsNotEmptyOrBlank(s: Option<string>): (b: bool)
    ensures b <==> s.Some? && exists i :: 0 <= i < |s.value| && !IsWhitespace(s.value[i])
  {
    !IsEmptyOrBlank(s)
  }

  /** `getStringNotNull`: the text, or "" for null; never null. */
  function GetStringNotNull(s: Option<string>): (r: string)
    ensures s.Some? ==> r == s.value
    ensures s.None? ==> r == ""
    ensures |r| == 0 <==> s.None? || s.value == ""
  {
    s.GetOr("")
  }

  /** The two blank tests are complements, and the empty text is blank. */
  lemma BlankHelpersComplement(s: Option<string>)
    ensures IsNotEmptyOrBlank(s) == !IsEmptyOrBlank(s)
    ensures IsEmptyOrBlank(Some(GetStringNotNull(s))) <==> IsEmptyOrBlank(s)
  {
  }
}

=== FILE: system_properties.dfy ===
/** The ShardLauncher tree's system-property helpers. The property store
    and the two ways of reading it (reflection on the platform's
    `SystemProperties`, then the `getprop` command) become parameters. */
module SystemProperties {
  import opened Wrappers
  import opened Text
  import Numerals

  /** How the reflective `SystemProperties.get` call went: it answered with
      the stored value (absent when the property is unset), or it threw. */
  datatype Reflection = Answered(stored: Option<string>) | ReflectionFailed

  /** How the `getprop` fallback went: the first output line (absent at end
      of stream), or an exception. */
  datatype Command = FirstLine(line: Option<string>) | CommandFailed

  /** The platform's `SystemProperties.get(key, def)`: the stored value, or
      `def` when the property is unset or empty. */
  function PlatformGet(stored: Option<string>, defaultValue: string): (v: string)
    ensures stored.Some? && stored.value != "" ==> v == stored.value
    ensures stored.None? || stored.value == "" ==> v == defaultValue
  {
    if stored.Some? && stored.value != "" then stored.value else defaultValue
  }

  /** `getSystemPropertyViaCommand`: a non-empty first line, else the
      default, also when the command fails. */
  function ViaCommand(cmd: Command, defaultValue: string): (v: string)
    ensures v == defaultValue || (cmd.FirstLine? && cmd.line == Some(v) && v != "")
    ensures (cmd.CommandFailed? || cmd.line.None? || cmd.line == Some("")) ==> v == defaultValue
  {
    match cmd
    case CommandFailed => defaultValue
    case FirstLine(line) =>
      if line.Some? && line.value != "" then line.value else defaultValue
  }

  /** `getSystemProperty`: reflection first, the command only when
      reflection throws. */
  function GetSystemProperty(refl: Reflection, cmd: Command, defaultValue: string): (v: string)
    ensures refl.Answered? ==> v == PlatformGet(refl.stored, defaultValue)
    ensures refl.ReflectionFailed? ==> v == ViaCommand(cmd, defaultValue)
  {
    match refl
    case Answered(stored) => PlatformGet(stored, defaultValue)
    case ReflectionFailed => ViaCommand(cmd, defaultValue)
  }

  /** No source of the value can give anything but the default or a
      non-empty text it read. */
  lemma PropertyIsReadOrDefault(refl: Reflection, cmd: Command, defaultValue: string)
    ensures var v := GetSystemProperty(refl, cmd, defaultValue);
      v == defaultValue || v != ""
  {
  }

  predicate IsTrueWord(s: string) {
    s == "1" || s == "true" || s == "yes" || s == "on"
  }

  predicate IsFalseWord(s: string) {
    s == "0" || s == "false" || s == "no" || s == "off"
  }

  function BoolText(b: bool): string {
    if b then "1" else "0"
  }

  /** The word interpretation of `getBooleanSystemProperty`. */
  function ParseBoolean(value: string, defaultValue: bool): (b: bool)
    ensures IsTrueWord(Lower(value)) ==> b
    ensures IsFalseWord(Lower(value)) ==> !b
    ensures !IsTrueWord(Lower(value)) && !IsFalseWord(Lower(value)) ==> b == defaultValue
  {
    var l := Lower(value);
    if IsTrueWord(l) then true
    else if IsFalseWord(l) then false
    else defaultValue
  }

  /** `getBooleanSystemProperty`: the default travels down as "1"/"0", so a
      property read as the default's own text gives the default back. */
  function GetBooleanSystemProperty(refl: Reflection, cmd: Command, defaultValue: bool): (b: bool)
    ensures var v := Lower(GetSystemProperty(refl, cmd, BoolText(defaultValue)));
      && (IsTrueWord(v) ==> b)
      && (IsFalseWord(v) ==> !b)
      && (!IsTrueWord(v) && !IsFalseWord(v) ==> b == defaultValue)
    ensures GetSystemProperty(refl, cmd, BoolText(defaultValue)) == BoolText(defaultValue) ==> b == defaultValue
  {
    assert Lower(BoolText(defaultValue)) == BoolText(defaultValue);
    ParseBoolean(GetSystemProperty(refl, cmd, BoolText(defaultValue)), defaultValue)
  }

  /** A property that is missing, however it is read, yields the default,
      because the default's own text reads back as itself. */
  lemma MissingBooleanIsDefault(defaultValue: bool, cmd: Command)
    requires cmd.CommandFailed? || cmd.line.None? || cmd.line == Some("")
    ensures GetBooleanSystemProperty(Answered(None), cmd, defaultValue) == defaultValue
    ensures GetBooleanSystemProperty(ReflectionFailed, cmd, defaultValue) == defaultValue
  {
  }

  /** Case never matters to the boolean reading. */
  lemma BooleanIgnoresCase(value: string, defaultValue: bool)
    ensures ParseBoolean(value, defaultValue) == ParseBoolean(Lower(value), defaultValue)
  {
    assert Lower(Lower(value)) == Lower(value);
  }

  /** `getIntSystemProperty`: the value as a Kotlin `Int`, or the default
      when it is not one. */
  function GetIntSystemProperty(refl: Reflection, cmd: Command, defaultValue: int): (n: int)
    requires Numerals.IsInt32(defaultValue)
    ensures Numerals.IsInt32(n)
    ensures var v := GetSystemProperty(refl, cmd, Numerals.IntToString(defaultValue));
      Numerals.ParseInt(v).Some? ==> n == Numerals.ParseInt(v).value
    ensures var v := GetSystemProperty(refl, cmd, Numerals.IntToString(defaultValue));
      Numerals.ParseInt(v).None? ==> n == defaultValue
  {
    match Numerals.ParseInt(GetSystemProperty(refl, cmd, Numerals.IntToString(defaultValue)))
    case Some(n) => n
    case None => defaultValue
  }

  /** A missing integer property yields the default. */
  lemma MissingIntIsDefault(defaultValue: int)
    requires Numerals.IsInt32(defaultValue)
    ensures GetIntSystemProperty(Answered(None), CommandFailed, defaultValue) == defaultValue
    ensures GetIntSystemProperty(ReflectionFailed, CommandFailed, defaultValue) == defaultValue
  {
    Numerals.ParseIntToString(defaultValue);
  }

  /** `isSpecificDeviceOrSystem`: the property, read with an empty default,
      contains the value, ignoring case. */
  function IsSpecificDeviceOrSystem(refl: Reflection, cmd: Command, value: string): (b: bool)
    ensures b <==> exists i :: OccursAt(Lower(GetSystemProperty(refl, cmd, "")), Lower(value), i)
  {
    Contains(Lower(GetSystemProperty(refl, cmd, "")), Lower(value))
  }

  /** An unset property matches only the empty value. */
  lemma UnsetMatchesOnlyEmpty(value: string)
    ensures IsSpecificDeviceOrSystem(Answered(None), CommandFailed, value) <==> value == ""
  {
    if value == "" {
      assert OccursAt(Lower(""), Lower(value), 0);
    }
  }
}

=== FILE: text.dfy ===
/** The handful of Kotlin/Java string operations the launcher relies on, written
    once over `string` (= `seq<char>`), each with the fact the callers need. */
module Text {
  import opened Wrappers

  // ---------------------------------------------------------------------------
  // Occurrences, prefixes and suffixes
  // ---------------------------------------------------------------------------

  /** `sub` occurs in `s` starting at index `i`. */
  predicate OccursAt(s: string, sub: string, i: nat) {
    i + |sub| <= |s| && s[i..i + |sub|] == sub
  }

  /** Kotlin `startsWith`. */
  predicate StartsWith(s: string, prefix: string) {
    prefix <= s
  }

  /** Kotlin `endsWith`. */
  predicate EndsWith(s: string, suffix: string) {
    |suffix| <= |s| && s[|s| - |suffix|..] == suffix
  }

  /** Kotlin `indexOf(sub, from)` for a non-empty `sub`: the first occurrence at or
      after `from`, or `None` (the source's -1). */
  function IndexOf(s: string, sub: string, from: nat): (r: Option<nat>)
    ensures r.Some? ==> from <= r.value && OccursAt(s, sub, r.value)
    ensures forall i :: from <= i && (r.None? || i < r.value) ==> !OccursAt(s, sub, i)
    decreases |s| + 1 - from
  {
    if from + |sub| > |s| then None
    else if OccursAt(s, sub, from) then Some(from)
    else IndexOf(s, sub, from + 1)
  }

  /** Kotlin `contains` on strings. */
  predicate Contains(s: string, sub: string)
    ensures Contains(s, sub) <==> exists i :: OccursAt(s, sub, i)
  {
    IndexOf(s, sub, 0).Some?
  }

  lemma OccursAtShift(s: string, sub: string, k: nat, i: nat)
    requires k <= |s|
    ensures OccursAt(s[k..], sub, i) <==> OccursAt(s, sub, i + k)
  {
    if i + |sub| <= |s| - k {
      assert s[k..][i..i + |sub|] == s[i + k..i + k + |sub|];
    }
  }

  // ---------------------------------------------------------------------------
  // Replacement
  // ---------------------------------------------------------------------------

  /** Kotlin `replace(pat, rep)`: every non-overlapping occurrence of `pat`,
      scanning left to right, is replaced by `rep`. */
  function ReplaceAll(s: string, pat: string, rep: string): string
    requires |pat| > 0
    decreases |s|
  {
    if |s| < |pat| then s
    else if StartsWith(s, pat) then rep + ReplaceAll(s[|pat|..], pat, rep)
    else [s[0]] + ReplaceAll(s[1..], pat, rep)
  }

  /** A text without an occurrence of `pat` is left as it is. */
  lemma {:induction false} ReplaceAbsent(s: string, pat: string, rep: string)
    requires |pat| > 0
    requires !Contains(s, pat)
    ensures ReplaceAll(s, pat, rep) == s
    decreases |s|
  {
    if |s| >= |pat| {
      assert !OccursAt(s, pat, 0);
      assert s[..|pat|] == s[0..|pat|];
      if Contains(s[1..], pat) {
        var i :| OccursAt(s[1..], pat, i);
        OccursAtShift(s, pat, 1, i);
        assert false;
      }
      ReplaceAbsent(s[1..], pat, rep);
    }
  }

  /** Deleting every occurrence of `pat` never lengthens the text, and strictly
      shortens it when `pat` occurs. */
  lemma {:induction false} DeleteShrinks(s: string, pat: string)
    requires |pat| > 0
    ensures |ReplaceAll(s, pat, "")| <= |s|
    ensures Contains(s, pat) ==> |ReplaceAll(s, pat, "")| < |s|
    decreases |s|
  {
    if |s| >= |pat| {
      if StartsWith(s, pat) {
        DeleteShrinks(s[|pat|..], pat);
      } else {
        DeleteShrinks(s[1..], pat);
        if Contains(s, pat) {
          assert !OccursAt(s, pat, 0) by { assert s[0..|pat|] == s[..|pat|]; }
          var i: nat :| OccursAt(s, pat, i);
          assert i > 0;
          OccursAtShift(s, pat, 1, i - 1);
          assert Contains(s[1..], pat);
        }
      }
    } else {
      assert !Contains(s, pat) by { assert IndexOf(s, pat, 0).None?; }
    }
  }

  /** Replacing a pattern by a longer text never shortens the text, and
      strictly lengthens it when the pattern occurs. */
  lemma {:induction false} ReplaceGrows(s: string, pat: string, rep: string)
    requires |pat| > 0 && |rep| > |pat|
    ensures |ReplaceAll(s, pat, rep)| >= |s|
    ensures Contains(s, pat) ==> |ReplaceAll(s, pat, rep)| > |s|
    decreases |s|
  {
    if |s| >= |pat| {
      if StartsWith(s, pat) {
        ReplaceGrows(s[|pat|..], pat, rep);
      } else {
        ReplaceGrows(s[1..], pat, rep);
        if Contains(s, pat) {
          assert !OccursAt(s, pat, 0) by { assert s[0..|pat|] == s[..|pat|]; }
          var i: nat :| OccursAt(s, pat, i);
          assert i > 0;
          OccursAtShift(s, pat, 1, i - 1);
          assert Contains(s[1..], pat);
        }
      }
    } else {
      assert !Contains(s, pat) by { assert IndexOf(s, pat, 0).None?; }
    }
  }

  /** Text in front of which no occurrence of `pat` starts passes through a
      replacement untouched. */
  lemma {:induction false} ReplaceKeepsPrefix(pre: string, t: string, pat: string, rep: string)
    requires |pat| > 0
    requires forall i :: 0 <= i < |pre| ==> !OccursAt(pre + t, pat, i)
    ensures ReplaceAll(pre + t, pat, rep) == pre + ReplaceAll(t, pat, rep)
    decreases |pre|
  {
    if |pre| == 0 {
      assert pre + t == t;
    } else {
      var s := pre + t;
      if |s| < |pat| {
        assert ReplaceAll(s, pat, rep) == s;
        assert ReplaceAll(t, pat, rep) == t;
      } else {
        assert !StartsWith(s, pat) by {
          assert !OccursAt(s, pat, 0);
          assert s[..|pat|] == s[0..|pat|];
        }
        assert s[1..] == pre[1..] + t;
        forall i | 0 <= i < |pre| - 1
          ensures !OccursAt(pre[1..] + t, pat, i)
        {
          OccursAtShift(s, pat, 1, i);
        }
        ReplaceKeepsPrefix(pre[1..], t, pat, rep);
        assert ReplaceAll(s, pat, rep) == [s[0]] + ReplaceAll(s[1..], pat, rep);
        assert s[0] == pre[0];
        assert pre == [pre[0]] + pre[1..];
      }
    }
  }

  /** The pattern alone is replaced by the replacement. */
  lemma ReplaceWhole(pat: string, rep: string)
    requires |pat| > 0
    ensures ReplaceAll(pat, pat, rep) == rep
  {
    assert StartsWith(pat, pat);
    assert pat[|pat|..] == [];
    assert ReplaceAll([], pat, rep) == [];
    assert rep + [] == rep;
  }

  /** Deleting a pattern adds no character that was not there. */
  lemma {:induction false} DeleteKeepsAbsent(s: string, pat: string, c: char)
    requires |pat| > 0 && c !in s
    ensures c !in ReplaceAll(s, pat, "")
    decreases |s|
  {
    if |s| >= |pat| {
      if StartsWith(s, pat) {
        assert forall x :: x in s[|pat|..] ==> x in s;
        DeleteKeepsAbsent(s[|pat|..], pat, c);
        assert ReplaceAll(s, pat, "") == ReplaceAll(s[|pat|..], pat, "");
      } else {
        assert forall x :: x in s[1..] ==> x in s;
        DeleteKeepsAbsent(s[1..], pat, c);
      }
    }
  }

  /** Deleting every copy of a single character leaves none of it. */
  lemma {:induction false} DeleteCharRemovesIt(s: string, c: char)
    ensures c !in ReplaceAll(s, [c], "")
    decreases |s|
  {
    if |s| >= 1 {
      DeleteCharRemovesIt(s[1..], c);
      if StartsWith(s, [c]) {
        assert ReplaceAll(s, [c], "") == ReplaceAll(s[1..], [c], "");
      } else {
        assert s[0] != c by { assert [s[0]] == s[..1]; }
      }
    }
  }

  // ---------------------------------------------------------------------------
  // Single characters
  // ---------------------------------------------------------------------------

  /** Kotlin `indexOf(c)`: the first index holding `c`. */
  function CharIndex(s: string, c: char): (r: Option<nat>)
    ensures r.Some? ==> r.value < |s| && s[r.value] == c && c !in s[..r.value]
    ensures r.None? ==> c !in s
    decreases |s|
  {
    if |s| == 0 then None
    else if s[0] == c then Some(0)
    else match CharIndex(s[1..], c)
      case None => None
      case Some(k) =>
        assert s[..k + 1] == [s[0]] + s[1..][..k];
        Some(k + 1)
  }

  /** The first index holding `c` is found where it is. */
  lemma {:induction false} CharIndexAt(s: string, c: char, i: nat)
    requires i < |s| && s[i] == c && c !in s[..i]
    ensures CharIndex(s, c) == Some(i)
    decreases i
  {
    if i > 0 {
      assert s[0] == s[..i][0];
      assert s[1..][..i - 1] == s[1..i];
      assert forall x :: x in s[1..i] ==> x in s[..i];
      CharIndexAt(s[1..], c, i - 1);
    }
  }

  /** Kotlin `lastIndexOf(c)`: the last index holding `c`. */
  function LastCharIndex(s: string, c: char): (r: Option<nat>)
    ensures r.Some? ==> r.value < |s| && s[r.value] == c && c !in s[r.value + 1..]
    ensures r.None? ==> c !in s
    decreases |s|
  {
    if |s| == 0 then None
    else match LastCharIndex(s[1..], c)
      case Some(k) =>
        assert s[k + 2..] == s[1..][k + 1..];
        Some(k + 1)
      case None =>
        if s[0] == c then
          assert s[1..] == s[0 + 1..];
          Some(0)
        else
          assert forall x :: x in s ==> x == s[0] || x in s[1..];
          None
  }

  /** The first and the last index of `c` agree exactly when `c` occurs at
      most once. */
  lemma FirstIsLastIffAtMostOnce(s: string, c: char)
    ensures CharIndex(s, c) == LastCharIndex(s, c) <==>
      forall i, j :: 0 <= i < |s| && 0 <= j < |s| && s[i] == c && s[j] == c ==> i == j
  {
    var f := CharIndex(s, c);
    var l := LastCharIndex(s, c);
    if f == l {
      forall i, j | 0 <= i < |s| && 0 <= j < |s| && s[i] == c && s[j] == c ensures i == j {
        assert s[i] in s;
        NotBefore(s, c, f.value, i);
        NotAfter(s, c, l.value, i);
        NotBefore(s, c, f.value, j);
        NotAfter(s, c, l.value, j);
      }
    } else {
      assert f.Some? ==> s[f.value] in s;
      assert l.Some? ==> s[l.value] in s;
      NotBefore(s, c, f.value, l.value);
      assert f.value != l.value;
    }
  }

  lemma NotBefore(s: string, c: char, f: nat, i: nat)
    requires f < |s| && c !in s[..f] && i < |s| && s[i] == c
    ensures f <= i
  {
    assert forall k :: 0 <= k < f ==> s[..f][k] == s[k];
  }

  lemma NotAfter(s: string, c: char, l: nat, i: nat)
    requires l < |s| && c !in s[l + 1..] && i < |s| && s[i] == c
    ensures i <= l
  {
    assert forall k :: l < k < |s| ==> s[l + 1..][k - l - 1] == s[k];
  }

  // ---------------------------------------------------------------------------
  // Splitting and joining on a one-character delimiter
  // ---------------------------------------------------------------------------

  /** Kotlin `split(d)` for a one-character delimiter: the pieces between the
      delimiters, including empty ones; the empty text gives `[""]`. */
  function Split(s: string, d: char): (parts: seq<string>)
    ensures |parts| >= 1
    ensures forall k :: 0 <= k < |parts| ==> d !in parts[k]
    decreases |s|
  {
    if |s| == 0 then [""]
    else if s[0] == d then [""] + Split(s[1..], d)
    else
      var rest := Split(s[1..], d);
      [[s[0]] + rest[0]] + rest[1..]
  }

  /** Kotlin `joinToString(d)` for a one-character separator. */
  function Join(parts: seq<string>, d: char): string
    decreases |parts|
  {
    if |parts| == 0 then ""
    else if |parts| == 1 then parts[0]
    else parts[0] + [d] + Join(parts[1..], d)
  }

  /** Joining the pieces of a split gives the text back. */
  lemma {:induction false} JoinSplit(s: string, d: char)
    ensures Join(Split(s, d), d) == s
    decreases |s|
  {
    if |s| > 0 {
      JoinSplit(s[1..], d);
      var rest := Split(s[1..], d);
      if s[0] == d {
        assert Split(s, d) == [""] + rest;
        assert Join(Split(s, d), d) == "" + [d] + Join(rest, d);
      } else {
        var ps := Split(s, d);
        assert ps == [[s[0]] + rest[0]] + rest[1..];
        if |rest| == 1 {
          assert Join(ps, d) == [s[0]] + rest[0];
        } else {
          assert ps[1..] == rest[1..];
          assert Join(ps, d) == [s[0]] + rest[0] + [d] + Join(rest[1..], d);
        }
      }
    }
  }

  /** Splitting a join of delimiter-free pieces gives the pieces back. */
  lemma {:induction false} SplitJoin(parts: seq<string>, d: char)
    requires |parts| >= 1
    requires forall k :: 0 <= k < |parts| ==> d !in parts[k]
    ensures Split(Join(parts, d), d) == parts
    decreases |parts|, |parts[0]|
  {
    var p := parts[0];
    if |p| == 0 {
      if |parts| > 1 {
        var tail := Join(parts[1..], d);
        assert Join(parts, d) == [d] + tail;
        SplitJoin(parts[1..], d);
        assert ([d] + tail)[1..] == tail;
      }
    } else {
      var shorter := [p[1..]] + parts[1..];
      assert d !in p[1..] by { assert forall c :: c in p[1..] ==> c in p; }
      assert forall k :: 0 <= k < |shorter| ==> d !in shorter[k] by {
        forall k | 0 <= k < |shorter| ensures d !in shorter[k] {
          if k > 0 { assert shorter[k] == parts[k]; }
        }
      }
      SplitJoin(shorter, d);
      var whole := Join(parts, d);
      if |parts| == 1 {
        assert whole == [p[0]] + p[1..];
        assert whole[1..] == Join(shorter, d);
      } else {
        assert shorter[1..] == parts[1..];
        assert whole == [p[0]] + (p[1..] + [d] + Join(parts[1..], d));
        assert whole[1..] == Join(shorter, d);
      }
      assert whole[0] == p[0] && p[0] != d;
      assert [p[0]] + p[1..] == p;
      assert [[p[0]] + p[1..]] + parts[1..] == parts;
    }
  }

  /** A text without the delimiter is a single piece. */
  /** Joining two non-empty lists puts one separator between their joins. */
  lemma {:induction false} JoinAppend(p: seq<string>, q: seq<string>, d: char)
    requires |p| > 0 && |q| > 0
    ensures Join(p + q, d) == Join(p, d) + [d] + Join(q, d)
    decreases |p|
  {
    if |p| == 1 {
      assert (p + q)[1..] == q;
    } else {
      assert (p + q)[1..] == p[1..] + q;
      JoinAppend(p[1..], q, d);
    }
  }

  lemma {:induction false} SplitNone(a: string, d: char)
    requires d !in a
    ensures Split(a, d) == [a]
    decreases |a|
  {
    if |a| > 0 {
      SplitNone(a[1..], d);
      assert [a[0]] + a[1..] == a;
    }
  }

  /** Splitting peels off a delimiter-free first piece. */
  lemma {:induction false} SplitCons(a: string, rest: string, d: char)
    requires d !in a
    ensures Split(a + [d] + rest, d) == [a] + Split(rest, d)
    decreases |a|
  {
    var s := a + [d] + rest;
    if |a| == 0 {
      assert s == [d] + rest;
      assert s[1..] == rest;
    } else {
      assert s[0] == a[0] && s[1..] == a[1..] + [d] + rest;
      SplitCons(a[1..], rest, d);
      assert [a[0]] + a[1..] == a;
    }
  }

  /** Three delimiter-free pieces joined by the delimiter split back into
      the three. */
  lemma SplitThree(a: string, b: string, c: string, d: char)
    requires d !in a && d !in b && d !in c
    ensures Split(a + [d] + b + [d] + c, d) == [a, b, c]
  {
    var bc := b + [d] + c;
    SplitNone(c, d);
    SplitCons(b, c, d);
    assert Split(bc, d) == [b, c];
    SplitCons(a, bc, d);
    assert a + [d] + b + [d] + c == a + [d] + bc;
  }

  // ---------------------------------------------------------------------------
  // Whitespace, blankness and case
  // ---------------------------------------------------------------------------

  /** Kotlin `Char.isWhitespace`: Java whitespace or a Unicode space separator. */
  predicate IsWhitespace(c: char) {
    c in {'\t', '\n', '\U{000B}', '\U{000C}', '\r', '\U{001C}', '\U{001D}', '\U{001E}', '\U{001F}',
          ' ', '\U{00A0}', '\U{1680}', '\U{2028}', '\U{2029}', '\U{202F}', '\U{205F}', '\U{3000}'}
    || ('\U{2000}' <= c <= '\U{200A}')
  }

  /** Kotlin `isBlank`: empty or whitespace only. */
  predicate IsBlank(s: string) {
    forall i :: 0 <= i < |s| ==> IsWhitespace(s[i])
  }

  function DropLeadingSpace(s: string): (r: string)
    ensures |r| <= |s| && r == s[|s| - |r|..]
    ensures |r| > 0 ==> !IsWhitespace(r[0])
    ensures r == "" <==> IsBlank(s)
    decreases |s|
  {
    if |s| > 0 && IsWhitespace(s[0]) then
      var r := DropLeadingSpace(s[1..]);
      assert IsBlank(s) <==> IsBlank(s[1..]) by {
        assert forall i :: 0 < i < |s| ==> s[i] == s[1..][i - 1];
      }
      r
    else s
  }

  function DropTrailingSpace(s: string): (r: string)
    ensures r <= s
    ensures |r| > 0 ==> !IsWhitespace(r[|r| - 1])
    ensures r == "" <==> IsBlank(s)
    decreases |s|
  {
    if |s| > 0 && IsWhitespace(s[|s| - 1]) then
      var r := DropTrailingSpace(s[..|s| - 1]);
      assert IsBlank(s) <==> IsBlank(s[..|s| - 1]) by {
        assert forall i :: 0 <= i < |s| - 1 ==> s[i] == s[..|s| - 1][i];
      }
      r
    else s
  }

  /** Kotlin `trim()`: the text without leading and trailing whitespace; it is
      empty exactly when the text is blank. */
  function Trim(s: string): (r: string)
    ensures |r| <= |s|
    ensures forall c :: c in r ==> c in s
    ensures |r| > 0 ==> !IsWhitespace(r[0]) && !IsWhitespace(r[|r| - 1])
    ensures r == "" <==> IsBlank(s)
  {
    var a := DropLeadingSpace(s);
    var r := DropTrailingSpace(a);
    assert |a| > 0 ==> !IsBlank(a) by {
      if |a| > 0 { assert !IsWhitespace(a[0]); }
    }
    assert forall c :: c in r ==> c in a;
    assert forall c :: c in a ==> c in s;
    r
  }

  /** ASCII lower-casing of one character. */
  function LowerChar(c: char): char {
    if 'A' <= c <= 'Z' then (c as int + 32) as char else c
  }

  /** Lower-casing, applied character by character. */
  function Lower(s: string): (r: string)
    ensures |r| == |s|
    ensures forall i :: 0 <= i < |s| ==> r[i] == LowerChar(s[i])
  {
    seq(|s|, i requires 0 <= i < |s| => LowerChar(s[i]))
  }

  /** Kotlin `equals(other, ignoreCase = true)` on ASCII letters. */
  predicate EqualsIgnoreCase(a: string, b: string) {
    Lower(a) == Lower(b)
  }

  // ---------------------------------------------------------------------------
  // UTF-16
  // ---------------------------------------------------------------------------

  /** A Java or Kotlin `char`: one UTF-16 code unit, a lone surrogate
      included. */
  type CodeUnit = u: int | 0 <= u < 0x1_0000

  /** The UTF-16 code units of one character: the character itself below
      0x10000, otherwise a high surrogate followed by a low one. */
  function Utf16Units(c: char): (r: seq<CodeUnit>)
    ensures |r| == (if c as int < 0x1_0000 then 1 else 2)
    ensures |r| == 1 ==> r[0] == c as int
    ensures |r| == 2 ==> 0xD800 <= r[0] < 0xDC00 && 0xDC00 <= r[1] < 0xE000
    ensures |r| == 2 ==> 0x1_0000 + (r[0] as int - 0xD800) * 0x400 + (r[1] as int - 0xDC00) == c as int
  {
    var v := c as int;
    if v < 0x1_0000 then [v]
    else [0xD800 + (v - 0x1_0000) / 0x400, 0xDC00 + (v - 0x1_0000) % 0x400]
  }
}

=== FILE: version_detail.dfy ===
/** The version-detail screen of the download page: the mod-loader choice,
    the optional Fabric API and OptiFine add-ons, the selected version of
    each loader, and the install name that follows those choices until the
    user types one. Each remote list arrives as a fetch outcome; the game
    version manifest is the list of its version ids. */
module VersionDetail {
  import opened Wrappers
  import opened Text

  datatype ModLoader = NoLoader | Forge | Fabric | NeoForge | Quilt

  /** The loader's name as it appears in the install name. */
  function LoaderName(l: ModLoader): string {
    match l
    case NoLoader => ""
    case Forge => "Forge"
    case Fabric => "Fabric"
    case NeoForge => "NeoForge"
    case Quilt => "Quilt"
  }

  datatype FabricLoaderVersion = FabricLoaderVersion(version: string, stable: bool)

  /** A loader version as listed; fields not given default to absent. */
  datatype LoaderVersion = LoaderVersion(version: string, releaseTime: Option<string>,
                                         isRecommended: bool, status: Option<string>)

  function PlainVersion(version: string): LoaderVersion {
    LoaderVersion(version, None, false, None)
  }

  /** A Fabric API release as listed by Modrinth. */
  datatype ModrinthVersion = ModrinthVersion(versionNumber: string)

  datatype ForgeVersionToken = ForgeVersionToken(version: string, modified: Option<string>)
  datatype OptiFineVersionToken = OptiFineVersionToken(mcVersion: string, optType: string, patch: string)

  /** The version currently selected in each list. */
  datatype Selections = Selections(
    fabricApi: Option<ModrinthVersion>,
    fabric: Option<FabricLoaderVersion>,
    forge: Option<LoaderVersion>,
    neoForge: Option<LoaderVersion>,
    quilt: Option<LoaderVersion>,
    optifine: Option<LoaderVersion>)

  /** The lists fetched for the game version. */
  datatype Lists = Lists(
    fabricApi: seq<ModrinthVersion>,
    fabric: seq<FabricLoaderVersion>,
    forge: seq<LoaderVersion>,
    neoForge: seq<LoaderVersion>,
    quilt: seq<LoaderVersion>,
    optifine: seq<LoaderVersion>)

  /** The screen state. */
  datatype Screen = Screen(
    versionId: string,
    versionName: string,
    manuallyEdited: bool,
    loader: ModLoader,
    fabricApiSelected: bool,
    optifineSelected: bool,
    selected: Selections,
    lists: Lists)

  /** A new screen: named after the game version, nothing chosen. */
  function Open(versionId: string): (s: Screen)
    ensures s.versionName == versionId && !s.manuallyEdited
    ensures s.loader == NoLoader && !s.fabricApiSelected && !s.optifineSelected
  {
    Screen(versionId, versionId, false, NoLoader, false, false,
           Selections(None, None, None, None, None, None), Lists([], [], [], [], [], []))
  }

  // ---------------------------------------------------------------------------
  // The install name
  // ---------------------------------------------------------------------------

  /** "-<version>" for a selected version, nothing otherwise. */
  function VersionPart(v: Option<string>): string {
    if v.Some? then "-" + v.value else ""
  }

  function VersionOf(v: Option<LoaderVersion>): Option<string> {
    if v.Some? then Some(v.value.version) else None
  }

  /** The version selected for a loader, as text. */
  function SelectedLoaderVersion(s: Screen): Option<string> {
    match s.loader
    case NoLoader => None
    case Fabric => if s.selected.fabric.Some? then Some(s.selected.fabric.value.version) else None
    case Forge => VersionOf(s.selected.forge)
    case NeoForge => VersionOf(s.selected.neoForge)
    case Quilt => VersionOf(s.selected.quilt)
  }

  /** The automatic install name: the game version, then the loader and its
      version, then OptiFine and its version. */
  function AutoName(s: Screen): (name: string)
    ensures StartsWith(name, s.versionId)
    ensures name == s.versionId <==> s.loader == NoLoader && !s.optifineSelected
    ensures s.loader != NoLoader ==> OccursAt(name, "-" + LoaderName(s.loader), |s.versionId|)
  {
    var loaderPart := if s.loader == NoLoader then "" else "-" + LoaderName(s.loader) + VersionPart(SelectedLoaderVersion(s));
    var optifinePart := if s.optifineSelected then "-Optifine" + VersionPart(VersionOf(s.selected.optifine)) else "";
    var name := s.versionId + loaderPart + optifinePart;
    assert name[..|s.versionId|] == s.versionId;
    assert s.loader != NoLoader ==> OccursAt(name, "-" + LoaderName(s.loader), |s.versionId|) by {
      if s.loader != NoLoader {
        SliceOfMiddle(s.versionId, "-" + LoaderName(s.loader), VersionPart(SelectedLoaderVersion(s)), optifinePart);
      }
    }
    assert |name| == |s.versionId| + |loaderPart| + |optifinePart|;
    name
  }

  lemma SliceOfMiddle(a: string, b: string, c: string, d: string)
    ensures |a + (b + c) + d| >= |a| + |b|
    ensures (a + (b + c) + d)[|a|..|a| + |b|] == b
  {
    var s := a + (b + c) + d;
    forall k | 0 <= k < |b|
      ensures s[|a| + k] == b[k]
    {
      assert s[|a| + k] == (b + c)[k];
    }
  }

  /** `updateVersionNameSuffix`: recompute the name unless the user has
      typed one. */
  function UpdateName(s: Screen): (r: Screen)
    ensures s.manuallyEdited ==> r == s
    ensures !s.manuallyEdited ==> r == s.(versionName := AutoName(s))
  {
    if s.manuallyEdited then s else s.(versionName := AutoName(s))
  }

  /** `setVersionName`: the typed name, which from now on stays. */
  function SetVersionName(s: Screen, name: string): (r: Screen)
    ensures r.versionName == name && r.manuallyEdited
    ensures r.(versionName := s.versionName, manuallyEdited := s.manuallyEdited) == s
  {
    s.(versionName := name, manuallyEdited := true)
  }

  // ---------------------------------------------------------------------------
  // Choices
  // ---------------------------------------------------------------------------

  /** `selectModLoader`: choosing the current loader again clears it; the
      Fabric API is dropped whenever Fabric is not the result. */
  function SelectModLoader(s: Screen, l: ModLoader): (r: Screen)
    ensures r.loader == (if s.loader == l then NoLoader else l)
    ensures r.loader != Fabric ==> !r.fabricApiSelected
    ensures r.loader == Fabric ==> r.fabricApiSelected == s.fabricApiSelected
    ensures !s.manuallyEdited ==> r.versionName == AutoName(r)
    ensures s.manuallyEdited ==> r.versionName == s.versionName
  {
    var chosen := if s.loader == l then NoLoader else l;
    var t := s.(loader := chosen);
    var t := if chosen != Fabric then t.(fabricApiSelected := false) else t;
    UpdateName(t)
  }

  /** Choosing a loader twice toggles it: from no loader or from that
      loader, the loader state comes back. */
  lemma SelectTwiceRestoresLoader(s: Screen, l: ModLoader)
    requires l != NoLoader && (s.loader == l || s.loader == NoLoader)
    ensures SelectModLoader(SelectModLoader(s, l), l).loader == s.loader
  {
  }

  function ToggleFabricApi(s: Screen, selected: bool): (r: Screen)
    ensures r.fabricApiSelected == selected && r.versionName == s.versionName
    ensures r.(fabricApiSelected := s.fabricApiSelected) == s
  {
    s.(fabricApiSelected := selected)
  }

  function SelectFabricApiVersion(s: Screen, v: ModrinthVersion): (r: Screen)
    ensures r.selected.fabricApi == Some(v) && r.versionName == s.versionName
    ensures r.(selected := s.selected) == s && r.selected.(fabricApi := s.selected.fabricApi) == s.selected
  {
    s.(selected := s.selected.(fabricApi := Some(v)))
  }

  /** The name after a choice: a typed name stays, any other is rebuilt
      from the new choices. */
  predicate Renamed(s: Screen, r: Screen) {
    && (s.manuallyEdited ==> r.versionName == s.versionName)
    && (!s.manuallyEdited ==> r.versionName == AutoName(r))
    && r.manuallyEdited == s.manuallyEdited
  }

  /** `selectFabricVersion`: only the Fabric selection changes, and the name
      follows. */
  function SelectFabricVersion(s: Screen, v: FabricLoaderVersion): (r: Screen)
    ensures r.selected.fabric == Some(v) && Renamed(s, r)
    ensures r.(versionName := s.versionName, selected := s.selected) == s
    ensures r.selected.(fabric := s.selected.fabric) == s.selected
  {
    UpdateName(s.(selected := s.selected.(fabric := Some(v))))
  }

  /** `selectForgeVersion`: only the Forge selection changes, and the name
      follows. */
  function SelectForgeVersion(s: Screen, v: LoaderVersion): (r: Screen)
    ensures r.selected.forge == Some(v) && Renamed(s, r)
    ensures r.(versionName := s.versionName, selected := s.selected) == s
    ensures r.selected.(forge := s.selected.forge) == s.selected
  {
    UpdateName(s.(selected := s.selected.(forge := Some(v))))
  }

  /** `selectNeoForgeVersion`: only the NeoForge selection changes, and the
      name follows. */
  function SelectNeoForgeVersion(s: Screen, v: LoaderVersion): (r: Screen)
    ensures r.selected.neoForge == Some(v) && Renamed(s, r)
    ensures r.(versionName := s.versionName, selected := s.selected) == s
    ensures r.selected.(neoForge := s.selected.neoForge) == s.selected
  {
    UpdateName(s.(selected := s.selected.(neoForge := Some(v))))
  }

  /** `selectQuiltVersion`: only the Quilt selection changes, and the name
      follows. */
  function SelectQuiltVersion(s: Screen, v: LoaderVersion): (r: Screen)
    ensures r.selected.quilt == Some(v) && Renamed(s, r)
    ensures r.(versionName := s.versionName, selected := s.selected) == s
    ensures r.selected.(quilt := s.selected.quilt) == s.selected
  {
    UpdateName(s.(selected := s.selected.(quilt := Some(v))))
  }

  /** `toggleOptifine`: only the OptiFine flag changes, and the name
      follows. */
  function ToggleOptifine(s: Screen, selected: bool): (r: Screen)
    ensures r.optifineSelected == selected && Renamed(s, r)
    ensures r.(versionName := s.versionName, optifineSelected := s.optifineSelected) == s
  {
    UpdateName(s.(optifineSelected := selected))
  }

  /** `selectOptifineVersion`: only the OptiFine selection changes, and the
      name follows. */
  function SelectOptifineVersion(s: Screen, v: LoaderVersion): (r: Screen)
    ensures r.selected.optifine == Some(v) && Renamed(s, r)
    ensures r.(versionName := s.versionName, selected := s.selected) == s
    ensures r.selected.(optifine := s.selected.optifine) == s.selected
  {
    UpdateName(s.(selected := s.selected.(optifine := Some(v))))
  }

  /** What can happen on the screen: a user action, or one of the remote
      lists arriving. The lists are requested when the screen opens and
      arrive whenever their request finishes, so they interleave freely
      with the user's choices. */
  datatype Action =
    | ChooseLoader(loader: ModLoader)
    | ChooseFabricApi(on: bool)
    | PickFabricApi(api: ModrinthVersion)
    | PickFabric(fabric: FabricLoaderVersion)
    | PickForge(forge: LoaderVersion)
    | PickNeoForge(neoForge: LoaderVersion)
    | PickQuilt(quilt: LoaderVersion)
    | ChooseOptifine(optifine: bool)
    | PickOptifine(optifineVersion: LoaderVersion)
    | TypeName(name: string)
    | Arrive(load: Load)

  /** One remote list arriving, as its request answered or threw. */
  datatype Load =
    | FabricApiLoaded(fabricApiList: Fetch<Option<seq<ModrinthVersion>>>)
    | FabricLoaded(fabricList: Fetch<seq<FabricLoaderVersion>>)
    | ForgeLoaded(forgeList: Fetch<seq<ForgeVersionToken>>)
    | NeoForgeLoaded(neoForgeList: Fetch<seq<string>>)
    | QuiltLoaded(quiltList: Fetch<seq<string>>)
    | OptifineLoaded(optifineList: Fetch<seq<OptiFineVersionToken>>)

  /** The effect of a list arriving: its list and default selection only. */
  function ApplyLoad(s: Screen, l: Load): (r: Screen)
    ensures r.(lists := s.lists, selected := s.selected) == s
  {
    match l
    case FabricApiLoaded(f) => LoadFabricApi(s, f)
    case FabricLoaded(f) => LoadFabric(s, f)
    case ForgeLoaded(f) => LoadForge(s, f)
    case NeoForgeLoaded(f) => LoadNeoForge(s, f)
    case QuiltLoaded(f) => LoadQuilt(s, f)
    case OptifineLoaded(f) => LoadOptifine(s, f)
  }

  /** One step as the screen does it: a list that arrives sets its default
      selection without recomputing the name, typing sets the name for
      good, and no other step touches a typed name. */
  function Step(s: Screen, a: Action): (t: Screen)
    ensures a.Arrive? ==> t.versionName == s.versionName && t.manuallyEdited == s.manuallyEdited
                          && t.loader == s.loader && t.optifineSelected == s.optifineSelected
    ensures a.TypeName? ==> t.versionName == a.name && t.manuallyEdited
    ensures s.manuallyEdited ==> t.manuallyEdited
    ensures s.manuallyEdited && !a.TypeName? ==> t.versionName == s.versionName
  {
    match a
    case ChooseLoader(l) => SelectModLoader(s, l)
    case ChooseFabricApi(on) => ToggleFabricApi(s, on)
    case PickFabricApi(v) => SelectFabricApiVersion(s, v)
    case PickFabric(v) => SelectFabricVersion(s, v)
    case PickForge(v) => SelectForgeVersion(s, v)
    case PickNeoForge(v) => SelectNeoForgeVersion(s, v)
    case PickQuilt(v) => SelectQuiltVersion(s, v)
    case ChooseOptifine(on) => ToggleOptifine(s, on)
    case PickOptifine(v) => SelectOptifineVersion(s, v)
    case TypeName(n) => SetVersionName(s, n)
    case Arrive(l) => ApplyLoad(s, l)
  }

  function Run(s: Screen, acts: seq<Action>): Screen
    decreases |acts|
  {
    if |acts| == 0 then s else Run(Step(s, acts[0]), acts[1..])
  }

  /** One step as intended: a list that arrives also brings the name up to
      date, as every selection the user makes does. */
  function StepIntended(s: Screen, a: Action): (r: Screen)
    ensures !a.Arrive? ==> r == Step(s, a)
    ensures a.Arrive? ==> r == UpdateName(Step(s, a))
  {
    if a.Arrive? then UpdateName(ApplyLoad(s, a.load)) else Step(s, a)
  }

  function RunIntended(s: Screen, acts: seq<Action>): Screen
    decreases |acts|
  {
    if |acts| == 0 then s else RunIntended(StepIntended(s, acts[0]), acts[1..])
  }

  /** The name shown is the automatic one for the current choices, or the
      one the user typed. */
  predicate NameFollowsChoices(s: Screen) {
    s.manuallyEdited || s.versionName == AutoName(s)
  }

  /** The automatic name reads only the game version, the loader, the
      OptiFine flag and the selected versions other than the Fabric API. */
  lemma AutoNameInputs(s: Screen, t: Screen)
    requires s.versionId == t.versionId && s.loader == t.loader && s.optifineSelected == t.optifineSelected
    requires s.selected.(fabricApi := t.selected.fabricApi) == t.selected
    ensures AutoName(s) == AutoName(t)
  {
    assert SelectedLoaderVersion(s) == SelectedLoaderVersion(t);
  }

  lemma UpdateNameFollows(t: Screen)
    ensures NameFollowsChoices(UpdateName(t))
  {
    var r := UpdateName(t);
    if !t.manuallyEdited {
      AutoNameInputs(r, t);
    }
  }

  /** Every step, user action or arriving list, keeps the shown name in
      step with the choices once lists also update the name. */
  lemma StepKeepsName(s: Screen, a: Action)
    requires NameFollowsChoices(s)
    ensures NameFollowsChoices(StepIntended(s, a))
  {
    match a
    case ChooseLoader(l) =>
      var chosen := if s.loader == l then NoLoader else l;
      var picked := s.(loader := chosen);
      UpdateNameFollows(if chosen != Fabric then picked.(fabricApiSelected := false) else picked);
    case ChooseFabricApi(on) =>
      AutoNameInputs(Step(s, a), s);
    case PickFabricApi(v) =>
      AutoNameInputs(Step(s, a), s);
    case PickFabric(v) => UpdateNameFollows(s.(selected := s.selected.(fabric := Some(v))));
    case PickForge(v) => UpdateNameFollows(s.(selected := s.selected.(forge := Some(v))));
    case PickNeoForge(v) => UpdateNameFollows(s.(selected := s.selected.(neoForge := Some(v))));
    case PickQuilt(v) => UpdateNameFollows(s.(selected := s.selected.(quilt := Some(v))));
    case ChooseOptifine(on) => UpdateNameFollows(s.(optifineSelected := on));
    case PickOptifine(v) => UpdateNameFollows(s.(selected := s.selected.(optifine := Some(v))));
    case TypeName(n) =>
    case Arrive(l) => UpdateNameFollows(ApplyLoad(s, l));
  }

  /** From a screen whose name follows its choices, after any interleaving
      of actions and arriving lists, the name is the typed one or the
      automatic one for the choices made. */
  lemma {:induction false} NameAlwaysFollowsChoices(s: Screen, acts: seq<Action>)
    requires NameFollowsChoices(s)
    ensures NameFollowsChoices(RunIntended(s, acts))
    decreases |acts|
  {
    if |acts| > 0 {
      StepKeepsName(s, acts[0]);
      NameAlwaysFollowsChoices(StepIntended(s, acts[0]), acts[1..]);
    }
  }

  /** As written, the user's own actions keep the name in step. */
  lemma UserStepKeepsName(s: Screen, a: Action)
    requires NameFollowsChoices(s) && !a.Arrive?
    ensures NameFollowsChoices(Step(s, a))
  {
    StepKeepsName(s, a);
  }

  /** As written, a list arriving before any loader or OptiFine is chosen
      leaves the name in step: the automatic name is then the game version
      alone. */
  lemma EarlyLoadKeepsName(s: Screen, l: Load)
    requires NameFollowsChoices(s) && s.loader == NoLoader && !s.optifineSelected
    ensures NameFollowsChoices(Step(s, Arrive(l)))
  {
  }

  /** As written, choosing Fabric before its list arrives leaves the name
      without the Fabric version the arriving list then selects: with game
      version "1.20" and stable loader "0.15", the name stays
      "1.20-Fabric" while the choices call for "1.20-Fabric-0.15". */
  lemma AsWrittenLoadLeavesNameStale(versionId: string, fabric: FabricLoaderVersion)
    requires fabric.stable
    ensures var s := Run(Open(versionId), [ChooseLoader(Fabric), Arrive(FabricLoaded(Fetched([fabric])))]);
      && s.versionName == versionId + "-Fabric"
      && AutoName(s) == versionId + "-Fabric" + "-" + fabric.version
      && !NameFollowsChoices(s)
  {
    var s1 := Step(Open(versionId), ChooseLoader(Fabric));
    var s2 := ChosenThenLoaded(versionId, fabric);
    var acts := [ChooseLoader(Fabric), Arrive(FabricLoaded(Fetched([fabric])))];
    assert acts[1..] == [acts[1]];
    assert Run(s1, [acts[1]]) == Run(s2, []);
    assert Run(Open(versionId), acts) == Run(s1, acts[1..]);
    assert |AutoName(s2)| > |s2.versionName|;
  }

  lemma ChosenThenLoaded(versionId: string, fabric: FabricLoaderVersion) returns (s2: Screen)
    requires fabric.stable
    ensures s2 == Step(Step(Open(versionId), ChooseLoader(Fabric)), Arrive(FabricLoaded(Fetched([fabric]))))
    ensures s2.versionName == versionId + "-Fabric"
    ensures s2.loader == Fabric && !s2.optifineSelected && s2.selected.fabric == Some(fabric)
    ensures AutoName(s2) == versionId + "-Fabric" + "-" + fabric.version
  {
    var s1 := Step(Open(versionId), ChooseLoader(Fabric));
    assert s1.versionName == versionId + "-Fabric" + "";
    assert FirstWhere([fabric], IsStable) == Some(fabric);
    s2 := Step(s1, Arrive(FabricLoaded(Fetched([fabric]))));
  }

  lemma OpenNameFollowsChoices(versionId: string)
    ensures NameFollowsChoices(Open(versionId))
  {
  }

  /** Once a name is typed, no later choice changes it: the shown name is
      the last one typed. */
  lemma {:induction false} TypedNameSticks(s: Screen, name: string, acts: seq<Action>)
    requires forall k :: 0 <= k < |acts| ==> !acts[k].TypeName?
    ensures Run(SetVersionName(s, name), acts).versionName == name
    ensures Run(SetVersionName(s, name), acts).manuallyEdited
    decreases |acts|
  {
    if |acts| > 0 {
      var t := SetVersionName(s, name);
      var u := Step(t, acts[0]);
      assert u.versionName == name && u.manuallyEdited;
      assert u == SetVersionName(u, name);
      assert forall k :: 0 <= k < |acts[1..]| ==> !acts[1..][k].TypeName? by {
        forall k | 0 <= k < |acts[1..]| ensures !acts[1..][k].TypeName? {
          assert acts[1..][k] == acts[k + 1];
        }
      }
      TypedNameSticks(u, name, acts[1..]);
    }
  }

  // ---------------------------------------------------------------------------
  // Remote lists and their default selections
  // ---------------------------------------------------------------------------

  /** The first element with property `p`, and its position. */
  function FirstIndexWhere<T>(xs: seq<T>, p: T -> bool): (r: Option<nat>)
    ensures r.Some? ==>
      && r.value < |xs| && p(xs[r.value])
      && forall j :: 0 <= j < r.value ==> !p(xs[j])
    ensures r.None? ==> forall j :: 0 <= j < |xs| ==> !p(xs[j])
    decreases |xs|
  {
    if |xs| == 0 then None
    else if p(xs[0]) then Some(0)
    else match FirstIndexWhere(xs[1..], p)
      case None => None
      case Some(k) => Some(k + 1)
  }

  /** Kotlin `firstOrNull { p }`. */
  function FirstWhere<T>(xs: seq<T>, p: T -> bool): (r: Option<T>)
    ensures r.None? <==> forall j :: 0 <= j < |xs| ==> !p(xs[j])
    ensures r.Some? ==> exists i ::
      && 0 <= i < |xs| && xs[i] == r.value && p(r.value)
      && forall j :: 0 <= j < i ==> !p(xs[j])
  {
    match FirstIndexWhere(xs, p)
    case None => None
    case Some(i) => Some(xs[i])
  }

  /** Kotlin `firstOrNull()`. */
  function First<T>(xs: seq<T>): (r: Option<T>)
    ensures r.None? <==> |xs| == 0
    ensures r.Some? ==> r.value == xs[0]
  {
    if |xs| == 0 then None else Some(xs[0])
  }

  /** A Forge version is recommended iff its name ends in "-recommended". */
  function ForgeToLoaderVersion(t: ForgeVersionToken): (v: LoaderVersion)
    ensures v.version == t.version && v.releaseTime == t.modified
    ensures v.isRecommended <==> EndsWith(t.version, "-recommended")
    ensures v.status == (if v.isRecommended then Some("Recommended") else None)
  {
    var recommended := EndsWith(t.version, "-recommended");
    LoaderVersion(t.version, t.modified, recommended, if recommended then Some("Recommended") else None)
  }

  /** An OptiFine version is named "<type>_<patch>". */
  function OptiFineToLoaderVersion(t: OptiFineVersionToken): LoaderVersion {
    PlainVersion(t.optType + "_" + t.patch)
  }

  /** The type and patch read back from an OptiFine version name when
      neither contains '_'. */
  lemma OptiFineNameSplits(t: OptiFineVersionToken)
    requires '_' !in t.optType && '_' !in t.patch
    ensures Split(OptiFineToLoaderVersion(t).version, '_') == [t.optType, t.patch]
  {
    SplitCons(t.optType, t.patch, '_');
    SplitNone(t.patch, '_');
    assert t.optType + "_" + t.patch == t.optType + ['_'] + t.patch;
  }

  /** The OptiFine versions for one game version, in list order. */
  function OptiFineFor(tokens: seq<OptiFineVersionToken>, versionId: string): (vs: seq<LoaderVersion>)
    ensures |vs| <= |tokens|
    ensures forall v :: v in vs <==> exists t :: t in tokens && t.mcVersion == versionId && v == OptiFineToLoaderVersion(t)
    decreases |tokens|
  {
    if |tokens| == 0 then []
    else
      var rest := OptiFineFor(tokens[1..], versionId);
      assert forall t :: t in tokens <==> t == tokens[0] || t in tokens[1..];
      if tokens[0].mcVersion == versionId then [OptiFineToLoaderVersion(tokens[0])] + rest else rest
  }

  predicate IsStable(v: FabricLoaderVersion) {
    v.stable
  }

  predicate IsRecommended(v: LoaderVersion) {
    v.isRecommended
  }

  function QuiltEntry(version: string): LoaderVersion {
    LoaderVersion(version, None, false, Some("Stable"))
  }

  function MapSeq<A, B>(xs: seq<A>, f: A -> B): (ys: seq<B>)
    ensures |ys| == |xs| && forall i :: 0 <= i < |xs| ==> ys[i] == f(xs[i])
  {
    seq(|xs|, i requires 0 <= i < |xs| => f(xs[i]))
  }

  /** A remote list request: its answer, or the exception it threw. */
  datatype Fetch<T> = Fetched(answer: T) | Threw

  /** The Fabric API list: a missing answer is an empty list; the first
      release is selected. */
  function LoadFabricApi(s: Screen, f: Fetch<Option<seq<ModrinthVersion>>>): (r: Screen)
    ensures f.Threw? ==> r == s
    ensures f.Fetched? ==> r.lists.fabricApi == f.answer.GetOr([]) && r.selected.fabricApi == First(r.lists.fabricApi)
    ensures r.(lists := s.lists, selected := s.selected) == s
    ensures r.lists.(fabricApi := s.lists.fabricApi) == s.lists && r.selected.(fabricApi := s.selected.fabricApi) == s.selected
  {
    if f.Threw? then s
    else
      var vs := f.answer.GetOr([]);
      s.(lists := s.lists.(fabricApi := vs), selected := s.selected.(fabricApi := First(vs)))
  }

  /** The Fabric loader list: the first stable version is selected. */
  function LoadFabric(s: Screen, f: Fetch<seq<FabricLoaderVersion>>): (r: Screen)
    ensures f.Threw? ==> r == s
    ensures f.Fetched? ==> r.lists.fabric == f.answer && r.selected.fabric == FirstWhere(f.answer, IsStable)
    ensures r.(lists := s.lists, selected := s.selected) == s
    ensures r.lists.(fabric := s.lists.fabric) == s.lists && r.selected.(fabric := s.selected.fabric) == s.selected
  {
    if f.Threw? then s
    else s.(lists := s.lists.(fabric := f.answer), selected := s.selected.(fabric := FirstWhere(f.answer, IsStable)))
  }

  /** The Forge list: the first recommended version is selected. */
  function LoadForge(s: Screen, f: Fetch<seq<ForgeVersionToken>>): (r: Screen)
    ensures f.Threw? ==> r == s
    ensures f.Fetched? ==>
      && r.lists.forge == MapSeq(f.answer, ForgeToLoaderVersion)
      && r.selected.forge == FirstWhere(r.lists.forge, IsRecommended)
    ensures r.(lists := s.lists, selected := s.selected) == s
    ensures r.lists.(forge := s.lists.forge) == s.lists && r.selected.(forge := s.selected.forge) == s.selected
  {
    if f.Threw? then s
    else
      var vs := MapSeq(f.answer, ForgeToLoaderVersion);
      s.(lists := s.lists.(forge := vs), selected := s.selected.(forge := FirstWhere(vs, IsRecommended)))
  }

  /** The NeoForge list: bare version names; the first is selected. */
  function LoadNeoForge(s: Screen, f: Fetch<seq<string>>): (r: Screen)
    ensures f.Threw? ==> r == s
    ensures f.Fetched? ==> r.lists.neoForge == MapSeq(f.answer, PlainVersion) && r.selected.neoForge == First(r.lists.neoForge)
    ensures r.(lists := s.lists, selected := s.selected) == s
    ensures r.lists.(neoForge := s.lists.neoForge) == s.lists && r.selected.(neoForge := s.selected.neoForge) == s.selected
  {
    if f.Threw? then s
    else
      var vs := MapSeq(f.answer, PlainVersion);
      s.(lists := s.lists.(neoForge := vs), selected := s.selected.(neoForge := First(vs)))
  }

  /** The Quilt list: loader version names, all marked stable; the first is
      selected. */
  function LoadQuilt(s: Screen, f: Fetch<seq<string>>): (r: Screen)
    ensures f.Threw? ==> r == s
    ensures f.Fetched? ==> r.lists.quilt == MapSeq(f.answer, QuiltEntry) && r.selected.quilt == First(r.lists.quilt)
    ensures r.(lists := s.lists, selected := s.selected) == s
    ensures r.lists.(quilt := s.lists.quilt) == s.lists && r.selected.(quilt := s.selected.quilt) == s.selected
  {
    if f.Threw? then s
    else
      var vs := MapSeq(f.answer, QuiltEntry);
      s.(lists := s.lists.(quilt := vs), selected := s.selected.(quilt := First(vs)))
  }

  /** The OptiFine list: only this game version's builds; the first is
      selected. */
  function LoadOptifine(s: Screen, f: Fetch<seq<OptiFineVersionToken>>): (r: Screen)
    ensures f.Threw? ==> r == s
    ensures f.Fetched? ==> r.lists.optifine == OptiFineFor(f.answer, s.versionId) && r.selected.optifine == First(r.lists.optifine)
    ensures r.(lists := s.lists, selected := s.selected) == s
    ensures r.lists.(optifine := s.lists.optifine) == s.lists && r.selected.(optifine := s.selected.optifine) == s.selected
  {
    if f.Threw? then s
    else
      var vs := OptiFineFor(f.answer, s.versionId);
      s.(lists := s.lists.(optifine := vs), selected := s.selected.(optifine := First(vs)))
  }

  /** Loading the remote lists, one request after another: each list that
      arrives replaces the old one and selects its default, a request that
      throws leaves its part as it was, and the name is not recomputed. */
  function LoadAll(s: Screen,
                   fabricApi: Fetch<Option<seq<ModrinthVersion>>>,
                   fabric: Fetch<seq<FabricLoaderVersion>>,
                   forge: Fetch<seq<ForgeVersionToken>>,
                   neoForge: Fetch<seq<string>>,
                   quilt: Fetch<seq<string>>,
                   optifine: Fetch<seq<OptiFineVersionToken>>): (r: Screen)
    ensures r.(lists := s.lists, selected := s.selected) == s
  {
    LoadOptifine(LoadQuilt(LoadNeoForge(LoadForge(LoadFabric(LoadFabricApi(s, fabricApi), fabric), forge), neoForge), quilt), optifine)
  }

  /** The default Forge selection is the first version whose name ends in
      "-recommended", and there is none when no name does. */
  lemma DefaultForgeIsFirstRecommended(s: Screen, forge: seq<ForgeVersionToken>)
    ensures var r := LoadForge(s, Fetched(forge));
      && (r.selected.forge.None? <==> forall j :: 0 <= j < |forge| ==> !EndsWith(forge[j].version, "-recommended"))
      && (r.selected.forge.Some? ==> exists i ::
            && 0 <= i < |forge| && r.selected.forge.value == ForgeToLoaderVersion(forge[i])
            && EndsWith(forge[i].version, "-recommended")
            && forall j :: 0 <= j < i ==> !EndsWith(forge[j].version, "-recommended"))
  {
    var r := LoadForge(s, Fetched(forge));
    assert forall j :: 0 <= j < |forge| ==> r.lists.forge[j] == ForgeToLoaderVersion(forge[j]);
  }

  // ---------------------------------------------------------------------------
  // Download
  // ---------------------------------------------------------------------------

  datatype GameLoader = GameLoader(version: string, loaderName: string)

  datatype DownloadInfo = DownloadInfo(
    gameVersion: string,
    customVersionName: string,
    fabric: Option<GameLoader>,
    forge: Option<GameLoader>,
    neoForge: Option<GameLoader>,
    quilt: Option<GameLoader>,
    fabricApi: Option<ModrinthVersion>)

  function Named(v: Option<string>, loaderName: string): Option<GameLoader> {
    if v.Some? then Some(GameLoader(v.value, loaderName)) else None
  }

  /** `download`: when the manifest lists the game version, the install
      request carries the shown name, every loader's selected version, and
      the Fabric API release only when its flag is on. A manifest that
      cannot be read, or lacks the version, starts nothing. */
  function Download(s: Screen, manifest: Option<seq<string>>): (r: Option<DownloadInfo>)
    ensures r.Some? <==> manifest.Some? && s.versionId in manifest.value
    ensures r.Some? ==> r.value.gameVersion == s.versionId && r.value.customVersionName == s.versionName
    ensures r.Some? ==> r.value.fabricApi == (if s.fabricApiSelected then s.selected.fabricApi else None)
    ensures r.Some? ==>
      && (r.value.fabric.Some? <==> s.selected.fabric.Some?) && (r.value.forge.Some? <==> s.selected.forge.Some?)
      && (r.value.neoForge.Some? <==> s.selected.neoForge.Some?) && (r.value.quilt.Some? <==> s.selected.quilt.Some?)
    ensures r.Some? ==>
      && r.value.fabric == (if s.selected.fabric.Some? then Some(GameLoader(s.selected.fabric.value.version, "Fabric")) else None)
      && r.value.forge == (if s.selected.forge.Some? then Some(GameLoader(s.selected.forge.value.version, "Forge")) else None)
      && r.value.neoForge == (if s.selected.neoForge.Some? then Some(GameLoader(s.selected.neoForge.value.version, "NeoForge")) else None)
      && r.value.quilt == (if s.selected.quilt.Some? then Some(GameLoader(s.selected.quilt.value.version, "Quilt")) else None)
  {
    if manifest.None? || s.versionId !in manifest.value then None
    else
      Some(DownloadInfo(
        s.versionId, s.versionName,
        Named(if s.selected.fabric.Some? then Some(s.selected.fabric.value.version) else None, "Fabric"),
        Named(VersionOf(s.selected.forge), "Forge"),
        Named(VersionOf(s.selected.neoForge), "NeoForge"),
        Named(VersionOf(s.selected.quilt), "Quilt"),
        if s.fabricApiSelected then s.selected.fabricApi else None))
  }

  /** The request does not depend on which loader is active: switching the
      loader (by any means that keeps the name and the Fabric API flag)
      sends the same versions. */
  lemma DownloadIgnoresActiveLoader(s: Screen, l: ModLoader, manifest: Option<seq<string>>)
    ensures Download(s.(loader := l), manifest) == Download(s, manifest)
  {
  }

  /** With Forge chosen, the request still carries the Fabric selection. */
  lemma ForgeInstallCarriesFabric(s: Screen, manifest: seq<string>)
    requires s.versionId in manifest && s.selected.fabric.Some?
    ensures var r := Download(SelectModLoader(s.(loader := NoLoader), Forge), Some(manifest));
      r.Some? && r.value.fabric == Some(GameLoader(s.selected.fabric.value.version, "Fabric")) && r.value.fabricApi.None?
  {
  }

  /** The screen with every loader selection but the active loader's
      cleared. */
  function OnlyActive(s: Screen): (t: Screen)
    ensures t.(selected := s.selected) == s
    ensures t.selected.fabricApi == s.selected.fabricApi && t.selected.optifine == s.selected.optifine
    ensures SelectedLoaderVersion(t) == SelectedLoaderVersion(s)
  {
    var k := s.selected;
    s.(selected := k.(
      fabric := if s.loader == Fabric then k.fabric else None,
      forge := if s.loader == Forge then k.forge else None,
      neoForge := if s.loader == NeoForge then k.neoForge else None,
      quilt := if s.loader == Quilt then k.quilt else None))
  }

  /** The install request as the screen evidently means it ("according to
      the chosen mod loader"): only the active loader's selected version
      is sent, and none with no loader chosen. */
  function DownloadIntended(s: Screen, manifest: Option<seq<string>>): (r: Option<DownloadInfo>)
    ensures r.Some? <==> manifest.Some? && s.versionId in manifest.value
    ensures r.Some? ==> r.value.gameVersion == s.versionId && r.value.customVersionName == s.versionName
    ensures r.Some? ==> r.value.fabricApi == (if s.fabricApiSelected then s.selected.fabricApi else None)
    ensures r.Some? ==>
      && (r.value.fabric.Some? <==> s.loader == Fabric && s.selected.fabric.Some?)
      && (r.value.forge.Some? <==> s.loader == Forge && s.selected.forge.Some?)
      && (r.value.neoForge.Some? <==> s.loader == NeoForge && s.selected.neoForge.Some?)
      && (r.value.quilt.Some? <==> s.loader == Quilt && s.selected.quilt.Some?)
    ensures r.Some? ==>
      && r.value.fabric == (if s.loader == Fabric && s.selected.fabric.Some? then Some(GameLoader(s.selected.fabric.value.version, "Fabric")) else None)
      && r.value.forge == (if s.loader == Forge && s.selected.forge.Some? then Some(GameLoader(s.selected.forge.value.version, "Forge")) else None)
      && r.value.neoForge == (if s.loader == NeoForge && s.selected.neoForge.Some? then Some(GameLoader(s.selected.neoForge.value.version, "NeoForge")) else None)
      && r.value.quilt == (if s.loader == Quilt && s.selected.quilt.Some? then Some(GameLoader(s.selected.quilt.value.version, "Quilt")) else None)
  {
    Download(OnlyActive(s), manifest)
  }

  /** The intended request names at most one loader, the active one with
      the version the name shows. */
  lemma IntendedSendsActiveLoaderOnly(s: Screen, manifest: seq<string>)
    requires s.versionId in manifest
    ensures var r := DownloadIntended(s, Some(manifest)).value;
      && (s.loader == NoLoader ==> r.fabric.None? && r.forge.None? && r.neoForge.None? && r.quilt.None?)
      && (s.loader == Forge && SelectedLoaderVersion(s).Some? ==> r.forge == Some(GameLoader(SelectedLoaderVersion(s).value, "Forge")))
      && (s.loader == Fabric && SelectedLoaderVersion(s).Some? ==> r.fabric == Some(GameLoader(SelectedLoaderVersion(s).value, "Fabric")))
  {
  }

  /** With one loader chosen and no other loader's list loaded, the
      request as written and the intended one coincide. */
  lemma DownloadsAgreeWithOneSelection(s: Screen, manifest: Option<seq<string>>)
    requires OnlyActive(s) == s
    ensures Download(s, manifest) == DownloadIntended(s, manifest)
  {
  }
}

=== FILE: version_dialogs.dfy ===
/** The rename / copy / delete dialogs for an installed version, and the
    small state machine that moves between them. Whether a version name is
    taken (the version manager's `isVersionExists`) is a parameter; the
    version-manager calls are recorded as task descriptions. */
module VersionDialogs {
  import opened Wrappers
  import opened Text

  datatype Version = Version(name: string)

  const MSG_EMPTY: string := "版本名称不能为空"
  const MSG_ILLEGAL: string := "版本名称包含非法字符"
  const MSG_EXISTS: string := "版本已存在"
  const MSG_SAME: string := "新名称不能与原名称相同"

  /** The characters a version name may not contain: < > : " / \ | ? * */
  predicate IsIllegalChar(c: char) {
    c == '<' || c == '>' || c == ':' || c == '"' || c == '/' || c == '\\' || c == '|' || c == '?' || c == '*'
  }

  predicate HasIllegalChar(name: string) {
    exists i :: 0 <= i < |name| && IsIllegalChar(name[i])
  }

  /** `validateVersionName`: the first failing check's message, or none
      when the name is usable. Checked in order: empty, an illegal
      character, already taken, equal to the original. */
  function ValidateVersionName(name: string, original: Option<string>, taken: string -> bool): (err: Option<string>)
    ensures err.None? <==> name != "" && !HasIllegalChar(name) && !taken(name) && original != Some(name)
    ensures name == "" ==> err == Some(MSG_EMPTY)
    ensures name != "" && HasIllegalChar(name) ==> err == Some(MSG_ILLEGAL)
    ensures name != "" && !HasIllegalChar(name) && taken(name) ==> err == Some(MSG_EXISTS)
    ensures name != "" && !HasIllegalChar(name) && !taken(name) && original == Some(name) ==> err == Some(MSG_SAME)
  {
    if name == "" then Some(MSG_EMPTY)
    else if HasIllegalChar(name) then Some(MSG_ILLEGAL)
    else if taken(name) then Some(MSG_EXISTS)
    else if original.Some? && name == original.value then Some(MSG_SAME)
    else None
  }

  /** The name field of the rename and copy dialogs is in error when it is
      empty or fails validation against the version's own name. */
  predicate IsError(name: string, v: Version, taken: string -> bool) {
    name == "" || ValidateVersionName(name, Some(v.name), taken).Some?
  }

  /** The emptiness test in front of validation is redundant: the field is
      in error exactly when validation fails. */
  lemma ErrorIsValidationFailure(name: string, v: Version, taken: string -> bool)
    ensures IsError(name, v, taken) <==> ValidateVersionName(name, Some(v.name), taken).Some?
  {
  }

  /** The text under the field: the empty-name message, else the
      validation message, else nothing. */
  function SupportingText(name: string, v: Version, taken: string -> bool): (text: Option<string>)
    ensures text.Some? <==> IsError(name, v, taken)
    ensures name == "" ==> text == Some(MSG_EMPTY)
    ensures name != "" ==> text == ValidateVersionName(name, Some(v.name), taken)
  {
    if name == "" then Some(MSG_EMPTY)
    else ValidateVersionName(name, Some(v.name), taken)
  }

  /** A version's own name is never accepted as its new name: either it is
      taken or it equals the original. */
  lemma OwnNameRejected(v: Version, taken: string -> bool)
    ensures IsError(v.name, v, taken)
  {
  }

  /** The copy dialog opens with an empty name, so it opens in error with
      its confirm button disabled. */
  lemma CopyOpensInError(v: Version, taken: string -> bool)
    ensures IsError("", v, taken) && SupportingText("", v, taken) == Some(MSG_EMPTY)
  {
  }

  // ---------------------------------------------------------------------------
  // The operation state machine
  // ---------------------------------------------------------------------------

  /** The version-manager call a running task makes. */
  datatype Task =
    | RenameVersion(version: Version, newName: string)
    | CopyVersion(source: Version, copyName: string, copyAll: bool)
    | DeleteVersion(target: Version)

  datatype OperationState =
    | Idle
    | Rename(version: Version)
    | Copy(version: Version)
    | Delete(version: Version, text: Option<string>)
    | InvalidDelete(version: Version)
    | RunTask(title: string, task: Task)

  /** What the user does in the open dialog: dismiss it, or press confirm
      with the field's text (and the copy-all box). */
  datatype Event = Dismiss | Confirm(name: string, copyAll: bool)

  /** `VersionsOperation`: dismissing any dialog closes it; confirming a
      rename or copy starts the task only when the name is not in error
      (otherwise nothing happens); confirming a delete starts it; the
      invalid-delete notice closes either way. A running task only
      closes. */
  function Next(s: OperationState, e: Event, taken: string -> bool): (r: OperationState)
    ensures s.Idle? ==> r == s
    ensures !s.Idle? && e.Dismiss? ==> r == Idle
    ensures (s.Rename? && e.Confirm?) ==>
      r == (if IsError(e.name, s.version, taken) then s else RunTask("重命名版本", RenameVersion(s.version, e.name)))
    ensures (s.Copy? && e.Confirm?) ==>
      r == (if IsError(e.name, s.version, taken) then s else RunTask("复制版本", CopyVersion(s.version, e.name, e.copyAll)))
    ensures (s.Delete? && e.Confirm?) ==> r == RunTask("删除版本", DeleteVersion(s.version))
    ensures s.InvalidDelete? ==> r == Idle
    ensures (s.RunTask? && e.Confirm?) ==> r == s
  {
    match s
    case Idle => Idle
    case Rename(v) =>
      if e.Dismiss? then Idle
      else if IsError(e.name, v, taken) then s
      else RunTask("重命名版本", RenameVersion(v, e.name))
    case Copy(v) =>
      if e.Dismiss? then Idle
      else if IsError(e.name, v, taken) then s
      else RunTask("复制版本", CopyVersion(v, e.name, e.copyAll))
    case Delete(v, _) =>
      if e.Dismiss? then Idle else RunTask("删除版本", DeleteVersion(v))
    case InvalidDelete(_) => Idle
    case RunTask(_, _) =>
      if e.Dismiss? then Idle else s
  }

  /** A rename or copy task only ever starts from its own dialog, on the
      version that dialog was opened for, with a name that passes
      validation against that version's name. */
  lemma TasksCarryValidNames(s: OperationState, e: Event, taken: string -> bool)
    requires !s.RunTask?
    ensures var r := Next(s, e, taken);
      && (r.RunTask? && r.task.RenameVersion? ==>
            s == Rename(r.task.version) && ValidateVersionName(r.task.newName, Some(r.task.version.name), taken).None?)
      && (r.RunTask? && r.task.CopyVersion? ==>
            s == Copy(r.task.source) && ValidateVersionName(r.task.copyName, Some(r.task.source.name), taken).None?)
      && (r.RunTask? && r.task.DeleteVersion? ==> s.Delete? && s.version == r.task.target)
  {
  }

  /** The message shown when a task fails: the exception's message, or a
      generic one when it has none. */
  function TaskErrorText(message: Option<string>): (text: string)
    ensures message.Some? ==> text == message.value
    ensures message.None? ==> text == "处理失败"
    ensures |text| == 0 <==> message == Some("")
    ensures text == "处理失败" <==> message.None? || message.value == "处理失败"
  {
    message.GetOr("处理失败")
  }

  const DELETE_WARNING_HEAD: string := "确定要删除版本 "
  const DELETE_WARNING_TAIL: string := " 吗？\n此操作将删除版本文件夹及其所有内容\n包括存档、模组、资源包等所有数据\n此操作不可撤销！"

  /** `DeleteVersionDialog`'s text: the given message, or a fixed warning
      of four lines whose first names the version. */
  function DeleteDialogText(v: Version, message: Option<string>): (text: string)
    ensures message.Some? ==> text == message.value
    ensures message.None? ==>
      && StartsWith(text, DELETE_WARNING_HEAD)
      && OccursAt(text, v.name, |DELETE_WARNING_HEAD|)
      && EndsWith(text, "此操作不可撤销！")
  {
    if message.Some? then message.value
    else
      var text := DELETE_WARNING_HEAD + v.name + DELETE_WARNING_TAIL;
      assert text[|DELETE_WARNING_HEAD|..|DELETE_WARNING_HEAD| + |v.name|] == v.name;
      assert text[..|DELETE_WARNING_HEAD|] == DELETE_WARNING_HEAD;
      assert text[|text| - |"此操作不可撤销！"|..] == DELETE_WARNING_TAIL[|DELETE_WARNING_TAIL| - |"此操作不可撤销！"|..];
      text
  }

  /** The notice for a version that cannot be deleted names it. */
  function InvalidDeleteText(v: Version): (text: string)
    ensures OccursAt(text, v.name, |"版本 "|)
  {
    var text := "版本 " + v.name + " 正在运行或状态异常，无法删除。";
    assert text[|"版本 "|..|"版本 "| + |v.name|] == v.name;
    text
  }
}

=== FILE: version_type.dfy ===
/** The installed-version classification of the app tree: the version type
    named in a manifest, and the type guessed from a Minecraft version
    string. */
module VersionTypes {
  import opened Wrappers
  import opened Text
  import Numerals

  datatype VersionType = Release | Snapshot | Beta | Alpha | Unknown

  /** The manifest spelling of each known type. */
  function Name(t: VersionType): string {
    match t
    case Release => "release"
    case Snapshot => "snapshot"
    case Beta => "beta"
    case Alpha => "alpha"
    case Unknown => ""
  }

  /** `VersionType.fromString`: the type whose name equals the lower-cased
      text; a missing or unrecognised text is UNKNOWN. */
  function FromString(t: Option<string>): (r: VersionType)
    ensures r != Unknown ==> t.Some? && Lower(t.value) == Name(r)
    ensures r == Unknown ==> t.None? || forall k: VersionType :: k != Unknown ==> Lower(t.value) != Name(k)
  {
    match t
    case None => Unknown
    case Some(s) =>
      var l := Lower(s);
      if l == "release" then Release
      else if l == "snapshot" then Snapshot
      else if l == "beta" then Beta
      else if l == "alpha" then Alpha
      else Unknown
  }

  lemma LowerIdempotent(s: string)
    ensures Lower(Lower(s)) == Lower(s)
  {
  }

  /** Each known type reads back from its name, in any letter case. */
  lemma FromStringOfName(t: VersionType, spelled: string)
    requires t != Unknown
    requires Lower(spelled) == Name(t)
    ensures FromString(Some(spelled)) == t
  {
  }

  /** The letter case of the text never matters. */
  lemma FromStringIgnoresCase(s: string)
    ensures FromString(Some(s)) == FromString(Some(Lower(s)))
  {
    LowerIdempotent(s);
  }

  /** What `getVersionType` reads of the version info. */
  datatype VersionInfo = VersionInfo(minecraftVersion: Option<string>)

  /** The text is a full match of `\d+\.\d+(\.\d+)?`: two or three
      non-empty runs of ASCII digits separated by dots. */
  predicate IsReleaseNumber(v: string) {
    var parts := Split(v, '.');
    && (|parts| == 2 || |parts| == 3)
    && forall k :: 0 <= k < |parts| ==> |parts[k]| > 0 && Numerals.AllDigits(parts[k])
  }

  /** `getVersionType`: checked in order, "w" anywhere makes a snapshot,
      then "pre" or "rc" a beta, then a plain dotted number a release;
      anything else, and a missing version, is UNKNOWN. */
  function GetVersionType(info: Option<VersionInfo>): (r: VersionType)
    ensures r != Alpha
    ensures (info.None? || info.value.minecraftVersion.None?) ==> r == Unknown
    ensures info.Some? && info.value.minecraftVersion.Some? ==>
      var v := info.value.minecraftVersion.value;
      && (r == Snapshot <==> Contains(v, "w"))
      && (r == Beta <==> !Contains(v, "w") && (Contains(v, "pre") || Contains(v, "rc")))
      && (r == Release <==> !Contains(v, "w") && !Contains(v, "pre") && !Contains(v, "rc") && IsReleaseNumber(v))
  {
    if info.None? || info.value.minecraftVersion.None? then Unknown
    else
      var v := info.value.minecraftVersion.value;
      if Contains(v, "w") then Snapshot
      else if Contains(v, "pre") then Beta
      else if Contains(v, "rc") then Beta
      else if IsReleaseNumber(v) then Release
      else Unknown
  }

  /** A text that lacks the first character of `sub` cannot contain `sub`. */
  lemma NotContainsFirst(s: string, sub: string)
    requires |sub| > 0 && sub[0] !in s
    ensures !Contains(s, sub)
  {
    forall i: nat ensures !OccursAt(s, sub, i) {
      if i + |sub| <= |s| {
        assert s[i..i + |sub|][0] == s[i];
      }
    }
  }

  /** Every "major.minor" version written with decimal numbers is a release. */
  lemma NumberedVersionIsRelease(major: nat, minor: nat)
    ensures GetVersionType(Some(VersionInfo(Some(Numerals.NatToString(major) + "." + Numerals.NatToString(minor))))) == Release
  {
    var a := Numerals.NatToString(major);
    var b := Numerals.NatToString(minor);
    DottedDigits(a, b);
    NotContainsFirst(a + "." + b, "w");
    NotContainsFirst(a + "." + b, "pre");
    NotContainsFirst(a + "." + b, "rc");
  }

  /** Two digit runs joined by a dot: only digits and the dot occur, and the
      text is a release number. */
  lemma DottedDigits(a: string, b: string)
    requires |a| > 0 && Numerals.AllDigits(a)
    requires |b| > 0 && Numerals.AllDigits(b)
    ensures 'w' !in a + "." + b && 'p' !in a + "." + b && 'r' !in a + "." + b
    ensures IsReleaseNumber(a + "." + b)
  {
    var v := a + "." + b;
    forall i | 0 <= i < |v| ensures Numerals.IsDigit(v[i]) || v[i] == '.' {
      if i < |a| { assert v[i] == a[i]; }
      else if i > |a| { assert v[i] == b[i - |a| - 1]; }
    }
    assert '.' !in a by {
      forall i | 0 <= i < |a| ensures a[i] != '.' { assert Numerals.IsDigit(a[i]); }
    }
    assert '.' !in b by {
      forall i | 0 <= i < |b| ensures b[i] != '.' { assert Numerals.IsDigit(b[i]); }
    }
    assert Join([a, b], '.') == v by {
      assert [a, b][1..] == [b];
    }
    SplitJoin([a, b], '.');
  }

  /** A weekly snapshot name is a snapshot even when it also says "pre". */
  lemma SnapshotBeforeBeta(v: string)
    requires Contains(v, "w") && Contains(v, "pre")
    ensures GetVersionType(Some(VersionInfo(Some(v)))) == Snapshot
  {
  }
}

=== FILE: wrappers.dfy ===
/** Failure-aware wrappers used throughout the launcher model: `Option` stands for
    a nullable reference, `Result` for a value or the exception that replaces it. */
module Wrappers {

  /** A nullable value. */
  datatype Option<+T> = None | Some(value: T) {

    /** The value, or `default` when absent (Kotlin's `?:`). */
    function GetOr(default: T): T {
      match this
      case Some(v) => v
      case None => default
    }
  }

  /** A computed value or the error that was raised instead. */
  datatype Result<+R, +E> = Success(value: R) | Failure(error: E) {

    predicate IsFailure() {
      Failure?
    }

    function PropagateFailure<U>(): Result<U, E>
      requires Failure?
    {
      Failure(error)
    }

    function Extract(): R
      requires Success?
    {
      value
    }
  }
}

=== FILE: zl_bridge.dfy ===
/** The app's stand-in bridge to the game: its input senders encode AWT
    inputs as `sendInputData(type, i1, i2, i3, i4)` calls (which only log),
    and its native entry points are stubs with fixed answers. */
module ZLBridge {
  import opened Wrappers
  import Text

  const EVENT_TYPE_CHAR: int := 1000
  const EVENT_TYPE_CURSOR_POS: int := 1003
  const EVENT_TYPE_KEY: int := 1005
  const EVENT_TYPE_MOUSE_BUTTON: int := 1006

  /** One `sendInputData` call. */
  datatype InputData = InputData(kind: int, i1: int, i2: int, i3: int, i4: int)

  /** The inputs the senders describe. */
  datatype AwtInput =
    | KeyInput(keyChar: Text.CodeUnit, keyCode: int, state: int)
    | CharInput(keyChar: Text.CodeUnit)
    | MouseButton(buttons: int, isDown: bool)
    | CursorPos(x: int, y: int)

  /** How each input is laid out in the five fields. */
  function Encode(e: AwtInput): InputData {
    match e
    case KeyInput(c, code, state) => InputData(EVENT_TYPE_KEY, c, code, state, 0)
    case CharInput(c) => InputData(EVENT_TYPE_CHAR, c, 0, 0, 0)
    case MouseButton(b, down) => InputData(EVENT_TYPE_MOUSE_BUTTON, b, if down then 1 else 0, 0, 0)
    case CursorPos(x, y) => InputData(EVENT_TYPE_CURSOR_POS, x, y, 0, 0)
  }

  predicate IsCodeUnit(n: int) {
    0 <= n < 0x1_0000
  }

  /** Reads an event back: the inverse of `Encode`, refusing any event
      `Encode` cannot produce. */
  function Decode(d: InputData): (r: Option<AwtInput>)
  {
    if d.kind == EVENT_TYPE_KEY && IsCodeUnit(d.i1) && d.i4 == 0 then
      Some(KeyInput(d.i1, d.i2, d.i3))
    else if d.kind == EVENT_TYPE_CHAR && IsCodeUnit(d.i1) && d.i2 == 0 && d.i3 == 0 && d.i4 == 0 then
      Some(CharInput(d.i1))
    else if d.kind == EVENT_TYPE_MOUSE_BUTTON && (d.i2 == 0 || d.i2 == 1) && d.i3 == 0 && d.i4 == 0 then
      Some(MouseButton(d.i1, d.i2 == 1))
    else if d.kind == EVENT_TYPE_CURSOR_POS && d.i3 == 0 && d.i4 == 0 then
      Some(CursorPos(d.i1, d.i2))
    else None
  }

  /** Every input survives encoding, and every event that reads back is
      exactly the encoding of what it reads as: the four event types never
      clash. */
  lemma EncodeDecode(e: AwtInput, d: InputData)
    ensures Decode(Encode(e)) == Some(e)
    ensures Decode(d).Some? ==> Encode(Decode(d).value) == d
  {
  }

  /** The event sequence of a run of inputs. */
  function EncodeAll(es: seq<AwtInput>): (r: seq<InputData>)
    ensures |r| == |es|
    ensures forall i :: 0 <= i < |es| ==> r[i] == Encode(es[i])
  {
    seq(|es|, i requires 0 <= i < |es| => Encode(es[i]))
  }

  /** `sendKey(keychar, keycode)`: a press and then a release. */
  function SendKey(keyChar: Text.CodeUnit, keyCode: int): (r: seq<InputData>)
    ensures |r| == 2
    ensures Decode(r[0]) == Some(KeyInput(keyChar, keyCode, 1))
    ensures Decode(r[1]) == Some(KeyInput(keyChar, keyCode, 0))
  {
    EncodeAll([KeyInput(keyChar, keyCode, 1), KeyInput(keyChar, keyCode, 0)])
  }

  /** `sendKey(keychar, keycode, state)`: one event with the given state. */
  function SendKeyState(keyChar: Text.CodeUnit, keyCode: int, state: int): (r: seq<InputData>)
    ensures |r| == 1 && Decode(r[0]) == Some(KeyInput(keyChar, keyCode, state))
  {
    EncodeAll([KeyInput(keyChar, keyCode, state)])
  }

  /** `sendChar`: one CHAR event. */
  function SendChar(keyChar: Text.CodeUnit): (r: seq<InputData>)
    ensures |r| == 1 && Decode(r[0]) == Some(CharInput(keyChar))
    ensures r[0].i1 == keyChar
  {
    EncodeAll([CharInput(keyChar)])
  }

  /** `sendMousePress(buttons, isDown)`: one MOUSE_BUTTON event. */
  function SendMousePress(buttons: int, isDown: bool): (r: seq<InputData>)
    ensures |r| == 1 && Decode(r[0]) == Some(MouseButton(buttons, isDown))
    ensures r[0].i2 == (if isDown then 1 else 0)
  {
    EncodeAll([MouseButton(buttons, isDown)])
  }

  /** `sendMousePress(buttons)`: a click, the press first. */
  function SendMouseClick(buttons: int): (r: seq<InputData>)
    ensures |r| == 2
    ensures Decode(r[0]) == Some(MouseButton(buttons, true))
    ensures Decode(r[1]) == Some(MouseButton(buttons, false))
  {
    SendMousePress(buttons, true) + SendMousePress(buttons, false)
  }

  /** `sendMousePos`: one CURSOR_POS event. */
  function SendMousePos(x: int, y: int): (r: seq<InputData>)
    ensures |r| == 1 && Decode(r[0]) == Some(CursorPos(x, y))
    ensures r[0].i1 == x && r[0].i2 == y
  {
    EncodeAll([CursorPos(x, y)])
  }

  /** The key state a run of KEY events leaves, per (character, code):
      the state of the last event for it, or 0 if none. */
  function LastKeyState(events: seq<InputData>, keyChar: Text.CodeUnit, keyCode: int): int
    decreases |events|
  {
    if |events| == 0 then 0
    else
      var last := events[|events| - 1];
      if Decode(last) == Some(KeyInput(keyChar, keyCode, last.i3)) then last.i3
      else LastKeyState(events[..|events| - 1], keyChar, keyCode)
  }

  /** After `sendKey(c, k)` the key is up, whatever came before. */
  lemma SendKeyLeavesKeyUp(before: seq<InputData>, keyChar: Text.CodeUnit, keyCode: int)
    ensures LastKeyState(before + SendKey(keyChar, keyCode), keyChar, keyCode) == 0
  {
    var r := SendKey(keyChar, keyCode);
    EncodeDecode(KeyInput(keyChar, keyCode, 0), r[1]);
    assert (before + r)[|before + r| - 1] == r[1];
  }

  /** `dlopen` reports success for any library path. */
  function Dlopen(libPath: string): (loaded: bool)
    ensures loaded
  {
    true
  }

  /** `chdir` reports success (0) for any path. */
  function Chdir(path: string): (status: int)
    ensures status == 0
  {
    0
  }
}
